=== FILE: README.md ===
# CODAL runtime and build scripts, modelled in Dafny

This project models the core of the micro:bit v2 samples repository: the
Python scripts that build the samples and lock library snapshots, and the
sequential, integer-only parts of the CODAL device runtime that the samples
run on. Each core source file becomes one Dafny module in a file of its own.
The module is imperative where the source updates state in place (classes
with fields, `modifies` frames and loops with invariants) and functional
where the source only computes. Every method is proved against a
specification function, and the properties the code promises are proved
about those functions as lemmas.

What is modelled:

- **Snapshot versions and locking** (`snapshot_version.dfy`,
  `codal_utils.dfy`, `build_script.dfy`, `workspace.dfy`).
  - The log search for `Snapshot vX.Y.Z[-branch.N]` is modelled with the
    unescaped `.` matching any character but a newline and with
    backtracking in the optional group. `\w` and `\d` are the ASCII
    classes, which Python 3 widens to Unicode (see "Left out").
  - The bump rules are modelled, and the round trip from the committed
    message back to the version is proved.
  - The lock gate checks that every library is clean and not ahead before
    any write. Then each library is pinned to its HEAD and the git commands
    follow in order.
  - Target selection from the catalog writes `codal.json`.
  - Git is a map from library name to what git prints in that clone. A
    command is a recorded string whose exit status is an input.
- **Event bus** (`event_model.dfy`, `device_listener.dfy`,
  `message_bus.dfy`).
  - Listeners are kept ordered by (id, value), and adding one twice is
    refused.
  - Removal marks listeners and a later sweep deletes them.
  - The bounded event queue and the bounded per-listener queue are modelled.
  - Matching treats the ANY id and the ANY value as wildcards.
- **Fiber scheduler bookkeeping** (`device_fiber.dfy`).
  - The run, sleep and wait queues are sequences of fiber objects held by
    the scheduler, and each fiber records the queue it is on.
  - Waking rules for sleep and events, the round-robin choice, and stack-size
    rounding are modelled.
- **Heap allocator** (`heap_allocator.dfy`).
  - Header words live in a word array, and allocation is first fit with
    coalescing and splitting.
  - `free` detects a double free.
- **Timers** (`timer.dfy`, `system_clock.dfy`, `device_timer.dfy`,
  `mbed_timer.dfy`).
  - Events are inserted in order and replace duplicates. The timer objects
    use the corrected insertions of the "## Findings" table.
  - One-shot and repeating events fire and are rescheduled.
  - Milliseconds and microseconds are converted.
- **Inputs**:
  - `abstract_button.dfy`, `multi_button.dfy`, `touch_button.dfy`,
    `cap_touch_button.dfy`, `touch_sensor.dfy`: buttons, chords and touch
    calibration;
  - `level_detector.dfy`: the windowed level with hysteresis;
  - `lis3dh.dfy`: the accelerometer's rate and range tables, axis mapping
    and gesture filter;
  - `mbed_pin.dfy`: pin modes and servo arithmetic.
- **Streams and tables**: `managed_buffer.dfy`, `data_stream.dfy`,
  `tape_deck.dfy`, `fifo_stream.dfy`, `device_component.dfy`,
  `samd21_dmac.dfy` (DMA channels) and `codal_usb.dfy` (USB endpoint
  numbering and descriptors).
- **Arithmetic and formatting**:
  - `codal_device.dfy`: the LFSR random number;
  - `codal_dmesg.dfy`: the debug log and its hex formatter;
  - `codal_compat.dfy`;
  - `synthesizer.dfy`: sample generation;
  - `oob_v3.dfy`: the melody parser;
  - `morse_code.dfy`;
  - `noise_profiler.dfy`;
  - `deep_sleep_test.dfy`: the time of day;
  - `accelerometer_test.dfy`.

Shared helpers:

- `wrappers.dfy`: Option and Result.
- `c_types.dfy`: C integer widths, wrap-around and C's truncating division.
- `text.dfy`: decimal rendering.
- `arith.dfy`: arithmetic lemmas.
- `error_no.dfy`: CODAL's status codes.

C integer widths are written out where they matter: 8-, 16- and 32-bit
wrap-around, and the truncating `/` and `%`. Signed overflow, which C
leaves undefined, is not given a value: the servo arithmetic of
`MbedPin.cpp` is exact, and `MbedPin.ServoFitsInt32` says when it agrees
with the source. Hardware registers, I2C and
USB transfers, git and subprocess output, and clocks are parameters of the
operations that read them.

Where the code and its comments disagree, the model follows the code:

- `queue_fiber` appends at the tail.
- `isFull` of the tape deck and of the FIFO is true while there is room.
- `setAnalogValue` checks the digital capability.
- `allocateChannel` numbers channels from 0.
- "%%" consumes an argument.

Where the code is evidently wrong, the "## Findings" table pairs a member
that models it as written with the corrected member the rest of the model
uses.

## Model

| member | source | states |
|---|---|---|
| SnapshotVersion.DigitEnd | utils/python/codal_utils.py:128 | a greedy `\d+` from i stops exactly at the first non-digit or at the end of the log |
| SnapshotVersion.DigitEndOf | utils/python/codal_utils.py:128 | a run of digits followed by a non-digit or the end is exactly what `\d+` takes |
| SnapshotVersion.GroupsAt | utils/python/codal_utils.py:128 | a match of `(\d+)\.(\d+)\.(\d+)` has three non-empty digit groups separated by dots, the last one greedy |
| SnapshotVersion.GroupsAtShape | utils/python/codal_utils.py:128 | the three groups match at i exactly when the text there has that shape (both directions) |
| SnapshotVersion.TripleAt | utils/python/codal_utils.py:128 | a match starting at p begins with the literal `Snapshot v` and ends inside the log |
| SnapshotVersion.Search | utils/python/codal_utils.py:128 | `re.search` returns the leftmost position with a match: no position before it matches, and None only when no position matches |
| SnapshotVersion.SearchFinds | utils/python/codal_utils.py:128 | the search stops at the first position that matches |
| SnapshotVersion.FindSnapshot | utils/python/codal_utils.py:127-131 | a snapshot is found exactly when some position of the log matches; the match ends inside the log |
| SnapshotVersion.FoundFirst | utils/python/codal_utils.py:128 | the match found is the one at the first matching position |
| SnapshotVersion.Render | utils/python/codal_utils.py:154 | `v%d.%d.%d` starts with `v` and has at least six characters |
| SnapshotVersion.NatAt | utils/python/codal_utils.py:132-134 | `int()` of a number printed with `%d` gives the number back |
| SnapshotVersion.MessageText | utils/python/codal_utils.py:177 | the committed message is the literal followed by the three numbers with dots between them |
| SnapshotVersion.MessageAt | utils/python/codal_utils.py:177 | the message written at p, followed by a non-digit, is matched at p and reads back its triple |
| SnapshotVersion.RenderedAt | utils/python/codal_utils.py:177 | `Snapshot ` plus the rendered version, not followed by a digit, matches at p with that triple |
| SnapshotVersion.RenderParses | utils/python/codal_utils.py:177 | round trip: the message a lock commits is found again by the regex and reads back the rendered triple, when nothing earlier matches |
| SnapshotVersion.Bump | build.py:108-116 | major gives (X+1, 0, 0), else minor gives (X, Y+1, 0), else patch gives (X, Y, Z+1) |
| SnapshotVersion.BumpIncreases | build.py:108-116 | every bump gives a release later in lexicographic order |
| CodalUtils.RunEnd | utils/python/codal_utils.py:128 | a greedy character-class run from i covers only characters of the class and stops at the first one outside it |
| CodalUtils.RunEndOf | utils/python/codal_utils.py:128 | a run of class characters followed by a non-member is exactly what the greedy run takes |
| CodalUtils.LongestSplit | utils/python/codal_utils.py:128 | backtracking of the greedy name group picks the longest length after which the separator and a digit follow; None exactly when no length works |
| CodalUtils.LongestSplitOf | utils/python/codal_utils.py:128 | the longest length that lets the rest match is the one backtracking picks |
| CodalUtils.SuffixAt | utils/python/codal_utils.py:128 | the optional group matches only at a `-`, with a non-empty name of class characters, a separator, and the greedy counter after it |
| CodalUtils.SuffixOf | utils/python/codal_utils.py:128 | a suffix whose name ends at the last split point of the name run is read back |
| CodalUtils.SuffixAtSplit | utils/python/codal_utils.py:128 | the group reads the name up to the split backtracking found and the counter after it |
| CodalUtils.SuffixPieces | utils/python/codal_utils.py:144 | the text `-%s.%d` has the dash, the name, the dot and the counter at their places |
| CodalUtils.SuffixFields | utils/python/codal_utils.py:144 | the groups of a written suffix, followed by a non-digit, read the name and the counter that were written |
| CodalUtils.SuffixReadBack | utils/python/codal_utils.py:144 | round trip: `(-(\S+)\.(\d+))?` reads back a suffix whose name has no whitespace when whitespace or the end follows |
| CodalUtils.SuffixReadBackAsWritten | utils/python/codal_utils.py:128 | round trip: the group as written reads back a suffix whose name is made of `[\w\-]` |
| CodalUtils.ParseWith | utils/python/codal_utils.py:128-134 | a snapshot is parsed exactly when the regex finds one, with the triple of the first match |
| CodalUtils.ParseAsWritten | utils/python/codal_utils.py:128-131 | the regex as written finds a snapshot exactly when the triple part matches somewhere |
| CodalUtils.Parse | utils/python/codal_utils.py:128-131 | the corrected regex finds a snapshot exactly when the triple part matches somewhere |
| CodalUtils.ParsedPlain | utils/python/codal_utils.py:128 | a first match followed by whitespace or the end is read with no suffix, by both regexes |
| CodalUtils.ParsedSuffix | utils/python/codal_utils.py:128 | a first match followed by a suffix text and a delimiter is read with that suffix |
| CodalUtils.ParsedSuffixAsWritten | utils/python/codal_utils.py:128 | the same for the regex as written, for names made of `[\w\-]` |
| CodalUtils.SuffixText | utils/python/codal_utils.py:144 | `-%s.%d` starts with `-` and has at least three characters |
| CodalUtils.VersionText | utils/python/codal_utils.py:154 | the version string starts with `v` and has at least six characters |
| CodalUtils.PreviousCounter | utils/python/codal_utils.py:135-143 | `vB` is the found counter exactly when the found suffix names the current branch, and -1 otherwise |
| CodalUtils.Successor | utils/python/codal_utils.py:140-154 | a branch lock keeps the triple and advances the current branch's counter (or starts it at 0); otherwise exactly one bump applies and the suffix is dropped; the result always differs |
| CodalUtils.NextFrom | utils/python/codal_utils.py:124-154 | `-v` wins; no snapshot exits; a feature branch without `-b` exits; otherwise the version string of the successor |
| CodalUtils.NextVersionAsWritten | utils/python/codal_utils.py:124-154 | with the regex as written, the next version cannot be determined exactly when there is no `-v` and no snapshot in the log |
| CodalUtils.NextVersion | utils/python/codal_utils.py:124-154 | the same with the corrected regex |
| CodalUtils.Message | utils/python/codal_utils.py:177 | the committed message is `Snapshot ` followed by the version string |
| CodalUtils.MessageSplit | utils/python/codal_utils.py:177 | a committed message with a suffix has the triple followed by a `-`, then the suffix text, then the delimiter |
| CodalUtils.CommittedSuffix | utils/python/codal_utils.py:177 | with no earlier match, the first match of a committed message with a suffix is its own triple |
| CodalUtils.CommittedPlain | utils/python/codal_utils.py:177 | round trip: a committed message without a suffix is read back as it was, by both regexes |
| CodalUtils.CommittedSuffixParses | utils/python/codal_utils.py:177 | round trip: a committed message with a whitespace-free branch name is read back by the corrected regex |
| CodalUtils.CommittedSuffixParsesAsWritten | utils/python/codal_utils.py:177 | round trip for the regex as written, for branch names made of `[\w\-]` |
| CodalUtils.CommittedParses | utils/python/codal_utils.py:177 | round trip: whatever a lock committed is what the next `get_next_version` parses |
| CodalUtils.CommittedParsesAsWritten | utils/python/codal_utils.py:177 | the same round trip for the regex as written, for branch names made of `[\w\-]` |
| CodalUtils.VersionTextInjective | utils/python/codal_utils.py:179 | distinct snapshots have distinct version strings, so distinct tags |
| CodalUtils.NextAfterCommit | utils/python/codal_utils.py:170-179 | after a lock commits f, the next lock proposes f's successor, whose tag differs from f's |
| CodalUtils.SlashSuffixUnread | utils/python/codal_utils.py:128 | the group as written does not match the suffix `-feature/x.0` |
| CodalUtils.SlashMessageUnread | utils/python/codal_utils.py:128 | in the committed message of `-feature/x.0` the group as written reads nothing |
| CodalUtils.UnreadMessageAsWritten | utils/python/codal_utils.py:128-143 | a committed message whose suffix the group as written cannot read is parsed with no suffix |
| CodalUtils.MessageFind | utils/python/codal_utils.py:128 | the first match in a committed message with a suffix is its own triple |
| CodalUtils.SlashMessageAsWritten | utils/python/codal_utils.py:128 | the message `Snapshot vX.Y.Z-feature/x.0` is parsed, as written, as `vX.Y.Z` with no suffix |
| CodalUtils.SlashBranchRepeatsAsWritten | utils/python/codal_utils.py:141-144 | as written, a second branch lock on `feature/x` proposes the same version, and tag, as the first |
| CodalUtils.SlashBranchAdvances | utils/python/codal_utils.py:141-144 | with the corrected regex the same lock proposes counter 1 |
| Workspace.GateStop | utils/python/codal_utils.py:159-168 | the lock's loop stops at the first library that is dirty or ahead; every library before it passes |
| Workspace.Pinned | utils/python/codal_utils.py:166-167 | the libraries the loop has passed are pinned to their clone's HEAD; the others and all names are unchanged |
| Workspace.InDir | utils/python/codal_utils.py:14-16 | every command line runs in the given directory, in order |
| Workspace.FirstFailure | utils/python/codal_utils.py:14-16 | the first failing command from `from` on; every command before it succeeds |
| Workspace.UntilFailure | utils/python/codal_utils.py:14-16 | `system` exits on the first non-zero status: the commands run are a prefix, all but the last succeed, the run ends in a failure exactly when some command fails, and otherwise all run |
| Workspace.FirstFailureIs | utils/python/codal_utils.py:14-16 | any index with only successes before it and a failure (or the end) at it is where the run stops |
| Workspace.UntilFailureAppend | utils/python/codal_utils.py:14-16 | in a run of a then b, b runs only when all of a succeeds |
| Workspace.UntilFailurePrefix | utils/python/codal_utils.py:14-16 | a failure among the first n commands ends the run there |
| Workspace.PublishLines | utils/python/codal_utils.py:177-182 | after the write: commit with the `Snapshot` message, tag, pull, push, push the tags, in that order |
| Workspace.LockGate | utils/python/codal_utils.py:159-173 | a lock issues a command exactly when a version was computed and every library is clean and not ahead; the file is written only after a successful checkout and a clean status |
| Workspace.LockPins | utils/python/codal_utils.py:166-167 | a lock past the gate pins every library, in the declared order, to its HEAD |
| Workspace.LockOrder | utils/python/codal_utils.py:172-182 | the commands issued are a prefix of checkout, commit, tag, pull, push, push of the tags, each after the ones before succeeded; the lock succeeds exactly when all ran and succeeded |
| Workspace.LockWrites | utils/python/codal_utils.py:174-177 | the locked file holds the pinned libraries and the version, and the commit is issued only after that write |
| Workspace.LibraryUpdates | utils/python/codal_utils.py:65-72 | two commands per library |
| Workspace.LibraryUpdatesAt | utils/python/codal_utils.py:65-72 | in each library's directory, in the declared order: the checkout of its branch (the default branch when syncing), then a pull |
| Workspace.LibraryUpdatesNext | utils/python/codal_utils.py:65-72 | the commands of one more library follow those of the libraries before it |
| Workspace.UpdatesPrefix | utils/python/codal_utils.py:65-72 | the commands of the first n libraries come first |
| Workspace.UpdateStopsAt | utils/python/codal_utils.py:65-72 | a failure in a library's commands ends the update there; nothing after it runs |
| Workspace.UpdateStopped | utils/python/codal_utils.py:65-72 | the commands issued after a failure in the i-th library are those of the update up to that failure |
| Workspace.UpdateContinues | utils/python/codal_utils.py:65-72 | when the i-th library's commands succeed, the commands of the first i + 1 libraries have run |
| Workspace.UpdateReachesTarget | utils/python/codal_utils.py:73-77 | when every library's commands succeed, the target's commands run after them |
| Workspace.UpdateAllowingDetached | utils/python/codal_utils.py:80-86 | the update `revision` runs pulls the target last and checks out nothing there, after each library's branch |
| Workspace.Workspace.constructor | utils/python/codal_utils.py:56-60 | a run starts from the configuration read, with nothing issued and nothing written |
| Workspace.Workspace.System | utils/python/codal_utils.py:14-16 | `system` records the command; a non-zero status ends the run |
| Workspace.Workspace.Run | utils/python/codal_utils.py:14-16 | commands one after another issue exactly the run up to the first failure; the run goes on exactly when all succeed |
| Workspace.Workspace.Gate | utils/python/codal_utils.py:159-168 | the loop pins the libraries before the first failing check and exits there, or passes all |
| Workspace.Workspace.Publish | utils/python/codal_utils.py:172-182 | the end of a lock in the target's clone, as `PublishRun` describes it |
| Workspace.Workspace.LockCodal | utils/python/codal_utils.py:156-184 | corrected: `lock` issues, writes and exits as `LockRun` with the version of the corrected `get_next_version`, whose suffix group also reads a branch name with '/' |
| Workspace.Workspace.LockBuild | build.py:119-147 | `lock` of the build script, as `LockRun` with the version of its `get_next_version` |
| Workspace.Workspace.UpdateLibraries | utils/python/codal_utils.py:65-72 | the loop issues every library's commands when all succeed, or exactly the run up to the first failure |
| Workspace.Workspace.Update | utils/python/codal_utils.py:62-78 | `update` issues its commands up to the first failure and exits exactly when one fails |
| Workspace.Workspace.UpdateBuild | build.py:73-82 | the build script's `update`: each library's branch and a pull, then a pull of the target, up to the first failure |
| Workspace.Workspace.Revision | utils/python/codal_utils.py:80-86 | a failed checkout of `rev` ends the run; otherwise the update from the revised target, with a detached HEAD allowed |
| BuildScript.NextVersion | build.py:99-117 | no snapshot in the log is an exit with status 1; otherwise a `v`-prefixed version |
| BuildScript.NextVersionParses | build.py:133-140 | round trip: the committed message is read back as the bumped triple, which is later than the one in the log |
| BuildScript.ScanFrom | build.py:207-209 | the loop stops at the first entry with the name, or with no name at all, or runs off the end |
| BuildScript.Prepared | build.py:211-216 | the entry written to `codal.json` loses `device_url` and `info`, gains `dev` under `-d`, and keeps every other key |
| BuildScript.Choose | build.py:206-233 | corrected: not found exactly when no entry stops the scan; a chosen entry is the first with the name and has `info`; a missing `device_url` is no KeyError |
| BuildScript.ChooseAsWritten | build.py:206-212 | as written: the same choice, except that a chosen entry without `device_url` raises a KeyError |
| BuildScript.DeviceUrlOptional | build.py:199-212 | a catalog whose only entry has no `device_url` is listed, but choosing it fails as written |
| BuildScript.ListableChooses | build.py:197-233 | a catalog that lists without a KeyError never makes choosing a target fail with one |
| BuildScript.BuildDir.constructor | build.py:189 | the catalog as loaded and the current `codal.json` |
| BuildScript.BuildDir.Find | build.py:207-209 | the loop's scan, as `ScanFrom` |
| BuildScript.BuildDir.List | build.py:197-202 | `ls` exits with 0 exactly when every entry has a name and `info`; otherwise the KeyError ends it with 1 |
| BuildScript.BuildDir.Select | build.py:206-233 | corrected: the choice of `Choose`, with the chosen entry rewritten in place and written to `codal.json`; nothing changes otherwise |
| BuildScript.BuildDir.SelectAsWritten | build.py:206-229 | the same with `device_url` required, as written |
| BuildScript.BuildDir.Configure | build.py:192-245 | `ls` exits with 0 when every entry has a name and `info`, else with 1 (the KeyError); more than one argument or an unknown name exits with 1; a name is chosen as the corrected `Choose` does, and then the catalog entry is rewritten and `codal.json` holds it as the target; without `-t` a missing `codal.json` exits with 1; otherwise the build runs |
| AbstractButton.Button.constructor | source/drivers/AbstractButton.cpp:38-41 | a new button has counted no clicks |
| AbstractButton.Button.IsPressed | source/drivers/AbstractButton.cpp:53-56 | the base class never reports a press |
| AbstractButton.Button.Click | source/drivers/MultiButton.cpp:248 | `clickCount++` on the 16-bit field: one more click, and 65535 wraps to 0 |
| CTypes.ToU16 | inc/drivers/AbstractButton.h:77 | a value stored in a `uint16_t` field is kept modulo 2^16, and unchanged when it fits |
| CTypes.CDiv | source/drivers/CapTouchButton.cpp:167 | C's `/` truncates toward zero: the Euclidean quotient for non-negative operands, the negated quotient of the magnitudes for a negative dividend |
| AbstractButton.Button.WasPressed | source/drivers/AbstractButton.cpp:68-74 | returns the clicks counted so far and starts the count again from zero |
| AbstractButton.WasPressedTwice | source/drivers/AbstractButton.cpp:68-74 | a second `wasPressed` straight after the first reports no clicks |
| CodalCompat.Min | inc/core/CodalCompat.h:51-54 | the result is one of the arguments and no larger than either |
| CodalCompat.Max | inc/core/CodalCompat.h:65-68 | the result is one of the arguments and no smaller than either |
| CodalCompat.IsDigit | inc/core/CodalCompat.h:89-92 | character codes 48 to 57 are exactly the characters `0` to `9` |
| CodalCompat.High | inc/core/CodalCompat.h:101-104 | the upper byte: the value lies between it times 256 and the next multiple |
| CodalCompat.Low | inc/core/CodalCompat.h:113-116 | round trip: upper byte times 256 plus lower byte gives the value back |
| Text.NatDigits | inc/core/CodalCompat.h:127-136 | at least one decimal digit, and no leading zero |
| Text.Decimal | inc/core/CodalCompat.h:127-136 | `itoa`: the digits of the magnitude, after a `-` for a negative number |
| Text.NatDigitsRoundTrip | inc/core/CodalCompat.h:127-136 | round trip: reading the rendered digits back gives the number |
| Text.NatDigitsLength | inc/core/CodalCompat.h:127-136 | a number below 10^k is rendered in at most k digits |
| CodalDevice.SeedRandom | inc/core/CodalDevice.h:153-156 | the default seed is non-zero, so the generator does not stick at 0 |
| CodalDevice.GetSerialNumber | inc/core/CodalDevice.h:76-79 | no hardware identifier: 0 |
| CodalDevice.Step | source/core/CodalDevice.cpp:71-78 | one LFSR step shifts the state down one bit and is undone by `Unstep`, so no two states step to the same one |
| CodalDevice.StepOfUnstep | source/core/CodalDevice.cpp:71-78 | every state has a predecessor: the step is a permutation of the 2^32 states |
| CodalDevice.ZeroOnlyFromZero | source/core/CodalDevice.cpp:71-78 | after any number of steps the state is 0 exactly when the seed was 0 |
| CodalDevice.Bit | source/core/CodalDevice.cpp:80 | the bit a step contributes is bit 0 of the new state |
| CodalDevice.Draws | source/core/CodalDevice.cpp:62-81 | k steps give a k-bit number and the state after k steps |
| CodalDevice.DrawsNext | source/core/CodalDevice.cpp:80 | one more step shifts the result left and appends the new bit |
| CodalDevice.Digits | source/core/CodalDevice.cpp:81 | the number of binary digits: m is below 2^k and, when positive, at least 2^(k-1) |
| CodalDevice.DigitsHalf | source/core/CodalDevice.cpp:81 | halving a positive number drops one binary digit |
| CodalDevice.Steps | source/core/CodalDevice.cpp:62-81 | the inner do-while runs as often as m has bits, and at least once; its result fits |
| CodalDevice.Attempt | source/core/CodalDevice.cpp:60-81 | one attempt gives a number below 2^Steps(m) and the state after that many steps |
| CodalDevice.Rejection | source/core/CodalDevice.cpp:58-82 | a number returned is in 0..m; when every attempt is rejected the state has advanced by all their steps |
| CodalDevice.IterateAdd | source/core/CodalDevice.cpp:71-78 | j steps then k steps are j + k steps |
| CodalDevice.IterateRounds | source/core/CodalDevice.cpp:58-82 | one round of attempts followed by the rest is all the rounds |
| CodalDevice.PowerOfTwoFirstAttempt | source/core/CodalDevice.cpp:58-82 | when max is a power of two the first attempt is always accepted |
| CodalDevice.DigitsOfMask | source/core/CodalDevice.cpp:81 | 2^k - 1 has k binary digits |
| CodalDevice.RangeOfOne | source/core/CodalDevice.cpp:52-82 | `random(1)` returns only 0; an attempt is one step, accepted exactly when its bit is 0 |
| CodalDevice.Device.constructor | inc/core/CodalDevice.h:42 | the model starts from a given `random_value` |
| CodalDevice.Device.AttemptOnce | source/core/CodalDevice.cpp:60-81 | the inner loop leaves the result and the new LFSR state of one `Attempt` |
| CodalDevice.Device.Random | source/core/CodalDevice.cpp:48-85 | a non-positive max returns DEVICE_INVALID_PARAMETER and leaves the state; otherwise the rejection loop, and a number returned is in 0..max-1 |
| AccelerometerTest.GToPix | source/samples/AccelerometerTest.cpp:37-46 | the column is 0..4, and each column is exactly one band of acceleration bounded by ±200 and ±500 milli-g |
| AccelerometerTest.GToPixMonotone | source/samples/AccelerometerTest.cpp:37-46 | a larger acceleration never gives a column further left |
| AccelerometerTest.GToPixSymmetric | source/samples/AccelerometerTest.cpp:37-46 | negating the acceleration mirrors the column around the centre |
| DeepSleepTest.Decompose | source/samples/DeepSleepTest.cpp:284-294 | microseconds below a second; when the seconds fit an int, minutes and seconds below 60 and the parts add back up to the time |
| DeepSleepTest.Padded | source/samples/DeepSleepTest.cpp:296-298 | `("00" + x).substring(len - 2, 2)` keeps exactly as many characters as the zeros prefixed |
| DeepSleepTest.Message | source/samples/DeepSleepTest.cpp:299 | the message has at least the fixed fields and the suffix |
| DeepSleepTest.PaddedDigits | source/samples/DeepSleepTest.cpp:296-298 | a value below 10^n comes out as exactly n digits that denote it |
| DeepSleepTest.MessageLayout | source/samples/DeepSleepTest.cpp:282-301 | the message is the hours, then two-digit minutes and seconds and six-digit microseconds denoting the parts of the time, then a space and the suffix |
| DeviceComponent.Calls | source/core/DeviceComponent.cpp:19-39 | a pass calls only flagged, non-null components of the table, with the callback of its kind |
| DeviceComponent.CallsComplete | source/core/DeviceComponent.cpp:19-39 | every flagged component in the table is called |
| DeviceComponent.FirstNull | source/core/DeviceComponent.cpp:50-59 | the lowest free slot, or -1 exactly when no slot is free |
| DeviceComponent.FirstNullSkip | source/core/DeviceComponent.cpp:50-59 | a free slot with none free before it is the one found |
| DeviceComponent.FirstNullNone | source/core/DeviceComponent.cpp:50-59 | a full table has no free slot |
| DeviceComponent.Registry.constructor | source/core/DeviceComponent.cpp:45-47 | the table starts with every slot empty and the listeners not configured |
| DeviceComponent.Registry.AddComponent | source/core/DeviceComponent.cpp:45-73 | the component takes the lowest free slot, or is left out when none is free; the listeners are registered exactly once, the first time a bus exists and the tick timer starts |
| DeviceComponent.Registry.RemoveComponent | source/core/DeviceComponent.cpp:78-92 | only the first slot holding the component is cleared; the table is unchanged when it is absent |
| DeviceComponent.Registry.ComponentCallback | source/core/DeviceComponent.cpp:15-40 | a system tick gives the periodic pass and the idle event the idle pass, never both for one event |
| DeviceListener.Enqueued | source/core/DeviceListener.cpp:103-124 | the event goes at the tail while fewer than the maximum depth are held, and is dropped otherwise |
| DeviceListener.EnqueuedBounded | source/core/DeviceListener.cpp:103-124 | the queue stays within the maximum depth, keeps what it held in order, and an empty queue always takes the event |
| DeviceListener.Listener.Plain | source/core/DeviceListener.cpp:50-59 | a listener calling a function, with the flags as given and no queued events |
| DeviceListener.Listener.Parameterised | source/core/DeviceListener.cpp:78-87 | a listener calling a function with an argument; PARAMETERISED is added to the flags |
| DeviceListener.Listener.MemberOf | inc/core/DeviceListener.h:159-168 | a listener calling a member function; METHOD is added to the flags |
| DeviceListener.Listener.Queue | source/core/DeviceListener.cpp:103-124 | `queue` leaves the queue as `Enqueued` describes |
| MorseCode.FrameLengthInRange | source/samples/MorseCode.cpp:9-20 | the frame length satisfies both static asserts, and the dash and gap times are the stated multiples of a dot |
| MorseCode.LetterTable | source/samples/MorseCode.cpp:28-58 | the table has 26 codes, each a non-empty run of dits and dahs closed by `term` |
| MorseCode.NumberTable | source/samples/MorseCode.cpp:60-72 | the ten digit names are made of capital letters, so every letter indexes the letter table |
| MorseCode.LetterCode | source/samples/MorseCode.cpp:57 | the code of a capital letter is well formed |
| MorseCode.ToUpper | source/samples/MorseCode.cpp:173 | `toupper` of a letter is a capital letter |
| MorseCode.WordTraceNext | source/samples/MorseCode.cpp:145-148 | one more letter of a digit's name adds that letter's blinks |
| MorseCode.DurationAppend | source/samples/MorseCode.cpp:123-137 | the time slept by two runs of actions is the sum of their times |
| MorseCode.SignalDuration | source/samples/MorseCode.cpp:122-131 | one symbol sleeps its on time plus the gap |
| MorseCode.SymbolsDuration | source/samples/MorseCode.cpp:117-135 | each dit takes two dots and each dah four (on time plus inner gap) |
| MorseCode.LetterDuration | source/samples/MorseCode.cpp:114-138 | a letter takes 2 dots per dit, 4 per dah and 3 for the letter gap |
| MorseCode.CaseInsensitive | source/samples/MorseCode.cpp:171-175 | a lower-case letter is sent exactly as its capital |
| MorseCode.SymbolsTraceStep | source/samples/MorseCode.cpp:117-135 | before `term`, the first symbol's blink comes first, then the rest |
| MorseCode.BlinkLetter | source/samples/MorseCode.cpp:114-138 | the loop walks the code up to `term`: on, the symbol's time, off, the inner gap, then the letter gap |
| MorseCode.BlinkDigit | source/samples/MorseCode.cpp:141-150 | the letters of the digit's name, then the word gap |
| MorseCode.SendMessage | source/samples/MorseCode.cpp:165-180 | one pass over the message and its terminating NUL: digits spelled, letters upper-cased and blinked, anything else skipped |
| TapeDeck.Deck.constructor | source/samples/TapeDeck.cpp:23-30 | a new deck holds no buffers and no bytes |
| TapeDeck.Deck.CanPull | source/samples/TapeDeck.cpp:37-40 | true exactly when some recorded buffer has bytes |
| TapeDeck.Deck.IsFull | source/samples/TapeDeck.cpp:64-67 | despite the name, true exactly when there is room for another buffer |
| TapeDeck.Deck.Pull | source/samples/TapeDeck.cpp:42-57 | with bytes recorded, the first buffer is returned and removed and the length drops by its size; otherwise the first slot is returned and nothing changes |
| TapeDeck.Deck.PullRequest | source/samples/TapeDeck.cpp:79-90 | with every slot taken, DEVICE_NO_RESOURCES and nothing pulled; otherwise the pulled buffer is appended and its bytes counted |
| TapeDeck.Deck.Connect | source/samples/TapeDeck.cpp:92-95 | a sink is connected |
| TapeDeck.Deck.Disconnect | source/samples/TapeDeck.cpp:97-100 | no sink is connected |
| OobV3.Distance | source/samples/OOB_v3.cpp:125-134 | the switch takes exactly the letters A to G, each with its distance from A |
| OobV3.LeadingValue | source/samples/OOB_v3.cpp:157 | `atoi` reads the leading digits, so the value is at least what was read before them |
| OobV3.Defaults | source/samples/OOB_v3.cpp:113-115 | the defaults are octave 4 and a 500 ms note, one beat of 125 ms |
| OobV3.TuneLen | source/samples/OOB_v3.cpp:75 | `TUNE_LEN` is the number of notes |
| OobV3.PlayNote | source/samples/OOB_v3.cpp:118-172 | one note: the letter switch, the modifier loop and the optional duration, as `NoteSpec` describes |
| OobV3.PlayMelody | source/samples/OOB_v3.cpp:110-174 | the notes in order from the defaults, carrying octave and duration, and stopping at the first panic |
| OobV3.PrefixAssoc | source/samples/OOB_v3.cpp:117 | tones played one after another accumulate in order |
| OobV3.ModifierEffects | source/samples/OOB_v3.cpp:139-149 | `#` raises a semitone, `b` lowers one, a digit sets the octave, and any other modifier panics with 124 |
| OobV3.DurationAndRest | source/samples/OOB_v3.cpp:133-157 | a `:` not followed by a digit panics with 125; `:n` lasts n beats; a rest keeps the duration and has no pitch; an unknown letter panics with 123 |
| OobV3.PowerUpNotes | source/samples/OOB_v3.cpp:110-172 | each note of the power-up tune gives its pitch and duration |
| OobV3.PowerUpTune | source/samples/OOB_v3.cpp:77 | the power-up tune plays six tones, with octave and duration carried over between notes |
| NoiseProfiler.Counted | source/NoiseProfiler.cpp:55 | the samples counted never take the total past its limit, and fewer are counted only when the limit is reached |
| NoiseProfiler.SumIncrement | source/NoiseProfiler.cpp:60 | incrementing one entry of the histogram adds one to its total |
| NoiseProfiler.SumZeros | source/NoiseProfiler.cpp:82-83 | a cleared histogram sums to zero |
| NoiseProfiler.Profiler.constructor | source/NoiseProfiler.cpp:32-38 | the constructor resets: an empty histogram, no samples, no variance |
| NoiseProfiler.Profiler.Reset | source/NoiseProfiler.cpp:78-87 | the histogram, the sample count and the variance are zeroed |
| NoiseProfiler.Profiler.Tally | source/NoiseProfiler.cpp:59-60 | a sample within the range adds one to its entry; any other leaves the histogram alone |
| NoiseProfiler.Profiler.PullRequest | source/NoiseProfiler.cpp:43-76 | the samples that fit under the total are counted, those within range are added to the histogram, and the variance grows by their variation; across calls the variance stays at most 255 per counted sample, so below 2^31 |
| NoiseProfiler.Profiler.IsDone | source/NoiseProfiler.cpp:108-112 | complete exactly when the total has been counted |
| NoiseProfiler.VariationBound | source/NoiseProfiler.cpp:65 | neighbouring 8-bit samples differ by at most 255 |
| NoiseProfiler.FullRunFitsInt32 | source/NoiseProfiler.cpp:65 | the variation of one sequence of at most the total number of 8-bit samples is below 2^31 (the bound across calls is `PullRequest`'s) |
| Synthesizer.Sample | source/drivers/Synthesizer.cpp:63 | a non-positive period gives 0; within one period the sawtooth sample never exceeds the amplitude |
| Synthesizer.SawtoothBound | source/drivers/Synthesizer.cpp:63 | amplitude times position over period lies between 0 and the amplitude |
| Synthesizer.InRangeU16 | source/drivers/Synthesizer.cpp:63 | a value that fits 16 bits is stored unchanged |
| Synthesizer.Step | source/drivers/Synthesizer.cpp:64-69 | the position moves on by the sample period and wraps once it passes the period; a requested new period is adopted only at a wrap |
| Synthesizer.Samples | source/drivers/Synthesizer.cpp:61-73 | n samples are produced |
| Synthesizer.SamplesAt | source/drivers/Synthesizer.cpp:61-73 | the j-th sample is taken from the oscillator after j steps |
| Synthesizer.PositionStaysInPeriod | source/drivers/Synthesizer.cpp:64-69 | with a sample period no longer than the wave's and no pending change, the position stays within one period |
| Synthesizer.SamplesBounded | source/drivers/Synthesizer.cpp:61-73 | then every sample of a buffer lies between 0 and the amplitude |
| Synthesizer.SampleCount | source/drivers/Synthesizer.cpp:61 | a buffer of n bytes holds n/2 samples |
| Synthesizer.SetBufferSizeAsWritten | source/drivers/Synthesizer.cpp:98-105 | as written, the stored size is checked: a positive stored size accepts any argument, a non-positive one refuses all |
| Synthesizer.SetBufferSizeLocksUp | source/drivers/Synthesizer.cpp:98-105 | as written, a zero size is accepted, after which a valid size is refused |
| Synthesizer.Synth.constructor | source/drivers/Synthesizer.cpp:19-32 | 512-byte buffers, position 0, full volume, the sample period from the rate, and the default period adopted |
| Synthesizer.Synth.SetPeriod | source/drivers/Synthesizer.cpp:37-40 | the period requested is stored for the next wrap |
| Synthesizer.Synth.SetVolume | source/drivers/Synthesizer.cpp:83-91 | volumes outside 0..1023 are refused and leave the amplitude; others are stored |
| Synthesizer.Synth.SetBufferSize | source/drivers/Synthesizer.cpp:98-105 | corrected: a non-positive argument is refused and the stored size kept, so the size stays positive |
| Synthesizer.Synth.Generate | source/drivers/Synthesizer.cpp:57-73 | a buffer of bufferSize/2 samples, each from the oscillator after its steps, and the oscillator left after all of them |
| Synthesizer.Synth.Pull | source/drivers/Synthesizer.cpp:110-113 | the buffer last generated |
| LevelDetector.StepSample | source/drivers/LevelDetector.cpp:60-82 | the magnitude joins the sum; a full window sets the level to the mean magnitude and resets the counters; HIGH fires only when not yet passed and the level is above HIGH, LOW only below LOW |
| LevelDetector.FeedStep | source/drivers/LevelDetector.cpp:58-85 | a buffer is fed sample after sample, and the events are raised in order |
| LevelDetector.StepAlternates | source/drivers/LevelDetector.cpp:69-81 | one sample keeps the two flags exclusive and raises no event twice in a row |
| LevelDetector.NoRepeatGlue | source/drivers/LevelDetector.cpp:69-81 | runs without repeats glue together when the second starts after the last event of the first |
| LevelDetector.EventsAlternate | source/drivers/LevelDetector.cpp:51-88 | HIGH and LOW events alternate across a whole buffer, against the event remembered from before, and the flags name the last one |
| LevelDetector.AlternateStep | source/drivers/LevelDetector.cpp:58-85 | one more sample keeps the events alternating and the flags naming the last |
| LevelDetector.WindowBounded | source/drivers/LevelDetector.cpp:61-67 | a position inside the window stays inside it |
| LevelDetector.ShrunkWindowNeverCloses | source/drivers/LevelDetector.cpp:182-189 | after the window shrinks below the position, no window completes: no events, and the level never changes |
| LevelDetector.SetLowAsWritten | source/drivers/LevelDetector.cpp:108-125 | as written on 16-bit values: a new LOW below 65535 is stored |
| LevelDetector.HighZeroInvertsThresholds | source/drivers/LevelDetector.cpp:147-148 | as written, HIGH 0 with LOW positive wraps LOW to 65535, above HIGH |
| LevelDetector.AsWrittenOrderedInsideRange | source/drivers/LevelDetector.cpp:108-151 | away from the ends of the 16-bit range, the setters as written keep LOW no higher than HIGH |
| LevelDetector.Detector.constructor | source/drivers/LevelDetector.cpp:33-46 | everything zero, the default window, the thresholds given, INITIALISED set |
| LevelDetector.Detector.PullRequest | source/drivers/LevelDetector.cpp:51-88 | the buffer is fed in order as `Feed` describes, returning the events; window and thresholds are unchanged |
| LevelDetector.Detector.AddSample | source/drivers/LevelDetector.cpp:60-82 | the loop body: one sample, as `StepSample` |
| LevelDetector.Detector.SetLowThreshold | source/drivers/LevelDetector.cpp:108-125 | corrected: the same value changes nothing; otherwise LOW is stored with its flag cleared and HIGH raised above it when needed, so LOW ends no higher than HIGH |
| LevelDetector.Detector.SetHighThreshold | source/drivers/LevelDetector.cpp:134-151 | corrected mirror image: LOW is lowered below HIGH when needed, so LOW ends no higher than HIGH |
| LevelDetector.Detector.SetWindowSize | source/drivers/LevelDetector.cpp:182-189 | a non-positive size is refused and the size kept; otherwise stored |
| DataStream.Stream.constructor | source/types/DataStream.cpp:28-41 | an empty, blocking stream with no preferred size and no downstream |
| DataStream.Stream.Get | source/types/DataStream.cpp:57-68 | the byte at a position counted across the queued buffers in order; a position past the end is refused |
| DataStream.Stream.Set | source/types/DataStream.cpp:77-91 | writes exactly that byte of the queued bytes; a position past the end is refused and nothing changes |
| DataStream.Stream.IsReadOnly | source/types/DataStream.cpp:106-115 | true exactly when every queued buffer is read-only |
| DataStream.Stream.Connect | source/types/DataStream.cpp:122-125 | a downstream is connected |
| DataStream.Stream.Disconnect | source/types/DataStream.cpp:132-135 | no downstream is connected |
| DataStream.Stream.SetPreferredBufferSize | source/types/DataStream.cpp:150-153 | the preferred size is stored |
| DataStream.Stream.GetPreferredBufferSize | source/types/DataStream.cpp:141-144 | the preferred size stored |
| DataStream.Stream.SetBlocking | source/types/DataStream.cpp:161-173 | the blocking mode is stored |
| DataStream.Stream.Pull | source/types/DataStream.cpp:178-200 | the head buffer is removed and returned and its bytes no longer counted; an empty stream yields an empty buffer and is unchanged |
| DataStream.Stream.CanPull | source/types/DataStream.cpp:217-226 | room exactly when a slot is free and a positive preferred size would not be exceeded |
| DataStream.Stream.Full | source/types/DataStream.cpp:233-236 | `!canPull()`: no room even for an empty buffer |
| DataStream.Stream.PullRequest | source/types/DataStream.cpp:241-274 | a full non-blocking stream refuses without pulling; otherwise the pulled buffer is queued and its bytes counted, and the downstream is asked to pull at once (blocking) or by an event (non-blocking) |
| ManagedBuffers.BytesAppend | source/types/DataStream.cpp:57-68 | the bytes of two runs of buffers are the bytes of the first, then of the second |
| ManagedBuffers.BytesUpdate | source/types/DataStream.cpp:77-91 | writing a byte of one buffer writes the corresponding byte of the whole |
| FIFOStream.Fifo.constructor | source/samples/FIFOStream.cpp:24-36 | an empty FIFO with input and output switched off |
| FIFOStream.Fifo.CanPull | source/samples/FIFOStream.cpp:43-47 | output is on and some buffer is queued |
| FIFOStream.Fifo.IsFull | source/samples/FIFOStream.cpp:79-82 | despite the name, true exactly when there is room for another buffer |
| FIFOStream.Fifo.ShiftDown | source/samples/FIFOStream.cpp:49-71 | every slot moves down by one and the last becomes empty |
| FIFOStream.Fifo.Pull | source/samples/FIFOStream.cpp:49-71 | with output on and data queued, the head is removed and returned, and the downstream is asked again while more is queued; otherwise an empty buffer and nothing changes |
| FIFOStream.Fifo.PullRequest | source/samples/FIFOStream.cpp:94-114 | the upstream buffer is always pulled; with every slot taken it is dropped and refused; otherwise queued only with input on and when non-empty, and a first buffer with output on wakes the downstream |
| FIFOStream.Fifo.SetInputEnable | source/samples/FIFOStream.cpp:140-144 | input is switched as asked |
| FIFOStream.Fifo.SetOutputEnable | source/samples/FIFOStream.cpp:145-158 | output is switched; the downstream is woken only when it goes from off to on with data queued |
| FIFOStream.Fifo.Connect | source/samples/FIFOStream.cpp:116-120 | a downstream is connected |
| FIFOStream.Fifo.Disconnect | source/samples/FIFOStream.cpp:122-126 | no downstream is connected |
| TimerEvents.DefaultEvent | inc/core/Timer.h:77-83 | the default event has every field zero |
| TimerEvents.MakeEvent | inc/core/Timer.h:85-92 | the list-adding constructor stores the fields, and the period only for a repeating event |
| TimerEvents.Removed | inc/core/Timer.h:25-40 | removal never lengthens the list |
| TimerEvents.FirstAtLeast | inc/core/Timer.h:55-73 | the first entry due at or after t: every entry before it is due earlier |
| TimerEvents.FirstAtLeastIs | inc/core/Timer.h:55-73 | any index with only earlier entries before it and a no-earlier entry (or the end) at it is that first entry |
| TimerEvents.AddedAsWritten | inc/core/Timer.h:42-75 | as written, the list grows by at most one |
| TimerEvents.Added | inc/core/Timer.h:42-75 | corrected: the event is always in the list afterwards, which grows by at most one |
| TimerEvents.RemovedContents | inc/core/Timer.h:25-40 | after removal no entry has the id and value, and every other entry is kept |
| TimerEvents.RemovedAscending | inc/core/Timer.h:25-40 | removal keeps an ascending list ascending |
| TimerEvents.RemovedUnique | inc/core/Timer.h:25-40 | removal keeps a list without duplicates so |
| TimerEvents.RemovedAbsent | inc/core/Timer.h:25-40 | removing an absent id and value changes nothing |
| TimerEvents.InsertedContents | inc/core/Timer.h:55-73 | insertion adds exactly the event, at the first entry due no earlier |
| TimerEvents.InsertedAscending | inc/core/Timer.h:55-73 | insertion keeps an ascending list ascending |
| TimerEvents.AddedAbsent | inc/core/Timer.h:42-75 | adding an event whose id and value are absent is insertion alone |
| TimerEvents.InsertedUnique | inc/core/Timer.h:55-73 | inserting an absent id and value keeps the list free of duplicates |
| TimerEvents.AddedProperties | inc/core/Timer.h:42-75 | corrected `addToList`: the event replaces every entry with its id and value, every other entry stays, and an ascending list without duplicates stays so |
| TimerEvents.AddedOnce | inc/core/Timer.h:42-75 | the event added is the only entry with its id and value |
| TimerEvents.AddedAsWrittenDropsEvent | inc/core/Timer.h:44-73 | as written, re-adding the only pending event drops it: the list ends up empty |
| TimerEvents.AddedAsWrittenAgrees | inc/core/Timer.h:42-75 | whenever another entry survives the removal, the code as written agrees with the corrected addition |
| TimerEvents.RemovedStep | inc/core/Timer.h:30-39 | removal over one more entry either drops or keeps that entry |
| TimerEvents.RemovedStepDrop | inc/core/Timer.h:34-38 | the walk unlinks a matching entry at its cursor |
| TimerEvents.RemovedStepKeep | inc/core/Timer.h:30-39 | the walk steps over an entry that does not match |
| TimerEvents.EventList.constructor | inc/core/Timer.h:77-83 | the list head starts empty |
| TimerEvents.EventList.RemoveFromList | inc/core/Timer.h:25-40 | the list is as `Removed` describes |
| TimerEvents.EventList.AddToList | inc/core/Timer.h:42-75 | corrected: the list is as `Added` describes |
| TimerEvents.EventList.InsertInOrder | inc/core/Timer.h:55-73 | the loop inserts before the first entry due no earlier, else after the last |
| TimerEvents.EventList.NewEvent | inc/core/Timer.h:85-96 | corrected: the constructor stores the fields and links the event into the list as `Added` does, so it is always there afterwards |
| SystemClock.DefaultClockEvent | inc/core/SystemClock.h:45-51 | the default event has every field zero |
| SystemClock.MakeClockEvent | inc/core/SystemClock.h:53-61 | the fields stored, with the period only for a repeating event |
| SystemClock.ClockTimeUs | source/device/DeviceTimer.cpp:145-148 | the stored time plus the hardware count, wrapping at 2^64 |
| SystemClock.MillisToMicros | source/device/DeviceTimer.cpp:111-114 | ×1000 in 64 bits: without overflow, a whole number of milliseconds that divides back to the argument |
| SystemClock.Millis | source/device/DeviceTimer.cpp:134-137 | ÷1000 rounding down: the milliseconds whose interval contains the time |
| SystemClock.DueIn | source/device/DeviceTimer.cpp:52 | the delay to a future timestamp; an overdue one wraps to at least 2^64 - now |
| SystemClock.FirstAtLeast | inc/core/SystemClock.h:30-42 | the first entry due at or after t |
| SystemClock.StopEntry | inc/core/SystemClock.h:30-42 | the loop stops at the first entry due no earlier, or at the last entry |
| SystemClock.ClockAddedGrows | inc/core/SystemClock.h:19-43 | the corrected insertion adds exactly the event |
| SystemClock.ClockAddedAsWrittenGrows | inc/core/SystemClock.h:19-43 | as written, the insertion also adds exactly the event |
| SystemClock.ClockAddedAscending | inc/core/SystemClock.h:19-43 | the corrected insertion keeps an ascending list ascending, so the head stays the next event due |
| SystemClock.ClockAddedAsWrittenOutOfOrder | inc/core/SystemClock.h:37-40 | as written, an event due before the only pending one is linked behind it, out of order |
| SystemClock.ClockAddedAsWrittenAgrees | inc/core/SystemClock.h:19-43 | for an event due after every pending one, the code as written agrees with the corrected insertion |
| SystemClock.FirstAtLeastIs | inc/core/SystemClock.h:30-42 | any index with only earlier entries before it and a no-earlier entry (or the end) at it is the first one |
| SystemClock.ClockList.constructor | inc/core/SystemClock.h:45-51 | INIT_LIST_HEAD: an empty list |
| SystemClock.ClockList.AddToList | inc/core/SystemClock.h:19-43 | corrected: the event is linked before the first entry due no earlier, or after the last; the list grows by one |
| SystemClock.ClockList.NewClockEvent | inc/core/SystemClock.h:53-61 | corrected: the constructor stores the fields and links the event with the ordered insertion of `ClockAdded`; the list grows by one |
| DeviceTimer.Timer.constructor | source/device/DeviceTimer.cpp:73-76 | the id given, no events, not initialised |
| DeviceTimer.Timer.TimeUs | source/device/DeviceTimer.cpp:145-148 | `getTimeUs` is the stored time plus the hardware count |
| DeviceTimer.Timer.Time | source/device/DeviceTimer.cpp:134-137 | `getTime` is that time in whole milliseconds |
| DeviceTimer.Timer.Init | source/device/DeviceTimer.cpp:89-103 | starts the clock and arms the 60-second overflow handler once; later calls change nothing |
| DeviceTimer.Timer.SetTimeUs | source/device/DeviceTimer.cpp:122-126 | the time is set, and read back with nothing elapsed |
| DeviceTimer.Timer.SetTime | source/device/DeviceTimer.cpp:111-114 | milliseconds ×1000; with nothing elapsed `getTime` gives back what was set |
| DeviceTimer.Timer.ProcessEvents | source/device/DeviceTimer.cpp:42-56 | arms the timeout for the head only when it is due within one overflow period; on the ascending list of the corrected insertion the head is the next event due |
| DeviceTimer.Timer.EventReady | source/device/DeviceTimer.cpp:13-40 | corrected: raises the head with this timer's id, unlinks it, re-adds a repeating one a period from now in order, then re-examines the head; nothing on an empty list |
| DeviceTimer.Timer.FireHead | source/device/DeviceTimer.cpp:21-37 | corrected: the head was the earliest entry; it is raised, unlinked, and re-added in order when it repeats |
| DeviceTimer.Timer.TimerOverflow | source/device/DeviceTimer.cpp:58-66 | the time advances by exactly one overflow period, the handler is re-armed and the head re-examined |
| DeviceTimer.Timer.ConfigureEvent | source/device/DeviceTimer.cpp:150-161 | corrected: links a new event in order, due a period from now, and, when it became the head and is due within one overflow period, arms the timeout |
| DeviceTimer.Timer.EventAfterUs | source/device/DeviceTimer.cpp:184-187 | corrected: a one-shot event `interval` µs from now, linked in order |
| DeviceTimer.Timer.EventAfter | source/device/DeviceTimer.cpp:171-174 | corrected: a one-shot event `interval` ms from now, linked in order |
| DeviceTimer.Timer.EventEveryUs | source/device/DeviceTimer.cpp:210-213 | corrected: a repeating event every `period` µs, first due one period from now, linked in order |
| DeviceTimer.Timer.EventEvery | source/device/DeviceTimer.cpp:197-200 | corrected: a repeating event every `period` ms, linked in order |
| DeviceTimer.OverdueNotArmed | source/device/DeviceTimer.cpp:52-55 | an overdue head is never armed: its unsigned delay wraps past any overflow period |
| MbedTimer.Decide | target/MBED_CLASSIC/source/MbedTimer.cpp:52-63 | after the pass: start over when the head is overdue or due within 100 µs (or the list is empty); arm the timeout for a head due within one overflow period; otherwise wait for the overflow handler |
| MbedTimer.LoadConcat | target/MBED_CLASSIC/source/MbedTimer.cpp:26-48 | the overdue weight of two runs of entries is the sum of their weights |
| MbedTimer.Unlink | target/MBED_CLASSIC/source/MbedTimer.cpp:37 | unlinking the entry at the cursor keeps the list ordered and free of duplicates and loses only that entry |
| MbedTimer.OneShotStep | target/MBED_CLASSIC/source/MbedTimer.cpp:34-41 | raising and deleting a due one-shot entry keeps the pass invariant and lowers the overdue weight ahead |
| MbedTimer.Reinserted | target/MBED_CLASSIC/source/MbedTimer.cpp:45-46 | re-inserting an entry keeps everything ahead of the cursor ahead, and adds its weight only when it goes in ahead |
| MbedTimer.RepeatInv | target/MBED_CLASSIC/source/MbedTimer.cpp:34-47 | the pass invariant carries over when a repeating entry is unlinked and re-inserted |
| MbedTimer.RepeatLoad | target/MBED_CLASSIC/source/MbedTimer.cpp:45-46 | re-adding a due repeating entry one period later lowers the overdue weight ahead of the cursor |
| MbedTimer.RepeatStep | target/MBED_CLASSIC/source/MbedTimer.cpp:34-47 | raising a due repeating entry and re-adding it one period later keeps the pass invariant and lowers the weight ahead, so the loop ends |
| MbedTimer.PassDone | target/MBED_CLASSIC/source/MbedTimer.cpp:30-31 | when the pass stops, no entry ahead is due, so every due one-shot entry has been raised and removed |
| MbedTimer.TurnFacts | target/MBED_CLASSIC/source/MbedTimer.cpp:34-47 | a turn keeps the list ordered and free of duplicates and lowers the overdue weight ahead of the cursor |
| MbedTimer.Pass | target/MBED_CLASSIC/source/MbedTimer.cpp:26-48 | the pass leaves an ordered list without duplicates, and raises nothing exactly when the entry at the cursor is not due |
| MbedTimer.PassTurn | target/MBED_CLASSIC/source/MbedTimer.cpp:26-48 | at a due entry the pass raises it first and goes on where the turn leaves the cursor |
| MbedTimer.PassStops | target/MBED_CLASSIC/source/MbedTimer.cpp:32-33 | at an entry not yet due, or at the end, the pass raises nothing and leaves the list alone |
| MbedTimer.PassSoFarStep | target/MBED_CLASSIC/source/MbedTimer.cpp:26-48 | a turn with its entry raised keeps the rest of the pass completing the whole |
| MbedTimer.PassSoFarDone | target/MBED_CLASSIC/source/MbedTimer.cpp:26-48 | when the loop stops, what was raised and the list are those of the whole pass |
| MbedTimer.TurnKeepsAhead | target/MBED_CLASSIC/source/MbedTimer.cpp:28-47 | an entry after the cursor's is still ahead of the cursor after the turn (the loop's saved next pointer) |
| MbedTimer.TurnKeeps | target/MBED_CLASSIC/source/MbedTimer.cpp:40-47 | a turn keeps every entry with another id and value, and re-adds a repeating entry with its due time plus its period |
| MbedTimer.PassRaisesDue | target/MBED_CLASSIC/source/MbedTimer.cpp:26-48 | every entry due ahead of the cursor is raised by the pass, one-shot or repeating |
| MbedTimer.PassKeepsRepeating | target/MBED_CLASSIC/source/MbedTimer.cpp:40-47 | a repeating entry never leaves the list for good: after the pass an entry with its id, value and period is there |
| MbedTimer.Timer.constructor | target/MBED_CLASSIC/source/MbedTimer.cpp:81-91 | an empty list, the id given, and a 60-second overflow period |
| MbedTimer.Timer.TimeUs | target/MBED_CLASSIC/source/MbedTimer.cpp:158-161 | the stored time plus the hardware count |
| MbedTimer.Timer.Time | target/MBED_CLASSIC/source/MbedTimer.cpp:147-150 | that time in whole milliseconds |
| MbedTimer.Timer.Init | target/MBED_CLASSIC/source/MbedTimer.cpp:104-116 | starts the clock and arms the overflow handler once; later calls change nothing |
| MbedTimer.Timer.SetTimeUs | target/MBED_CLASSIC/source/MbedTimer.cpp:135-139 | the time is set, and read back with nothing elapsed |
| MbedTimer.Timer.SetTime | target/MBED_CLASSIC/source/MbedTimer.cpp:124-127 | milliseconds ×1000; with nothing elapsed `getTime` gives back what was set |
| MbedTimer.Timer.ProcessEvents | target/MBED_CLASSIC/source/MbedTimer.cpp:15-64 | one pass: the events raised are exactly those of `Pass`, in order, and the list left is `Pass`'s; every due one-shot event is gone, every event not yet due stays, the list stays ordered and free of duplicates, and the head decides what happens next |
| MbedTimer.Timer.RunPass | target/MBED_CLASSIC/source/MbedTimer.cpp:26-48 | the loop raises exactly the events of `Pass` in order and leaves `Pass`'s list; it stops at the first entry not due |
| MbedTimer.Timer.RaiseAt | target/MBED_CLASSIC/source/MbedTimer.cpp:34-47 | one turn of the loop as `Turn`: raise the entry, unlink it, re-add a repeating one with its due time plus its period; the overdue weight ahead drops |
| MbedTimer.Timer.TimerOverflow | target/MBED_CLASSIC/source/MbedTimer.cpp:66-74 | the time advances by exactly one overflow period and the handler is re-armed; then, as `ProcessEvents` at the new time, exactly `Pass`'s events are raised in order, the list left is `Pass`'s, and the timeout is set for an `Attach` |
| MbedTimer.Timer.ConfigureEvent | target/MBED_CLASSIC/source/MbedTimer.cpp:163-174 | corrected: adds an event due a period from now, replacing any with its id and value, and it is always in the list afterwards; arms the timeout when it became the head within one overflow period |
| MbedTimer.Timer.EventAfterUs | target/MBED_CLASSIC/source/MbedTimer.cpp:197-200 | corrected: a one-shot event `interval` µs from now, always in the list afterwards |
| MbedTimer.Timer.EventAfter | target/MBED_CLASSIC/source/MbedTimer.cpp:184-187 | corrected: a one-shot event `interval` ms from now, always in the list afterwards |
| MbedTimer.Timer.EventEveryUs | target/MBED_CLASSIC/source/MbedTimer.cpp:223-226 | corrected: a repeating event every `period` µs, always in the list afterwards |
| MbedTimer.Timer.EventEvery | target/MBED_CLASSIC/source/MbedTimer.cpp:210-213 | corrected: a repeating event every `period` ms, always in the list afterwards |
| MbedTimer.Timer.Cancel | target/MBED_CLASSIC/source/MbedTimer.cpp:235-241 | every pending event with the id and value is removed, and no other |
| EventModel.DefaultEventBus.constructor | inc/core/EventModel.h:61 | no default bus at first |
| EventModel.DefaultEventBus.SetDefaultEventModel | inc/core/EventModel.h:126-130 | the default bus is the model given |
| EventModel.EventModel.Send | inc/core/EventModel.h:71-74 | the base class supports no sending |
| EventModel.EventModel.Add | inc/core/EventModel.h:83-86 | the base class supports no adding |
| EventModel.EventModel.Remove | inc/core/EventModel.h:95-98 | the base class supports no removing |
| EventModel.EventModel.ElementAt | inc/core/EventModel.h:107-110 | the base class holds no listeners |
| EventModel.EventModel.Listen | inc/core/EventModel.h:163-179 | a NULL handler, or a scheduler listener that is not IMMEDIATE, is refused; otherwise `add` refuses on the base class |
| EventModel.EventModel.Ignore | inc/core/EventModel.h:287-296 | a NULL handler is refused; otherwise OK whatever `remove` reports |
| DeviceMessageBus.FirstDuplicate | source/drivers/DeviceMessageBus.cpp:413-429 | the index of the first listener with the same id, value and handler at or after the start, with none such before it, or -1 exactly when no listener has that registration |
| DeviceMessageBus.FirstNotBelow | source/drivers/DeviceMessageBus.cpp:449-459 | the first listener at or after the start whose (id, value) key is not below the new one; every listener before it is below |
| DeviceMessageBus.InsertPosition | source/drivers/DeviceMessageBus.cpp:446-475 | every listener before the insert position has a key at or below the new one; on an ordered list every listener from it on has a key at or above it |
| DeviceMessageBus.Inserted | source/drivers/DeviceMessageBus.cpp:433-475 | the linked list is one longer, holds the new listener at its insert position, and taking it out again gives back the old list |
| DeviceMessageBus.InsertedMembers | source/drivers/DeviceMessageBus.cpp:433-475 | after linking, the list holds exactly the old listeners and the new one |
| DeviceMessageBus.InsertedAt | source/drivers/DeviceMessageBus.cpp:462-475 | each entry after linking is the old entry before the position, the new listener at it, and the old entry shifted by one after it |
| DeviceMessageBus.InsertedSorted | source/drivers/DeviceMessageBus.cpp:449-475 | linking a new listener at its place keeps an ordered, repeat-free list ordered and repeat-free |
| DeviceMessageBus.Survivors | source/drivers/DeviceMessageBus.cpp:232-265 | the listeners kept by the unlinking pass form a list no longer than the old one |
| DeviceMessageBus.SurvivorsSubset | source/drivers/DeviceMessageBus.cpp:232-265 | every listener that survives unlinking was in the list |
| DeviceMessageBus.SurvivorsExact | source/drivers/DeviceMessageBus.cpp:240-262 | in a repeat-free list a listener survives exactly when it is not both marked DELETING and idle |
| DeviceMessageBus.SurvivorsSorted | source/drivers/DeviceMessageBus.cpp:232-265 | unlinking keeps the list ordered and free of repeats |
| DeviceMessageBus.Activated | source/drivers/DeviceMessageBus.cpp:351-383 | a pass activates at most as many listeners as the list holds |
| DeviceMessageBus.ActivatedSubset | source/drivers/DeviceMessageBus.cpp:351-383 | only listeners of the list are activated by a pass |
| DeviceMessageBus.ActivatedExact | source/drivers/DeviceMessageBus.cpp:353-378 | in a repeat-free list a listener is activated exactly when it receives the event, belongs to this pass and is not marked DELETING |
| DeviceMessageBus.PassStep | source/drivers/DeviceMessageBus.cpp:351-383 | visiting one more listener appends it to the activated ones exactly when it activates, and keeps the pass complete exactly when it did not miss a receiving listener |
| DeviceMessageBus.PassesPartition | source/drivers/DeviceMessageBus.cpp:353-378 | a receiving listener that is not marked DELETING is activated by exactly one of the urgent and the normal pass, and by the urgent one when the scheduler is not running |
| DeviceMessageBus.IdleCount | source/drivers/DeviceMessageBus.cpp:273-298 | idle handles at most the queued events and at least one when any is queued |
| DeviceMessageBus.IdleSplit | source/drivers/DeviceMessageBus.cpp:273-298 | where idle stops, the delivered events are the queue's prefix of that length and the rest its suffix |
| DeviceMessageBus.MessageBus.constructor | source/drivers/DeviceMessageBus.cpp:64-75 | an empty queue, one listener for the scheduler's idle event with the bus's idle member as handler and IMMEDIATE and METHOD flags, and the bus becomes the default one when there was none |
| DeviceMessageBus.MessageBus.Add | source/drivers/DeviceMessageBus.cpp:397-479 | INVALID_PARAMETER for NULL; a registration already present loses its DELETING mark and gives NOT_SUPPORTED with the list unchanged; otherwise OK, the listener linked at its ordered place and the listener announcement event raised; no other listener changes |
| DeviceMessageBus.MessageBus.Resurrect | source/drivers/DeviceMessageBus.cpp:422-423 | the DELETING bit is cleared and every other flag kept |
| DeviceMessageBus.MessageBus.Link | source/drivers/DeviceMessageBus.cpp:433-475 | the new listener becomes the whole list or is linked at its insert position, keeping the list ordered and free of repeats |
| DeviceMessageBus.MessageBus.FindDuplicate | source/drivers/DeviceMessageBus.cpp:413-429 | the walk returns the first listener with the same registration, or -1 |
| DeviceMessageBus.MessageBus.FindPlace | source/drivers/DeviceMessageBus.cpp:446-462 | the two walks and the head test land on the insert position |
| DeviceMessageBus.MessageBus.Remove | source/drivers/DeviceMessageBus.cpp:488-523 | INVALID_PARAMETER for NULL with no flag changed; otherwise exactly the listeners with the handler whose id and value match (ANY matching all) are marked DELETING, nothing is unlinked, and the result is OK exactly when at least one was marked |
| DeviceMessageBus.MessageBus.Cancel | source/drivers/DeviceMessageBus.cpp:502-513 | one listener is marked DELETING exactly when it has the handler and the id and value match |
| DeviceMessageBus.MessageBus.DeleteMarkedListeners | source/drivers/DeviceMessageBus.cpp:232-265 | exactly the marked listeners that are not busy are unlinked, in order, and their number is returned |
| DeviceMessageBus.MessageBus.Process | source/drivers/DeviceMessageBus.cpp:343-388 | the activated listeners are exactly those that receive the event in this pass, each is given the event and no other listener's event changes; 1 exactly when no receiving listener was left |
| DeviceMessageBus.MessageBus.Visit | source/drivers/DeviceMessageBus.cpp:353-378 | one listener is given the event exactly when it activates, and is missed when it receives it but does not activate |
| DeviceMessageBus.MessageBus.QueueEvent | source/drivers/DeviceMessageBus.cpp:153-198 | the urgent pass runs first; the event joins the tail of the queue unless that pass handled every receiving listener or the queue is at its maximum depth; the list is unchanged |
| DeviceMessageBus.MessageBus.DequeueEvent | source/drivers/DeviceMessageBus.cpp:205-225 | nothing from an empty queue, otherwise its head, and the queue loses exactly its head |
| DeviceMessageBus.MessageBus.Send | source/drivers/DeviceMessageBus.cpp:320-327 | OK always, with the queue as queueEvent leaves it |
| DeviceMessageBus.MessageBus.Idle | source/drivers/DeviceMessageBus.cpp:273-298 | the marked idle listeners are unlinked, then the oldest queued events, up to where the scheduler has work, are delivered in order and leave the queue |
| DeviceMessageBus.MessageBus.DeliverNext | source/drivers/DeviceMessageBus.cpp:281-290 | one turn hands the oldest queued event to the normal pass and removes it, or does nothing on an empty queue |
| DeviceMessageBus.MessageBus.Drain | source/drivers/DeviceMessageBus.cpp:281-297 | the loop delivers exactly the queue's prefix idle stops at, in order, and leaves the rest queued |
| DeviceMessageBus.MessageBus.ElementAt | source/drivers/DeviceMessageBus.cpp:532-546 | the n-th listener, the head for n at or below 0, NULL past the end or on an empty list |
| DeviceMessageBus.MessageBus.Listen | inc/core/EventModel.h:163-179 | a NULL handler, or the scheduler id with flags other than IMMEDIATE, gives INVALID_PARAMETER; otherwise OK exactly when the registration was absent, then a fresh listener with these fields sits at its place; NOT_SUPPORTED leaves the list unchanged |
| DeviceMessageBus.MessageBus.ListenMember | inc/core/EventModel.h:381-397 | as listen, with a NULL object or method also refused and the METHOD flag added |
| DeviceMessageBus.MessageBus.Ignore | inc/core/EventModel.h:287-296 | INVALID_PARAMETER for a NULL handler, otherwise OK; the listeners remove matches are marked DELETING and no other flag changes |
| DeviceMessageBus.AsyncCallback | source/drivers/DeviceMessageBus.cpp:83-145 | a busy listener drops the event, or queues it when so configured; otherwise the handler gets the event and then each queued event in order, the queue empties and the BUSY mark is cleared |
| DeviceFiber.Fiber.constructor | source/core/DeviceFiber.cpp:164-170 | a fiber fresh from the heap has no stack, no flags, no context and is on no queue |
| DeviceFiber.AppendedQueue | source/core/DeviceFiber.cpp:87-117 | linking an unqueued fiber that records queue q at the tail keeps the queue tagged with q and free of repeats |
| DeviceFiber.ScanToTail | source/core/DeviceFiber.cpp:106-109 | the walk along the next links of a non-empty queue stops at its last fiber |
| DeviceFiber.IndexOf | source/core/DeviceFiber.cpp:124-146 | the position of a fiber in a queue holding it, with no earlier occurrence |
| DeviceFiber.Without | source/core/DeviceFiber.cpp:124-146 | unlinking a fiber not on the list changes nothing; unlinking one on it shortens the list by one |
| DeviceFiber.WithoutMembers | source/core/DeviceFiber.cpp:124-146 | unlinking keeps a list free of repeats, removes exactly that fiber and keeps every other one |
| DeviceFiber.WithoutIndex | source/core/DeviceFiber.cpp:133-139 | after unlinking, the fibers before it keep their positions and those after it move up by one |
| DeviceFiber.WithoutTwice | source/core/DeviceFiber.cpp:127-128 | unlinking a fiber a second time changes nothing |
| DeviceFiber.WithoutAppended | source/core/DeviceFiber.cpp:87-146 | unlinking a fiber just linked at the tail gives back the queue as it was |
| DeviceFiber.WithoutSplit | source/core/DeviceFiber.cpp:133-139 | unlinking a fiber joins the fibers before it and after it, in order |
| DeviceFiber.Select | source/core/DeviceFiber.cpp:254-266 | a walk that moves or leaves fibers keeps no more fibers than the queue has |
| DeviceFiber.SelectStep | source/core/DeviceFiber.cpp:254-266 | one more fiber examined joins the selection exactly when its flag is the one wanted |
| DeviceFiber.SelectPartitions | source/core/DeviceFiber.cpp:254-266 | the moved and the left fibers together are the queue, none lost or doubled |
| DeviceFiber.SelectMembers | source/core/DeviceFiber.cpp:254-266 | in a queue without repeats a fiber is selected exactly when its flag is the one wanted |
| DeviceFiber.Expired | source/core/DeviceFiber.cpp:258-258 | a sleeping fiber is due exactly when the tick's time in milliseconds has reached its wake-up time |
| DeviceFiber.TickWakesExactlyDue | source/core/DeviceFiber.cpp:246-267 | a tick partitions the sleep queue: every fiber is woken or stays, and one is woken exactly when its wake-up time has come |
| DeviceFiber.WaitContext | source/core/DeviceFiber.cpp:445-445 | the wait context decodes back to the id in the low half-word and the value in the high one |
| DeviceFiber.ContextRoundTrip | source/core/DeviceFiber.cpp:295-296 | every 32-bit context decodes to an (id, value) pair that encodes back to it |
| DeviceFiber.NotifyOneDone | source/core/DeviceFiber.cpp:299-307 | the one-shot NOTIFY_ONE wake-up can only have been used after some waiter was walked past |
| DeviceFiber.NotifyOneDoneIff | source/core/DeviceFiber.cpp:299-307 | the one-shot wake-up is used exactly when some waiter walked past matched the NOTIFY_ONE case |
| DeviceFiber.NotifyOneStep | source/core/DeviceFiber.cpp:299-307 | one more waiter walked past uses the one-shot wake-up exactly when it was used already or this waiter matches |
| DeviceFiber.Wakes | source/core/DeviceFiber.cpp:290-319 | one wake-up flag per waiter, set exactly when the event wakes the waiter at that position |
| DeviceFiber.NotifyOneWakesAtMostOne | source/core/DeviceFiber.cpp:299-307 | a NOTIFY_ONE event wakes at most one of the waiters that match it as the NOTIFY_ONE case |
| DeviceFiber.NotifyOneWakesFirst | source/core/DeviceFiber.cpp:299-307 | a NOTIFY_ONE event wakes the first waiter that matches it as the NOTIFY_ONE case |
| DeviceFiber.OrdinaryEventWakesAllMatching | source/core/DeviceFiber.cpp:311-316 | an event not on NOTIFY_ONE wakes exactly the waiters whose id and value match it or are ANY |
| DeviceFiber.EventWakesExactlyMatching | source/core/DeviceFiber.cpp:277-324 | an event partitions the wait queue: every fiber is woken or keeps waiting, none lost or doubled |
| DeviceFiber.StackSize | source/core/DeviceFiber.cpp:754-754 | the rounded stack buffer size is a multiple of 32 and, without 32-bit overflow, above the depth by at most 32 |
| DeviceFiber.VerifyStackSize | source/core/DeviceFiber.cpp:738-766 | a buffer at least the depth is kept; otherwise the old one is freed if present and a new one of the rounded size takes its place, which then holds the depth when nothing overflows |
| DeviceFiber.Pick | source/core/DeviceFiber.cpp:823-832 | the idle fiber on an empty run queue, otherwise a fiber of the run queue |
| DeviceFiber.PickRoundRobin | source/core/DeviceFiber.cpp:826-828 | from the fiber at position k of the run queue the next pick is the one at k + 1, wrapping to the head |
| DeviceFiber.PickVisitsAll | source/core/DeviceFiber.cpp:823-832 | n picks from position k, with the run queue unchanged, land on position (k + n) modulo its length |
| DeviceFiber.EveryRunnableFiberPicked | source/core/DeviceFiber.cpp:823-832 | every fiber on the run queue is picked within as many calls as the queue is long |
| DeviceFiber.Scheduler.Queue | source/core/DeviceFiber.cpp:47-69 | a fiber on no queue belongs to the empty list |
| DeviceFiber.Scheduler.constructor | source/core/DeviceFiber.cpp:47-69 | no fibers on any queue, no current or idle fiber, no message bus and not running |
| DeviceFiber.Scheduler.QueueFiber | source/core/DeviceFiber.cpp:87-117 | the fiber records the queue and is linked at its tail; every other queue is unchanged |
| DeviceFiber.Scheduler.Link | source/core/DeviceFiber.cpp:92-114 | the fiber records the queue, which becomes the old queue with the fiber at its tail |
| DeviceFiber.Scheduler.DequeueFiber | source/core/DeviceFiber.cpp:124-146 | a fiber on no queue changes nothing; otherwise it leaves its queue, the others keeping their order, and records no queue |
| DeviceFiber.Scheduler.Unlink | source/core/DeviceFiber.cpp:133-143 | the queue becomes the old one without the fiber, which records no queue |
| DeviceFiber.Scheduler.GetFiberContext | source/core/DeviceFiber.cpp:151-181 | the head of the pool, which leaves it, or a fresh fiber without a stack; either way on no queue and with its flags cleared |
| DeviceFiber.Scheduler.SchedulerTick | source/core/DeviceFiber.cpp:246-267 | every sleeping fiber whose wake-up time has come moves, in sleep-queue order, to the tail of the run queue; the others stay asleep in their order |
| DeviceFiber.Scheduler.TickTurn | source/core/DeviceFiber.cpp:256-265 | one turn of the tick walk moves the fiber to the run queue exactly when its time has come |
| DeviceFiber.Scheduler.SchedulerEvent | source/core/DeviceFiber.cpp:277-324 | nothing without a message bus; otherwise the waiters the event wakes move in order to the run queue and the rest keep waiting; the scheduler stops listening unless the event is on NOTIFY or NOTIFY_ONE |
| DeviceFiber.Scheduler.EventTurn | source/core/DeviceFiber.cpp:292-318 | one turn of the event walk moves the waiter exactly when the event wakes it, and tracks the one-shot NOTIFY_ONE wake-up |
| DeviceFiber.Scheduler.Block | source/core/DeviceFiber.cpp:364-370 | the fiber stores its context and moves from its queue to the tail of the sleep or wait queue |
| DeviceFiber.Scheduler.BlockingFiber | source/core/DeviceFiber.cpp:351-361 | the current fiber, or in a fork-on-block context a fiber from the pool or the heap that becomes the forked fiber |
| DeviceFiber.Scheduler.WakeOnEvent | source/core/DeviceFiber.cpp:423-459 | NOT_SUPPORTED without a bus or scheduler; otherwise OK, the blocking fiber records value and id and moves to the tail of the wait queue, and the scheduler listens unless the id is NOTIFY or NOTIFY_ONE |
| DeviceFiber.Scheduler.FiberSleep | source/core/DeviceFiber.cpp:337-374 | nothing while not running; otherwise the blocking fiber records now plus t, cut to 32 bits, and moves to the tail of the sleep queue |
| DeviceFiber.Scheduler.Schedule | source/core/DeviceFiber.cpp:783-856 | nothing while not running or in fork-on-block; otherwise the successor on the run queue, wrapping, or its head, or the idle fiber on an empty queue, except that a do-not-page fiber stays current |
| DeviceFiber.Scheduler.WakeFiber | source/core/DeviceFiber.cpp:261-262 | a fiber leaves the sleep or wait queue, the others keeping their order, and joins the tail of the run queue |
| DeviceHeapAllocator.Size | source/core/DeviceHeapAllocator.cpp:224-224 | the size a header records is below the free flag, and a header without the flag is its own size |
| DeviceHeapAllocator.FreeHeader | source/core/DeviceHeapAllocator.cpp:135-139 | the header written for a free block of a size carries the free flag and gives back that size |
| DeviceHeapAllocator.FreeRun | source/core/DeviceHeapAllocator.cpp:227-239 | the free run from a boundary ends within the heap at a boundary from which the blocks still tile the heap |
| DeviceHeapAllocator.FirstFit | source/core/DeviceHeapAllocator.cpp:214-248 | the walk changes no word count, and a block it finds lies inside the heap, is free and has at least the words needed |
| DeviceHeapAllocator.Claim | source/core/DeviceHeapAllocator.cpp:258-271 | the claimed block becomes used with at least the words needed and at most its old size; only its header and the split header change |
| DeviceHeapAllocator.BlocksNeeded | source/core/DeviceHeapAllocator.cpp:199-207 | the words a request takes: the payload rounded up to whole words holds the request, exceeds it by less than a word, and one more word for the header |
| DeviceHeapAllocator.Allocate | source/core/DeviceHeapAllocator.cpp:196-277 | NULL for a zero size; a block handed out lies inside the heap, is used and has the words the request needs |
| DeviceHeapAllocator.TilesUpdate | source/core/DeviceHeapAllocator.cpp:214-248 | writing a word before a boundary does not change whether the blocks tile the heap from it |
| DeviceHeapAllocator.ReachesUpdate | source/core/DeviceHeapAllocator.cpp:214-248 | writing a word before a boundary does not change which boundaries the walk from it reaches |
| DeviceHeapAllocator.ReachesBounds | source/core/DeviceHeapAllocator.cpp:214-248 | a boundary reached from b lies between b and the end of the heap, and the blocks tile the heap from it |
| DeviceHeapAllocator.RunSkips | source/core/DeviceHeapAllocator.cpp:227-247 | a boundary after the end of a free run is reached by skipping the whole run |
| DeviceHeapAllocator.TilesSameSizes | source/core/DeviceHeapAllocator.cpp:214-248 | two heaps whose headers record the same sizes tile and reach alike |
| DeviceHeapAllocator.FirstFitFrame | source/core/DeviceHeapAllocator.cpp:214-248 | the walk writes no word before the boundary it starts from |
| DeviceHeapAllocator.FirstFitTiles | source/core/DeviceHeapAllocator.cpp:214-248 | the walk keeps the heap tiled, and the block it finds is a boundary of the new heap |
| DeviceHeapAllocator.FirstFitKeepsUsed | source/core/DeviceHeapAllocator.cpp:218-222 | coalescing only merges free blocks: every used block stays a block with the same header and is not the one found |
| DeviceHeapAllocator.FirstFitKeepsUsedAfterFree | source/core/DeviceHeapAllocator.cpp:224-247 | the same, past a free block the walk merged |
| DeviceHeapAllocator.FirstFitIsFirst | source/core/DeviceHeapAllocator.cpp:214-248 | first fit: every free block of the coalesced heap before the one found, or every one when none is, is too small |
| DeviceHeapAllocator.FirstFitIsFirstAfterUsed | source/core/DeviceHeapAllocator.cpp:218-222 | the same, past a used block the walk skipped |
| DeviceHeapAllocator.FirstFitIsFirstAfterFree | source/core/DeviceHeapAllocator.cpp:224-247 | the same, past a free block the walk merged |
| DeviceHeapAllocator.FirstFitIsFirstAfterMerge | source/core/DeviceHeapAllocator.cpp:243-247 | the same, past a merged free block that was too small |
| DeviceHeapAllocator.ClaimTiles | source/core/DeviceHeapAllocator.cpp:258-271 | claiming a free boundary block keeps the heap tiled and the block a boundary |
| DeviceHeapAllocator.ClaimTilesHere | source/core/DeviceHeapAllocator.cpp:258-271 | the claimed block, split or not, is followed by the same tiling as before |
| DeviceHeapAllocator.ClaimKeepsUsed | source/core/DeviceHeapAllocator.cpp:258-271 | claiming a free block leaves every used block a boundary with the same header |
| DeviceHeapAllocator.ClaimKeepsLaterUsed | source/core/DeviceHeapAllocator.cpp:258-271 | the used blocks after the claimed one are still reached across it |
| DeviceHeapAllocator.ClaimSplitKeepsLaterUsed | source/core/DeviceHeapAllocator.cpp:263-271 | when the claimed block is split, the walk crosses the used part and then the free rest |
| DeviceHeapAllocator.BoundariesDisjoint | source/core/DeviceHeapAllocator.cpp:214-248 | distinct boundaries start disjoint blocks |
| DeviceHeapAllocator.AllocateTiles | source/core/DeviceHeapAllocator.cpp:196-277 | the heap stays tiled, and a block handed out is a used block inside the heap with the words the request needs |
| DeviceHeapAllocator.AllocateKeepsUsed | source/core/DeviceHeapAllocator.cpp:196-277 | every block in use before the call is still in use with the same header, and the block handed out does not overlap it |
| DeviceHeapAllocator.AllocateNullMeansNoFit | source/core/DeviceHeapAllocator.cpp:251-255 | NULL for a non-zero size means no free block of the coalesced heap is large enough |
| DeviceHeapAllocator.Release | source/core/DeviceHeapAllocator.cpp:348-351 | a zero or free header is a heap error; otherwise only that header changes, to free with the same size |
| DeviceHeapAllocator.ReleaseTiles | source/core/DeviceHeapAllocator.cpp:348-351 | freeing changes no size, so the heap tiles and reaches exactly as before |
| DeviceHeapAllocator.AllocateThenRelease | source/core/DeviceHeapAllocator.cpp:196-351 | a block handed out is accepted by free, which gives back a free boundary block with at least the words requested |
| DeviceHeapAllocator.DoubleRelease | source/core/DeviceHeapAllocator.cpp:348-349 | freeing the same block twice is a heap error the second time |
| DeviceHeapAllocator.ValidRangeWords | source/core/DeviceHeapAllocator.cpp:164-165 | a range that passes the check holds a whole number of words, at least two and fewer than the free flag |
| DeviceHeapAllocator.Heap.Address | source/core/DeviceHeapAllocator.cpp:276-276 | the address handed out follows the header word, is word aligned within the heap and maps back to that header |
| DeviceHeapAllocator.Heap.HeaderOf | source/core/DeviceHeapAllocator.cpp:331-331 | the header word of an address inside the heap is the word before it |
| DeviceHeapAllocator.Heap.constructor | source/core/DeviceHeapAllocator.cpp:171-172 | the heap records the bounds that passed the check |
| DeviceHeapAllocator.Heap.Initialise | source/core/DeviceHeapAllocator.cpp:134-139 | the whole heap becomes one free block, which tiles it |
| DeviceHeapAllocator.Heap.Coalesce | source/core/DeviceHeapAllocator.cpp:224-239 | the free block absorbs exactly the free run after it and only its header changes |
| DeviceHeapAllocator.Heap.FindBlock | source/core/DeviceHeapAllocator.cpp:214-248 | the search loop computes the first-fit walk: the same words and the same block |
| DeviceHeapAllocator.Heap.ClaimBlock | source/core/DeviceHeapAllocator.cpp:258-271 | the block found is marked used whole or split into a used part and a free rest |
| DeviceHeapAllocator.Heap.DeviceMalloc | source/core/DeviceHeapAllocator.cpp:196-277 | the heap after the call is the specification's; a pointer follows a used block large enough for a non-zero request, and NULL means a zero size or no room |
| DeviceHeapAllocator.Heap.ReleaseBlock | source/core/DeviceHeapAllocator.cpp:344-351 | a used header becomes free; a zero or free header panics with HEAP_ERROR and changes nothing |
| DeviceHeapAllocator.Owner | source/core/DeviceHeapAllocator.cpp:342-353 | the first heap whose bounds strictly contain the address, with none before it, or the number of heaps |
| DeviceHeapAllocator.HeapAllocator.constructor | source/core/DeviceHeapAllocator.cpp:67-68 | no heap and malloc not yet used |
| DeviceHeapAllocator.HeapAllocator.CreateHeap | source/core/DeviceHeapAllocator.cpp:157-186 | NO_RESOURCES at the maximum number of heaps, INVALID_PARAMETER for an empty, unaligned or too small range, otherwise OK with a new heap of one free block appended |
| DeviceHeapAllocator.HeapAllocator.TryHeap | source/core/DeviceHeapAllocator.cpp:300-307 | a pointer from a heap follows a used block large enough there; NULL means a zero size or that heap is full |
| DeviceHeapAllocator.HeapAllocator.SearchHeaps | source/core/DeviceHeapAllocator.cpp:298-318 | every heap before the one that hands out the pointer is full, later heaps are untouched, and no pointer means DEVICE_OOM |
| DeviceHeapAllocator.HeapAllocator.Malloc | source/core/DeviceHeapAllocator.cpp:286-321 | the first call creates the linker-placed heap; the pointer comes from the first heap with room; a zero size or no room panics with DEVICE_OOM |
| DeviceHeapAllocator.HeapAllocator.Free | source/core/DeviceHeapAllocator.cpp:328-357 | NULL is ignored; a pointer inside a heap frees its used block or panics with HEAP_ERROR; a pointer outside every heap panics; no other heap changes |
| MultiButton.OtherSubButton | source/drivers/MultiButton.cpp:74-77 | button2 for button1 and button1 for every other id |
| MultiButton.SubFlag | source/drivers/MultiButton.cpp:86-131 | the flag of the named sub-button is non-zero exactly when it is set, the value being the flag's own bit; 0 for an id that is neither sub-button |
| MultiButton.Put | source/drivers/MultiButton.cpp:144-147 | the flag is set exactly when asked and no other flag changes |
| MultiButton.WithFlag | source/drivers/MultiButton.cpp:140-209 | only the flag of the named sub-button changes, to the value given; an id that is neither sub-button changes nothing |
| MultiButton.ReadAfterWrite | source/drivers/MultiButton.cpp:140-209 | setting a sub-button's flag and reading it back gives the value set |
| MultiButton.WriteKeepsOthers | source/drivers/MultiButton.cpp:140-209 | setting one flag leaves every other flag of both sub-buttons, and with distinct sub-buttons the same flag of the other one, as it was |
| MultiButton.IsPressed | source/drivers/MultiButton.cpp:300-303 | 1 exactly when both pressed bits are set, otherwise 0 |
| MultiButton.IsPressedMeansBoth | source/drivers/MultiButton.cpp:300-303 | the multi-button is pressed exactly when each of two distinct sub-buttons is |
| MultiButton.ClickOf | source/drivers/MultiButton.cpp:274-277 | LONG_CLICK when held, otherwise CLICK, on the given source |
| MultiButton.Released | source/drivers/MultiButton.cpp:260-284 | a release raises at most two events, counts no click, and leaves the released sub-button with no flag set |
| MultiButton.Respond | source/drivers/MultiButton.cpp:236-287 | an event other than DOWN, HOLD or UP changes nothing; a click is counted only on DOWN, together with the multi-button's own DOWN |
| MultiButton.DownJoinsChord | source/drivers/MultiButton.cpp:243-251 | DOWN marks the sub-button pressed; the multi-button raises DOWN and counts a click exactly when the other sub-button is already pressed |
| MultiButton.HoldJoinsChord | source/drivers/MultiButton.cpp:253-258 | HOLD marks the sub-button held and raises the multi-button's HOLD exactly when the other one is held too |
| MultiButton.UpEndsChord | source/drivers/MultiButton.cpp:261-271 | a release while the other sub-button is pressed raises UP, then LONG_CLICK if both were held and CLICK otherwise, and suppresses the other one |
| MultiButton.UpAlone | source/drivers/MultiButton.cpp:272-278 | a lone release raises the sub-button's own CLICK or LONG_CLICK exactly when it is not suppressed and all events are configured; the other sub-button's flags are kept |
| MultiButton.Run | source/drivers/MultiButton.cpp:236-287 | a sequence of events counts at most one click per event |
| MultiButton.ChordClick | source/drivers/MultiButton.cpp:236-287 | press A, press B, release A, release B raises DOWN, UP and CLICK on the multi-button, counts one click and clears every bit, whatever the configuration |
| MultiButton.LoneClick | source/drivers/MultiButton.cpp:236-287 | a lone press and release raises the sub-button's CLICK only with all events configured, and counts no click |
| MultiButton.MultiButton.Wires | source/drivers/MultiButton.cpp:53-57 | the wiring holds the sub-button ids and the multi-button's id |
| MultiButton.MultiButton.constructor | source/drivers/MultiButton.cpp:53-65 | every bit clear, no clicks, simple events, and both sub-buttons listened to when there is a default event bus |
| MultiButton.MultiButton.SetSubButtonFlag | source/drivers/MultiButton.cpp:140-209 | the status becomes the old one with the flag of the named sub-button set or cleared |
| MultiButton.MultiButton.SetEventConfiguration | source/drivers/MultiButton.cpp:225-228 | the configuration is the one given |
| MultiButton.MultiButton.OnButtonEvent | source/drivers/MultiButton.cpp:236-287 | the status and the raised events are those of the response to the event, and the click count grows by one, with 16-bit wrap-around, exactly when a chord starts |
| MultiButton.MultiButton.IsVirtuallyPressed | source/drivers/MultiButton.cpp:300-303 | 1 exactly when both sub-buttons are marked pressed |
| TouchButton.StartCalibration | source/drivers/TouchButton.cpp:76-83 | calibration starts: the counter holds the period and the maximum is zero |
| TouchButton.Sense | source/drivers/TouchButton.cpp:109-129 | outside calibration the reading is stored; during it the counter comes down and the maximum keeps the larger reading, and the last sample adds the margins and ends calibration |
| TouchButton.Peak | source/drivers/TouchButton.cpp:114-114 | the running maximum from zero is at least every reading and is zero or one of them |
| TouchButton.CalibrationProgress | source/drivers/TouchButton.cpp:109-125 | part way through calibration the counter has come down by the samples taken and the maximum is their peak |
| TouchButton.CalibrationOutcome | source/drivers/TouchButton.cpp:47-129 | a full period of readings ends calibration with the peak plus the percentage and linear margins as threshold, and the button is never active meanwhile |
| TouchButton.CalibrationEnds | source/drivers/TouchButton.cpp:109-125 | the period's last reading ends calibration with the margins added to the peak |
| TouchButton.LastSample | source/drivers/TouchButton.cpp:118-122 | the sample that brings the counter to zero adds 5 percent and the linear offset to the maximum |
| TouchButton.Button.constructor | source/drivers/TouchButton.cpp:47-59 | a non-negative threshold is kept with a zero reading; a negative one starts calibration |
| TouchButton.Button.Calibrate | source/drivers/TouchButton.cpp:76-83 | the state becomes the start of a calibration period |
| TouchButton.Button.SetValue | source/drivers/TouchButton.cpp:109-129 | the state becomes the one the sensed reading gives |
| TouchButton.Button.ButtonActive | source/drivers/TouchButton.cpp:65-71 | 0 while calibrating, otherwise 1 exactly when the reading reaches the threshold |
| TouchButton.Button.SetThreshold | source/drivers/TouchButton.cpp:91-94 | only the threshold changes |
| CapTouchButton.YLine | source/drivers/CapTouchButton.cpp:75-80 | a Y line exactly for PA02..PA07, which map to 0..5, and PB02..PB09, which map to 8..15; any other pin has none |
| CapTouchButton.YLineInjective | source/drivers/CapTouchButton.cpp:75-80 | different pins never share a Y line |
| CapTouchButton.Button.constructor | source/drivers/CapTouchButton.cpp:51-86 | a pin without a Y line panics with code 0 before any calibration; otherwise the pin's Y line, and a calibration started when the threshold is negative |
| CapTouchButton.Button.Calibrate | source/drivers/CapTouchButton.cpp:120-127 | the state becomes the start of a calibration period |
| CapTouchButton.Button.SetValue | source/drivers/CapTouchButton.cpp:154-178 | the state becomes the one the sensed reading gives, with the configured percentage and linear margins |
| CapTouchButton.Button.ButtonActive | source/drivers/CapTouchButton.cpp:109-115 | 0 while calibrating, otherwise 1 exactly when the reading reaches the threshold |
| CapTouchButton.Button.SetThreshold | source/drivers/CapTouchButton.cpp:136-139 | only the threshold changes |
| TouchSensor.RemoveAsWritten | source/drivers/TouchSensor.cpp:88-104 | as written: INVALID_PARAMETER exactly for a button that is not live; removing a live button from a full table reads past its end; on OK the count drops by one |
| TouchSensor.FirstIndex | source/drivers/TouchSensor.cpp:91-93 | the first slot holding the button |
| TouchSensor.RemoveAsWrittenLosesLast | source/drivers/TouchSensor.cpp:95-97 | as written, removing the first of three buttons leaves a null entry among the live ones and loses the third button |
| TouchSensor.RemoveAsWrittenFullTable | source/drivers/TouchSensor.cpp:95-97 | as written, removing a button from a full table of ten reads the slot past its end |
| TouchSensor.Sensor.constructor | source/drivers/TouchSensor.cpp:41-59 | no live buttons and every slot NULL |
| TouchSensor.Sensor.AddTouchButton | source/drivers/TouchSensor.cpp:64-83 | NO_RESOURCES when full, INVALID_PARAMETER for a button already present, otherwise OK with the button appended; the live buttons never repeat |
| TouchSensor.Sensor.RemoveTouchButton | source/drivers/TouchSensor.cpp:88-104 | corrected: INVALID_PARAMETER for an absent button; a present one leaves the live buttons, the others stay, and the count drops by one |
| TouchSensor.Sensor.FillFromLast | source/drivers/TouchSensor.cpp:95-97 | corrected: the hole is filled with the last live entry and the count drops by one, removing exactly that button |
| TouchSensor.RemovedByLast | source/drivers/TouchSensor.cpp:95-97 | moving the last entry into the hole and dropping the last slot removes exactly that entry and keeps the others free of repeats |
| TouchSensor.RemovedMultiset | source/drivers/TouchSensor.cpp:95-97 | the table after moving the last entry into the hole is the old one less the removed button, as a multiset |
| LIS3DH.FirstAtLeast | source/drivers/LIS3DH.cpp:56-62 | the first table entry not below the request, every entry before it being below, or the table length when none is |
| LIS3DH.Nearest | source/drivers/LIS3DH.cpp:55-72 | the smallest entry not below the request, or the largest entry when every one is below it |
| LIS3DH.FirstAtLeastIs | source/drivers/LIS3DH.cpp:56-62 | an index with every entry before it below the request and itself not below is the first such entry |
| LIS3DH.NearestIndex | source/drivers/LIS3DH.cpp:55-62 | the downward search loop over an ascending table lands on the nearest entry |
| LIS3DH.SettledPeriod | source/drivers/LIS3DH.cpp:55-75 | the stored period after configure is one of 2, 5, 10, 20, 40, 100 and 1000 ms |
| LIS3DH.SettledRange | source/drivers/LIS3DH.cpp:65-76 | the stored range after configure is one of 2, 4, 8 and 16 g |
| LIS3DH.PeriodFixed | source/drivers/LIS3DH.cpp:739-747 | a period the driver reports settles on itself |
| LIS3DH.RangeFixed | source/drivers/LIS3DH.cpp:732-737 | a range the driver reports settles on itself |
| LIS3DH.SettledIdempotent | source/drivers/LIS3DH.cpp:490-535 | setting the period or range that the driver reports changes nothing |
| LIS3DH.Or7 | source/drivers/LIS3DH.cpp:81-81 | or-ing 0x07 sets the three low bits and keeps the rest |
| LIS3DH.OrientationIsRotation | source/drivers/LIS3DH.cpp:548-616 | each coordinate system is a rotation of the raw axes: the raw sample is recovered, the magnitude is the same, and north-east-down is simple cartesian turned |
| LIS3DH.Scaled | source/drivers/LIS3DH.cpp:257-276 | one scaled axis is the signed MSB times 8 times the range, and fits in 16 bits |
| LIS3DH.Decay | source/drivers/LIS3DH.cpp:361-380 | the decay of the shake history keeps its invariant and never raises the count |
| LIS3DH.Crossings | source/drivers/LIS3DH.cpp:326-342 | exactly the axes with a strong reading opposite to their recorded sign flip that sign, nothing else changes, and a shake is detected exactly when one does |
| LIS3DH.ShakeCounting | source/drivers/LIS3DH.cpp:318-380 | the shake count stays within its threshold and rises by at most one; SHAKE is reported exactly when a crossing brings the count up to the threshold |
| LIS3DH.CountedKeepsInv | source/drivers/LIS3DH.cpp:345-358 | a detected crossing counts up to the threshold, which reports SHAKE, keeping the invariant |
| LIS3DH.Posture | source/drivers/LIS3DH.cpp:382-404 | the posture is one of the gesture codes from NONE to FREEFALL |
| LIS3DH.PosturePriority | source/drivers/LIS3DH.cpp:382-404 | freefall exactly when the force is below its threshold, then tilt left, face down and none exactly when their own test holds and every earlier one fails; no freefall while an axis is strongly tilted |
| LIS3DH.ImpulseNoImmediateRepeat | source/drivers/LIS3DH.cpp:416-443 | an impulse event is never raised on two consecutive updates, and raising one resets the impulse count |
| LIS3DH.FilterStep | source/drivers/LIS3DH.cpp:449-472 | a SHAKE posture is raised at once and leaves the filter as it was |
| LIS3DH.UpdateGestureKeepsInv | source/drivers/LIS3DH.cpp:411-473 | the gesture tracker's invariant survives every update |
| LIS3DH.FilterCountsRun | source/drivers/LIS3DH.cpp:456-465 | the filter's current posture is what the last sigma + 1 postures fed to it were |
| LIS3DH.GestureNeedsStableRun | source/drivers/LIS3DH.cpp:456-472 | a gesture event fires only after GESTURE_DAMPING equal postures in a row |
| LIS3DH.SigmaBoundedByFed | source/drivers/LIS3DH.cpp:456-465 | the stability counter never exceeds the number of postures fed since it was zero |
| LIS3DH.CountCrossing | source/drivers/LIS3DH.cpp:345-358 | the counting statements compute the counting part of the shake phase |
| LIS3DH.Accelerometer.constructor | source/drivers/LIS3DH.cpp:170-197 | 20 ms at 2 g, no gesture yet, the impulse events latched |
| LIS3DH.Accelerometer.WriteRegisters | source/drivers/LIS3DH.cpp:81-100 | the writes go in order and stop at the first that fails; OK exactly when all four succeed, otherwise I2C_ERROR |
| LIS3DH.Accelerometer.Configure | source/drivers/LIS3DH.cpp:48-101 | period and range settle on the nearest table entries, then the four control registers for them are written, stopping at the first failure |
| LIS3DH.Accelerometer.SetPeriod | source/drivers/LIS3DH.cpp:490-494 | the request, cut to 16 bits, settles on the nearest period; the range settles too; OK exactly when every write succeeds |
| LIS3DH.Accelerometer.SetRange | source/drivers/LIS3DH.cpp:521-525 | the request, cut to 8 bits, settles on the nearest range; the period settles too; OK exactly when every write succeeds |
| LIS3DH.Accelerometer.UpdateSample | source/drivers/LIS3DH.cpp:234-289 | with the interrupt line high and the read good, the sample is the MSBs times 8 times the range, pitch and roll become stale and the gesture recogniser runs; a failed read is I2C_ERROR; otherwise nothing but the idle tick changes |
| LIS3DH.Accelerometer.InstantaneousPosture | source/drivers/LIS3DH.cpp:316-405 | the shake history after the shake phase, and SHAKE when that phase reports it, otherwise the posture of the sample |
| LIS3DH.Accelerometer.UpdateGestures | source/drivers/LIS3DH.cpp:411-473 | the tracker and the raised events are those of the impulse phase, the shake phase and the filter |
| LIS3DH.ImpulsePhase | source/drivers/LIS3DH.cpp:416-443 | the impulse statements agree with the impulse step of the gesture specification: each of the 3g, 6g and 8g events is raised once until the damping period clears the flags |
| LIS3DH.FilterPhase | source/drivers/LIS3DH.cpp:449-472 | the filtering statements agree with the filter step of the gesture specification: a shake is raised at once, any other posture only after it has been seen for the damping count |
| MbedPin.Clear | target/MBED_CLASSIC/source/MbedPin.cpp:561-561 | clearing a flag leaves it unset |
| MbedPin.ServoDefaults | target/MBED_CLASSIC/source/MbedPin.cpp:245-268 | with the default range and center, 0 degrees gives 500 us, 90 gives 1500 us and 180 gives 2500 us |
| MbedPin.ServoPulseBounds | target/MBED_CLASSIC/source/MbedPin.cpp:255-267 | the pulse lies between the lower end of the range and the lower end plus the range, and every value above 180 gives the pulse of 180 |
| MbedPin.ServoFitsModerate | target/MBED_CLASSIC/source/MbedPin.cpp:258-264 | with a range and a center of at most 1000000 us, the lower end times 1000, the scaled offset and their sum all fit in a 32-bit `int`, for every value |
| MbedPin.ServoOverflowAccepted | target/MBED_CLASSIC/source/MbedPin.cpp:251-259 | the arguments 90, 180 and a center of 3000000 pass the checks of line 252, yet the lower end times 1000 does not fit in a 32-bit `int` |
| MbedPin.ServoPulseMonotone | target/MBED_CLASSIC/source/MbedPin.cpp:255-267 | the pulse never decreases as the requested angle grows |
| MbedPin.Pin.constructor | target/MBED_CLASSIC/source/MbedPin.cpp:57-66 | a new pin is disconnected, with no pull mode |
| MbedPin.Pin.Disconnect | target/MBED_CLASSIC/source/MbedPin.cpp:73-100 | every mode bit is cleared |
| MbedPin.Pin.SetDigitalValue | target/MBED_CLASSIC/source/MbedPin.cpp:115-136 | NOT_SUPPORTED without the digital capability, INVALID_PARAMETER for a value other than 0 or 1, otherwise OK with the pin a digital output driving the value |
| MbedPin.Pin.GetDigitalValue | target/MBED_CLASSIC/source/MbedPin.cpp:150-168 | NOT_SUPPORTED without the digital capability; otherwise the level read, the pin becoming a digital input unless it already reads digitally or watches edges |
| MbedPin.Pin.GetDigitalValueWithPull | target/MBED_CLASSIC/source/MbedPin.cpp:183-187 | the pull mode is recorded, then the pin reads as getDigitalValue |
| MbedPin.Pin.ObtainAnalogChannel | target/MBED_CLASSIC/source/MbedPin.cpp:189-199 | the pin becomes an analogue output; a new PWM channel at the initial period unless the pin already drives one |
| MbedPin.Pin.SetAnalogValue | target/MBED_CLASSIC/source/MbedPin.cpp:209-226 | NOT_SUPPORTED without the digital capability, INVALID_PARAMETER outside 0..1023, otherwise OK with the pin an analogue output at that level |
| MbedPin.Pin.SetServoPulseUs | target/MBED_CLASSIC/source/MbedPin.cpp:384-405 | NOT_SUPPORTED without the analogue capability, INVALID_PARAMETER for a negative width, otherwise an analogue output at the default period with that pulse |
| MbedPin.Pin.SetServoValue | target/MBED_CLASSIC/source/MbedPin.cpp:245-268 | argument checks, then the pulse the servo arithmetic computes is driven, a negative one being refused |
| MbedPin.Pin.GetAnalogValue | target/MBED_CLASSIC/source/MbedPin.cpp:281-296 | NOT_SUPPORTED without the analogue capability; otherwise the pin becomes an analogue input and the 16-bit reading is cut to 10 bits |
| MbedPin.Pin.IsInput | target/MBED_CLASSIC/source/MbedPin.cpp:303-306 | 1 exactly for a digital or analogue input, otherwise 0 |
| MbedPin.Pin.IsOutput | target/MBED_CLASSIC/source/MbedPin.cpp:313-316 | 1 exactly for a digital or analogue output, otherwise 0 |
| MbedPin.Pin.IsDigital | target/MBED_CLASSIC/source/MbedPin.cpp:323-326 | 1 exactly for a digital input or output, otherwise 0 |
| MbedPin.Pin.IsAnalog | target/MBED_CLASSIC/source/MbedPin.cpp:333-336 | 1 exactly for an analogue input or output, otherwise 0 |
| MbedPin.Pin.IsTouched | target/MBED_CLASSIC/source/MbedPin.cpp:359-373 | NOT_SUPPORTED without the digital capability; otherwise the pin becomes a touch input and reports the button |
| MbedPin.Pin.SetAnalogPeriodUs | target/MBED_CLASSIC/source/MbedPin.cpp:414-427 | an analogue output, or a digital-capable pin first set to level 0, gets the period; otherwise NOT_SUPPORTED |
| MbedPin.Pin.SetAnalogPeriod | target/MBED_CLASSIC/source/MbedPin.cpp:437-440 | the same with the period in milliseconds times 1000 |
| MbedPin.Pin.GetAnalogPeriodUs | target/MBED_CLASSIC/source/MbedPin.cpp:448-454 | the PWM period on an analogue output, otherwise NOT_SUPPORTED |
| MbedPin.Pin.GetAnalogPeriod | target/MBED_CLASSIC/source/MbedPin.cpp:462-465 | the period in microseconds divided by 1000 on an analogue output |
| MbedPin.Pin.SetPull | target/MBED_CLASSIC/source/MbedPin.cpp:475-492 | the pull mode is always recorded; OK only on a digital input or an edge or pulse pin, otherwise NOT_SUPPORTED |
| MbedPin.Pin.PulseWidthEvent | target/MBED_CLASSIC/source/MbedPin.cpp:500-513 | the time since the previous edge is reported unless there was none, and the edge time is recorded |
| MbedPin.Pin.OnRise | target/MBED_CLASSIC/source/MbedPin.cpp:518-525 | a rise ends a low pulse in pulse mode or is reported in edge mode, and nothing happens otherwise |
| MbedPin.Pin.OnFall | target/MBED_CLASSIC/source/MbedPin.cpp:530-537 | a fall ends a high pulse in pulse mode or is reported in edge mode, and nothing happens otherwise |
| MbedPin.Pin.EnableRiseFallEvents | target/MBED_CLASSIC/source/MbedPin.cpp:548-570 | exactly the requested edge or pulse bit is set, or none; a pin not yet watching edges starts with no previous edge |
| MbedPin.Pin.DisableEvents | target/MBED_CLASSIC/source/MbedPin.cpp:578-584 | an edge, pulse or touch pin is disconnected and any other is left as it is |
| MbedPin.Pin.EventOn | target/MBED_CLASSIC/source/MbedPin.cpp:615-637 | INVALID_PARAMETER for an unknown type with nothing changed; otherwise OK with the edge, pulse or touch mode selected, or every event mode cleared |
| MbedPin.ModesExclusive | target/MBED_CLASSIC/source/MbedPin.cpp:303-336 | in every status a pin can hold, input and output exclude each other, as do digital and analogue, and a disconnected pin is none of them |
| CodalUSB.Total | source/core/CodalUSB.cpp:139-162 | the endpoints a list of interfaces consumes: none for an empty list, the sum of their endpoint counts otherwise |
| CodalUSB.DescriptorTotal | source/core/CodalUSB.cpp:39-46 | the sum of the interfaces' descriptor sizes, each at most 0xFFFF |
| CodalUSB.Starts | source/core/CodalUSB.cpp:125-132 | the first endpoint of each interface when numbering starts at `first`: consecutive ranges, the first at `first`, the last ending at `first` plus the total |
| CodalUSB.StartsOrdered | source/core/CodalUSB.cpp:125-132 | the endpoint range of an interface lies wholly before that of every later interface |
| CodalUSB.StartsBelowTotal | source/core/CodalUSB.cpp:125-134 | every interface's endpoints lie below the first endpoint plus the total, the count the closing assertion compares with |
| CodalUSB.OwnerUnique | source/core/CodalUSB.cpp:195-211 | at most one interface owns a given endpoint number |
| CodalUSB.NoOwnerBelowFirst | source/core/CodalUSB.cpp:191-211 | the control endpoint 0 (and anything below the first numbered endpoint) belongs to no interface |
| CodalUSB.Usb.constructor | source/core/CodalUSB.cpp:97-103 | a new device has no interfaces, one endpoint in use (the control endpoint) and is not initialised |
| CodalUSB.Usb.Add | source/core/CodalUSB.cpp:139-162 | an interface whose endpoints would exceed the hardware's count is refused with NO_RESOURCES and nothing changes; otherwise it is linked in at the front of the list and its endpoints are counted as used |
| CodalUSB.Usb.ConfigureEndpoints | source/core/CodalUSB.cpp:113-137 | each interface, in list order, gets the next unused endpoint as its first; the device becomes initialised and the interfaces and count are unchanged |
| CodalUSB.Usb.EndpointRequest | source/core/CodalUSB.cpp:186-214 | a request for endpoint e reaches the one interface owning e and returns OK; NOT_SUPPORTED exactly when no interface owns e |
| CodalUSB.Usb.SendConfig | source/core/CodalUSB.cpp:32-69 | the configuration descriptor is the static header with the 16-bit total length and 8-bit interface count filled in; the length sent is the header plus every interface descriptor, and the closing assertion holds exactly when that length fits 16 bits |
| CodalUSB.Usb.SendDescriptors | source/core/CodalUSB.cpp:71-95 | a configuration request sends the configuration; a device request sends the device descriptor; a string request past the last string is NOT_SUPPORTED and sends nothing, otherwise sends that string; any other type sends nothing and returns OK |
| CodalUSB.Usb.Start | source/core/CodalUSB.cpp:216-228 | with no hardware endpoints start is NOT_SUPPORTED and changes nothing; otherwise the device is initialised once, with endpoints numbered from 1, and a second start changes nothing |
| SAMD21DMAC.AlignedBase | source/device/SAMD21/SAMD21DMAC.cpp:34-37 | the descriptor base is the first multiple of the 16-byte alignment at or above the buffer start |
| SAMD21DMAC.DeclaredBufferOverrun | source/device/SAMD21/SAMD21DMAC.cpp:32-61 | with the buffer declared for COUNT + 1 descriptors, the last channel descriptor (index 2 * COUNT - 1) lies past the end of the buffer wherever it starts |
| SAMD21DMAC.DeclaredClearZeroesPointer | source/device/SAMD21/SAMD21DMAC.cpp:32-39 | with the declared buffer, the 2 * COUNT descriptors the constructor clears always cover the four bytes after the buffer, where `descriptors` is kept (inc/device/SAMD21/SAMD21DMAC.h:22-23), so the stored table pointer is zeroed wherever the buffer starts |
| SAMD21DMAC.DeclaredChannelsOutside | source/device/SAMD21/SAMD21DMAC.cpp:79-85 | with the declared buffer, the descriptor of a channel that fits is one of channels 0 and 1, so channels 2 and 3 always lie outside it; channels 0 and 1 fit when the buffer is already aligned |
| SAMD21DMAC.NeededBufferFits | source/device/SAMD21/SAMD21DMAC.cpp:32-61 | with room for 2 * COUNT descriptors plus the alignment slack, every descriptor the driver addresses fits in the buffer |
| SAMD21DMAC.DescriptorIndex | source/device/SAMD21/SAMD21DMAC.cpp:79-85 | a channel number from 0 to COUNT - 1 selects its own entry in the upper half of the table; a channel of COUNT or more selects entry 0; a negative channel passes the `channel < COUNT` test and selects entry channel + COUNT |
| SAMD21DMAC.DescriptorsDistinct | source/device/SAMD21/SAMD21DMAC.cpp:79-85 | distinct channels have distinct descriptors |
| SAMD21DMAC.FirstFree | source/device/SAMD21/SAMD21DMAC.cpp:93-102 | the lowest channel whose VALID bit is clear, every lower one being set; -1 exactly when all are set |
| SAMD21DMAC.FirstFreeFrom | source/device/SAMD21/SAMD21DMAC.cpp:93-102 | the lowest clear channel at or after a position, or -1 when all from there on are set |
| SAMD21DMAC.Dmac.constructor | source/device/SAMD21/SAMD21DMAC.cpp:32-61 | corrected: with the buffer of `NeededBufferFits`, the table starts at the aligned base, every descriptor lies in the buffer and is cleared, and no component is registered |
| SAMD21DMAC.Dmac.DescriptorAddress | source/device/SAMD21/SAMD21DMAC.cpp:79-85 | corrected: with the buffer of `NeededBufferFits`, the descriptor returned for a valid channel is aligned to the descriptor size and lies inside the buffer |
| SAMD21DMAC.Dmac.AllocateChannel | source/device/SAMD21/SAMD21DMAC.cpp:91-103 | marks VALID and returns the lowest free channel, changing no other descriptor; NO_RESOURCES and nothing changed when every channel is taken |
| SAMD21DMAC.Dmac.OnTransferComplete | source/device/SAMD21/SAMD21DMAC.cpp:113-120 | a channel number of COUNT or more is INVALID_PARAMETER and nothing changes; otherwise the component is registered for that channel alone |
| SAMD21DMAC.Dmac.Handler | source/device/SAMD21/SAMD21DMAC.cpp:11-23 | the component registered for the pending channel is the one notified, and the channel selection is restored afterwards |
| SAMD21DMAC.NoDoubleAllocation | source/device/SAMD21/SAMD21DMAC.cpp:91-103 | a channel just handed out is not handed out again while its VALID bit stays set |
| CodalDmesg.Shifted | source/core/CodalDmesg.cpp:16-21 | once the pointer reaches the last quarter the oldest quarter is dropped; the rest is kept in order and leaves room below the last quarter |
| CodalDmesg.Appended | source/core/CodalDmesg.cpp:14-30 | after a write the log is the shifted log followed by the chunk, or by the too-long notice when the chunk does not fit before the terminator; the log always fits the buffer |
| CodalDmesg.TooLongWrittenOnce | source/core/CodalDmesg.cpp:22-26 | the too-long notice is written by a nested write that neither shifts again nor finds the notice too long |
| CodalDmesg.ShortChunkFits | source/core/CodalDmesg.cpp:14-30 | a chunk no longer than a quarter of the buffer is always written as given |
| CodalDmesg.AppendAll | source/core/CodalDmesg.cpp:53-68 | writing several chunks in turn keeps the log within the buffer, and writing none leaves it unchanged |
| CodalDmesg.AppendAllConcat | source/core/CodalDmesg.cpp:53-68 | writing two runs of chunks is writing the first then the second |
| CodalDmesg.HexChar | source/core/CodalDmesg.cpp:46 | each nibble value has an upper-case hex digit, '0' exactly for zero |
| CodalDmesg.HexDigitValue | source/core/CodalDmesg.cpp:46 | a hex digit's value is the nibble whose digit it is |
| CodalDmesg.HexFixed | source/core/CodalDmesg.cpp:37-51 | the low digits of a number as a fixed-width string of hex digits |
| CodalDmesg.DropZeros | source/core/CodalDmesg.cpp:44 | the string without its leading zeros: a suffix that does not start with '0', all dropped characters being '0' |
| CodalDmesg.HexFixedDigit | source/core/CodalDmesg.cpp:41-49 | digit k from the right is the nibble the shift by 4k selects |
| CodalDmesg.HexFixedValue | source/core/CodalDmesg.cpp:37-51 | reading the fixed-width digits back gives the number |
| CodalDmesg.DropZerosValue | source/core/CodalDmesg.cpp:44 | dropping leading zeros does not change the value |
| CodalDmesg.HexTextRoundTrip | source/core/CodalDmesg.cpp:37-51 | the rendering is hex digits whose value is the number: eight digits when full, otherwise one to eight without a leading zero unless the number is 0 |
| CodalDmesg.NumChunks | source/core/CodalDmesg.cpp:53-68 | a hex number is written as "0x" then digits whose value is the number; a decimal one as the rendering of the word read as a signed int |
| CodalDmesg.DirectiveChunks | source/core/CodalDmesg.cpp:88-109 | every directive character writes at least one chunk |
| CodalDmesg.AfterDirective | source/core/CodalDmesg.cpp:84-110 | after a '%' the scan moves past the directive character but never past the end of the format |
| CodalDmesg.Scan | source/core/CodalDmesg.cpp:78-115 | corrected: the chunks of a message always end with the newline, and a trailing '%' ends the scan |
| CodalDmesg.PlainFormat | source/core/CodalDmesg.cpp:78-115 | a format without '%' takes no argument and is written as itself then a newline |
| CodalDmesg.PercentConsumesArgument | source/core/CodalDmesg.cpp:84-104 | "%%" writes one '%' and still consumes an argument |
| CodalDmesg.NextTestAsWritten | source/core/CodalDmesg.cpp:82-111 | the loop's next test after a '%' comes two characters on, whatever the second is |
| CodalDmesg.TrailingPercentOverrun | source/core/CodalDmesg.cpp:82-111 | a format ending in '%' takes the terminator as its directive character and the next test reads the byte after the terminator |
| CodalDmesg.TrailingPercentStops | source/core/CodalDmesg.cpp:82-111 | corrected: a format ending in '%' ("50%") writes "50", "???" for the missing directive character and the newline, consuming one argument, and the scan ends there |
| CodalDmesg.ScanLiteralStep | source/core/CodalDmesg.cpp:82-84 | a character other than '%' only advances the scan |
| CodalDmesg.ScanDirectiveStep | source/core/CodalDmesg.cpp:84-110 | a '%' writes the pending literal text and the directive's rendering and consumes one argument |
| CodalDmesg.ScanEnd | source/core/CodalDmesg.cpp:113-114 | at the end the remaining literal text and a newline are written |
| CodalDmesg.NibbleAt | source/core/CodalDmesg.cpp:43 | the shift-and-mask selects a value below 16 |
| CodalDmesg.NibbleStep | source/core/CodalDmesg.cpp:41-49 | one turn of the digit loop emits the nibble unless it is a leading zero of a short rendering |
| CodalDmesg.NibbleDigit | source/core/CodalDmesg.cpp:43-47 | the same turn stated for the digit of the k-th nibble from the top |
| CodalDmesg.WriteNum | source/core/CodalDmesg.cpp:37-51 | the loop writes exactly the hex rendering: eight digits when full, else without leading zeros but at least one digit |
| CodalDmesg.LogStore.Log | source/core/CodalDmesg.cpp:8 | the log's contents always fit the buffer with room for the terminator |
| CodalDmesg.LogStore.constructor | source/core/CodalDmesg.cpp:8 | the store starts empty and terminated |
| CodalDmesg.LogStore.ShiftOut | source/core/CodalDmesg.cpp:16-21 | the memmove leaves the shifted log, with the pointer below the last quarter |
| CodalDmesg.LogStore.CopyIn | source/core/CodalDmesg.cpp:27-29 | a chunk that fits is appended and the log stays terminated |
| CodalDmesg.LogStore.LogWriteN | source/core/CodalDmesg.cpp:14-30 | the log becomes the appended log of the specification, terminated |
| CodalDmesg.LogStore.LogWriteNum | source/core/CodalDmesg.cpp:53-68 | the log receives the chunks of the number's rendering in order |
| CodalDmesg.LogStore.WriteDirective | source/core/CodalDmesg.cpp:88-109 | the log receives the directive's rendering |
| CodalDmesg.LogStore.WriteSegment | source/core/CodalDmesg.cpp:84-110 | the log receives the literal text before the directive, then its rendering |
| CodalDmesg.LogStore.WriteEnd | source/core/CodalDmesg.cpp:113-114 | the log receives the remaining text and the newline |
| CodalDmesg.LogStore.ScanStep | source/core/CodalDmesg.cpp:82-112 | corrected: one turn of the loop advances the scan, never past the terminator, and keeps the log equal to the chunks emitted so far, with the rest of the message still to come |
| CodalDmesg.LogStore.VDmesg | source/core/CodalDmesg.cpp:70-115 | corrected: the log receives exactly the chunks `Scan` gives for the format and arguments |

## Left out

- Output and process control in the Python scripts are left out. That covers printing, JSON formatting, `exit` messages, `os.chdir`, cmake and make, `build`, `delete_build_folder`, `generate_docs`, `status` and `printstatus`.
- Git is an input. The model takes the text git prints: the porcelain status, `rev-parse HEAD`, the current branch, the default branch that `git remote show origin` names, the log, and the `target.json` found at a revision. Only the tests the scripts apply to that text are modelled, such as the substring tests for "ahead" and "HEAD detached".
- A command's exit status is a parameter of the step that runs it.
- The text of the build script's `ls` listing is left out. Its exit status is modelled, including the KeyError (status 1) on an entry without a name or `info`.
- Hardware registers, I2C, USB and DMA transfers, PWM objects, interrupts and clocks are left out. What they would read is passed in, and what they would write is recorded.
- Fiber context switching is left out: `invoke`, saving and restoring contexts, `launch_new_fiber`, creating and releasing fibers, and `idle`/`idle_task`.
- DeviceFiber.Scheduler.Schedule: the do-not-page case keeps the old fiber current. The idle loop that follows in the source, idling until a fiber is runnable and then taking the run queue's head, is left out.
- DeviceFiber.Scheduler.GetFiberContext: a NULL from a failed allocation is not modelled. A context is always obtained.
- The fiber queues are sequences held by the scheduler, not `prev`/`next` pointers. Pointer aliasing between queues is therefore not captured. That each fiber is on at most one queue is an invariant instead.
- CodalDevice.Device.Random: the rejection loop is bounded by a number of attempts (fuel). Running out of attempts returns None, which the source never does.
- MbedTimer.Timer.ProcessEvents: models one pass from `START`. The `goto START` repetition is returned to the caller as `Restart` rather than looped.
- DeviceHeapAllocator.h is not part of this model. Its constants come from CODAL: two heaps at most, and the FREE bit 0x80000000.
- `calloc`, `realloc`, `_malloc_r`/`_free_r` and `device_heap_print` are not modelled. They forward to `malloc`/`free` or only print.
- The base-class virtual stubs of Timer.h and SystemClock.h are left out. They only return NOT_SUPPORTED or do nothing.
- Of `EventModel`'s overloads, the templated member-function form of `listen` is modelled with a target and member identity. The parameterised `listen`/`ignore` overload and the member `ignore` overload are not modelled.
- DataStream.Stream.PullRequest: the blocking wait for space is not modelled, and neither is the fiber that waits. The `writers` count is always 0.
- Synthesizer.Synth.Generate: the frequency setter (floating point) is left out. The product `amplitude * position` is taken unbounded, because Synthesizer.h declares no `position` or `periodNs` field to give their width.
- LIS3DH.cpp's pitch and roll (floating point), `whoAmI` and the I2C transport are left out.
- LIS3DH.cpp's `getX`, `getY` and `getZ` call `updateSample` before reading. The model maps the last sample and leaves that read to `UpdateSample`.
- `TouchSensor::onSampleEvent` (a pin-timing loop) is left out. `TouchButton::getValue` and the destructors' removal from the sensor are left out too.
- CapTouchButton's peripheral and clock setup, `update` and its event listening are left out. Only the pin mapping, the panic for a pin without a Y line and the calibration are modelled. The panic is recorded as a code; the halt that follows it is not modelled.
- MultiButton.MultiButton.OnButtonEvent: the status word is two sets of flags, one per sub-button, rather than a 16-bit field. The button's `AbstractButton` base is a field rather than a base class.
- Events the message bus would deliver are recorded in sequences rather than dispatched.
- DeviceComponent.Registry: listener registration is a boolean. The message bus it registers with is not modelled.
- CodalUSB.Usb: DEVICE_USB_ENDPOINTS comes from a vendor header, so it is a class parameter.
- `getInstance` is left out: it is a process-wide singleton.
- `classRequest` is left out: it forwards the request to every interface and returns OK.
- `isInitialised` is the `initialised` field.
- The interfaces' own descriptors and endpoint setup are left out. An interface is its identity, endpoint count and descriptor size.
- MorseCode: the message is a parameter, and the 5-second sleep and the display are left out.
- OOB_v3.cpp's `pow` frequency and bar graph are left out (floating point). The model stops at the semitone offset.
- The serial output of DeepSleepTest.cpp is left out.
- MbedPin.Pin.SetServoValue: the servo arithmetic (target/MBED_CLASSIC/source/MbedPin.cpp:259-264) is taken over unbounded integers. In the source `(center - range / 2) * 1000` and `range * (value / 180)` are C `int` expressions that overflow, with undefined behaviour, once the lower end or the range passes 2147483; the checks at line 252 accept such arguments, as `MbedPin.ServoOverflowAccepted` shows. The model's pulse is the source's only where `MbedPin.ServoFitsInt32` holds, which `MbedPin.ServoFitsModerate` proves for a range and center up to 1000000 us.
- MbedPin.ServoPulseBounds: the bound is proved for the exact arithmetic, for every size of range and center; for the source it holds where `MbedPin.ServoFitsInt32` holds.
- MbedPin.Pin: the `DynamicPwm` and `DigitalIn` objects are left out. Whether the PWM channel is still the pin's own is a parameter.
- EventReady (`DeviceTimer.Timer.EventReady`): re-adding a repeating event, the corrected, ordered insertion of `SystemClock.ClockAdded` is used. As written (inc/core/SystemClock.h:37-40) the event is linked after the first entry due no earlier, so the list can fall out of order and a late event can sit behind the head, never armed because the head's delay is what `processEvents` examines (source/device/DeviceTimer.cpp:42-56). `SystemClock.ClockAddedAsWrittenOutOfOrder` and `DeviceTimer.OverdueNotArmed` show that behaviour; this member does not promise it.
- FireHead (`DeviceTimer.Timer.FireHead`): re-adding a repeating event, the corrected, ordered insertion of `SystemClock.ClockAdded` is used. As written (inc/core/SystemClock.h:37-40) the event is linked after the first entry due no earlier, so the list can fall out of order and a late event can sit behind the head, never armed because the head's delay is what `processEvents` examines (source/device/DeviceTimer.cpp:42-56). `SystemClock.ClockAddedAsWrittenOutOfOrder` and `DeviceTimer.OverdueNotArmed` show that behaviour; this member does not promise it.
- ConfigureEvent (`DeviceTimer.Timer.ConfigureEvent`): the corrected, ordered insertion of `SystemClock.ClockAdded` is used. As written (inc/core/SystemClock.h:37-40) the event is linked after the first entry due no earlier, so the list can fall out of order and a late event can sit behind the head, never armed because the head's delay is what `processEvents` examines (source/device/DeviceTimer.cpp:42-56). `SystemClock.ClockAddedAsWrittenOutOfOrder` and `DeviceTimer.OverdueNotArmed` show that behaviour; this member does not promise it.
- EventAfterUs (`DeviceTimer.Timer.EventAfterUs`): the corrected, ordered insertion of `SystemClock.ClockAdded` is used. As written (inc/core/SystemClock.h:37-40) the event is linked after the first entry due no earlier, so the list can fall out of order and a late event can sit behind the head, never armed because the head's delay is what `processEvents` examines (source/device/DeviceTimer.cpp:42-56). `SystemClock.ClockAddedAsWrittenOutOfOrder` and `DeviceTimer.OverdueNotArmed` show that behaviour; this member does not promise it.
- EventAfter (`DeviceTimer.Timer.EventAfter`): the corrected, ordered insertion of `SystemClock.ClockAdded` is used. As written (inc/core/SystemClock.h:37-40) the event is linked after the first entry due no earlier, so the list can fall out of order and a late event can sit behind the head, never armed because the head's delay is what `processEvents` examines (source/device/DeviceTimer.cpp:42-56). `SystemClock.ClockAddedAsWrittenOutOfOrder` and `DeviceTimer.OverdueNotArmed` show that behaviour; this member does not promise it.
- EventEveryUs (`DeviceTimer.Timer.EventEveryUs`): the corrected, ordered insertion of `SystemClock.ClockAdded` is used. As written (inc/core/SystemClock.h:37-40) the event is linked after the first entry due no earlier, so the list can fall out of order and a late event can sit behind the head, never armed because the head's delay is what `processEvents` examines (source/device/DeviceTimer.cpp:42-56). `SystemClock.ClockAddedAsWrittenOutOfOrder` and `DeviceTimer.OverdueNotArmed` show that behaviour; this member does not promise it.
- EventEvery (`DeviceTimer.Timer.EventEvery`): the corrected, ordered insertion of `SystemClock.ClockAdded` is used. As written (inc/core/SystemClock.h:37-40) the event is linked after the first entry due no earlier, so the list can fall out of order and a late event can sit behind the head, never armed because the head's delay is what `processEvents` examines (source/device/DeviceTimer.cpp:42-56). `SystemClock.ClockAddedAsWrittenOutOfOrder` and `DeviceTimer.OverdueNotArmed` show that behaviour; this member does not promise it.
- AddToList (`SystemClock.ClockList.AddToList`): the corrected, ordered insertion of `SystemClock.ClockAdded` is used. As written (inc/core/SystemClock.h:19-41) `list_add` links the event after the first entry due no earlier, so an event due at 3 added to a list holding one due at 5 gives [5, 3], as `SystemClock.ClockAddedAsWrittenOutOfOrder` shows; this member does not promise that order.
- NewClockEvent (`SystemClock.ClockList.NewClockEvent`): the constructor (inc/core/SystemClock.h:53-61) calls the as-written `addToList`; the model links the event with the corrected `SystemClock.ClockAdded` instead. `SystemClock.ClockAddedAsWrittenOutOfOrder` is the as-written half, and `SystemClock.ClockAddedAsWrittenGrows` shows that the as-written insertion also grows the list by one.
- ProcessEvents (`DeviceTimer.Timer.ProcessEvents`): works on the ordered list the corrected insertion keeps, where the head is the next event due. The out-of-order list of the insertion as written is not modelled here.
- ConfigureEvent (`MbedTimer.Timer.ConfigureEvent`): the corrected `addToList` of `TimerEvents.Added` is used, so the event is always in the list afterwards. As written (inc/core/Timer.h:44-73), replacing the only pending event that has the same id and value drops the new event and leaves the list empty, as `TimerEvents.AddedAsWrittenDropsEvent` shows; this member does not model that loss.
- EventAfterUs (`MbedTimer.Timer.EventAfterUs`): the corrected `addToList` of `TimerEvents.Added` is used, so the event is always in the list afterwards. As written (inc/core/Timer.h:44-73), replacing the only pending event that has the same id and value drops the new event and leaves the list empty, as `TimerEvents.AddedAsWrittenDropsEvent` shows; this member does not model that loss.
- EventAfter (`MbedTimer.Timer.EventAfter`): the corrected `addToList` of `TimerEvents.Added` is used, so the event is always in the list afterwards. As written (inc/core/Timer.h:44-73), replacing the only pending event that has the same id and value drops the new event and leaves the list empty, as `TimerEvents.AddedAsWrittenDropsEvent` shows; this member does not model that loss.
- EventEveryUs (`MbedTimer.Timer.EventEveryUs`): the corrected `addToList` of `TimerEvents.Added` is used, so the event is always in the list afterwards. As written (inc/core/Timer.h:44-73), replacing the only pending event that has the same id and value drops the new event and leaves the list empty, as `TimerEvents.AddedAsWrittenDropsEvent` shows; this member does not model that loss.
- EventEvery (`MbedTimer.Timer.EventEvery`): the corrected `addToList` of `TimerEvents.Added` is used, so the event is always in the list afterwards. As written (inc/core/Timer.h:44-73), replacing the only pending event that has the same id and value drops the new event and leaves the list empty, as `TimerEvents.AddedAsWrittenDropsEvent` shows; this member does not model that loss.
- NewEvent (`TimerEvents.EventList.NewEvent`): the corrected `addToList` of `TimerEvents.Added` is used, so the event is always in the list afterwards. As written (inc/core/Timer.h:44-73), replacing the only pending event that has the same id and value drops the new event and leaves the list empty, as `TimerEvents.AddedAsWrittenDropsEvent` shows; this member does not model that loss.
- AddToList (`TimerEvents.EventList.AddToList`): the corrected `addToList` of `TimerEvents.Added` is used, so the event is always in the list afterwards. As written (inc/core/Timer.h:44-73), replacing the only pending event that has the same id and value drops the new event and leaves the list empty, as `TimerEvents.AddedAsWrittenDropsEvent` shows; this member does not model that loss.
- Choose (`BuildScript.Choose`): `device_url` is optional. As written (build.py:211) `del json_obj["device_url"]` raises a KeyError, which exits with 1, for a chosen entry without it. `BuildScript.ChooseAsWritten` and `BuildScript.BuildDir.SelectAsWritten` model that; this member does not.
- Select (`BuildScript.BuildDir.Select`): chooses as `Choose` does, so a chosen entry without `device_url` is written to `codal.json` where the script as written stops with a KeyError.
- Configure (`BuildScript.BuildDir.Configure`): chooses with `Select`, so a chosen entry without `device_url` goes on to the build where the script as written exits with 1.
- RemoveTouchButton (`TouchSensor.Sensor.RemoveTouchButton`): fills the hole from the last live entry. As written (source/drivers/TouchSensor.cpp:95-97) it copies `buttons[numberOfButtons]`, one past the last live entry. That loses a button, and on a full table it reads past the array. `TouchSensor.RemoveAsWritten` models that; this member does not.
- FillFromLast (`TouchSensor.Sensor.FillFromLast`): the corrected fill from the last live entry. The copy from one past it, as written, is modelled only by `TouchSensor.RemoveAsWritten`.
- Scan (`CodalDmesg.Scan`): a trailing '%' ends the scan. As written (source/core/CodalDmesg.cpp:84-111) the terminator is taken as the directive character and the loop goes on reading the bytes after it, as `CodalDmesg.TrailingPercentOverrun` shows. What those bytes would add to the log is undefined and is not modelled.
- ScanStep (`CodalDmesg.LogStore.ScanStep`): follows the corrected `Scan`, so the read past the terminator that a trailing '%' causes as written is not modelled.
- VDmesg (`CodalDmesg.LogStore.VDmesg`): follows the corrected `Scan`, so the read past the terminator that a trailing '%' causes as written is not modelled.
- LockCodal (`Workspace.Workspace.LockCodal`): uses the corrected version search of `CodalUtils.NextVersion`. As written (utils/python/codal_utils.py:128) the suffix group cannot read a branch name with '/', so each branch lock on such a branch proposes the same version again, as `CodalUtils.SlashBranchRepeatsAsWritten` shows. This member does not model that repeat.
- ParseAsWritten (`CodalUtils.ParseAsWritten`): `\w`, `\d` and `\s` are the ASCII classes. codal_utils.py runs under Python 3 on a `str` log, where these classes also match non-ASCII letters, digits and white space. A log with such characters around a `Snapshot` line is not modelled. build.py is Python 2 and matches bytes, where the ASCII classes are exact.
- Parse (`CodalUtils.Parse`): the same restriction to the ASCII classes as `ParseAsWritten`.
- Dmac.constructor (`SAMD21DMAC.Dmac.constructor`): the buffer is taken with room for 2 * COUNT descriptors plus the alignment slack (144 bytes). As declared (inc/device/SAMD21/SAMD21DMAC.h:22) it holds 96 bytes, so the 128-byte clear at source/device/SAMD21/SAMD21DMAC.cpp:39 runs past its end and zeroes the `descriptors` pointer stored right after it, as `SAMD21DMAC.DeclaredClearZeroesPointer` shows. The zeroed pointer and the other bytes overwritten are not modelled here.
- DescriptorAddress (`SAMD21DMAC.Dmac.DescriptorAddress`): "lies inside the buffer" is stated for the 144-byte buffer. In the declared 96-byte buffer the entries of channels 2 and 3 always lie outside it, as `SAMD21DMAC.DeclaredChannelsOutside` shows, and the base is read from the pointer the constructor zeroed.
- LIS3DH.Accelerometer.constructor: `shake.shaken` starts false. The constructor (source/drivers/LIS3DH.cpp:186-193) never sets it, so it starts with whatever the object's memory held.

## Findings

| source | as written | input that shows it | evidently intended | confidence | as-written member | corrected member |
|---|---|---|---|---|---|---|
| inc/core/SystemClock.h:30-42 | the new event is linked in after the first entry due at or after it | pending events due at 5; add one due at 3: the list becomes [5, 3] | insert before that entry, so the list stays ascending and its head is the next event due | high, not executed | SystemClock.ClockAddedAsWrittenOutOfOrder | SystemClock.ClockAddedAscending |
| inc/core/Timer.h:44-73 | when removing the duplicates empties the list, the insertion loop never runs and the event is not added | re-add (7, 1) at 50 while the only pending event is (7, 1) at 100: the list ends empty | the event replaces its duplicates and is always in the list afterwards | high, not executed | TimerEvents.AddedAsWrittenDropsEvent | TimerEvents.AddedProperties |
| source/drivers/TouchSensor.cpp:95-97 | the hole is filled from `buttons[numberOfButtons]`, one past the last live entry, before the count drops | buttons [11, 22, 33], remove 11: the live entries become [0, 22] and 33 is lost | fill the hole from `buttons[numberOfButtons - 1]`, as the comment says | high, not executed | TouchSensor.RemoveAsWrittenLosesLast | TouchSensor.Sensor.FillFromLast |
| source/drivers/LevelDetector.cpp:147-148 | `setLowThreshold(highThreshold - 1)` on 16-bit values wraps when HIGH is set to 0 | LOW 10, HIGH 100, then `setHighThreshold(0)`: LOW becomes 65535, above HIGH 0 | LOW is lowered to at most HIGH, so LOW stays no higher than HIGH | medium, not executed | LevelDetector.HighZeroInvertsThresholds | LevelDetector.Detector.SetHighThreshold |
| source/drivers/Synthesizer.cpp:100-103 | the check tests the stored `bufferSize`, not the argument | `setBufferSize(0)` is accepted, after which `setBufferSize(512)` is refused | refuse a non-positive argument and keep the stored size | high, not executed | Synthesizer.SetBufferSizeLocksUp | Synthesizer.Synth.SetBufferSize |
| source/device/SAMD21/SAMD21DMAC.cpp:32-61 | the buffer is declared with room for COUNT + 1 descriptors, but entries up to 2 * COUNT - 1 are cleared and used | COUNT 4: the constructor's 128-byte clear overruns the 96-byte buffer and zeroes the `descriptors` pointer that follows it (inc/device/SAMD21/SAMD21DMAC.h:22-23); the descriptors of channels 2 and 3, which `allocateChannel` reads and writes, lie past the end of the buffer wherever it starts | room for 2 * COUNT descriptors plus the alignment slack | high, not executed | SAMD21DMAC.DeclaredClearZeroesPointer | SAMD21DMAC.NeededBufferFits |
| source/core/CodalDmesg.cpp:84-111 | after a '%' the directive character is consumed unconditionally, even when it is the terminator | format "50%": the NUL is taken as the directive and the loop's next test reads the byte after it | stop at the terminator | high, not executed | CodalDmesg.TrailingPercentOverrun | CodalDmesg.TrailingPercentStops |
| utils/python/codal_utils.py:128-144 | the suffix group `[\w\-]+` cannot read a branch name with '/', so the counter of such a branch is never read back | after a branch lock on `feature/x` committed `-feature/x.0`, the next branch lock proposes `-feature/x.0` again | read the suffix as `(-(\S+)\.(\d+))?`, so the next lock proposes `-feature/x.1` | medium, not executed | CodalUtils.SlashBranchRepeatsAsWritten | CodalUtils.SlashBranchAdvances |
| build.py:206-212 | `del json_obj["device_url"]` raises a KeyError when the entry has no `device_url` | a catalog whose only entry has a name and `info` but no `device_url` | remove `device_url` when present, as for the listing | medium, not executed | BuildScript.DeviceUrlOptional | BuildScript.Choose |

=== FILE: abstract_button.dfy ===
/**
 * source/drivers/AbstractButton.cpp: what every button shares, a count of
 * completed clicks that `wasPressed` hands out and clears. The count is a
 * 16-bit unsigned field, so an increment wraps at 2^16.
 */
module AbstractButton {
  import opened CTypes

  class Button {
    /** The clicks counted since the last `wasPressed`. */
    var clickCount: u16

    constructor()
      ensures clickCount == 0
    {
      clickCount := 0;
    }

    /** The base class knows of no physical input, so it never reports a press. */
    function IsPressed(): (r: int)
      ensures r == 0
    {
      0
    }

    /** Counts one more click, wrapping as the 16-bit field does. */
    method Click()
      modifies this
      ensures clickCount == ToU16(old(clickCount) + 1)
      ensures old(clickCount) < 0xFFFF ==> clickCount == old(clickCount) + 1
      ensures old(clickCount) == 0xFFFF ==> clickCount == 0
    {
      clickCount := ToU16(clickCount + 1);
    }

    /** `wasPressed`: the clicks counted so far; the count starts again from zero. */
    method WasPressed() returns (c: int)
      modifies this
      ensures c == old(clickCount) && clickCount == 0
    {
      var count := clickCount;
      clickCount := 0;
      c := count;
    }
  }

  /** A second `wasPressed` straight after the first reports no clicks. */
  method WasPressedTwice(b: Button) returns (first: int, second: int)
    modifies b
    ensures first == old(b.clickCount) && second == 0 && b.clickCount == 0
  {
    first := b.WasPressed();
    second := b.WasPressed();
  }
}

=== FILE: accelerometer_test.dfy ===
/** `g_to_pix` of source/samples/AccelerometerTest.cpp: an acceleration in milli-g to a display column 0..4. */
module AccelerometerTest {
  import opened CTypes

  /** Starts at the centre column and moves one step per threshold crossed. */
  function GToPix(g: i32): (v: int)
    ensures 0 <= v <= 4
    ensures v == 0 <==> g < -500
    ensures v == 1 <==> -500 <= g < -200
    ensures v == 2 <==> -200 <= g <= 200
    ensures v == 3 <==> 200 < g <= 500
    ensures v == 4 <==> 500 < g
  {
    var v := 2;
    var v := if g < -200 then v - 1 else v;
    var v := if g < -500 then v - 1 else v;
    var v := if g > 200 then v + 1 else v;
    if g > 500 then v + 1 else v
  }

  /** A larger acceleration never maps to a column further left. */
  lemma GToPixMonotone(a: i32, b: i32)
    requires a <= b
    ensures GToPix(a) <= GToPix(b)
  {
  }

  /** Negating the acceleration mirrors the column around the centre. */
  lemma GToPixSymmetric(g: i32)
    requires g > -0x8000_0000
    ensures GToPix(-g) == 4 - GToPix(g)
  {
  }
}

=== FILE: arith.dfy ===
/** Small facts about integer multiplication and division that the solver does not find alone. */
module Arith {
  /** 2 to the power k. */
  function Pow2(k: nat): (p: nat)
    ensures p >= 1
  {
    if k == 0 then 1 else 2 * Pow2(k - 1)
  }

  lemma MulNonneg(a: int, b: int)
    requires 0 <= a && 0 <= b
    ensures 0 <= a * b
  {
  }

  /** Euclidean division by a positive divisor is monotone on non-negative numbers. */
  lemma DivMonotone(x: int, y: int, d: int)
    requires 0 <= x <= y && 0 < d
    ensures 0 <= x / d <= y / d
  {
    var qx, qy, rx, ry := x / d, y / d, x % d, y % d;
    assert x == d * qx + rx && 0 <= rx < d;
    assert y == d * qy + ry && 0 <= ry < d;
    if qx > qy {
      var e := qx - qy - 1;
      MulNonneg(d, e);
      assert false;
    }
    if qx < 0 {
      assert false;
    }
  }

  /** Taking one divisor away lowers the quotient by one. */
  lemma DivLessOne(x: int, d: int)
    requires d > 0 && x / d >= 1
    ensures x >= d && (x - d) / d == x / d - 1
  {
    var q, r := x / d, x % d;
    assert x == d * q + r && 0 <= r < d;
    assert x - d == d * (q - 1) + r;
    MulNonneg(d, q - 1);
    DivUnique(x - d, d, q - 1, r);
  }

  /** The quotient and remainder are the only ones with x == d * q + r and 0 <= r < d. */
  lemma DivUnique(x: int, d: int, q: int, r: int)
    requires d > 0 && x == d * q + r && 0 <= r < d
    ensures x / d == q && x % d == r
  {
    var q', r' := x / d, x % d;
    assert x == d * q' + r' && 0 <= r' < d;
    if q' > q {
      MulNonneg(d, q' - q - 1);
      assert false;
    } else if q' < q {
      MulNonneg(d, q - q' - 1);
      assert false;
    }
  }

  /** A product of factors within bounds is within the product of the bounds. */
  lemma MulBounds(a: int, b: int, maxA: int, maxB: int)
    requires 0 <= a <= maxA && 0 <= b <= maxB
    ensures 0 <= a * b <= maxA * maxB
  {
    assert a * b <= maxA * b;
    assert maxA * b <= maxA * maxB;
  }

  /** Multiplication distributes over b * c + d. */
  lemma MulSpread(a: int, b: int, c: int, d: int)
    ensures a * (b * c + d) == (a * b) * c + a * d
  {
  }

  /** Dividing by a and then by b is dividing by a * b. */
  lemma DivDiv(n: int, a: int, b: int)
    requires n >= 0 && a > 0 && b > 0
    ensures n / a / b == n / (a * b)
  {
    var q, r := n / a, n % a;
    var q2, r2 := q / b, q % b;
    var ab, ar2 := a * b, a * r2;
    assert n == a * q + r && 0 <= r < a;
    assert q == b * q2 + r2 && 0 <= r2 < b;
    assert a * q == ab * q2 + ar2 by {
      MulSpread(a, b, q2, r2);
    }
    assert 0 <= ar2 by {
      MulNonneg(a, r2);
    }
    assert ar2 + r < ab by {
      MulNonneg(a, b - 1 - r2);
      MulSpread(a, b, 1, -1 - r2);
    }
    DivUnique(n, ab, q2, ar2 + r);
  }

  /** Adding one after reducing modulo m is adding one before. */
  lemma ModSucc(x: int, m: int)
    requires m > 0
    ensures (x % m + 1) % m == (x + 1) % m
  {
    var q, r := x / m, x % m;
    assert x == m * q + r && 0 <= r < m;
    if r + 1 < m {
      DivUnique(x + 1, m, q, r + 1);
      DivUnique(r + 1, m, 0, r + 1);
    } else {
      DivUnique(x + 1, m, q + 1, 0);
      DivUnique(r + 1, m, 1, 0);
    }
  }

  /** Stepping forward from k by the distance to j, modulo m, lands on j. */
  lemma ModDistance(k: int, j: int, m: int)
    requires 0 <= k < m && 0 <= j < m
    ensures (k + (j - k + m) % m) % m == j
  {
    if j >= k {
      DivUnique(j - k + m, m, 1, j - k);
      DivUnique(j, m, 0, j);
    } else {
      DivUnique(j - k + m, m, 0, j - k + m);
      DivUnique(j + m, m, 1, j);
    }
  }
}

=== FILE: build_script.dfy ===
/**
 * The version and target logic of the top-level build script: the next
 * snapshot version (a triple without a branch suffix), and the choice of a
 * target from the catalog, which writes `codal.json`.
 *
 * The catalog (`utils/targets.json`) is a list of JSON objects. A JSON value
 * is modelled by the few shapes the script tells apart: strings, booleans,
 * objects, and everything else as opaque text.
 */
module BuildScript {
  import opened Wrappers
  import opened SnapshotVersion

  /** `v%d.%d.%d` after one bump of the first `Snapshot vX.Y.Z` in the log; None is an exit with status 1. */
  function NextVersion(log: string, major: bool, minor: bool): (r: Option<string>)
    ensures r.None? <==> FindSnapshot(log).None?
    ensures r.Some? ==> |r.value| >= 6 && r.value[0] == 'v'
  {
    var m := FindSnapshot(log);
    if m.None? then None else Some(Render(Bump(m.value.version, major, minor)))
  }

  /**
   * The message `Snapshot <ver>` that a lock commits is read back as the
   * bumped triple, which is above the one the log named.
   */
  lemma {:induction false} NextVersionParses(log: string, major: bool, minor: bool)
    requires FindSnapshot(log).Some?
    ensures var t := FindSnapshot(log).value.version;
      var msg := "Snapshot " + NextVersion(log, major, minor).value;
      FindSnapshot(msg) == Some(TripleMatch(Bump(t, major, minor), |msg|)) && Below(t, Bump(t, major, minor))
  {
    var t := FindSnapshot(log).value.version;
    var b := Bump(t, major, minor);
    var msg := "Snapshot " + Render(b);
    assert At(msg, 0, msg);
    RenderParses(msg, 0, b);
    BumpIncreases(t, major, minor);
  }

  datatype Json = Str(s: string) | Bool(b: bool) | Obj(fields: map<string, Json>) | Other(text: string)

  /** One object of the catalog. */
  type Entry = map<string, Json>

  /** The entry carries the target name asked for (a name that is not a string never matches). */
  predicate Named(e: Entry, name: string)
  {
    "name" in e && e["name"] == Str(name)
  }

  /** Where the scan stops on e: a matching name, or no name at all (a KeyError). */
  predicate Stops(e: Entry, name: string)
  {
    "name" !in e || Named(e, name)
  }

  /** The index where the scan over the catalog from `from` stops, or |catalog| when it runs off the end. */
  function ScanFrom(catalog: seq<Entry>, name: string, from: nat): (i: nat)
    requires from <= |catalog|
    ensures from <= i <= |catalog|
    ensures i < |catalog| ==> Stops(catalog[i], name)
    ensures forall k :: from <= k < i ==> !Stops(catalog[k], name)
    decreases |catalog| - from
  {
    if from == |catalog| then from
    else if Stops(catalog[from], name) then from
    else ScanFrom(catalog, name, from + 1)
  }

  /** The entry as written to `codal.json`: without `device_url` and `info`, and with `dev` set under `-d`. */
  function Prepared(e: Entry, dev: bool): (r: Entry)
    ensures "device_url" !in r && "info" !in r
    ensures dev ==> "dev" in r && r["dev"] == Bool(true)
    ensures !dev ==> ("dev" in r <==> "dev" in e) && ("dev" in r ==> r["dev"] == e["dev"])
    ensures forall k :: k in e && k != "device_url" && k != "info" && k != "dev" ==> k in r && r[k] == e[k]
    ensures forall k :: k in r ==> k in e || k == "dev"
  {
    var kept := e - {"device_url", "info"};
    if dev then kept["dev" := Bool(true)] else kept
  }

  /** The outcome of choosing a target by name. */
  datatype Selected = Configured(index: nat) | NotFound | KeyError(key: string)

  /**
   * The choice with `device_url` optional, as the listing treats it: the
   * first entry with the name, a KeyError on an entry before it without a
   * name or on the chosen entry without `info`.
   */
  function Choose(catalog: seq<Entry>, name: string): (r: Selected)
    ensures r == NotFound <==> forall k :: 0 <= k < |catalog| ==> !Stops(catalog[k], name)
    ensures r.Configured? ==> r.index < |catalog| && Named(catalog[r.index], name) && "info" in catalog[r.index]
    ensures r.Configured? ==> forall k :: 0 <= k < r.index ==> !Named(catalog[k], name)
    ensures r.KeyError? ==> r.key == "name" || r.key == "info"
  {
    var i := ScanFrom(catalog, name, 0);
    if i == |catalog| then NotFound
    else if "name" !in catalog[i] then KeyError("name")
    else if "info" !in catalog[i] then KeyError("info")
    else Configured(i)
  }

  /** The choice as written: `del json_obj["device_url"]` also raises a KeyError when the key is absent. */
  function ChooseAsWritten(catalog: seq<Entry>, name: string): (r: Selected)
    ensures r.Configured? ==> Choose(catalog, name) == r && "device_url" in catalog[r.index]
    ensures r != Choose(catalog, name) ==>
      r == KeyError("device_url") && (Choose(catalog, name).Configured? || Choose(catalog, name) == KeyError("info"))
  {
    var i := ScanFrom(catalog, name, 0);
    if i == |catalog| then NotFound
    else if "name" !in catalog[i] then KeyError("name")
    else if "device_url" !in catalog[i] then KeyError("device_url")
    else if "info" !in catalog[i] then KeyError("info")
    else Configured(i)
  }

  /** A catalog whose only entry has no `device_url`: the listing shows it, but choosing it fails as written. */
  lemma DeviceUrlOptional(name: string, info: string, dev: bool)
    ensures var catalog := [map["name" := Str(name), "info" := Str(info)]];
      ChooseAsWritten(catalog, name) == KeyError("device_url") && Choose(catalog, name) == Configured(0)
  {
    var catalog := [map["name" := Str(name), "info" := Str(info)]];
    assert Stops(catalog[0], name);
  }

  /** Every entry has the `name` and `info` the listing prints. */
  predicate Listable(catalog: seq<Entry>)
  {
    forall k :: 0 <= k < |catalog| ==> "name" in catalog[k] && "info" in catalog[k]
  }

  /** A catalog that lists without a KeyError never makes the choice of a target fail with one. */
  lemma {:induction false} ListableChooses(catalog: seq<Entry>, name: string)
    requires Listable(catalog)
    ensures !Choose(catalog, name).KeyError?
  {
    var i := ScanFrom(catalog, name, 0);
    if i < |catalog| {
      assert "name" in catalog[i] && "info" in catalog[i];
    }
  }

  /** What the script does after the arguments are read. */
  datatype Outcome = Exit(status: nat) | Build | BuildAllTests

  /** The build directory's view of the catalog and of `codal.json`. */
  class BuildDir {
    /** The catalog as loaded; the chosen entry is changed in place. */
    var catalog: seq<Entry>
    /** The contents of `../codal.json`; None when the file does not exist. */
    var codalJson: Option<Json>

    constructor(catalog: seq<Entry>, codalJson: Option<Json>)
      ensures this.catalog == catalog && this.codalJson == codalJson
    {
      this.catalog := catalog;
      this.codalJson := codalJson;
    }

    /** The scan of the `for` loop: the first entry with the name, or one without a name. */
    method Find(name: string) returns (i: nat)
      ensures i == ScanFrom(catalog, name, 0)
    {
      i := 0;
      while i < |catalog| && !Stops(catalog[i], name)
        invariant i <= |catalog|
        invariant ScanFrom(catalog, name, i) == ScanFrom(catalog, name, 0)
      {
        i := i + 1;
      }
    }

    /**
     * The `ls` listing: every entry's name and info are printed in turn; an
     * entry without either ends the script with an uncaught KeyError,
     * status 1, and otherwise the script exits with 0.
     */
    method List() returns (status: nat)
      ensures status == 0 <==> Listable(catalog)
      ensures status == 0 || status == 1
    {
      var k := 0;
      while k < |catalog|
        invariant k <= |catalog|
        invariant forall j :: 0 <= j < k ==> "name" in catalog[j] && "info" in catalog[j]
      {
        if "name" !in catalog[k] || "info" !in catalog[k] {
          return 1;
        }
        k := k + 1;
      }
      status := 0;
    }

    /** Choose the target named `name`, with `device_url` optional. */
    method Select(name: string, dev: bool) returns (r: Selected)
      modifies this
      ensures r == Choose(old(catalog), name)
      ensures r.Configured? ==>
        catalog == old(catalog)[r.index := Prepared(old(catalog)[r.index], dev)] &&
        codalJson == Some(Obj(map["target" := Obj(catalog[r.index])]))
      ensures !r.Configured? ==> catalog == old(catalog) && codalJson == old(codalJson)
    {
      var i := Find(name);
      if i == |catalog| {
        return NotFound;
      }
      if "name" !in catalog[i] {
        return KeyError("name");
      }
      if "info" !in catalog[i] {
        return KeyError("info");
      }
      catalog := catalog[i := Prepared(catalog[i], dev)];
      codalJson := Some(Obj(map["target" := Obj(catalog[i])]));
      r := Configured(i);
    }

    /** The same as written, where an entry without `device_url` cannot be chosen. */
    method SelectAsWritten(name: string, dev: bool) returns (r: Selected)
      modifies this
      ensures r == ChooseAsWritten(old(catalog), name)
      ensures r.Configured? ==>
        catalog == old(catalog)[r.index := Prepared(old(catalog)[r.index], dev)] &&
        codalJson == Some(Obj(map["target" := Obj(catalog[r.index])]))
      ensures !r.Configured? ==> catalog == old(catalog) && codalJson == old(codalJson)
    {
      var i := Find(name);
      if i == |catalog| {
        return NotFound;
      }
      if "name" !in catalog[i] {
        return KeyError("name");
      }
      if "device_url" !in catalog[i] {
        return KeyError("device_url");
      }
      if "info" !in catalog[i] {
        return KeyError("info");
      }
      catalog := catalog[i := Prepared(catalog[i], dev)];
      codalJson := Some(Obj(map["target" := Obj(catalog[i])]));
      r := Configured(i);
    }

    /**
     * The positional arguments, then the check for `codal.json`: `ls` lists
     * and exits with 0, or 1 on an entry it cannot print, a name chooses a target, more than one argument and
     * an unknown name exit with 1; without `-t` a missing `codal.json` exits
     * with 1 and otherwise the build runs.
     */
    method Configure(args: seq<string>, dev: bool, testPlatforms: bool) returns (r: Outcome)
      modifies this
      ensures |args| > 1 ==> r == Exit(1) && catalog == old(catalog) && codalJson == old(codalJson)
      ensures |args| == 1 && args[0] == "ls" ==>
        r == Exit(if Listable(old(catalog)) then 0 else 1) && catalog == old(catalog) && codalJson == old(codalJson)
      ensures |args| == 1 && args[0] != "ls" && !Choose(old(catalog), args[0]).Configured? ==>
        r == Exit(1) && catalog == old(catalog) && codalJson == old(codalJson)
      ensures |args| == 1 && args[0] != "ls" && Choose(old(catalog), args[0]).Configured? ==>
        var i := Choose(old(catalog), args[0]).index;
        catalog == old(catalog)[i := Prepared(old(catalog)[i], dev)] &&
        codalJson == Some(Obj(map["target" := Obj(catalog[i])])) &&
        r == (if testPlatforms then BuildAllTests else Build)
      ensures |args| == 0 ==>
        (catalog == old(catalog) && codalJson == old(codalJson) &&
         r == (if testPlatforms then BuildAllTests else if codalJson.None? then Exit(1) else Build))
    {
      if |args| == 1 {
        if args[0] == "ls" {
          var status := List();
          return Exit(status);
        }
        var s := Select(args[0], dev);
        if !s.Configured? {
          return Exit(1);
        }
      } else if |args| > 1 {
        return Exit(1);
      }
      if testPlatforms {
        r := BuildAllTests;
      } else if codalJson.None? {
        r := Exit(1);
      } else {
        r := Build;
      }
    }
  }
}

=== FILE: c_types.dfy ===
/**
 * Fixed-width C integer types and the C operators whose meaning differs
 * from Dafny's unbounded, Euclidean arithmetic.
 */
module CTypes {
  type u8 = x: int | 0 <= x < 0x100
  type u16 = x: int | 0 <= x < 0x1_0000
  type u32 = x: int | 0 <= x < 0x1_0000_0000
  type u64 = x: int | 0 <= x < 0x1_0000_0000_0000_0000
  type i32 = x: int | -0x8000_0000 <= x < 0x8000_0000

  /** Conversion to an 8-bit unsigned field: keeps the low 8 bits. */
  function ToU8(x: int): (r: u8)
    ensures (r - x) % 0x100 == 0
    ensures 0 <= x < 0x100 ==> r == x
  {
    x % 0x100
  }

  /** Conversion to a 16-bit unsigned field: keeps the low 16 bits. */
  function ToU16(x: int): (r: u16)
    ensures (r - x) % 0x1_0000 == 0
    ensures 0 <= x < 0x1_0000 ==> r == x
  {
    x % 0x1_0000
  }

  /** Conversion to a 32-bit unsigned field: keeps the low 32 bits. */
  function ToU32(x: int): (r: u32)
    ensures (r - x) % 0x1_0000_0000 == 0
    ensures 0 <= x < 0x1_0000_0000 ==> r == x
  {
    x % 0x1_0000_0000
  }

  /** Conversion to a 64-bit unsigned field: keeps the low 64 bits. */
  function ToU64(x: int): (r: u64)
    ensures (r - x) % 0x1_0000_0000_0000_0000 == 0
    ensures 0 <= x < 0x1_0000_0000_0000_0000 ==> r == x
  {
    x % 0x1_0000_0000_0000_0000
  }

  /** Conversion to a 32-bit signed int: two's complement of the low 32 bits. */
  function ToI32(x: int): (r: i32)
    ensures (r - x) % 0x1_0000_0000 == 0
    ensures -0x8000_0000 <= x < 0x8000_0000 ==> r == x
  {
    var low := x % 0x1_0000_0000;
    if low < 0x8000_0000 then low else low - 0x1_0000_0000
  }

  /** C integer division: the quotient is truncated toward zero. */
  function CDiv(a: int, b: int): (q: int)
    requires b != 0
    ensures a >= 0 && b > 0 ==> q == a / b
    ensures a < 0 && b > 0 ==> q == -((-a) / b)
  {
    if (a >= 0) == (b > 0) then
      (if a >= 0 then a else -a) / (if b > 0 then b else -b)
    else
      -((if a >= 0 then a else -a) / (if b > 0 then b else -b))
  }

  /** C remainder: takes the sign of the dividend, and a == CDiv(a, b) * b + CRem(a, b). */
  function CRem(a: int, b: int): (r: int)
    requires b != 0
    ensures a == CDiv(a, b) * b + r
  {
    a - CDiv(a, b) * b
  }
}

=== FILE: cap_touch_button.dfy ===
/**
 * source/drivers/CapTouchButton.cpp: a touch button sensed by the SAMD21
 * peripheral touch controller. Its calibration is the one of
 * TouchButton; its own part is the choice of the controller's Y line from
 * the pin.
 */
module CapTouchButton {
  import opened Wrappers
  import opened TouchButton
  import CTypes

  /** SAMD21 pin numbers: port A pins are numbered from 0, port B pins from 32. */
  const PA02: int := 2
  const PA07: int := 7
  const PB02: int := 34
  const PB09: int := 41

  /**
   * The Y line of a pin: PA02..PA07 are lines 0..5 and PB02..PB09 lines
   * 8..15; any other pin has none, and the constructor panics.
   */
  function YLine(name: int): (y: Option<int>)
    ensures y.Some? <==> (PA02 <= name <= PA07 || PB02 <= name <= PB09)
    ensures y.Some? && name <= PA07 ==> y.value == name - PA02 && 0 <= y.value <= 5
    ensures y.Some? && name >= PB02 ==> 8 <= y.value <= 15
  {
    if PA02 <= name && name <= PA07 then Some(name - 2)
    else if PB02 <= name && name <= PB09 then Some((name - 32) + 6)
    else None
  }

  /** Different pins never share a Y line. */
  lemma YLineInjective(a: int, b: int)
    requires YLine(a).Some? && YLine(b).Some? && a != b
    ensures YLine(a).value != YLine(b).value
  {
  }

  class Button {
    var reading: int
    var threshold: int
    var calibrating: bool
    /** The Y line configured; None when the pin has none. */
    const yline: Option<int>
    /** The code the device panicked with, which halts it; None while it runs. */
    var panicCode: Option<int>
    /** The calibration constants, fixed per build. */
    const period: int
    const percent: int
    const linear: int

    function State(): Touch
      reads this
    {
      Touch(reading, threshold, calibrating)
    }

    /**
     * The constructor: the pin's Y line, and a calibration when the
     * threshold is negative. A pin without a Y line panics with code 0
     * before the calibration.
     */
    constructor (pinName: int, threshold: int, period: int, percent: int, linear: int)
      ensures yline == YLine(pinName)
      ensures this.period == period && this.percent == percent && this.linear == linear
      ensures yline.None? ==> panicCode == Some(0) && State() == Touch(0, threshold, false)
      ensures yline.Some? ==> panicCode == None
      ensures yline.Some? && threshold >= 0 ==> State() == Touch(0, threshold, false)
      ensures yline.Some? && threshold < 0 ==> State() == StartCalibration(Touch(0, threshold, false), period)
    {
      this.threshold := threshold;
      reading := 0;
      calibrating := false;
      this.period, this.percent, this.linear := period, percent, linear;
      yline := YLine(pinName);
      panicCode := None;
      new;
      if YLine(pinName).None? {
        panicCode := Some(0);
        return;
      }
      if threshold < 0 {
        Calibrate();
      }
    }

    method Calibrate()
      modifies this`reading, this`threshold, this`calibrating
      ensures State() == StartCalibration(old(State()), period)
    {
      reading := period;
      threshold := 0;
      calibrating := true;
    }

    method SetValue(r: int)
      modifies this
      ensures State() == Sense(old(State()), r, percent, linear)
    {
      if calibrating {
        threshold := Max(threshold, r);
        reading := reading - 1;
        if reading == 0 {
          threshold := threshold + CTypes.CDiv(threshold * percent, 100) + linear;
          calibrating := false;
        }
        return;
      }
      reading := r;
    }

    method ButtonActive() returns (active: int)
      ensures active == (if IsActive(State()) then 1 else 0)
    {
      if calibrating {
        return 0;
      }
      active := if reading >= threshold then 1 else 0;
    }

    method SetThreshold(threshold: int)
      modifies this`threshold
      ensures State() == old(State()).(threshold := threshold)
    {
      this.threshold := threshold;
    }
  }
}

=== FILE: codal_compat.dfy ===
/** The inline helpers of inc/core/CodalCompat.h. */
module CodalCompat {
  import opened CTypes

  /** `min(a, b)`: the smaller argument. */
  function Min(a: int, b: int): (r: int)
    ensures r <= a && r <= b
    ensures r == a || r == b
  {
    if a < b then a else b
  }

  /** `max(a, b)`: the larger argument. */
  function Max(a: int, b: int): (r: int)
    ensures r >= a && r >= b
    ensures r == a || r == b
  {
    if a > b then a else b
  }

  /** `isdigit(c)`: the character code lies strictly between 47 and 58. */
  predicate IsDigit(c: char)
    ensures IsDigit(c) <==> '0' <= c <= '9'
  {
    c as int > 47 && c as int < 58
  }

  /** `high(val)`: the upper byte of a 16-bit value (`val >> 8`, a shift of a non-negative value). */
  function High(v: u16): (r: u8)
    ensures r * 0x100 <= v < (r + 1) * 0x100
  {
    v / 0x100
  }

  /**
   * `low(val)`: the lower byte of a 16-bit value (`val & 0xFF`). Its
   * contract is the round trip: upper byte times 256 plus lower byte is `val`.
   */
  function Low(v: u16): (r: u8)
    ensures High(v) * 0x100 + r == v
  {
    v % 0x100
  }
}

=== FILE: codal_device.dfy ===
/**
 * source/core/CodalDevice.cpp and inc/core/CodalDevice.h: the device-wide
 * services every CODAL target inherits. The part with logic is `random`, a
 * 32-bit linear feedback shift register (LFSR) stepped once per result bit,
 * with rejection of values above the requested range; `seedRandom` and
 * `getSerialNumber` are the defaults a target overrides.
 *
 * The register is a `bv32`; result bits are gathered as a natural number.
 * The rejection loop is not known to terminate for every seed, so the model
 * bounds it by a number of attempts and reports running out of them.
 */
module CodalDevice {
  import opened CTypes
  import opened ErrorNo
  import opened Wrappers
  import opened Arith

  /** The default seed handed to the LFSR. */
  function SeedRandom(): (seed: bv32)
    ensures seed != 0
  {
    0xCAFECAFE
  }

  /** The default serial number: no hardware identifier, so 0. */
  function GetSerialNumber(): (id: u32)
    ensures id == 0
  {
    0
  }

  /** One LFSR step: bit 31 takes the parity of taps 31, 6, 4, 2, 1 and 0; the rest shift down by one. */
  function Step(rnd: bv32): (next: bv32)
    ensures Unstep(next) == rnd
    ensures next & 0x7FFF_FFFF == rnd >> 1
  {
    StepBits(rnd);
    ((((rnd >> 31) ^ (rnd >> 6) ^ (rnd >> 4) ^ (rnd >> 2) ^ (rnd >> 1) ^ rnd) & 1) << 31) | (rnd >> 1)
  }

  /** The facts about one step, on the step written out, where the solver works on the bits alone. */
  lemma StepBits(rnd: bv32)
    ensures var next := ((((rnd >> 31) ^ (rnd >> 6) ^ (rnd >> 4) ^ (rnd >> 2) ^ (rnd >> 1) ^ rnd) & 1) << 31) | (rnd >> 1);
      Unstep(next) == rnd && next & 0x7FFF_FFFF == rnd >> 1
  {
  }

  /** The state a step came from: bits 1..31 are the shifted bits, bit 0 is recovered from the parity. */
  function Unstep(next: bv32): (rnd: bv32)
  {
    (next << 1) | (((next >> 31) ^ (next >> 30) ^ (next >> 5) ^ (next >> 3) ^ (next >> 1) ^ next) & 1)
  }

  /** Every state has exactly one predecessor: the step is a permutation of the 2^32 states. */
  lemma StepOfUnstep(next: bv32)
    ensures Step(Unstep(next)) == next
  {
  }

  /** The state after k steps. */
  function Iterate(s: bv32, k: nat): (t: bv32)
  {
    if k == 0 then s else Step(Iterate(s, k - 1))
  }

  /** The all-zero state is a fixed point, and no other state ever reaches it. */
  lemma {:induction false} ZeroOnlyFromZero(s: bv32, k: nat)
    ensures Iterate(s, k) == 0 <==> s == 0
  {
    if k > 0 {
      ZeroOnlyFromZero(s, k - 1);
      var prev := Iterate(s, k - 1);
      assert Step(prev) == 0 <==> prev == 0 by {
        assert Unstep(Step(prev)) == prev;
        assert Step(0) == 0;
      }
    }
  }

  /** The bit each step contributes to the result: bit 0 of the new state. */
  function Bit(s: bv32): (b: nat)
    ensures b <= 1
    ensures b == 1 <==> s & 1 == 1
  {
    if s & 1 == 1 then 1 else 0
  }

  /** The number gathered from k steps, most significant bit first, and the state reached. */
  datatype Draw = Draw(value: nat, state: bv32)

  function Draws(s: bv32, k: nat): (d: Draw)
    ensures d.value < Pow2(k)
    ensures d.state == Iterate(s, k)
  {
    if k == 0 then Draw(0, s)
    else
      var prev := Draws(s, k - 1);
      var next := Step(prev.state);
      Draw(2 * prev.value + Bit(next), next)
  }

  /** The number of binary digits of m (0 for 0). */
  function Digits(m: nat): (k: nat)
    ensures m < Pow2(k)
    ensures m > 0 ==> k > 0 && Pow2(k - 1) <= m
  {
    if m == 0 then 0 else 1 + Digits(m / 2)
  }

  /** One more step appends the low bit of the next state. */
  lemma DrawsNext(s: bv32, k: nat)
    ensures Draws(s, k + 1) == Draw(2 * Draws(s, k).value + Bit(Step(Draws(s, k).state)), Step(Draws(s, k).state))
  {
  }

  /** Halving a positive number drops one digit. */
  lemma DigitsHalf(m: nat)
    ensures m > 0 ==> Digits(m) == 1 + Digits(m / 2)
  {
  }

  /**
   * The steps one attempt takes: the inner loop runs once and then once more
   * for each bit left after shifting m right, so as many times as m has
   * bits, and at least once.
   */
  function Steps(m: nat): (k: nat)
    ensures k >= 1 && m < Pow2(k)
    ensures m > 0 ==> k == Digits(m)
    ensures m == 0 ==> k == 1
  {
    1 + Digits(m / 2)
  }

  /** One attempt at a number no larger than m. */
  function Attempt(s: bv32, m: nat): (d: Draw)
    ensures d.value < Pow2(Steps(m))
    ensures d.state == Iterate(s, Steps(m))
  {
    Draws(s, Steps(m))
  }

  /** What `random` returns and leaves in the register, when it settles within `fuel` attempts. */
  datatype Outcome = Outcome(value: Option<int>, state: bv32)

  /** Attempts repeat until one is no larger than m; None when `fuel` attempts were all rejected. */
  function Rejection(s: bv32, m: nat, fuel: nat): (o: Outcome)
    ensures o.value.Some? ==> 0 <= o.value.value <= m
    ensures o.value.None? ==> o.state == Iterate(s, Rounds(fuel, Steps(m)))
    decreases fuel
  {
    if fuel == 0 then Outcome(None, s)
    else
      var a := Attempt(s, m);
      if a.value <= m then Outcome(Some(a.value), a.state)
      else
        var o := Rejection(a.state, m, fuel - 1);
        IterateRounds(s, Steps(m), fuel);
        o
  }

  lemma {:induction false} IterateAdd(s: bv32, j: nat, k: nat)
    ensures Iterate(Iterate(s, j), k) == Iterate(s, j + k)
  {
    if k > 0 {
      IterateAdd(s, j, k - 1);
    }
  }

  /** The number of steps in `rounds` rounds of `k` steps. */
  function Rounds(rounds: nat, k: nat): nat
  {
    rounds * k
  }

  /** `rounds` rounds of `k` steps: one round followed by the other rounds - 1. */
  lemma IterateRounds(s: bv32, k: nat, rounds: nat)
    requires rounds >= 1
    ensures Iterate(Iterate(s, k), Rounds(rounds - 1, k)) == Iterate(s, Rounds(rounds, k))
  {
    assert Rounds(rounds, k) == k + Rounds(rounds - 1, k);
    IterateAdd(s, k, Rounds(rounds - 1, k));
  }

  /** A range that is a power of two (above 1) never rejects: every attempt's bits fit. */
  lemma PowerOfTwoFirstAttempt(s: bv32, k: nat, fuel: nat)
    requires k >= 1 && fuel >= 1
    ensures Rejection(s, Pow2(k) - 1, fuel) == Outcome(Some(Attempt(s, Pow2(k) - 1).value), Attempt(s, Pow2(k) - 1).state)
  {
    DigitsOfMask(k);
  }

  lemma {:induction false} DigitsOfMask(k: nat)
    ensures Digits(Pow2(k) - 1) == k
  {
    if k > 0 {
      DigitsOfMask(k - 1);
      assert (Pow2(k) - 1) / 2 == Pow2(k - 1) - 1;
    }
  }

  /** With a range of one, only the value 0 can be returned; an attempt is one step and is accepted exactly when that step's bit is 0. */
  lemma RangeOfOne(s: bv32, fuel: nat)
    requires fuel >= 1
    ensures Rejection(s, 0, fuel).value.Some? ==> Rejection(s, 0, fuel).value.value == 0
    ensures Bit(Step(s)) == 0 ==> Rejection(s, 0, fuel) == Outcome(Some(0), Step(s))
    ensures Bit(Step(s)) == 1 ==> Rejection(s, 0, fuel) == Rejection(Step(s), 0, fuel - 1)
  {
    assert Attempt(s, 0) == Draw(Bit(Step(s)), Step(s));
  }

  class Device {
    /** `random_value`: the LFSR state. */
    var randomValue: bv32

    /** The constructor leaves `random_value` as it finds it; the model takes that value as a parameter. */
    constructor(randomValue: bv32)
      ensures this.randomValue == randomValue
    {
      this.randomValue := randomValue;
    }

    /** One pass of the inner do-while of `random`: steps the LFSR once per bit of m, at least once. */
    method AttemptOnce(m0: nat) returns (result: nat)
      modifies this
      ensures Draw(result, randomValue) == Attempt(old(randomValue), m0)
    {
      var m := m0;
      result := 0;
      ghost var i := 0;
      while true
        invariant i + 1 + Digits(m / 2) == Steps(m0)
        invariant Draws(old(randomValue), i) == Draw(result, randomValue)
        decreases m
      {
        DrawsNext(old(randomValue), i);
        randomValue := Step(randomValue);
        result := 2 * result + Bit(randomValue);
        i := i + 1;
        DigitsHalf(m / 2);
        m := m / 2;
        if m == 0 {
          break;
        }
      }
    }

    /**
     * `random`: INVALID_PARAMETER for a non-positive range; otherwise a
     * number in 0..max-1 drawn by repeated attempts, each stepping the LFSR
     * once per bit of max-1. None when `attempts` attempts were all rejected.
     */
    method Random(max: i32, attempts: nat) returns (r: Option<int>)
      modifies this
      ensures max <= 0 ==> (r == Some(DEVICE_INVALID_PARAMETER) && randomValue == old(randomValue))
      ensures max > 0 ==> Outcome(r, randomValue) == Rejection(old(randomValue), max - 1, attempts)
      ensures max > 0 && r.Some? ==> 0 <= r.value < max
    {
      if max <= 0 {
        return Some(DEVICE_INVALID_PARAMETER);
      }
      var top: nat := max - 1;
      var left: nat := attempts;
      while left > 0
        invariant left <= attempts
        invariant Rejection(old(randomValue), top, attempts) == Rejection(randomValue, top, left)
        decreases left
      {
        var result := AttemptOnce(top);
        if result <= top {
          return Some(result);
        }
        left := left - 1;
      }
      r := None;
    }
  }
}

=== FILE: codal_dmesg.dfy ===
/**
 * source/core/CodalDmesg.cpp: the in-memory debug log. Messages are
 * appended to a fixed 4096-byte buffer with a write pointer; when the
 * pointer reaches the last quarter, the oldest quarter is discarded. A
 * small printf-like formatter renders numbers in decimal or uppercase hex.
 *
 * The log's contents are the characters before the write pointer. A format
 * string is represented by its characters before the terminating NUL, the
 * variadic arguments by a sequence of 32-bit words, and the strings `%s`
 * arguments point at by a function from word to string.
 */
module CodalDmesg {
  import opened CTypes
  import opened Text
  import opened Arith

  const DMESG_BUFFER_SIZE: int := 4096
  /** `jump`: a quarter of the buffer. */
  const JUMP: int := DMESG_BUFFER_SIZE / 4
  const NUL: char := 0 as char
  const TOO_LONG: string := "DMESG line too long!\n"

  // ---------------------------------------------------------------- the log

  /** The log before a write: the oldest quarter is dropped once the pointer reaches the last quarter. */
  function Shifted(log: string): (kept: string)
    requires |log| < DMESG_BUFFER_SIZE
    ensures |kept| <= |log| && |kept| < DMESG_BUFFER_SIZE - JUMP
    ensures kept == log[|log| - |kept|..]
    ensures |log| - |kept| == (if |log| < DMESG_BUFFER_SIZE - JUMP then 0 else JUMP)
  {
    if |log| >= DMESG_BUFFER_SIZE - JUMP then log[JUMP..] else log
  }

  /**
   * `logwriten`: the log after writing a chunk. A chunk that does not fit
   * before the last byte (kept for the terminator) is replaced by the
   * too-long notice.
   */
  function Appended(log: string, chunk: string): (r: string)
    requires |log| < DMESG_BUFFER_SIZE
    ensures |Shifted(log)| <= |r| < DMESG_BUFFER_SIZE
    ensures r[..|Shifted(log)|] == Shifted(log)
    ensures r[|Shifted(log)|..] == (if |Shifted(log)| + |chunk| < DMESG_BUFFER_SIZE then chunk else TOO_LONG)
  {
    var kept := Shifted(log);
    if |chunk| + |kept| >= DMESG_BUFFER_SIZE then kept + TOO_LONG else kept + chunk
  }

  /**
   * The too-long notice is written by a second call of `logwriten`, which
   * neither shifts again nor finds the notice too long: the nesting ends
   * after one level.
   */
  lemma TooLongWrittenOnce(log: string, chunk: string)
    requires |log| < DMESG_BUFFER_SIZE && |Shifted(log)| + |chunk| >= DMESG_BUFFER_SIZE
    ensures |chunk| > |TOO_LONG|
    ensures Appended(log, chunk) == Appended(Shifted(log), TOO_LONG)
    ensures Shifted(Shifted(log)) == Shifted(log)
  {
  }

  /** A chunk shorter than a quarter of the buffer is always written as given. */
  lemma ShortChunkFits(log: string, chunk: string)
    requires |log| < DMESG_BUFFER_SIZE && |chunk| <= JUMP
    ensures Appended(log, chunk) == Shifted(log) + chunk
  {
  }

  /** The log after writing several chunks in order. */
  function AppendAll(log: string, chunks: seq<string>): (r: string)
    requires |log| < DMESG_BUFFER_SIZE
    ensures |r| < DMESG_BUFFER_SIZE
    ensures chunks == [] ==> r == log
  {
    if chunks == [] then log
    else Appended(AppendAll(log, chunks[..|chunks| - 1]), chunks[|chunks| - 1])
  }

  lemma {:induction false} AppendAllConcat(log: string, a: seq<string>, b: seq<string>)
    requires |log| < DMESG_BUFFER_SIZE
    ensures AppendAll(log, a + b) == AppendAll(AppendAll(log, a), b)
    decreases |b|
  {
    if b != [] {
      assert (a + b)[..|a + b| - 1] == a + b[..|b| - 1];
      AppendAllConcat(log, a, b[..|b| - 1]);
    } else {
      assert a + b == a;
    }
  }

  // ------------------------------------------------------------------- hex

  predicate IsHexDigit(c: char)
  {
    '0' <= c <= '9' || 'A' <= c <= 'F'
  }

  function HexChar(d: int): (c: char)
    requires 0 <= d < 16
    ensures IsHexDigit(c) && (c == '0' <==> d == 0)
  {
    if d > 9 then ('A' as int + d - 10) as char else ('0' as int + d) as char
  }

  function HexDigitValue(c: char): (d: int)
    requires IsHexDigit(c)
    ensures 0 <= d < 16 && HexChar(d) == c
  {
    if c <= '9' then c as int - '0' as int else c as int - 'A' as int + 10
  }

  function Pow16(k: nat): (p: nat)
    ensures p >= 1
  {
    if k == 0 then 1 else 16 * Pow16(k - 1)
  }

  /** The value of a string of hex digits, most significant first. */
  function HexValue(s: string): (v: nat)
    requires forall i :: 0 <= i < |s| ==> IsHexDigit(s[i])
  {
    if s == [] then 0 else HexValue(s[..|s| - 1]) * 16 + HexDigitValue(s[|s| - 1])
  }

  /** The low `width` hex digits of n, most significant first. */
  function HexFixed(n: nat, width: nat): (s: string)
    ensures |s| == width
    ensures forall i :: 0 <= i < |s| ==> IsHexDigit(s[i])
  {
    if width == 0 then [] else HexFixed(n / 16, width - 1) + [HexChar(n % 16)]
  }

  /** The string without its leading '0's (empty for all zeros). */
  function DropZeros(s: string): (r: string)
    ensures |r| <= |s| && r == s[|s| - |r|..]
    ensures r != [] ==> r[0] != '0'
    ensures forall i :: 0 <= i < |s| - |r| ==> s[i] == '0'
  {
    if s == [] then []
    else if s[0] == '0' then DropZeros(s[1..])
    else s
  }

  /** No leading zeros, but at least one digit: the last digit is always kept. */
  function StripZeros(s: string): (r: string)
    requires |s| >= 1
  {
    DropZeros(s[..|s| - 1]) + [s[|s| - 1]]
  }

  /** `writeNum`: eight digits when `full`, otherwise the minimal rendering. */
  function HexText(n: u32, full: bool): (s: string)
  {
    if full then HexFixed(n, 8) else StripZeros(HexFixed(n, 8))
  }

  /** Digit k from the right of HexFixed(n, w) is the nibble n / 16^k % 16. */
  lemma {:induction false} HexFixedDigit(n: nat, width: nat, k: nat)
    requires k < width
    ensures HexFixed(n, width)[width - 1 - k] == HexChar((n / Pow16(k)) % 16)
    decreases width
  {
    if k > 0 {
      HexFixedDigit(n / 16, width - 1, k - 1);
      DivDiv(n, 16, Pow16(k - 1));
    }
  }

  lemma {:induction false} HexFixedValue(n: nat, width: nat)
    requires n < Pow16(width)
    ensures HexValue(HexFixed(n, width)) == n
    decreases width
  {
    if width > 0 {
      var s := HexFixed(n, width);
      assert s[..|s| - 1] == HexFixed(n / 16, width - 1);
      HexFixedValue(n / 16, width - 1);
    }
  }

  lemma {:induction false} LeadingZeroValue(t: string)
    requires forall i :: 0 <= i < |t| ==> IsHexDigit(t[i])
    ensures HexValue(['0'] + t) == HexValue(t)
    decreases |t|
  {
    if t != [] {
      var s := ['0'] + t;
      assert s[..|s| - 1] == ['0'] + t[..|t| - 1];
      LeadingZeroValue(t[..|t| - 1]);
    } else {
      assert (['0'] + t)[..0] == [];
    }
  }

  lemma {:induction false} DropZerosValue(s: string)
    requires forall i :: 0 <= i < |s| ==> IsHexDigit(s[i])
    ensures HexValue(DropZeros(s)) == HexValue(s)
    decreases |s|
  {
    if s != [] && s[0] == '0' {
      var t := s[1..];
      assert s == ['0'] + t;
      assert DropZeros(s) == DropZeros(t);
      DropZerosValue(t);
      LeadingZeroValue(t);
    }
  }

  lemma DropZerosSnoc(p: string, c: char)
    ensures DropZeros(p + [c]) ==
      (if DropZeros(p) == [] && c == '0' then [] else DropZeros(p) + [c])
    decreases |p|
  {
    if p != [] {
      assert (p + [c])[1..] == p[1..] + [c];
      if p[0] == '0' {
        DropZerosSnoc(p[1..], c);
      }
    } else {
      assert [] + [c] == [c];
      assert [c][1..] == [];
    }
  }

  /** Rendering a number in hex and parsing it gives it back; the shape is as documented. */
  lemma HexTextRoundTrip(n: u32, full: bool)
    ensures forall i :: 0 <= i < |HexText(n, full)| ==> IsHexDigit(HexText(n, full)[i])
    ensures HexValue(HexText(n, full)) == n
    ensures full ==> |HexText(n, full)| == 8
    ensures !full ==> 1 <= |HexText(n, full)| <= 8 && (HexText(n, full)[0] != '0' || |HexText(n, full)| == 1)
  {
    var digits := HexFixed(n, 8);
    assert Pow16(8) == 0x1_0000_0000;
    HexFixedValue(n, 8);
    if !full {
      var p := digits[..7];
      assert digits == p + [digits[7]];
      assert forall i :: 0 <= i < |p| ==> IsHexDigit(p[i]);
      DropZerosValue(p);
      var r := StripZeros(digits);
      assert r[..|r| - 1] == DropZeros(p);
      assert digits[..|digits| - 1] == p;
    }
  }

  // ---------------------------------------------------------- the formatter

  /** The chunks `logwritenum` writes. `itoa` receives the word as a signed int. */
  function NumChunks(n: u32, full: bool, hex: bool): (chunks: seq<string>)
    ensures hex ==> |chunks| == 2 && chunks[0] == "0x"
    ensures hex ==> forall i :: 0 <= i < |chunks[1]| ==> IsHexDigit(chunks[1][i])
    ensures hex ==> HexValue(chunks[1]) == n
    ensures !hex ==> chunks == [Decimal(ToI32(n))]
  {
    HexTextRoundTrip(n, full);
    if hex then ["0x", HexText(n, full)] else [Decimal(ToI32(n))]
  }

  /** The chunks written for one directive character and its argument. */
  function DirectiveChunks(c: char, v: u32, strAt: u32 -> string): (chunks: seq<string>)
    ensures |chunks| >= 1
  {
    match c
    case 'd' => NumChunks(v, false, false)
    case 'x' => NumChunks(v, false, true)
    case 'p' => NumChunks(v, true, true)
    case 'X' => NumChunks(v, true, true)
    case 's' => [strAt(v)]
    case '%' => ["%"]
    case _ => ["???"]
  }

  /** Where the scan goes after a '%' at `pos`: past the directive character, but never past the end. */
  function AfterDirective(fmt: string, pos: nat): (next: nat)
    requires pos < |fmt|
    ensures pos < next <= |fmt|
  {
    if pos + 1 < |fmt| then pos + 2 else |fmt|
  }

  /** The number of arguments the format consumes from `pos` on: one per '%', "%%" included. */
  function Directives(fmt: string, pos: nat): nat
    requires pos <= |fmt|
    decreases |fmt| - pos
  {
    if pos == |fmt| then 0
    else if fmt[pos] == '%' then 1 + Directives(fmt, AfterDirective(fmt, pos))
    else Directives(fmt, pos + 1)
  }

  /**
   * `codal_vdmesg`: the chunks written for the rest of a format, where
   * `lit` is the start of the pending literal text and `pos` the scan
   * position. Literal text up to each '%' is written, then the directive's
   * rendering; the message ends with the remaining text and a newline.
   */
  function Scan(fmt: string, lit: nat, pos: nat, args: seq<u32>, strAt: u32 -> string): (chunks: seq<string>)
    requires lit <= pos <= |fmt| && Directives(fmt, pos) <= |args|
    ensures |chunks| >= 2 && chunks[|chunks| - 1] == "\n"
    decreases |fmt| - pos
  {
    if pos == |fmt| then [fmt[lit..], "\n"]
    else if fmt[pos] == '%' then
      var c := if pos + 1 < |fmt| then fmt[pos + 1] else NUL;
      var next := AfterDirective(fmt, pos);
      [fmt[lit..pos]] + DirectiveChunks(c, args[0], strAt) + Scan(fmt, next, next, args[1..], strAt)
    else Scan(fmt, lit, pos + 1, args, strAt)
  }

  /** A format without directives is written as itself followed by a newline. */
  lemma {:induction false} PlainFormat(fmt: string, lit: nat, pos: nat, strAt: u32 -> string)
    requires lit <= pos <= |fmt| && '%' !in fmt[pos..]
    ensures Directives(fmt, pos) == 0
    ensures Scan(fmt, lit, pos, [], strAt) == [fmt[lit..], "\n"]
    decreases |fmt| - pos
  {
    if pos < |fmt| {
      assert fmt[pos] == fmt[pos..][0];
      assert fmt[pos + 1..] == fmt[pos..][1..];
      PlainFormat(fmt, lit, pos + 1, strAt);
    }
  }

  /** "%%" writes a single '%' and still consumes an argument. */
  lemma PercentConsumesArgument(v: u32, strAt: u32 -> string)
    ensures Directives("%%", 0) == 1
    ensures Scan("%%", 0, 0, [v], strAt) == ["", "%", "", "\n"]
  {
    assert Directives("%%", 2) == 0;
    assert "%%"[2..] == "";
    assert Scan("%%", 2, 2, [], strAt) == ["", "\n"];
  }

  /**
   * The scan of the format as written: the loop condition is tested at
   * `i`, and the next test comes after the '%' and the character after it,
   * whatever that character is.
   */
  function NextTestAsWritten(mem: string, i: nat): (j: nat)
    requires i < |mem|
    ensures j > i
  {
    if mem[i] == '%' then i + 2 else i + 1
  }

  /**
   * A format ending in '%' takes the terminator as its directive character,
   * and the scan's next test reads the byte after the terminator.
   */
  lemma TrailingPercentOverrun()
    ensures var mem := "50%" + [NUL] + "AB" + [NUL];
      mem[3] == NUL && NextTestAsWritten(mem, 2) == 4
  {
  }

  /**
   * The corrected scan (Scan above) stops at the terminator: a format
   * ending in '%' writes its text, "???" for the missing directive
   * character, and the newline, and consumes one argument.
   */
  lemma TrailingPercentStops(v: u32, strAt: u32 -> string)
    ensures Directives("50%", 0) == 1
    ensures Scan("50%", 0, 0, [v], strAt) == ["50", "???", "", "\n"]
  {
    assert Directives("50%", 3) == 0;
    assert "50%"[3..] == "";
    assert Scan("50%", 3, 3, [], strAt) == ["", "\n"];
    assert "50%"[0..2] == "50";
  }

  // ------------------------------------------------------------- the store

  /** `codalLogStore`: the buffer and its write pointer. */
  class LogStore {
    const buffer: array<char>
    var ptr: int

    ghost predicate Valid()
      reads this
    {
      buffer.Length == DMESG_BUFFER_SIZE && 0 <= ptr < DMESG_BUFFER_SIZE
    }

    /** The log's contents. */
    function Log(): (log: string)
      reads this, buffer
      requires Valid()
      ensures |log| < DMESG_BUFFER_SIZE
    {
      buffer[..ptr]
    }

    /** The store is a zero-initialised static: empty and terminated. */
    constructor()
      ensures Valid() && fresh(buffer) && Log() == [] && buffer[ptr] == NUL
    {
      buffer := new char[DMESG_BUFFER_SIZE](_ => NUL);
      ptr := 0;
    }

    /** The `memmove` of `logwriten`: drops the oldest quarter once the pointer reaches the last quarter. */
    method ShiftOut()
      requires Valid()
      modifies this, buffer
      ensures Valid() && Log() == Shifted(old(Log())) && ptr < DMESG_BUFFER_SIZE - JUMP
    {
      ghost var log0 := Log();
      if ptr >= DMESG_BUFFER_SIZE - JUMP {
        ptr := ptr - JUMP;
        var i := 0;
        while i < ptr
          invariant 0 <= i <= ptr < DMESG_BUFFER_SIZE - JUMP && |log0| == ptr + JUMP
          invariant log0 == old(buffer[..])[..ptr + JUMP]
          invariant buffer[..i] == log0[JUMP..JUMP + i]
          invariant forall k :: i <= k < buffer.Length ==> buffer[k] == old(buffer[k])
        {
          buffer[i] := buffer[i + JUMP];
          i := i + 1;
        }
      }
    }

    /** The `memcpy` of `logwriten`: appends a chunk that fits and terminates it. */
    method CopyIn(msg: string)
      requires Valid() && ptr + |msg| < DMESG_BUFFER_SIZE
      modifies this, buffer
      ensures Valid() && Log() == old(Log()) + msg && buffer[ptr] == NUL
    {
      ghost var kept := Log();
      var k := 0;
      while k < |msg|
        invariant 0 <= k <= |msg| && ptr == old(ptr) && Valid()
        invariant buffer[..ptr + k] == kept + msg[..k]
      {
        buffer[ptr + k] := msg[k];
        assert buffer[..ptr + k + 1] == buffer[..ptr + k] + [msg[k]];
        k := k + 1;
      }
      assert msg[..k] == msg;
      ptr := ptr + |msg|;
      buffer[ptr] := NUL;
    }

    /** `logwriten`: shifts out the oldest quarter if needed, then appends and terminates. */
    method LogWriteN(msg: string)
      requires Valid()
      modifies this, buffer
      ensures Valid() && Log() == Appended(old(Log()), msg) && buffer[ptr] == NUL
      decreases |msg|
    {
      ghost var log0 := Log();
      ShiftOut();
      if |msg| + ptr >= DMESG_BUFFER_SIZE {
        TooLongWrittenOnce(log0, msg);
        LogWriteN(TOO_LONG);
        return;
      }
      CopyIn(msg);
    }

    /** `logwritenum`: "0x" and the hex digits, or the decimal rendering. */
    method LogWriteNum(n: u32, full: bool, hex: bool)
      requires Valid()
      modifies this, buffer
      ensures Valid() && Log() == AppendAll(old(Log()), NumChunks(n, full, hex))
    {
      ghost var log0 := Log();
      if hex {
        var buf := WriteNum(n, full);
        LogWriteN("0x");
        LogWriteN(buf);
        assert NumChunks(n, full, hex)[..1] == ["0x"];
      } else {
        LogWriteN(Decimal(ToI32(n)));
      }
    }

    /** Writes the rendering of one directive. */
    method WriteDirective(c: char, v: u32, strAt: u32 -> string)
      requires Valid()
      modifies this, buffer
      ensures Valid() && Log() == AppendAll(old(Log()), DirectiveChunks(c, v, strAt))
    {
      match c
      case 'd' => LogWriteNum(v, false, false);
      case 'x' => LogWriteNum(v, false, true);
      case 'p' => LogWriteNum(v, true, true);
      case 'X' => LogWriteNum(v, true, true);
      case 's' => LogWriteN(strAt(v));
      case '%' => LogWriteN("%");
      case _ => LogWriteN("???");
    }

    /** Writes the literal text before a directive, then the directive's rendering. */
    method WriteSegment(text: string, c: char, v: u32, strAt: u32 -> string)
      requires Valid()
      modifies this, buffer
      ensures Valid() && Log() == AppendAll(old(Log()), [text] + DirectiveChunks(c, v, strAt))
    {
      ghost var log0 := Log();
      LogWriteN(text);
      WriteDirective(c, v, strAt);
      AppendAllConcat(log0, [text], DirectiveChunks(c, v, strAt));
    }

    /** Writes the text after the last directive and the closing newline. */
    method WriteEnd(text: string)
      requires Valid()
      modifies this, buffer
      ensures Valid() && Log() == AppendAll(old(Log()), [text, "\n"])
    {
      ghost var log0 := Log();
      LogWriteN(text);
      LogWriteN("\n");
      AppendAllConcat(log0, [text], ["\n"]);
      assert [text] + ["\n"] == [text, "\n"];
    }

    /**
     * One turn of `codal_vdmesg`'s scanning loop: a '%' writes the pending
     * literal and the directive, consuming one argument; any other character
     * only advances the scan.
     */
    method ScanStep(fmt: string, args: seq<u32>, strAt: u32 -> string, format: nat, end: nat, k: nat,
                    ghost log0: string, ghost emitted: seq<string>, ghost whole: seq<string>)
      returns (format': nat, end': nat, k': nat, ghost emitted': seq<string>)
      requires Valid() && |log0| < DMESG_BUFFER_SIZE
      requires format <= end < |fmt| && k <= |args| && Directives(fmt, end) <= |args| - k
      requires whole == emitted + Scan(fmt, format, end, args[k..], strAt)
      requires Log() == AppendAll(log0, emitted)
      modifies this, buffer
      ensures Valid() && format' <= end' <= |fmt| && end < end' && k' <= |args|
      ensures Directives(fmt, end') <= |args| - k'
      ensures whole == emitted' + Scan(fmt, format', end', args[k'..], strAt)
      ensures Log() == AppendAll(log0, emitted')
    {
      if fmt[end] == '%' {
        var c := if end + 1 < |fmt| then fmt[end + 1] else NUL;
        var text := fmt[format..end];
        ghost var segment := [text] + DirectiveChunks(c, args[k], strAt);
        ScanDirectiveStep(fmt, format, end, args[k..], strAt, emitted, whole);
        assert args[k..][1..] == args[k + 1..];
        WriteSegment(text, c, args[k], strAt);
        AppendAllConcat(log0, emitted, segment);
        emitted' := emitted + segment;
        k' := k + 1;
        end' := AfterDirective(fmt, end);
        format' := end';
      } else {
        ScanLiteralStep(fmt, format, end, args[k..], strAt);
        format', end', k', emitted' := format, end + 1, k, emitted;
      }
    }

    /** `codal_vdmesg` (and `codal_dmesg`, which only collects its arguments). */
    method VDmesg(fmt: string, args: seq<u32>, strAt: u32 -> string)
      requires Valid() && Directives(fmt, 0) <= |args|
      modifies this, buffer
      ensures Valid() && Log() == AppendAll(old(Log()), Scan(fmt, 0, 0, args, strAt))
    {
      ghost var log0 := Log();
      ghost var whole := Scan(fmt, 0, 0, args, strAt);
      ghost var emitted: seq<string> := [];
      var format: nat, end: nat, k: nat := 0, 0, 0;
      assert args[0..] == args;
      while end < |fmt|
        invariant Valid() && format <= end <= |fmt| && k <= |args|
        invariant Directives(fmt, end) <= |args| - k
        invariant whole == emitted + Scan(fmt, format, end, args[k..], strAt)
        invariant Log() == AppendAll(log0, emitted)
        decreases |fmt| - end
      {
        format, end, k, emitted := ScanStep(fmt, args, strAt, format, end, k, log0, emitted, whole);
      }
      var rest := fmt[format..end];
      ScanEnd(fmt, format, args[k..], strAt);
      WriteEnd(rest);
      AppendAllConcat(log0, emitted, [rest, "\n"]);
    }
  }

  lemma ScanLiteralStep(fmt: string, lit: nat, pos: nat, args: seq<u32>, strAt: u32 -> string)
    requires lit <= pos < |fmt| && fmt[pos] != '%' && Directives(fmt, pos) <= |args|
    ensures Directives(fmt, pos + 1) <= |args|
    ensures Scan(fmt, lit, pos, args, strAt) == Scan(fmt, lit, pos + 1, args, strAt)
  {
  }

  /** One directive step of the scan, stated for a prefix already written. */
  lemma ScanDirectiveStep(fmt: string, lit: nat, pos: nat, args: seq<u32>, strAt: u32 -> string,
                          emitted: seq<string>, whole: seq<string>)
    requires lit <= pos < |fmt| && fmt[pos] == '%' && Directives(fmt, pos) <= |args|
    requires whole == emitted + Scan(fmt, lit, pos, args, strAt)
    ensures |args| >= 1 && Directives(fmt, AfterDirective(fmt, pos)) <= |args| - 1
    ensures whole ==
      (emitted + ([fmt[lit..pos]] + DirectiveChunks(if pos + 1 < |fmt| then fmt[pos + 1] else NUL, args[0], strAt))) +
      Scan(fmt, AfterDirective(fmt, pos), AfterDirective(fmt, pos), args[1..], strAt)
  {
  }

  lemma ScanEnd(fmt: string, lit: nat, args: seq<u32>, strAt: u32 -> string)
    requires lit <= |fmt|
    ensures Scan(fmt, lit, |fmt|, args, strAt) == [fmt[lit..|fmt|], "\n"]
  {
    assert fmt[lit..] == fmt[lit..|fmt|];
  }

  /** What `writeNum` has emitted after scanning the top k nibbles. */
  function Emitted(digits: string, full: bool, k: nat): string
    requires |digits| == 8 && k <= 8
  {
    if full then digits[..k]
    else if k <= 7 then DropZeros(digits[..k])
    else StripZeros(digits)
  }

  /** `(n >> sh) & 0xf`: the nibble at bit `sh`. */
  function NibbleAt(n: u32, sh: nat): (d: nat)
    requires sh % 4 == 0
    ensures d < 16
  {
    (n / Pow16(sh / 4)) % 16
  }

  /** One step of `writeNum`'s scan: nibble k from the top, at bit sh, is emitted unless it is a leading zero. */
  lemma NibbleStep(n: u32, digits: string, full: bool, k: nat, sh: nat, buf: string)
    requires digits == HexFixed(n, 8) && k < 8 && sh == 28 - 4 * k && buf == Emitted(digits, full, k)
    ensures var d := NibbleAt(n, sh);
      (if full || d != 0 || sh == 0 || |buf| > 0 then buf + [HexChar(d)] else buf) == Emitted(digits, full, k + 1)
  {
    var d := NibbleAt(n, sh);
    assert sh / 4 == 7 - k;
    NibbleDigit(n, digits, full, k, buf, d, sh == 0);
  }

  /** The same step for the digit d of nibble k from the top; `last` says whether it is the lowest. */
  lemma NibbleDigit(n: u32, digits: string, full: bool, k: nat, buf: string, d: nat, last: bool)
    requires digits == HexFixed(n, 8) && k < 8 && buf == Emitted(digits, full, k)
    requires d == (n / Pow16(7 - k)) % 16 && last == (k == 7)
    ensures (if full || d != 0 || last || |buf| > 0 then buf + [HexChar(d)] else buf) == Emitted(digits, full, k + 1)
  {
    HexFixedDigit(n, 8, 7 - k);
    assert HexChar(d) == digits[k];
    assert digits[..k + 1] == digits[..k] + [digits[k]];
    if !full {
      DropZerosSnoc(digits[..k], digits[k]);
    }
  }

  /** `writeNum`: scans the nibbles from the most significant, skipping leading zeros unless `full`. */
  method WriteNum(n: u32, full: bool) returns (buf: string)
    ensures buf == HexText(n, full)
  {
    ghost var digits := HexFixed(n, 8);
    buf := [];
    var sh := 28;
    ghost var k := 0;
    while sh >= 0
      invariant -4 <= sh <= 28 && sh == 28 - 4 * k
      invariant buf == Emitted(digits, full, k)
    {
      var d := NibbleAt(n, sh);
      NibbleStep(n, digits, full, k, sh, buf);
      if full || d != 0 || sh == 0 || |buf| > 0 {
        buf := buf + [HexChar(d)];
      }
      sh := sh - 4;
      k := k + 1;
    }
    assert digits[..8] == digits;
  }
}

=== FILE: codal_usb.dfy ===
/**
 * source/core/CodalUSB.cpp: the USB device core. Interfaces are kept in a
 * list; each consumes a number of endpoints, numbered consecutively from 1
 * (endpoint 0 is the control endpoint). The core hands each interface its
 * first endpoint, routes endpoint requests to the interface that owns the
 * endpoint, and builds the configuration descriptor from the interfaces'
 * descriptor sizes.
 *
 * An interface is represented by its identity, its endpoint count and its
 * descriptor size. The hardware endpoints, `usb_configure` and the bytes
 * written to the control endpoint are outside the model; a descriptor write
 * is represented by what is sent and the write's status.
 */
module CodalUSB {
  import opened CTypes
  import opened ErrorNo
  import opened Wrappers

  const STRING_DESCRIPTOR_COUNT: int := 4
  const USB_DEVICE_DESCRIPTOR_TYPE: int := 1
  const USB_CONFIGURATION_DESCRIPTOR_TYPE: int := 2
  const USB_STRING_DESCRIPTOR_TYPE: int := 3
  const USB_CONFIG_BUS_POWERED: int := 0x80
  /** sizeof(ConfigDescriptor): nine bytes of fields, padded to the 16-bit alignment of `clen`. */
  const CONFIG_DESCRIPTOR_SIZE: int := 10

  datatype Interface = Interface(id: int, endpointCount: u8, descriptorSize: u16)

  /** The fields of the configuration descriptor header. */
  datatype ConfigDescriptor = ConfigDescriptor(
    len: u8, dtype: u8, clen: u16, numInterfaces: u8,
    config: u8, iconfig: u8, attributes: u8, maxPower: u8)

  /** `static_config`: the header every configuration descriptor starts from. */
  const STATIC_CONFIG: ConfigDescriptor :=
    ConfigDescriptor(9, 2, 0, 0, 1, 0, USB_CONFIG_BUS_POWERED, 250)

  /** What `sendDescriptors` writes to the control endpoint. */
  datatype Sent = NothingSent | ConfigSent(header: ConfigDescriptor, length: int)
                | DeviceDescriptorSent | StringDescriptorSent(index: int)

  /** The number of endpoints a list of interfaces consumes. */
  function Total(ifs: seq<Interface>): (n: nat)
    ensures ifs == [] ==> n == 0
  {
    if ifs == [] then 0 else ifs[0].endpointCount + Total(ifs[1..])
  }

  /** The sum of the interfaces' descriptor sizes. */
  function DescriptorTotal(ifs: seq<Interface>): (n: nat)
    ensures n <= 0xFFFF * |ifs|
  {
    if ifs == [] then 0 else DescriptorTotal(ifs[..|ifs| - 1]) + ifs[|ifs| - 1].descriptorSize
  }

  /**
   * The first endpoint of each interface when numbering starts at `first`:
   * the ranges are consecutive and together cover `first .. first + Total(ifs)`.
   */
  function Starts(ifs: seq<Interface>, first: int): (s: seq<int>)
    ensures |s| == |ifs|
    ensures ifs != [] ==> s[0] == first
    ensures forall i :: 0 <= i < |ifs| - 1 ==> s[i + 1] == s[i] + ifs[i].endpointCount
    ensures ifs != [] ==> s[|ifs| - 1] + ifs[|ifs| - 1].endpointCount == first + Total(ifs)
  {
    if ifs == [] then [] else [first] + Starts(ifs[1..], first + ifs[0].endpointCount)
  }

  /** Endpoint ranges of distinct interfaces do not overlap: each lies wholly before the next. */
  lemma {:induction false} StartsOrdered(ifs: seq<Interface>, first: int, i: int, k: int)
    requires 0 <= i < k < |ifs|
    ensures Starts(ifs, first)[i] + ifs[i].endpointCount <= Starts(ifs, first)[k]
    decreases k - i
  {
    var s := Starts(ifs, first);
    if i + 1 < k {
      StartsOrdered(ifs, first, i + 1, k);
      assert s[i + 2 - 1] == s[i] + ifs[i].endpointCount;
    }
  }

  /** Every endpoint of an interface lies below `first + Total(ifs)`. */
  lemma {:induction false} StartsBelowTotal(ifs: seq<Interface>, first: int, i: int)
    requires 0 <= i < |ifs|
    ensures Starts(ifs, first)[i] + ifs[i].endpointCount <= first + Total(ifs)
  {
    if i < |ifs| - 1 {
      StartsOrdered(ifs, first, i, |ifs| - 1);
    }
  }

  /** Interface `i` owns endpoint `e` when `e` lies in its range. */
  predicate Owns(ifs: seq<Interface>, first: int, i: int, e: int)
    requires 0 <= i < |ifs|
  {
    Starts(ifs, first)[i] <= e < Starts(ifs, first)[i] + ifs[i].endpointCount
  }

  /** At most one interface owns an endpoint. */
  lemma OwnerUnique(ifs: seq<Interface>, first: int, i: int, k: int, e: int)
    requires 0 <= i < |ifs| && 0 <= k < |ifs|
    requires Owns(ifs, first, i, e) && Owns(ifs, first, k, e)
    ensures i == k
  {
    if i < k {
      StartsOrdered(ifs, first, i, k);
    } else if k < i {
      StartsOrdered(ifs, first, k, i);
    }
  }

  /** Endpoint 0 and endpoints below the first are owned by no interface. */
  lemma NoOwnerBelowFirst(ifs: seq<Interface>, first: int, e: int, i: int)
    requires e < first && 0 <= i < |ifs|
    ensures !Owns(ifs, first, i, e)
  {
    if 0 < i {
      StartsOrdered(ifs, first, 0, i);
    }
  }

  class Usb {
    /** DEVICE_USB_ENDPOINTS: the number of hardware endpoints. */
    const maxEndpoints: int
    /** `usb_list`, in list order. */
    var interfaces: seq<Interface>
    var endpointsUsed: u8
    /** `ctrlIn != NULL`. */
    var initialised: bool
    /** The first endpoint `initEndpoints` gave each interface, in list order. */
    var firstEndpoints: seq<int>

    ghost predicate Valid()
      reads this
    {
      0 <= maxEndpoints < 0x100 &&
      endpointsUsed == 1 + Total(interfaces) &&
      (initialised ==> firstEndpoints == Starts(interfaces, 1))
    }

    constructor(maxEndpoints: int)
      requires 0 <= maxEndpoints < 0x100
      ensures Valid()
      ensures this.maxEndpoints == maxEndpoints
      ensures interfaces == [] && endpointsUsed == 1 && !initialised
    {
      this.maxEndpoints := maxEndpoints;
      interfaces := [];
      endpointsUsed := 1;
      initialised := false;
      firstEndpoints := [];
    }

    /**
     * Adds an interface before the device starts. The list walk ends with
     * the cursor back on the list head, so the entry is linked in at the
     * front: the list holds the interfaces in reverse order of addition.
     */
    method Add(iface: Interface) returns (r: int)
      requires Valid() && !initialised
      modifies this
      ensures Valid() && !initialised
      ensures old(endpointsUsed) + iface.endpointCount > maxEndpoints ==>
        (r == DEVICE_NO_RESOURCES && interfaces == old(interfaces) && endpointsUsed == old(endpointsUsed))
      ensures old(endpointsUsed) + iface.endpointCount <= maxEndpoints ==>
        (r == DEVICE_OK && interfaces == [iface] + old(interfaces) &&
         endpointsUsed == old(endpointsUsed) + iface.endpointCount)
    {
      if endpointsUsed + iface.endpointCount > maxEndpoints {
        return DEVICE_NO_RESOURCES;
      }
      interfaces := [iface] + interfaces;
      assert interfaces[1..] == old(interfaces);
      endpointsUsed := ToU8(endpointsUsed + iface.endpointCount);
      r := DEVICE_OK;
    }

    /**
     * Gives each interface, in list order, the next unused endpoint as its
     * first; the count it ends with is the number of endpoints in use.
     */
    method ConfigureEndpoints() returns (r: int)
      requires Valid()
      modifies this
      ensures Valid() && initialised && r == DEVICE_OK
      ensures firstEndpoints == Starts(interfaces, 1)
      ensures interfaces == old(interfaces) && endpointsUsed == old(endpointsUsed)
    {
      var endpointCount: int := 1;
      var given: seq<int> := [];
      var k := 0;
      ghost var s := Starts(interfaces, 1);
      while k < |interfaces|
        invariant 0 <= k <= |interfaces|
        invariant given == s[..k]
        invariant k < |interfaces| ==> endpointCount == s[k]
        invariant k == |interfaces| ==> endpointCount == 1 + Total(interfaces)
      {
        given := given + [endpointCount];
        endpointCount := endpointCount + interfaces[k].endpointCount;
        k := k + 1;
      }
      assert given == s;
      assert endpointsUsed == endpointCount;
      initialised := true;
      firstEndpoints := given;
      r := DEVICE_OK;
    }

    /**
     * Routes a request for endpoint `e` by counting endpoints interface by
     * interface from 1; returns the interface it reached, if any.
     */
    method EndpointRequest(e: u8) returns (r: int, target: Option<int>)
      requires Valid()
      ensures r == DEVICE_OK <==> target.Some?
      ensures r == DEVICE_OK || r == DEVICE_NOT_SUPPORTED
      ensures target.Some? ==> 0 <= target.value < |interfaces| && Owns(interfaces, 1, target.value, e)
      ensures target.None? ==> forall i :: 0 <= i < |interfaces| ==> !Owns(interfaces, 1, i, e)
    {
      ghost var s := Starts(interfaces, 1);
      var endpointCount: int := 1;
      var k := 0;
      while k < |interfaces|
        invariant 0 <= k <= |interfaces|
        invariant k < |interfaces| ==> endpointCount == s[k]
        invariant forall i :: 0 <= i < k ==> !Owns(interfaces, 1, i, e)
      {
        var count := interfaces[k].endpointCount;
        var j := 0;
        while j < count
          invariant 0 <= j <= count
          invariant endpointCount == s[k] + j
          invariant !(s[k] <= e < s[k] + j)
        {
          if endpointCount == e {
            return DEVICE_OK, Some(k);
          }
          endpointCount := endpointCount + 1;
          j := j + 1;
        }
        k := k + 1;
      }
      r, target := DEVICE_NOT_SUPPORTED, None;
    }

    /**
     * Builds the configuration descriptor: the static header with the total
     * length and the interface count filled in, followed by each interface's
     * descriptor. `consistent` is the closing assertion that the length
     * written into the 16-bit `clen` field equals the length sent.
     */
    method SendConfig() returns (header: ConfigDescriptor, length: int, consistent: bool)
      requires Valid()
      ensures length == CONFIG_DESCRIPTOR_SIZE + DescriptorTotal(interfaces)
      ensures header == STATIC_CONFIG.(clen := ToU16(length), numInterfaces := ToU8(|interfaces|))
      ensures consistent <==> length < 0x1_0000
    {
      var clen := CONFIG_DESCRIPTOR_SIZE;
      var numInterfaces := 0;
      var k := 0;
      while k < |interfaces|
        invariant 0 <= k <= |interfaces|
        invariant clen == CONFIG_DESCRIPTOR_SIZE + DescriptorTotal(interfaces[..k])
        invariant numInterfaces == k
      {
        assert interfaces[..k + 1][..k] == interfaces[..k];
        clen := clen + interfaces[k].descriptorSize;
        numInterfaces := numInterfaces + 1;
        k := k + 1;
      }
      assert interfaces[..k] == interfaces;
      header := STATIC_CONFIG.(clen := ToU16(clen), numInterfaces := ToU8(numInterfaces));
      length := CONFIG_DESCRIPTOR_SIZE;
      k := 0;
      while k < |interfaces|
        invariant 0 <= k <= |interfaces|
        invariant length == CONFIG_DESCRIPTOR_SIZE + DescriptorTotal(interfaces[..k])
      {
        assert interfaces[..k + 1][..k] == interfaces[..k];
        length := length + interfaces[k].descriptorSize;
        k := k + 1;
      }
      assert interfaces[..k] == interfaces;
      consistent := length == header.clen;
    }

    /**
     * Answers a GET_DESCRIPTOR request of the given type and index.
     * `writeStatus` is what the control endpoint's write returns.
     */
    method SendDescriptors(descriptorType: u8, index: u8, writeStatus: int) returns (r: int, sent: Sent)
      requires Valid()
      ensures descriptorType == USB_CONFIGURATION_DESCRIPTOR_TYPE ==>
        (r == DEVICE_OK && sent.ConfigSent? &&
         sent.length == CONFIG_DESCRIPTOR_SIZE + DescriptorTotal(interfaces) &&
         sent.header.numInterfaces == ToU8(|interfaces|))
      ensures descriptorType == USB_DEVICE_DESCRIPTOR_TYPE ==>
        (r == writeStatus && sent == DeviceDescriptorSent)
      ensures descriptorType == USB_STRING_DESCRIPTOR_TYPE && index > STRING_DESCRIPTOR_COUNT - 1 ==>
        (r == DEVICE_NOT_SUPPORTED && sent == NothingSent)
      ensures descriptorType == USB_STRING_DESCRIPTOR_TYPE && index <= STRING_DESCRIPTOR_COUNT - 1 ==>
        (r == writeStatus && sent == StringDescriptorSent(index))
      ensures descriptorType !in {USB_CONFIGURATION_DESCRIPTOR_TYPE, USB_DEVICE_DESCRIPTOR_TYPE,
                                  USB_STRING_DESCRIPTOR_TYPE} ==>
        (r == DEVICE_OK && sent == NothingSent)
    {
      if descriptorType == USB_CONFIGURATION_DESCRIPTOR_TYPE {
        var header, length, _ := SendConfig();
        return DEVICE_OK, ConfigSent(header, length);
      }
      if descriptorType == USB_DEVICE_DESCRIPTOR_TYPE {
        return writeStatus, DeviceDescriptorSent;
      } else if descriptorType == USB_STRING_DESCRIPTOR_TYPE {
        if index > STRING_DESCRIPTOR_COUNT - 1 {
          return DEVICE_NOT_SUPPORTED, NothingSent;
        }
        return writeStatus, StringDescriptorSent(index);
      }
      r, sent := DEVICE_OK, NothingSent;
    }

    /** Starts the device once: with no hardware endpoints it is not supported. */
    method Start() returns (r: int)
      requires Valid()
      modifies this
      ensures Valid()
      ensures interfaces == old(interfaces) && endpointsUsed == old(endpointsUsed)
      ensures maxEndpoints == 0 ==>
        (r == DEVICE_NOT_SUPPORTED && initialised == old(initialised) && firstEndpoints == old(firstEndpoints))
      ensures maxEndpoints != 0 ==> (r == DEVICE_OK && initialised)
      ensures maxEndpoints != 0 && old(initialised) ==> firstEndpoints == old(firstEndpoints)
      ensures initialised ==> firstEndpoints == Starts(interfaces, 1)
    {
      if maxEndpoints == 0 {
        return DEVICE_NOT_SUPPORTED;
      }
      if initialised {
        return DEVICE_OK;
      }
      r := ConfigureEndpoints();
    }
  }
}

=== FILE: codal_utils.dfy ===
/**
 * utils/python/codal_utils.py, `get_next_version`: the version a lock
 * publishes. An explicit `-v` version is used as given. Otherwise the most
 * recent message matching
 *
 *     Snapshot v(\d+)\.(\d+)\.(\d+)(-([\w\-]+).(\d+))?
 *
 * in the text of `git log -n 100` is bumped: on a branch lock (`-b`) the
 * triple is kept and the suffix `-<branch>.<k+1>` is appended, where k is
 * the counter of the match when it was taken on the current branch and -1
 * otherwise; without `-b` exactly one of the major, minor or patch bumps
 * applies, and only on master or main.
 *
 * The optional suffix group is modelled by positions in the log text, the
 * way the regular expression engine matches it: the greedy name group
 * backtracks from its longest run to the longest length after which the
 * separator and a digit follow. The separator of the group as written is
 * `.`, any character but a newline, and its name characters are `[\w\-]`;
 * the suffix a lock writes for a branch whose name holds a '/' is then
 * never read back. `Parse` reads the suffix with `(-(\S+)\.(\d+))?`, which
 * reads back every branch name git accepts. Character classes are the
 * ASCII ones.
 */
module CodalUtils {
  import opened Wrappers
  import opened Text
  import opened SnapshotVersion

  /** `\w`: letters, digits and '_'. */
  predicate IsWordChar(c: char)
  {
    'a' <= c <= 'z' || 'A' <= c <= 'Z' || IsDigitChar(c) || c == '_'
  }

  /** `[\w\-]`. */
  predicate IsBranchChar(c: char)
  {
    IsWordChar(c) || c == '-'
  }

  /** `\s`: space, tab, newline, vertical tab, form feed and carriage return. */
  predicate IsSpace(c: char)
  {
    c == ' ' || '\t' <= c <= '\r'
  }

  /** Whitespace at d, or the end of s: where a match may stop. */
  predicate Delimited(s: string, d: nat)
  {
    d == |s| || (d < |s| && IsSpace(s[d]))
  }

  /** `\S`. */
  predicate NotSpace(c: char)
  {
    !IsSpace(c)
  }

  /** `.` without DOTALL: any character but a newline. */
  predicate NotNewline(c: char)
  {
    c != '\n'
  }

  /** `\.`. */
  predicate IsDot(c: char)
  {
    c == '.'
  }

  /** How far a greedy run of characters of class `cls` starting at i reaches. */
  function RunEnd(s: string, i: nat, cls: char -> bool): (e: nat)
    requires i <= |s|
    ensures i <= e <= |s|
    ensures forall k :: i <= k < e ==> cls(s[k])
    ensures e == |s| || !cls(s[e])
    decreases |s| - i
  {
    if i < |s| && cls(s[i]) then RunEnd(s, i + 1, cls) else i
  }

  /** The branch name and the counter of a snapshot taken on a branch. */
  datatype Suffix = Suffix(branch: string, counter: nat)

  /** A name group ending at j lets the rest of the suffix match: a separator, then a digit. */
  predicate SplitsAt(s: string, j: nat, sep: char -> bool)
  {
    j + 1 < |s| && sep(s[j]) && IsDigitChar(s[j + 1])
  }

  /**
   * Backtracking of a greedy name group that starts at b and can take up
   * to L characters: the longest length after which the rest matches.
   */
  function LongestSplit(s: string, b: nat, L: nat, sep: char -> bool): (n: Option<nat>)
    ensures n.Some? ==> 1 <= n.value <= L && SplitsAt(s, b + n.value, sep)
    ensures n.Some? ==> forall j :: b + n.value < j <= b + L ==> !SplitsAt(s, j, sep)
    ensures n.None? <==> forall j :: b + 1 <= j <= b + L ==> !SplitsAt(s, j, sep)
    decreases L
  {
    if L == 0 then None
    else if SplitsAt(s, b + L, sep) then Some(L)
    else LongestSplit(s, b, L - 1, sep)
  }

  /**
   * The optional group `(-(name+)sep(\d+))?` right after the third number,
   * which ends at e: the name is a run of `cls` characters, the counter
   * the greedy run of digits after the separator.
   */
  function SuffixAt(s: string, e: nat, cls: char -> bool, sep: char -> bool): (r: Option<Suffix>)
    requires e <= |s|
    ensures r.Some? ==> e < |s| && s[e] == '-'
    ensures r.Some? ==>
      var j := e + 1 + |r.value.branch|;
      |r.value.branch| >= 1 && SplitsAt(s, j, sep) && r.value.branch == s[e + 1..j] &&
      (forall k :: 0 <= k < |r.value.branch| ==> cls(r.value.branch[k])) &&
      r.value.counter == ValueOf(s, j + 1, DigitEnd(s, j + 1))
    ensures (e == |s| || s[e] != '-') ==> r.None?
  {
    if e < |s| && s[e] == '-' then
      var n := LongestSplit(s, e + 1, RunEnd(s, e + 1, cls) - (e + 1), sep);
      if n.None? then None else Some(SuffixEndingAt(s, e, e + 1 + n.value))
    else None
  }

  /** The name between the '-' at e and the separator at j, and the counter after the separator. */
  function SuffixEndingAt(s: string, e: nat, j: nat): Suffix
    requires e < j < |s|
  {
    Suffix(s[e + 1..j], ValueOf(s, j + 1, DigitEnd(s, j + 1)))
  }

  /** The snapshot a log names: the triple and the optional branch suffix. */
  datatype Found = Found(version: Triple, suffix: Option<Suffix>)

  /** The first snapshot message in a log, with its suffix read by `cls` and `sep`. */
  function ParseWith(log: string, cls: char -> bool, sep: char -> bool): (r: Option<Found>)
    ensures r.Some? <==> FindSnapshot(log).Some?
    ensures r.Some? ==> r.value.version == FindSnapshot(log).value.version
  {
    var m := FindSnapshot(log);
    if m.None? then None
    else Some(Found(m.value.version, SuffixAt(log, m.value.end, cls, sep)))
  }

  /** The match of `Snapshot v(\d+)\.(\d+)\.(\d+)(-([\w\-]+).(\d+))?`, as written. */
  function ParseAsWritten(log: string): (r: Option<Found>)
    ensures r.Some? <==> FindSnapshot(log).Some?
  {
    ParseWith(log, IsBranchChar, NotNewline)
  }

  /** The match of `Snapshot v(\d+)\.(\d+)\.(\d+)(-(\S+)\.(\d+))?`. */
  function Parse(log: string): (r: Option<Found>)
    ensures r.Some? <==> FindSnapshot(log).Some?
  {
    ParseWith(log, NotSpace, IsDot)
  }

  /** `-%s.%d`. */
  function SuffixText(x: Suffix): (t: string)
    ensures |t| >= 3 && t[0] == '-'
  {
    "-" + (x.branch + ("." + NatDigits(x.counter)))
  }

  /** `v%d.%d.%d%s`: the version string, which is also the tag. */
  function VersionText(f: Found): (v: string)
    ensures |v| >= 6 && v[0] == 'v'
  {
    if f.suffix.None? then Render(f.version) else Render(f.version) + SuffixText(f.suffix.value)
  }

  /** The command-line options `get_next_version` reads; an empty `version` is an absent `-v`. */
  datatype Options = Options(version: string, branch: bool, updateMajor: bool, updateMinor: bool)

  /** `vB`: the counter of the found snapshot when it was taken on the current branch, else -1. */
  function PreviousCounter(f: Found, branchName: string): (k: int)
    ensures k >= -1
    ensures k >= 0 <==> f.suffix.Some? && f.suffix.value.branch == branchName
    ensures k >= 0 ==> k == f.suffix.value.counter
  {
    if f.suffix.Some? && f.suffix.value.branch == branchName then f.suffix.value.counter else -1
  }

  /**
   * The snapshot after f: a branch lock keeps the triple and advances the
   * counter of the current branch; otherwise exactly one bump applies and
   * the suffix is dropped. Either way it differs from f.
   */
  function Successor(f: Found, opts: Options, branchName: string): (g: Found)
    ensures g != f
    ensures opts.branch ==> g.version == f.version && g.suffix.Some? && g.suffix.value.branch == branchName
    ensures opts.branch && f.suffix.Some? && f.suffix.value.branch == branchName ==>
      g.suffix.value.counter == f.suffix.value.counter + 1
    ensures opts.branch && !(f.suffix.Some? && f.suffix.value.branch == branchName) ==> g.suffix.value.counter == 0
    ensures !opts.branch ==> g.suffix.None? && Below(f.version, g.version)
  {
    if opts.branch then
      Found(f.version, Some(Suffix(branchName, PreviousCounter(f, branchName) + 1)))
    else
      BumpIncreases(f.version, opts.updateMajor, opts.updateMinor);
      Found(Bump(f.version, opts.updateMajor, opts.updateMinor), None)
  }

  /** What `get_next_version` does: return a version, or exit with status 1 for one of two reasons. */
  datatype Next = Next(version: string) | CannotDetermine | FeatureBranch

  function NextFrom(opts: Options, found: Option<Found>, branchName: string): (r: Next)
    ensures opts.version != "" ==> r == Next(opts.version)
    ensures r == CannotDetermine <==> opts.version == "" && found.None?
    ensures r == FeatureBranch <==>
      opts.version == "" && found.Some? && !opts.branch && branchName != "master" && branchName != "main"
    ensures opts.version == "" && r.Next? ==> r.version == VersionText(Successor(found.value, opts, branchName))
  {
    if opts.version != "" then Next(opts.version)
    else if found.None? then CannotDetermine
    else if !opts.branch && branchName != "master" && branchName != "main" then FeatureBranch
    else Next(VersionText(Successor(found.value, opts, branchName)))
  }

  /**
   * `get_next_version` with the suffix group as written, given the stripped
   * output of `git log -n 100` and of `git rev-parse --abbrev-ref HEAD`.
   */
  function NextVersionAsWritten(opts: Options, log: string, branchName: string): (r: Next)
    ensures r == CannotDetermine <==> opts.version == "" && FindSnapshot(log).None?
  {
    NextFrom(opts, ParseAsWritten(log), branchName)
  }

  /** `get_next_version` with the suffix read by `(-(\S+)\.(\d+))?`. */
  function NextVersion(opts: Options, log: string, branchName: string): (r: Next)
    ensures r == CannotDetermine <==> opts.version == "" && FindSnapshot(log).None?
  {
    NextFrom(opts, Parse(log), branchName)
  }

  /** A suffix whose name has at least one character, all of class cls. */
  predicate NameOf(x: Suffix, cls: char -> bool)
  {
    |x.branch| >= 1 && forall k :: 0 <= k < |x.branch| ==> cls(x.branch[k])
  }

  /** The greedy run ends where the characters of the class end. */
  lemma {:induction false} RunEndOf(s: string, i: nat, j: nat, cls: char -> bool)
    requires i <= j <= |s| && (forall k :: i <= k < j ==> cls(s[k])) && (j == |s| || !cls(s[j]))
    ensures RunEnd(s, i, cls) == j
    decreases j - i
  {
    if i < j {
      RunEndOf(s, i + 1, j, cls);
    }
  }

  /** Backtracking stops at the longest length after which the rest matches. */
  lemma {:induction false} LongestSplitOf(s: string, b: nat, L: nat, sep: char -> bool, n: nat)
    requires 1 <= n <= L && SplitsAt(s, b + n, sep)
    requires forall j :: b + n < j <= b + L ==> !SplitsAt(s, j, sep)
    ensures LongestSplit(s, b, L, sep) == Some(n)
    decreases L
  {
    if n < L {
      LongestSplitOf(s, b, L - 1, sep, n);
    }
  }

  /** The pieces of a suffix text written at e, each at its place. */
  lemma {:induction false} SuffixPieces(s: string, e: nat, x: Suffix)
    requires At(s, e, SuffixText(x))
    ensures var j := e + 1 + |x.branch|;
      At(s, e, "-") && At(s, e + 1, x.branch) && At(s, j, ".") && At(s, j + 1, NatDigits(x.counter))
  {
    var digits := NatDigits(x.counter);
    AtSplit(s, e, "-", x.branch + ("." + digits));
    AtSplit(s, e + 1, x.branch, "." + digits);
    AtSplit(s, e + 1 + |x.branch|, ".", digits);
  }

  /** What the groups of a suffix written at e read: the name, the separator, and the counter. */
  lemma {:induction false} SuffixFields(s: string, e: nat, x: Suffix)
    requires At(s, e, SuffixText(x))
    requires var d := e + |SuffixText(x)|; d == |s| || !IsDigitChar(s[d])
    ensures var j := e + 1 + |x.branch|;
      j + 1 < |s| && s[e] == '-' && s[j] == '.' && IsDigitChar(s[j + 1]) && SuffixEndingAt(s, e, j) == x
  {
    var b := e + 1;
    var j := b + |x.branch|;
    var digits := NatDigits(x.counter);
    SuffixPieces(s, e, x);
    assert s[e + 0] == "-"[0] && s[j + 0] == "."[0] && s[j + 1 + 0] == digits[0];
    NatAt(s, j + 1, x.counter);
    DigitEndOf(s, j + 1, j + 1 + |digits|);
    assert s[b..j] == x.branch by {
      forall k | 0 <= k < |x.branch|
        ensures s[b..j][k] == x.branch[k]
      {
        assert s[b + k] == x.branch[k];
      }
    }
  }

  /**
   * The suffix text written at e, followed by a non-digit, is read back
   * when the name run does not let the name group end after the name.
   */
  lemma {:induction false} SuffixOf(s: string, e: nat, x: Suffix, cls: char -> bool, sep: char -> bool)
    requires e < |s| && s[e] == '-' && |x.branch| >= 1
    requires e + 1 + |x.branch| <= RunEnd(s, e + 1, cls) && SplitsAt(s, e + 1 + |x.branch|, sep)
    requires forall j :: e + 1 + |x.branch| < j <= RunEnd(s, e + 1, cls) ==> !SplitsAt(s, j, sep)
    requires SuffixEndingAt(s, e, e + 1 + |x.branch|) == x
    ensures SuffixAt(s, e, cls, sep) == Some(x)
  {
    var b := e + 1;
    LongestSplitOf(s, b, RunEnd(s, b, cls) - b, sep, |x.branch|);
    SuffixAtSplit(s, e, cls, sep, |x.branch|);
  }

  /** The group matches when backtracking finds a split n characters into the name run. */
  lemma {:induction false} SuffixAtSplit(s: string, e: nat, cls: char -> bool, sep: char -> bool, n: nat)
    requires e < |s| && s[e] == '-'
    requires LongestSplit(s, e + 1, RunEnd(s, e + 1, cls) - (e + 1), sep) == Some(n)
    ensures SuffixAt(s, e, cls, sep) == Some(SuffixEndingAt(s, e, e + 1 + n))
  {
  }

  /** `(-(\S+)\.(\d+))?` reads back a suffix whose name has no whitespace, when whitespace or the end follows. */
  lemma {:induction false} SuffixReadBack(s: string, e: nat, x: Suffix)
    requires At(s, e, SuffixText(x)) && NameOf(x, NotSpace)
    requires Delimited(s, e + |SuffixText(x)|)
    ensures SuffixAt(s, e, NotSpace, IsDot) == Some(x)
  {
    var b := e + 1;
    var j := b + |x.branch|;
    var digits := NatDigits(x.counter);
    var d := e + |SuffixText(x)|;
    SuffixPieces(s, e, x);
    assert s[j + 0] == "."[0];
    forall k | b <= k < d
      ensures NotSpace(s[k]) && (j < k ==> IsDigitChar(s[k]))
    {
      if k < j {
        assert s[b + (k - b)] == x.branch[k - b];
      } else if j < k {
        assert s[j + 1 + (k - j - 1)] == digits[k - j - 1];
      }
    }
    RunEndOf(s, b, d, NotSpace);
    SuffixFields(s, e, x);
    SuffixOf(s, e, x, NotSpace, IsDot);
  }

  /** `(-([\w\-]+).(\d+))?` reads back a suffix whose name is made of `[\w\-]`, when a non-digit or the end follows. */
  lemma {:induction false} SuffixReadBackAsWritten(s: string, e: nat, x: Suffix)
    requires At(s, e, SuffixText(x)) && NameOf(x, IsBranchChar)
    requires var d := e + |SuffixText(x)|; d == |s| || !IsDigitChar(s[d])
    ensures SuffixAt(s, e, IsBranchChar, NotNewline) == Some(x)
  {
    var b := e + 1;
    var j := b + |x.branch|;
    SuffixPieces(s, e, x);
    assert s[j + 0] == "."[0];
    forall k | b <= k < j
      ensures IsBranchChar(s[k])
    {
      assert s[b + (k - b)] == x.branch[k - b];
    }
    RunEndOf(s, b, j, IsBranchChar);
    SuffixFields(s, e, x);
    SuffixOf(s, e, x, IsBranchChar, NotNewline);
  }

  /** A log whose first match ends at e, followed by nothing or whitespace: no suffix. */
  lemma {:induction false} ParsedPlain(log: string, e: nat, t: Triple)
    requires FindSnapshot(log) == Some(TripleMatch(t, e))
    requires Delimited(log, e)
    ensures Parse(log) == Some(Found(t, None)) && ParseAsWritten(log) == Some(Found(t, None))
  {
  }

  /** A log whose first match ends at e, followed by the suffix text x and then whitespace or the end. */
  lemma {:induction false} ParsedSuffix(log: string, e: nat, t: Triple, x: Suffix)
    requires FindSnapshot(log) == Some(TripleMatch(t, e)) && NameOf(x, NotSpace)
    requires At(log, e, SuffixText(x))
    requires Delimited(log, e + |SuffixText(x)|)
    ensures Parse(log) == Some(Found(t, Some(x)))
  {
    SuffixReadBack(log, e, x);
  }

  /** The same for the suffix group as written, when the branch name is made of `[\w\-]`. */
  lemma {:induction false} ParsedSuffixAsWritten(log: string, e: nat, t: Triple, x: Suffix)
    requires FindSnapshot(log) == Some(TripleMatch(t, e)) && NameOf(x, IsBranchChar)
    requires At(log, e, SuffixText(x))
    requires Delimited(log, e + |SuffixText(x)|)
    ensures ParseAsWritten(log) == Some(Found(t, Some(x)))
  {
    SuffixReadBackAsWritten(log, e, x);
  }

  /** The message a lock commits for f: the literal text, then the version string. */
  function Message(f: Found): (m: string)
    ensures |m| == 9 + |VersionText(f)|
  {
    "Snapshot " + VersionText(f)
  }

  /**
   * The message of f, with a suffix, written at p in a log with whitespace
   * or the end after it (in `git log` the message is followed by a line
   * break, or ends the stripped text): the literal and the triple, then the
   * suffix text, then the delimiter.
   */
  lemma {:induction false} MessageSplit(log: string, p: nat, f: Found)
    requires f.suffix.Some?
    requires At(log, p, Message(f))
    requires Delimited(log, p + |Message(f)|)
    ensures var e := p + 9 + |Render(f.version)|;
      At(log, p, "Snapshot " + Render(f.version)) && e < |log| && !IsDigitChar(log[e])
    ensures At(log, p + 9 + |Render(f.version)|, SuffixText(f.suffix.value))
    ensures Delimited(log, p + 9 + |Render(f.version)| + |SuffixText(f.suffix.value)|)
  {
    var t := f.version;
    var x := SuffixText(f.suffix.value);
    assert Message(f) == ("Snapshot " + Render(t)) + x;
    AtSplit(log, p, "Snapshot " + Render(t), x);
    var e := p + 9 + |Render(t)|;
    assert log[e + 0] == x[0] == '-';
    assert e + |x| == p + |Message(f)|;
  }

  /** The same message with no earlier match: its first match is the triple of f. */
  lemma {:induction false} CommittedSuffix(log: string, p: nat, f: Found)
    requires f.suffix.Some?
    requires At(log, p, Message(f))
    requires forall q :: 0 <= q < p ==> TripleAt(log, q).None?
    requires Delimited(log, p + |Message(f)|)
    ensures FindSnapshot(log) == Some(TripleMatch(f.version, p + 9 + |Render(f.version)|))
  {
    MessageSplit(log, p, f);
    RenderParses(log, p, f.version);
  }

  /** The message of f without a suffix, committed as above, is read back by both groups. */
  lemma {:induction false} CommittedPlain(log: string, p: nat, f: Found)
    requires f.suffix.None?
    requires At(log, p, Message(f))
    requires forall q :: 0 <= q < p ==> TripleAt(log, q).None?
    requires Delimited(log, p + |Message(f)|)
    ensures Parse(log) == Some(f) && ParseAsWritten(log) == Some(f)
  {
    var t := f.version;
    assert Message(f) == "Snapshot " + Render(t);
    AtSame(log, p, Message(f), "Snapshot " + Render(t));
    var e := p + 9 + |Render(t)|;
    assert e == p + |Message(f)|;
    assert Delimited(log, e);
    assert e == |log| || !IsDigitChar(log[e]);
    RenderParses(log, p, t);
    ParsedPlain(log, p + 9 + |Render(t)|, t);
  }

  /** The message of f with a suffix, committed as above, is read back by `Parse`. */
  lemma {:induction false} CommittedSuffixParses(log: string, p: nat, f: Found)
    requires f.suffix.Some? && NameOf(f.suffix.value, NotSpace)
    requires At(log, p, Message(f))
    requires forall q :: 0 <= q < p ==> TripleAt(log, q).None?
    requires Delimited(log, p + |Message(f)|)
    ensures Parse(log) == Some(f)
  {
    CommittedSuffix(log, p, f);
    MessageSplit(log, p, f);
    ParsedSuffix(log, p + 9 + |Render(f.version)|, f.version, f.suffix.value);
  }

  /** The same for the suffix group as written, when the branch name is made of `[\w\-]`. */
  lemma {:induction false} CommittedSuffixParsesAsWritten(log: string, p: nat, f: Found)
    requires f.suffix.Some? && NameOf(f.suffix.value, IsBranchChar)
    requires At(log, p, Message(f))
    requires forall q :: 0 <= q < p ==> TripleAt(log, q).None?
    requires Delimited(log, p + |Message(f)|)
    ensures ParseAsWritten(log) == Some(f)
  {
    CommittedSuffix(log, p, f);
    MessageSplit(log, p, f);
    ParsedSuffixAsWritten(log, p + 9 + |Render(f.version)|, f.version, f.suffix.value);
  }

  /** With no earlier match, `Parse` reads back the snapshot a lock committed. */
  lemma {:induction false} CommittedParses(log: string, p: nat, f: Found)
    requires At(log, p, Message(f))
    requires forall q :: 0 <= q < p ==> TripleAt(log, q).None?
    requires Delimited(log, p + |Message(f)|)
    requires f.suffix.Some? ==> NameOf(f.suffix.value, NotSpace)
    ensures Parse(log) == Some(f)
  {
    if f.suffix.Some? {
      CommittedSuffixParses(log, p, f);
    } else {
      CommittedPlain(log, p, f);
    }
  }

  /** The same for the suffix group as written, when the branch name is made of `[\w\-]`. */
  lemma {:induction false} CommittedParsesAsWritten(log: string, p: nat, f: Found)
    requires At(log, p, Message(f))
    requires forall q :: 0 <= q < p ==> TripleAt(log, q).None?
    requires Delimited(log, p + |Message(f)|)
    requires f.suffix.Some? ==> NameOf(f.suffix.value, IsBranchChar)
    ensures ParseAsWritten(log) == Some(f)
  {
    if f.suffix.Some? {
      CommittedSuffixParsesAsWritten(log, p, f);
    } else {
      CommittedPlain(log, p, f);
    }
  }

  /** A log made of a message alone. */
  lemma {:induction false} MessageAlone(f: Found)
    ensures At(Message(f), 0, Message(f))
  {
  }

  /** Snapshots with whitespace-free branch names have distinct version strings, so distinct tags. */
  lemma {:induction false} VersionTextInjective(f: Found, g: Found)
    requires f.suffix.Some? ==> NameOf(f.suffix.value, NotSpace)
    requires g.suffix.Some? ==> NameOf(g.suffix.value, NotSpace)
    ensures VersionText(f) == VersionText(g) ==> f == g
  {
    MessageAlone(f);
    MessageAlone(g);
    CommittedParses(Message(f), 0, f);
    CommittedParses(Message(g), 0, g);
  }

  /**
   * After a lock committed f, the next lock proposes the successor of f,
   * and that version differs from f's, so its tag is a new one.
   */
  lemma {:induction false} NextAfterCommit(log: string, p: nat, f: Found, opts: Options, branchName: string)
    requires At(log, p, Message(f))
    requires forall q :: 0 <= q < p ==> TripleAt(log, q).None?
    requires Delimited(log, p + |Message(f)|)
    requires f.suffix.Some? ==> NameOf(f.suffix.value, NotSpace)
    requires NameOf(Suffix(branchName, 0), NotSpace)
    requires opts.version == "" && (opts.branch || branchName == "master" || branchName == "main")
    ensures NextVersion(opts, log, branchName) == Next(VersionText(Successor(f, opts, branchName)))
    ensures VersionText(Successor(f, opts, branchName)) != VersionText(f)
  {
    CommittedParses(log, p, f);
    VersionTextInjective(f, Successor(f, opts, branchName));
  }

  /** The suffix group as written does not match the suffix `-feature/x.0`. */
  lemma {:induction false} SlashSuffixUnread(s: string, e: nat, x: Suffix)
    requires x == Suffix("feature/x", 0) && At(s, e, SuffixText(x))
    ensures SuffixAt(s, e, IsBranchChar, NotNewline).None?
  {
    var w := "-feature/x.0";
    assert SuffixText(x) == w;
    forall i | e + 1 <= i <= e + 9
      ensures !IsDigitChar(s[i]) && (i < e + 8 ==> IsBranchChar(s[i])) && (i == e + 8 ==> s[i] == '/')
    {
      assert s[e + (i - e)] == w[i - e];
    }
    assert s[e + 0] == w[0];
    RunEndOf(s, e + 1, e + 8, IsBranchChar);
    assert forall j :: e + 2 <= j <= e + 8 ==> !SplitsAt(s, j, NotNewline);
  }

  /** The committed message of `-feature/x.0` is read back, as written, with no suffix. */
  lemma {:induction false} SlashMessageAsWritten(t: Triple)
    ensures ParseAsWritten(Message(Found(t, Some(Suffix("feature/x", 0))))) == Some(Found(t, None))
  {
    var x := Suffix("feature/x", 0);
    var f := Found(t, Some(x));
    SlashMessageUnread(f);
    UnreadMessageAsWritten(f);
  }

  /** In the committed message of `-feature/x.0`, the suffix group as written reads nothing. */
  lemma {:induction false} SlashMessageUnread(f: Found)
    requires f.suffix == Some(Suffix("feature/x", 0))
    ensures SuffixAt(Message(f), 9 + |Render(f.version)|, IsBranchChar, NotNewline).None?
  {
    var s, e := Message(f), 9 + |Render(f.version)|;
    MessageSuffixAt(f);
    assert At(s, e, SuffixText(f.suffix.value));
    SlashSuffixUnread(s, e, f.suffix.value);
    assert SuffixAt(s, e, IsBranchChar, NotNewline).None?;
  }

  /** The suffix text of a committed message follows its triple. */
  lemma {:induction false} MessageSuffixAt(f: Found)
    requires f.suffix.Some?
    ensures At(Message(f), 9 + |Render(f.version)|, SuffixText(f.suffix.value))
  {
    var a, w := "Snapshot " + Render(f.version), SuffixText(f.suffix.value);
    assert Message(f) == a + w + "";
    AtConcat(a, w, "");
  }

  /** A committed message whose suffix the group as written does not read is read back without it. */
  lemma {:induction false} UnreadMessageAsWritten(f: Found)
    requires f.suffix.Some?
    requires SuffixAt(Message(f), 9 + |Render(f.version)|, IsBranchChar, NotNewline).None?
    ensures ParseAsWritten(Message(f)) == Some(Found(f.version, None))
  {
    MessageFind(f);
  }

  /** The first match in a committed message with a suffix is its own triple. */
  lemma {:induction false} MessageFind(f: Found)
    requires f.suffix.Some?
    ensures FindSnapshot(Message(f)) == Some(TripleMatch(f.version, 9 + |Render(f.version)|))
  {
    var x := SuffixText(f.suffix.value);
    assert Message(f) == "Snapshot " + Render(f.version) + x;
    SuffixedFind(f.version, x);
  }

  /** A snapshot message whose triple is followed by `-`: its first match is its triple. */
  lemma {:induction false} SuffixedFind(t: Triple, x: string)
    requires |x| > 0 && x[0] == '-'
    ensures FindSnapshot("Snapshot " + Render(t) + x) == Some(TripleMatch(t, 9 + |Render(t)|))
  {
    var a := "Snapshot " + Render(t);
    AtConcat("", a, x);
    assert "" + a + x == a + x;
    assert (a + x)[|a|] == x[0];
    PrefixFind(a + x, t);
  }

  /** A snapshot message followed by text that does not start with a digit: its first match is its triple. */
  lemma {:induction false} PrefixFind(s: string, t: Triple)
    requires At(s, 0, "Snapshot " + Render(t))
    requires 9 + |Render(t)| < |s| && !IsDigitChar(s[9 + |Render(t)|])
    ensures FindSnapshot(s) == Some(TripleMatch(t, 9 + |Render(t)|))
  {
    RenderParses(s, 0, t);
  }

  /**
   * A branch lock on `feature/x` after the snapshot `-feature/x.0` was
   * committed: the group as written does not read the suffix back, so the
   * counter restarts and the same version, and tag, is proposed again.
   */
  lemma {:induction false} SlashBranchRepeatsAsWritten(t: Triple)
    ensures var f := Found(t, Some(Suffix("feature/x", 0)));
      NextVersionAsWritten(Options("", true, false, false), Message(f), "feature/x") == Next(VersionText(f))
  {
    SlashMessageAsWritten(t);
  }

  /** With `Parse`, the same lock advances the counter to 1. */
  lemma {:induction false} SlashBranchAdvances(t: Triple)
    ensures var f := Found(t, Some(Suffix("feature/x", 0)));
      NextVersion(Options("", true, false, false), Message(f), "feature/x") ==
      Next(VersionText(Found(t, Some(Suffix("feature/x", 1)))))
  {
    var f := Found(t, Some(Suffix("feature/x", 0)));
    assert NameOf(Suffix("feature/x", 0), NotSpace);
    MessageAlone(f);
    NextAfterCommit(Message(f), 0, f, Options("", true, false, false), "feature/x");
  }
}

=== FILE: data_stream.dfy ===
/**
 * source/types/DataStream.cpp: a bounded FIFO of buffers between an
 * upstream source and a downstream sink, with flow control and byte
 * access across the buffers it holds. The upstream `pull` is a parameter:
 * the buffer it would yield.
 */
module DataStream {
  import opened CTypes
  import opened ManagedBuffers
  import ErrorNo

  const DATASTREAM_MAXIMUM_BUFFERS: int := 4

  /** What `pullRequest` does to the downstream component once a buffer is stored. */
  datatype Notify = NoNotify | DownstreamPullRequest | DeferredPullRequestEvent

  class Stream {
    var stream: array<Buffer>
    var bufferCount: int
    var bufferLength: int
    var preferredBufferSize: int
    var isBlocking: bool
    var writers: int
    var downStreamConnected: bool

    /**
     * The first `bufferCount` slots hold the queue, the rest are empty, and
     * `bufferLength` is the number of bytes queued.
     */
    ghost predicate Valid()
      reads this, stream
    {
      stream.Length == DATASTREAM_MAXIMUM_BUFFERS &&
      0 <= bufferCount <= DATASTREAM_MAXIMUM_BUFFERS && writers == 0 &&
      bufferLength == |Bytes(stream[..bufferCount])| &&
      forall i :: bufferCount <= i < DATASTREAM_MAXIMUM_BUFFERS ==> stream[i] == EMPTY
    }

    function Contents(): seq<Buffer>
      reads this, stream
      requires Valid()
    {
      stream[..bufferCount]
    }

    /** The constructor: an empty, blocking stream with no preferred size and no downstream. */
    constructor ()
      ensures Valid() && fresh(stream) && Contents() == [] && bufferLength == 0
      ensures preferredBufferSize == 0 && isBlocking && !downStreamConnected
    {
      stream := new Buffer[DATASTREAM_MAXIMUM_BUFFERS](_ => EMPTY);
      bufferCount := 0;
      bufferLength := 0;
      preferredBufferSize := 0;
      isBlocking := true;
      writers := 0;
      downStreamConnected := false;
    }

    /**
     * `get`: the byte at a position counted across the queued buffers in
     * order; a position past the end is refused.
     */
    method Get(position: int) returns (r: int)
      requires Valid() && position >= 0
      ensures position < |Bytes(Contents())| ==> r == Bytes(Contents())[position] as int
      ensures position >= |Bytes(Contents())| ==> r == ErrorNo.DEVICE_INVALID_PARAMETER
    {
      var p := position;
      var i := 0;
      while i < bufferCount
        invariant 0 <= i <= bufferCount
        invariant p == position - |Bytes(stream[..i])| && p >= 0
      {
        BytesSplitAt(stream[..bufferCount], i);
        assert stream[..bufferCount][..i] == stream[..i];
        if p < |stream[i].bytes| {
          return stream[i].bytes[p] as int;
        }
        BytesSnoc(stream[..i], stream[i]);
        assert stream[..i + 1] == stream[..i] + [stream[i]];
        p := p - |stream[i].bytes|;
        i := i + 1;
      }
      return ErrorNo.DEVICE_INVALID_PARAMETER;
    }

    /**
     * `set`: writes the byte at a position counted across the queued
     * buffers; a position past the end is refused and nothing changes.
     */
    method Set(position: int, value: u8) returns (status: int)
      requires Valid() && position >= 0
      modifies stream
      ensures Valid() && bufferCount == old(bufferCount)
      ensures position < |Bytes(old(Contents()))| ==>
        status == ErrorNo.DEVICE_OK && Bytes(Contents()) == Bytes(old(Contents()))[position := value]
      ensures position >= |Bytes(old(Contents()))| ==>
        status == ErrorNo.DEVICE_INVALID_PARAMETER && stream[..] == old(stream[..])
    {
      var p := position;
      var i := 0;
      while i < bufferCount
        invariant 0 <= i <= bufferCount
        invariant p == position - |Bytes(stream[..i])| && p >= 0
        invariant stream[..] == old(stream[..])
      {
        if p < |stream[i].bytes| {
          ghost var before := stream[..bufferCount];
          BytesUpdate(before, i, p, value);
          assert before[..i] == stream[..i];
          stream[i] := stream[i].(bytes := stream[i].bytes[p := value]);
          assert stream[..bufferCount] == before[i := before[i].(bytes := before[i].bytes[p := value])];
          assert |stream[i].bytes| == |before[i].bytes|;
          BytesSplitAt(before, i);
          BytesSplitAt(stream[..bufferCount], i);
          assert stream[..bufferCount][..i] == before[..i] && stream[..bufferCount][i + 1..] == before[i + 1..];
          return ErrorNo.DEVICE_OK;
        }
        BytesSnoc(stream[..i], stream[i]);
        assert stream[..i + 1] == stream[..i] + [stream[i]];
        p := p - |stream[i].bytes|;
        i := i + 1;
      }
      assert stream[..bufferCount] == stream[..i];
      return ErrorNo.DEVICE_INVALID_PARAMETER;
    }

    /** `isReadOnly`: every queued buffer is read-only; an empty stream is. */
    method IsReadOnly() returns (r: bool)
      requires Valid()
      ensures r <==> forall i :: 0 <= i < |Contents()| ==> Contents()[i].readOnly
    {
      r := true;
      var i := 0;
      while i < bufferCount
        invariant 0 <= i <= bufferCount
        invariant r <==> forall j :: 0 <= j < i ==> stream[j].readOnly
      {
        if stream[i].readOnly == false {
          r := false;
        }
        i := i + 1;
      }
      assert Contents() == stream[..bufferCount];
    }

    method Connect()
      modifies this`downStreamConnected
      ensures downStreamConnected
    {
      downStreamConnected := true;
    }

    method Disconnect()
      modifies this`downStreamConnected
      ensures !downStreamConnected
    {
      downStreamConnected := false;
    }

    method SetPreferredBufferSize(size: int)
      modifies this`preferredBufferSize
      ensures preferredBufferSize == size
    {
      preferredBufferSize := size;
    }

    method GetPreferredBufferSize() returns (size: int)
      ensures size == preferredBufferSize
    {
      size := preferredBufferSize;
    }

    /** `setBlocking`; the notification event it allocates is not modelled. */
    method SetBlocking(blocking: bool)
      modifies this`isBlocking
      ensures isBlocking == blocking
    {
      isBlocking := blocking;
    }

    /**
     * `pull`: the head buffer, removed from the queue, its bytes no longer
     * counted; an empty stream yields an empty buffer and is unchanged.
     */
    method Pull() returns (out: Buffer)
      requires Valid()
      modifies this`bufferCount, this`bufferLength, stream
      ensures Valid()
      ensures old(bufferCount) > 0 ==> (out == old(Contents())[0] && Contents() == old(Contents())[1..] &&
        bufferLength == old(bufferLength) - |out.bytes|)
      ensures old(bufferCount) == 0 ==> out == EMPTY && Contents() == [] && bufferLength == old(bufferLength)
    {
      out := stream[0];
      if bufferCount > 0 {
        ghost var before := stream[..bufferCount];
        ghost var length0 := bufferLength;
        assert length0 == |Bytes(before)|;
        var i := 0;
        while i < bufferCount - 1
          modifies stream
          invariant 0 <= i <= bufferCount - 1 && bufferCount <= stream.Length == DATASTREAM_MAXIMUM_BUFFERS
          invariant |before| == bufferCount
          invariant forall j :: 0 <= j < i ==> stream[j] == before[j + 1]
          invariant forall j :: i <= j < DATASTREAM_MAXIMUM_BUFFERS ==> stream[j] == old(stream[j])
        {
          stream[i] := stream[i + 1];
          i := i + 1;
        }
        assert out == before[0];
        stream[bufferCount - 1] := EMPTY;
        bufferCount := bufferCount - 1;
        bufferLength := bufferLength - |out.bytes|;
        assert forall j :: 0 <= j < bufferCount ==> stream[j] == before[1..][j];
        assert stream[..bufferCount] == before[1..];
        BytesTail(before);
        assert bufferLength == length0 - |before[0].bytes|;
      }
    }

    /**
     * `canPull`: there is room for another buffer of `size` bytes unless
     * every slot is taken or waited for, or a positive preferred size would
     * be exceeded.
     */
    predicate CanPull(size: int)
      requires Valid()
      reads this, stream
      ensures CanPull(size) <==> (|Contents()| < DATASTREAM_MAXIMUM_BUFFERS &&
        (preferredBufferSize <= 0 || |Bytes(Contents())| + size <= preferredBufferSize))
    {
      if bufferCount + writers >= DATASTREAM_MAXIMUM_BUFFERS then false
      else if preferredBufferSize > 0 && bufferLength + size > preferredBufferSize then false
      else true
    }

    /** `full`: no room for even an empty buffer. */
    predicate Full()
      requires Valid()
      reads this, stream
      ensures Full() <==> (|Contents()| == DATASTREAM_MAXIMUM_BUFFERS ||
        (preferredBufferSize > 0 && |Bytes(Contents())| > preferredBufferSize))
    {
      !CanPull(0)
    }

    /**
     * `pullRequest`: a full non-blocking stream refuses without pulling
     * upstream. Otherwise the upstream buffer is pulled and queued, and the
     * downstream is asked to pull at once (blocking) or through a deferred
     * event (non-blocking).
     */
    method PullRequest(incoming: Buffer) returns (status: int, pulled: bool, notify: Notify)
      requires Valid() && !(Full() && isBlocking)
      modifies this`bufferCount, this`bufferLength, stream
      ensures Valid()
      ensures old(Full()) ==> (status == ErrorNo.DEVICE_NO_RESOURCES && !pulled && notify == NoNotify &&
        Contents() == old(Contents()))
      ensures !old(Full()) ==> (status == ErrorNo.DEVICE_OK && pulled &&
        Contents() == old(Contents()) + [incoming] && bufferLength == old(bufferLength) + |incoming.bytes| &&
        notify == (if !downStreamConnected then NoNotify
                   else if isBlocking then DownstreamPullRequest else DeferredPullRequestEvent))
    {
      if Full() && isBlocking == false {
        return ErrorNo.DEVICE_NO_RESOURCES, false, NoNotify;
      }
      ghost var before := stream[..bufferCount];
      stream[bufferCount] := incoming;
      bufferLength := bufferLength + |incoming.bytes|;
      bufferCount := bufferCount + 1;
      assert stream[..bufferCount] == before + [incoming];
      BytesSnoc(before, incoming);
      notify := NoNotify;
      if downStreamConnected {
        notify := if isBlocking then DownstreamPullRequest else DeferredPullRequestEvent;
      }
      return ErrorNo.DEVICE_OK, true, notify;
    }
  }
}

=== FILE: deep_sleep_test.dfy ===
/**
 * `deepsleep_test_send_time` of source/samples/DeepSleepTest.cpp: the
 * current time in microseconds rendered as `h:mm:ss.uuuuuu <suffix>`.
 * The serial send itself is not part of this model; the clock reading is a parameter.
 */
module DeepSleepTest {
  import opened CTypes
  import opened Text

  const SECOND: int := 1000000

  datatype Clock = Clock(h: int, m: int, s: int, u: int)

  /**
   * The decomposition as the code does it: the seconds count is truncated
   * to a 32-bit int, then split with C division and remainder.
   */
  function Decompose(now: u64): (t: Clock)
    ensures 0 <= t.u < SECOND
    ensures now / SECOND < 0x8000_0000 ==>
      0 <= t.h && 0 <= t.m < 60 && 0 <= t.s < 60 &&
      ((t.h * 60 + t.m) * 60 + t.s) * SECOND + t.u == now
  {
    var u := now % SECOND;
    var s0 := ToI32(now / SECOND);
    var m0 := CDiv(s0, 60);
    Clock(CDiv(m0, 60), CRem(m0, 60), CRem(s0, 60), u)
  }

  /** `("00" + x).substring(len - 2, 2)`: prefix with zeros, keep the last n characters. */
  function Padded(v: int, zeros: string): (r: string)
    ensures |r| == |zeros|
  {
    var p := zeros + Decimal(v);
    p[|p| - |zeros|..]
  }

  /** The message sent over serial. */
  function Message(now: u64, suffix: string): (msg: string)
    ensures |msg| >= 15 + |suffix|
  {
    var t := Decompose(now);
    Decimal(t.h) + ":" + Padded(t.m, "00") + ":" + Padded(t.s, "00") + "." +
      Padded(t.u, "000000") + " " + suffix
  }

  function Zeros(n: nat): (z: string)
    ensures |z| == n && forall i :: 0 <= i < n ==> z[i] == '0'
  {
    if n == 0 then [] else "0" + Zeros(n - 1)
  }

  /** Leading zeros do not change the value of a digit string. */
  lemma {:induction false} LeadingZeros(z: string, d: string)
    requires forall i :: 0 <= i < |z| ==> z[i] == '0'
    requires forall i :: 0 <= i < |d| ==> IsDigitChar(d[i])
    ensures forall i :: 0 <= i < |z + d| ==> IsDigitChar((z + d)[i])
    ensures DigitsValue(z + d) == DigitsValue(d)
    decreases |d|
  {
    var zd := z + d;
    assert forall i :: 0 <= i < |zd| ==> IsDigitChar(zd[i]) by {
      forall i | 0 <= i < |zd| ensures IsDigitChar(zd[i]) {
        if i < |z| { assert zd[i] == z[i]; } else { assert zd[i] == d[i - |z|]; }
      }
    }
    if d == [] {
      assert zd == z;
      AllZeros(z);
    } else {
      LeadingZeros(z, d[..|d| - 1]);
      assert zd[..|zd| - 1] == z + d[..|d| - 1];
      assert zd[|zd| - 1] == d[|d| - 1];
    }
  }

  lemma {:induction false} AllZeros(z: string)
    requires forall i :: 0 <= i < |z| ==> z[i] == '0'
    ensures forall i :: 0 <= i < |z| ==> IsDigitChar(z[i])
    ensures DigitsValue(z) == 0
    decreases |z|
  {
    if z != [] {
      AllZeros(z[..|z| - 1]);
    }
  }

  /** A value below 10^n comes out as exactly n digits denoting that value. */
  lemma PaddedDigits(v: nat, n: nat)
    requires 1 <= n && v < Pow10(n)
    ensures var r := Padded(v, Zeros(n));
      |r| == n && (forall i :: 0 <= i < n ==> IsDigitChar(r[i])) && DigitsValue(r) == v
  {
    var d := NatDigits(v);
    NatDigitsLength(v, n, Pow10(n));
    NatDigitsRoundTrip(v);
    var p := Zeros(n) + d;
    var r := p[|p| - n..];
    assert r == Zeros(n - |d|) + d by {
      assert |r| == n;
      forall i | 0 <= i < n ensures r[i] == (Zeros(n - |d|) + d)[i] {
        if i < n - |d| { assert r[i] == p[|d| + i]; } else { assert r[i] == p[|d| + i]; }
      }
    }
    LeadingZeros(Zeros(n - |d|), d);
  }

  /**
   * When the seconds count fits a 32-bit int, the message is the hours in
   * decimal, then minutes and seconds as two digits and microseconds as six
   * digits, each denoting the component of the time, then a space and the suffix.
   */
  lemma MessageLayout(now: u64, suffix: string)
    requires now / SECOND < 0x8000_0000
    ensures var t := Decompose(now);
      exists mm: string, ss: string, uu: string ::
        Message(now, suffix) == Decimal(t.h) + ":" + mm + ":" + ss + "." + uu + " " + suffix &&
        |mm| == 2 && (forall i :: 0 <= i < 2 ==> IsDigitChar(mm[i])) && DigitsValue(mm) == t.m &&
        |ss| == 2 && (forall i :: 0 <= i < 2 ==> IsDigitChar(ss[i])) && DigitsValue(ss) == t.s &&
        |uu| == 6 && (forall i :: 0 <= i < 6 ==> IsDigitChar(uu[i])) && DigitsValue(uu) == t.u
  {
    var t := Decompose(now);
    assert Pow10(2) == 100;
    assert Pow10(6) == SECOND;
    assert Zeros(2) == "00";
    assert Zeros(6) == "000000";
    PaddedDigits(t.m, 2);
    PaddedDigits(t.s, 2);
    PaddedDigits(t.u, 6);
  }
}

=== FILE: device_component.dfy ===
/**
 * source/core/DeviceComponent.cpp: the static table of components and the
 * callback that gives flagged components their periodic and idle calls.
 * Components are represented by their identity; 0 stands for the null
 * pointer. Each component's status flags are given as the sets of
 * components flagged for system ticks and for idle calls.
 */
module DeviceComponent {
  const DEVICE_COMPONENT_COUNT: int := 30
  const NULL: int := 0

  /** Component ids from DeviceComponent.h that the event bus and the scheduler use. */
  const DEVICE_ID_SCHEDULER: int := 15
  const DEVICE_ID_MESSAGE_BUS_LISTENER: int := 1021
  const DEVICE_ID_NOTIFY_ONE: int := 1022
  const DEVICE_ID_NOTIFY: int := 1023

  datatype Call = PeriodicCallback(component: int) | IdleCallback(component: int)

  /** The callbacks one pass over the table makes: flagged, non-null entries, in slot order. */
  function Calls(slots: seq<int>, flagged: set<int>, idle: bool): (calls: seq<Call>)
    ensures |calls| <= |slots|
    ensures forall k :: 0 <= k < |calls| ==>
      (calls[k].component in flagged && calls[k].component in slots &&
       calls[k].component != NULL && calls[k].IdleCallback? == idle)
  {
    if slots == [] then []
    else
      var c := slots[|slots| - 1];
      Calls(slots[..|slots| - 1], flagged, idle) +
        (if c != NULL && c in flagged then [if idle then IdleCallback(c) else PeriodicCallback(c)] else [])
  }

  /** Every flagged component in the table is called. */
  lemma {:induction false} CallsComplete(slots: seq<int>, flagged: set<int>, idle: bool, c: int)
    requires c in slots && c in flagged && c != NULL
    ensures (if idle then IdleCallback(c) else PeriodicCallback(c)) in Calls(slots, flagged, idle)
    decreases |slots|
  {
    if slots[|slots| - 1] != c {
      assert c in slots[..|slots| - 1];
      CallsComplete(slots[..|slots| - 1], flagged, idle, c);
    }
  }

  /** The lowest free slot, if any. */
  function FirstNull(slots: seq<int>): (i: int)
    ensures -1 <= i < |slots|
    ensures i >= 0 ==> slots[i] == NULL && NULL !in slots[..i]
    ensures i == -1 ==> NULL !in slots
  {
    if slots == [] then -1
    else if slots[0] == NULL then 0
    else var j := FirstNull(slots[1..]); if j == -1 then -1 else j + 1
  }

  class Registry {
    var components: array<int>
    /** DEVICE_COMPONENT_LISTENERS_CONFIGURED in the static `configuration` byte. */
    var listenersConfigured: bool

    ghost predicate Valid()
      reads this
    {
      components.Length == DEVICE_COMPONENT_COUNT
    }

    constructor ()
      ensures Valid() && fresh(components) && !listenersConfigured
      ensures forall i :: 0 <= i < DEVICE_COMPONENT_COUNT ==> components[i] == NULL
    {
      components := new int[DEVICE_COMPONENT_COUNT](_ => NULL);
      listenersConfigured := false;
    }

    /**
     * `addComponent`: the component takes the lowest free slot; with none
     * free it is silently left out. The first time a message bus is present
     * and the tick timer can be set up, the two listeners are registered;
     * never again afterwards.
     */
    method AddComponent(c: int, busPresent: bool, timerStatus: int) returns (listenersRegistered: bool)
      requires Valid() && c != NULL
      modifies components, this`listenersConfigured
      ensures Valid()
      ensures var i := FirstNull(old(components[..]));
        components[..] == (if i == -1 then old(components[..]) else old(components[..])[i := c])
      ensures listenersRegistered <==> !old(listenersConfigured) && busPresent && timerStatus == 0
      ensures listenersConfigured == (old(listenersConfigured) || listenersRegistered)
    {
      ghost var slots := components[..];
      var i := 0;
      while i < DEVICE_COMPONENT_COUNT
        invariant 0 <= i <= DEVICE_COMPONENT_COUNT && components[..] == slots
        invariant NULL !in slots[..i]
      {
        if components[i] == NULL {
          FirstNullSkip(slots, i);
          components[i] := c;
          break;
        }
        i := i + 1;
      }
      if i == DEVICE_COMPONENT_COUNT {
        assert slots[..i] == slots;
        FirstNullNone(slots);
      }
      listenersRegistered := false;
      if !listenersConfigured && busPresent {
        if timerStatus == 0 {
          listenersRegistered := true;
          listenersConfigured := true;
        }
      }
    }

    /** `removeComponent`: only the first slot holding the component is cleared. */
    method RemoveComponent(c: int)
      requires Valid()
      modifies components
      ensures Valid()
      ensures c !in old(components[..]) ==> components[..] == old(components[..])
      ensures c in old(components[..]) ==>
        exists i :: 0 <= i < DEVICE_COMPONENT_COUNT && old(components[i]) == c && c !in old(components[..i]) &&
          components[..] == old(components[..])[i := NULL]
    {
      var i := 0;
      while i < DEVICE_COMPONENT_COUNT
        invariant 0 <= i <= DEVICE_COMPONENT_COUNT && components[..] == old(components[..])
        invariant c !in components[..i]
      {
        if components[i] == c {
          components[i] := NULL;
          return;
        }
        i := i + 1;
      }
      assert components[..i] == components[..];
    }

    /**
     * `component_callback`: a system tick calls `periodicCallback` on each
     * component flagged for it, and the scheduler's idle event calls
     * `idleCallback` on each flagged for that. The two passes share one
     * index, so a value that is both events only gets the periodic pass.
     */
    method ComponentCallback(value: int, systemTickValue: int, idleValue: int, systemTick: set<int>, idleTick: set<int>)
      returns (calls: seq<Call>)
      requires Valid()
      ensures calls ==
        (if value == systemTickValue then Calls(components[..], systemTick, false) else []) +
        (if value == idleValue && value != systemTickValue then Calls(components[..], idleTick, true) else [])
    {
      calls := [];
      var i := 0;
      if value == systemTickValue {
        while i < DEVICE_COMPONENT_COUNT
          invariant 0 <= i <= DEVICE_COMPONENT_COUNT
          invariant calls == Calls(components[..i], systemTick, false)
        {
          assert components[..i + 1][..i] == components[..i];
          if components[i] != NULL && components[i] in systemTick {
            calls := calls + [PeriodicCallback(components[i])];
          }
          i := i + 1;
        }
        assert components[..i] == components[..];
      }
      ghost var periodic := calls;
      if value == idleValue {
        var start := i;
        while i < DEVICE_COMPONENT_COUNT
          invariant start <= i <= DEVICE_COMPONENT_COUNT
          invariant calls == periodic + Calls(components[start..i], idleTick, true)
        {
          assert components[start..i + 1][..i - start] == components[start..i];
          if components[i] != NULL && components[i] in idleTick {
            calls := calls + [IdleCallback(components[i])];
          }
          i := i + 1;
        }
        if start == 0 {
          assert components[start..i] == components[..];
        } else {
          assert components[start..i] == [];
        }
      }
    }
  }

  lemma FirstNullSkip(slots: seq<int>, i: nat)
    requires i < |slots| && NULL !in slots[..i] && slots[i] == NULL
    ensures FirstNull(slots) == i
    decreases i
  {
    if i > 0 {
      assert slots[1..][..i - 1] == slots[..i][1..];
      FirstNullSkip(slots[1..], i - 1);
    }
  }

  lemma FirstNullNone(slots: seq<int>)
    requires NULL !in slots
    ensures FirstNull(slots) == -1
  {
  }
}

=== FILE: device_fiber.dfy ===
/**
 * source/core/DeviceFiber.cpp: the bookkeeping of the fiber scheduler.
 * Fibers sit on at most one of four queues (run, sleep, wait and the pool
 * of unused fibers); each fiber records the queue it is on. A sleeping
 * fiber's `context` holds its wake-up time in milliseconds, a waiting
 * fiber's the event it waits for, value in the high half-word and id in
 * the low one.
 *
 * The doubly-linked queues are sequences in list order: a fiber's `next`
 * is the one after it in its queue's sequence and its `prev` the one
 * before. The context switch, fork-on-block and the stacks' contents are
 * not part of this model.
 */
module DeviceFiber {
  import opened CTypes
  import opened ErrorNo
  import opened Wrappers
  import opened DeviceComponent
  import opened DeviceListener
  import opened Arith

  const DEVICE_SCHEDULER_EVT_TICK: u16 := 1
  const DEVICE_FIBER_FLAG_FOB: bv32 := 0x01
  const DEVICE_FIBER_FLAG_DO_NOT_PAGE: bv32 := 0x08

  /** `flags & bit`, for a fiber's flags word. */
  predicate FlagSet(flags: u32, bit: bv32)
  {
    (flags as bv32) & bit != 0
  }
  const SCHEDULER_TICK_PERIOD_US: int := 6000

  /** The queue a fiber is on: `f->queue`, NULL or the address of one of the four queue heads. */
  datatype QueueName = NoQueue | RunQueue | SleepQueue | WaitQueue | FiberPool

  class Fiber {
    var stackBottom: u32
    var stackTop: u32
    var context: u32
    var flags: u32
    var queue: QueueName

    /** A fiber fresh from the heap: no stack, no flags and on no queue. */
    constructor()
      ensures stackBottom == 0 && stackTop == 0 && context == 0 && flags == 0 && queue == NoQueue
    {
      stackBottom := 0;
      stackTop := 0;
      context := 0;
      flags := 0;
      queue := NoQueue;
    }
  }

  predicate Unique(s: seq<Fiber>)
  {
    forall i, j :: 0 <= i < j < |s| ==> s[i] != s[j]
  }

  /** Every fiber of `s` records that it is on queue `q`. */
  predicate Tagged(s: seq<Fiber>, q: QueueName)
    reads s`queue
  {
    forall i :: 0 <= i < |s| ==> s[i].queue == q
  }

  /** Linking a fiber that records queue `q` at the tail keeps the queue tagged and free of repeats. */
  lemma AppendedQueue(s: seq<Fiber>, f: Fiber, q: QueueName)
    requires Tagged(s, q) && Unique(s) && f !in s && f.queue == q
    ensures Tagged(s + [f], q) && Unique(s + [f])
  {
  }

  /** `queue_fiber`'s walk along the `next` links: the position of the last fiber of a non-empty queue. */
  method ScanToTail(s: seq<Fiber>) returns (last: nat)
    requires s != []
    ensures last == |s| - 1 && s[..last + 1] == s
  {
    last := 0;
    while last + 1 < |s|
      invariant 0 <= last < |s|
    {
      last := last + 1;
    }
  }

  /** The position of `f` in a queue it is on. */
  function IndexOf(s: seq<Fiber>, f: Fiber): (k: nat)
    requires f in s
    ensures k < |s| && s[k] == f
    ensures forall j :: 0 <= j < k ==> s[j] != f
  {
    if s[0] == f then 0 else 1 + IndexOf(s[1..], f)
  }

  /** The queue after `dequeue_fiber` unlinks `f`: its neighbours become adjacent. */
  function Without(s: seq<Fiber>, f: Fiber): (r: seq<Fiber>)
    ensures f !in s ==> r == s
    ensures f in s ==> |r| == |s| - 1
  {
    if f !in s then s else s[..IndexOf(s, f)] + s[IndexOf(s, f) + 1..]
  }

  /** Unlinking keeps a list free of repeats, removes exactly `f`, and keeps every other fiber. */
  lemma WithoutMembers(s: seq<Fiber>, f: Fiber)
    requires Unique(s)
    ensures Unique(Without(s, f))
    ensures forall i :: 0 <= i < |Without(s, f)| ==> Without(s, f)[i] in s && Without(s, f)[i] != f
    ensures forall g :: g in s && g != f ==> g in Without(s, f)
  {
    if f in s {
      var k := IndexOf(s, f);
      var r := Without(s, f);
      WithoutIndex(s, f);
      forall g | g in s && g != f
        ensures g in r
      {
        var j :| 0 <= j < |s| && s[j] == g;
        if j < k {
          assert r[j] == g;
        } else {
          assert r[j - 1] == g;
        }
      }
    }
  }

  /** The fibers before `f` keep their positions; those after it move up by one. */
  lemma WithoutIndex(s: seq<Fiber>, f: Fiber)
    requires f in s
    ensures forall i :: 0 <= i < |Without(s, f)| ==>
      Without(s, f)[i] == (if i < IndexOf(s, f) then s[i] else s[i + 1])
  {
    var k := IndexOf(s, f);
    var a, b := s[..k], s[k + 1..];
    assert Without(s, f) == a + b;
    forall i | 0 <= i < |a + b|
      ensures (a + b)[i] == (if i < k then s[i] else s[i + 1])
    {
      if i >= k {
        assert (a + b)[i] == b[i - k];
      }
    }
  }

  /** `queue_fiber` then `dequeue_fiber` gives the queue back. */
  /** Removing a fiber a second time changes nothing. */
  lemma WithoutTwice(s: seq<Fiber>, f: Fiber)
    requires Unique(s)
    ensures Without(Without(s, f), f) == Without(s, f)
  {
    WithoutMembers(s, f);
  }

  lemma WithoutAppended(s: seq<Fiber>, f: Fiber)
    requires f !in s
    ensures Without(s + [f], f) == s
  {
    assert (s + [f])[|s|] == f;
    assert IndexOf(s + [f], f) == |s|;
    assert (s + [f])[..|s|] == s;
  }

  /** Unlinking a fiber keeps the others in order: the fibers before it and after it. */
  lemma WithoutSplit(a: seq<Fiber>, f: Fiber, b: seq<Fiber>)
    requires Unique(a + [f] + b)
    ensures Without(a + [f] + b, f) == a + b
  {
    var s := a + [f] + b;
    assert s[|a|] == f;
    assert IndexOf(s, f) == |a|;
    assert s[..|a|] == a && s[|a| + 1..] == b;
  }

  /** A queue from position `i` on is the fiber there followed by the rest. */
  lemma SplitAt(s: seq<Fiber>, i: int)
    requires 0 <= i < |s|
    ensures s[i..] == [s[i]] + s[i + 1..]
  {
  }

  /** Moving the boundary of a walk past one fiber leaves the queue as it was. */
  lemma Regroup(a: seq<Fiber>, f: Fiber, b: seq<Fiber>)
    ensures a + ([f] + b) == (a + [f]) + b
  {
  }

  /** The contexts of the fibers of `s`, in queue order. */
  function Contexts(s: seq<Fiber>): (r: seq<u32>)
    reads s
    ensures |r| == |s|
  {
    seq(|s|, k requires 0 <= k < |s| reads s => s[k].context)
  }

  /** The fibers of `s` whose flag in `keep` is `want`, in queue order: those a walk along the queue moves or leaves. */
  function Select(s: seq<Fiber>, keep: seq<bool>, want: bool): (r: seq<Fiber>)
    requires |keep| == |s|
    ensures |r| <= |s|
  {
    if s == [] then []
    else
      var n := |s| - 1;
      Select(s[..n], keep[..n], want) + (if keep[n] == want then [s[n]] else [])
  }

  /** One more fiber examined: it joins the selection when its flag is the one wanted. */
  lemma SelectStep(s: seq<Fiber>, keep: seq<bool>, i: int, want: bool)
    requires |keep| == |s| && 0 <= i < |s|
    ensures Select(s[..i + 1], keep[..i + 1], want) == Select(s[..i], keep[..i], want) + (if keep[i] == want then [s[i]] else [])
  {
    assert s[..i + 1][..i] == s[..i];
    assert keep[..i + 1][..i] == keep[..i];
  }

  /** The fibers selected and those passed over partition the queue: none is lost or doubled. */
  lemma {:induction false} SelectPartitions(s: seq<Fiber>, keep: seq<bool>)
    requires |keep| == |s|
    ensures multiset(Select(s, keep, true)) + multiset(Select(s, keep, false)) == multiset(s)
    decreases |s|
  {
    if s != [] {
      var n := |s| - 1;
      SelectPartitions(s[..n], keep[..n]);
      assert s == s[..n] + [s[n]];
    }
  }

  /** In a queue without repeats, a fiber is selected exactly when its flag is the one wanted. */
  lemma {:induction false} SelectMembers(s: seq<Fiber>, keep: seq<bool>, want: bool)
    requires |keep| == |s| && Unique(s)
    ensures forall x :: x in Select(s, keep, want) ==> x in s
    ensures forall i :: 0 <= i < |s| ==> (s[i] in Select(s, keep, want) <==> keep[i] == want)
    decreases |s|
  {
    if s != [] {
      var n := |s| - 1;
      var p := s[..n];
      SelectMembers(p, keep[..n], want);
      assert forall i :: 0 <= i < n ==> p[i] == s[i] && keep[..n][i] == keep[i];
      assert s[n] !in p;
    }
  }

  /** The wake-up flags of a tick: the fiber's wake-up time has come. */
  function Expired(ctx: seq<u32>, now: int): (due: seq<bool>)
    ensures |due| == |ctx|
    ensures forall k :: 0 <= k < |ctx| ==> (due[k] <==> now >= ctx[k] as int)
  {
    seq(|ctx|, k requires 0 <= k < |ctx| => now >= ctx[k] as int)
  }

  /** The sleeping fibers whose wake-up time has come, in queue order. */
  function Due(s: seq<Fiber>, ctx: seq<u32>, now: int): seq<Fiber>
    requires |ctx| == |s|
  {
    Select(s, Expired(ctx, now), true)
  }

  /** The sleeping fibers whose wake-up time lies ahead, in queue order. */
  function NotDue(s: seq<Fiber>, ctx: seq<u32>, now: int): seq<Fiber>
    requires |ctx| == |s|
  {
    Select(s, Expired(ctx, now), false)
  }

  /**
   * A tick partitions the sleep queue: every fiber is woken or stays, none
   * is lost or doubled; a fiber is woken exactly when its wake-up time has
   * come.
   */
  lemma TickWakesExactlyDue(s: seq<Fiber>, ctx: seq<u32>, now: int)
    requires |ctx| == |s| && Unique(s)
    ensures multiset(Due(s, ctx, now)) + multiset(NotDue(s, ctx, now)) == multiset(s)
    ensures forall i :: 0 <= i < |s| ==> (s[i] in Due(s, ctx, now) <==> now >= ctx[i] as int)
    ensures forall i :: 0 <= i < |s| ==> (s[i] in NotDue(s, ctx, now) <==> now < ctx[i] as int)
  {
    SelectPartitions(s, Expired(ctx, now));
    SelectMembers(s, Expired(ctx, now), true);
    SelectMembers(s, Expired(ctx, now), false);
  }

  /** `fiber_wake_on_event`'s encoding: the value in the high half-word, the id in the low one. */
  function WaitContext(id: u16, value: u16): (c: u32)
    ensures WaitId(c) == id && WaitValue(c) == value
  {
    DivUnique(value * 0x1_0000 + id, 0x1_0000, value, id);
    value * 0x1_0000 + id
  }

  /** `scheduler_event`'s decoding of the id: `context & 0xFFFF`. */
  function WaitId(c: u32): u16
  {
    c % 0x1_0000
  }

  /** `scheduler_event`'s decoding of the value: `(context & 0xFFFF0000) >> 16`. */
  function WaitValue(c: u32): u16
  {
    c / 0x1_0000
  }

  /** Every context decodes to an (id, value) pair that encodes back to it. */
  lemma ContextRoundTrip(c: u32)
    ensures WaitContext(WaitId(c), WaitValue(c)) == c
  {
  }

  /** The NOTIFY_ONE case: the event is on NOTIFY_ONE and the fiber waits on NOTIFY with this or ANY value. */
  predicate NotifyOneMatch(c: u32, e: Event)
  {
    e.source as int == DEVICE_ID_NOTIFY_ONE && WaitId(c) as int == DEVICE_ID_NOTIFY &&
    (WaitValue(c) == DEVICE_EVT_ANY || WaitValue(c) == e.value)
  }

  /** The normal case: id and value match the event or are ANY. */
  predicate NormalMatch(c: u32, e: Event)
  {
    (WaitId(c) == DEVICE_ID_ANY || WaitId(c) == e.source) && (WaitValue(c) == DEVICE_EVT_ANY || WaitValue(c) == e.value)
  }

  /** `notifyOneComplete` after walking past waiters with contexts `ctx`. */
  function NotifyOneDone(ctx: seq<u32>, e: Event): (done: bool)
    ensures done ==> ctx != []
  {
    if ctx == [] then false
    else NotifyOneDone(ctx[..|ctx| - 1], e) || NotifyOneMatch(ctx[|ctx| - 1], e)
  }

  /** The one-shot wake-up is used exactly when some waiter walked past matched as the NOTIFY_ONE case. */
  lemma {:induction false} NotifyOneDoneIff(ctx: seq<u32>, e: Event)
    ensures NotifyOneDone(ctx, e) <==> exists k :: 0 <= k < |ctx| && NotifyOneMatch(ctx[k], e)
    decreases |ctx|
  {
    if ctx != [] {
      var n := |ctx| - 1;
      NotifyOneDoneIff(ctx[..n], e);
      assert forall k :: 0 <= k < n ==> ctx[..n][k] == ctx[k];
    }
  }

  /** One more waiter walked past: the one-shot wake-up is used if it was already or this waiter matches as the NOTIFY_ONE case. */
  lemma NotifyOneStep(ctx: seq<u32>, i: int, e: Event)
    requires 0 <= i < |ctx|
    ensures NotifyOneDone(ctx[..i + 1], e) == (NotifyOneDone(ctx[..i], e) || NotifyOneMatch(ctx[i], e))
  {
    assert ctx[..i + 1][..i] == ctx[..i];
  }

  /** Whether `scheduler_event` wakes the waiter at position `i`, given the waiters it walked past. */
  predicate WakesAt(ctx: seq<u32>, i: int, e: Event)
    requires 0 <= i < |ctx|
  {
    if NotifyOneMatch(ctx[i], e) then !NotifyOneDone(ctx[..i], e) else NormalMatch(ctx[i], e)
  }

  /** The wake-up flags of an event, one per waiter. */
  function Wakes(ctx: seq<u32>, e: Event): (w: seq<bool>)
    ensures |w| == |ctx|
    ensures forall k :: 0 <= k < |ctx| ==> (w[k] <==> WakesAt(ctx, k, e))
  {
    seq(|ctx|, k requires 0 <= k < |ctx| => WakesAt(ctx, k, e))
  }

  /** The waiting fibers an event wakes, in queue order. */
  function Woken(s: seq<Fiber>, ctx: seq<u32>, e: Event): seq<Fiber>
    requires |ctx| == |s|
  {
    Select(s, Wakes(ctx, e), true)
  }

  /** The waiting fibers an event leaves waiting, in queue order. */
  function StillWaiting(s: seq<Fiber>, ctx: seq<u32>, e: Event): seq<Fiber>
    requires |ctx| == |s|
  {
    Select(s, Wakes(ctx, e), false)
  }

  /** A NOTIFY_ONE event wakes at most one of the fibers that match it as the NOTIFY_ONE case. */
  lemma NotifyOneWakesAtMostOne(ctx: seq<u32>, e: Event, i: int, j: int)
    requires 0 <= i < j < |ctx| && NotifyOneMatch(ctx[i], e) && NotifyOneMatch(ctx[j], e)
    ensures WakesAt(ctx, i, e) ==> !WakesAt(ctx, j, e)
  {
    NotifyOneDoneIff(ctx[..j], e);
    assert ctx[..j][i] == ctx[i];
  }

  /** A NOTIFY_ONE event wakes the first fiber that matches it as the NOTIFY_ONE case. */
  lemma NotifyOneWakesFirst(ctx: seq<u32>, e: Event, i: int)
    requires 0 <= i < |ctx| && NotifyOneMatch(ctx[i], e)
    requires forall k :: 0 <= k < i ==> !NotifyOneMatch(ctx[k], e)
    ensures WakesAt(ctx, i, e)
  {
    NotifyOneDoneIff(ctx[..i], e);
  }

  /** An event not on NOTIFY_ONE wakes exactly the waiters whose id and value match it or are ANY. */
  lemma OrdinaryEventWakesAllMatching(ctx: seq<u32>, e: Event, i: int)
    requires e.source as int != DEVICE_ID_NOTIFY_ONE && 0 <= i < |ctx|
    ensures WakesAt(ctx, i, e) <==> NormalMatch(ctx[i], e)
  {
  }

  /**
   * An event partitions the wait queue: every fiber is woken or keeps
   * waiting, none is lost or doubled; a fiber is woken exactly when
   * `WakesAt` holds for its position.
   */
  lemma EventWakesExactlyMatching(s: seq<Fiber>, ctx: seq<u32>, e: Event)
    requires |ctx| == |s| && Unique(s)
    ensures multiset(Woken(s, ctx, e)) + multiset(StillWaiting(s, ctx, e)) == multiset(s)
    ensures forall i :: 0 <= i < |s| ==> (s[i] in Woken(s, ctx, e) <==> WakesAt(ctx, i, e))
    ensures forall i :: 0 <= i < |s| ==> (s[i] in StillWaiting(s, ctx, e) <==> !WakesAt(ctx, i, e))
  {
    SelectPartitions(s, Wakes(ctx, e));
    SelectMembers(s, Wakes(ctx, e), true);
    SelectMembers(s, Wakes(ctx, e), false);
  }

  /** `(depth + 32) & 0xffffffe0` in 32-bit arithmetic. */
  function StackSize(depth: u32): (size: u32)
    ensures size % 32 == 0
    ensures depth < 0x1_0000_0000 - 32 ==> depth < size <= depth + 32
  {
    var sum := ToU32(depth + 32);
    sum - sum % 32
  }

  /**
   * `verify_stack_size`, with the stack depth and the address `malloc`
   * returns as inputs: when the 32-bit buffer size `stackTop - stackBottom`
   * is below the depth, the old buffer is freed if there is one and a new
   * one of `StackSize(depth)` bytes takes its place; otherwise nothing
   * changes.
   */
  method VerifyStackSize(f: Fiber, depth: u32, block: u32) returns (freed: Option<u32>, requested: Option<u32>)
    modifies f`stackBottom, f`stackTop
    ensures ToU32(old(f.stackTop) - old(f.stackBottom)) >= depth ==>
      freed == None && requested == None && f.stackBottom == old(f.stackBottom) && f.stackTop == old(f.stackTop)
    ensures ToU32(old(f.stackTop) - old(f.stackBottom)) < depth ==>
      requested == Some(StackSize(depth)) && f.stackBottom == block && f.stackTop == ToU32(block + StackSize(depth)) &&
      freed == (if old(f.stackBottom) != 0 then Some(old(f.stackBottom)) else None)
    ensures depth < 0x1_0000_0000 - 32 && block + StackSize(depth) < 0x1_0000_0000 ==>
      ToU32(f.stackTop - f.stackBottom) >= depth
  {
    var bufferSize := ToU32(f.stackTop - f.stackBottom);
    freed, requested := None, None;
    if bufferSize < depth {
      bufferSize := StackSize(depth);
      if f.stackBottom != 0 {
        freed := Some(f.stackBottom);
      }
      requested := Some(bufferSize);
      f.stackBottom := block;
      f.stackTop := ToU32(f.stackBottom + bufferSize);
    }
  }

  /** The fiber `schedule` picks: the idle fiber on an empty run queue, the next one round robin, or the head. */
  function Pick(run: seq<Fiber>, current: Fiber, currentOnRun: bool, idle: Fiber): (f: Fiber)
    requires currentOnRun ==> current in run
    ensures run == [] ==> f == idle
    ensures run != [] ==> f in run
  {
    if run == [] then idle
    else if currentOnRun then
      var k := IndexOf(run, current);
      if k + 1 == |run| then run[0] else run[k + 1]
    else run[0]
  }

  /** Round robin: from the fiber at position k of the run queue, the pick is the one at position k + 1, wrapping to the head. */
  lemma PickRoundRobin(run: seq<Fiber>, k: int, idle: Fiber)
    requires Unique(run) && 0 <= k < |run|
    ensures Pick(run, run[k], true, idle) == run[(k + 1) % |run|]
  {
    assert IndexOf(run, run[k]) == k;
    if k + 1 == |run| {
      DivUnique(k + 1, |run|, 1, 0);
    } else {
      DivUnique(k + 1, |run|, 0, k + 1);
    }
  }

  /** Picking `n` times from position k, with the run queue unchanged, lands on position (k + n) mod its length. */
  lemma {:induction false} PickVisitsAll(run: seq<Fiber>, k: int, n: nat, idle: Fiber)
    requires Unique(run) && 0 <= k < |run|
    ensures Picks(run, run[k], n, idle) == run[(k + n) % |run|]
    decreases n
  {
    if n == 0 {
      DivUnique(k, |run|, 0, k);
    } else {
      var m := |run|;
      PickVisitsAll(run, k, n - 1, idle);
      var j := (k + n - 1) % m;
      assert Picks(run, run[k], n - 1, idle) == run[j];
      PickRoundRobin(run, j, idle);
      ModSucc(k + n - 1, m);
      assert Picks(run, run[k], n, idle) == Pick(run, run[j], true, idle);
    }
  }

  /** The fiber current after `n` calls of `schedule` from `current`, everyone staying runnable. */
  ghost function Picks(run: seq<Fiber>, current: Fiber, n: nat, idle: Fiber): Fiber
    requires current in run
    decreases n
  {
    if n == 0 then current else Pick(run, Picks(run, current, n - 1, idle), true, idle)
  }

  /** Every fiber on the run queue is picked within as many calls as the queue is long. */
  lemma EveryRunnableFiberPicked(run: seq<Fiber>, k: int, j: int, idle: Fiber)
    requires Unique(run) && 0 <= k < |run| && 0 <= j < |run|
    ensures Picks(run, run[k], (j - k + |run|) % |run|, idle) == run[j]
  {
    PickVisitsAll(run, k, (j - k + |run|) % |run|, idle);
    ModDistance(k, j, |run|);
  }

  class Scheduler {
    var runQueue: seq<Fiber>
    var sleepQueue: seq<Fiber>
    var waitQueue: seq<Fiber>
    var fiberPool: seq<Fiber>
    var currentFiber: Fiber?
    var idleFiber: Fiber?
    /** The fiber made by the last fork-on-block. */
    var forkedFiber: Fiber?
    /** `fiber_flags & DEVICE_SCHEDULER_RUNNING`. */
    var running: bool
    /** `messageBus != NULL`. */
    var hasMessageBus: bool

    function Queue(q: QueueName): (s: seq<Fiber>)
      reads this`runQueue, this`sleepQueue, this`waitQueue, this`fiberPool
      ensures q == NoQueue ==> s == []
    {
      match q
      case NoQueue => []
      case RunQueue => runQueue
      case SleepQueue => sleepQueue
      case WaitQueue => waitQueue
      case FiberPool => fiberPool
    }

    /** A fiber that records a queue is on it. */
    ghost predicate Recorded(f: Fiber?)
      reads this`runQueue, this`sleepQueue, this`waitQueue, this`fiberPool, (if f == null then {} else {f})`queue
    {
      f != null && f.queue != NoQueue ==> f in Queue(f.queue)
    }

    /**
     * Each queue is a list without repeats of fibers that record it; the
     * current fiber is on the queue it records; while running there are a
     * current and an idle fiber.
     */
    ghost predicate Valid()
      reads this`runQueue, this`sleepQueue, this`waitQueue, this`fiberPool, this`currentFiber, this`idleFiber, this`running,
        runQueue`queue, sleepQueue`queue, waitQueue`queue, fiberPool`queue,
        (if currentFiber == null then {} else {currentFiber})`queue
    {
      (forall q :: q != NoQueue ==> Tagged(Queue(q), q) && Unique(Queue(q))) &&
      Recorded(currentFiber) &&
      (running ==> currentFiber != null && idleFiber != null)
    }

    /** The scheduler before `scheduler_init`: no fibers, no message bus, not running. */
    constructor()
      ensures Valid()
      ensures runQueue == [] && sleepQueue == [] && waitQueue == [] && fiberPool == []
      ensures currentFiber == null && idleFiber == null && forkedFiber == null && !running && !hasMessageBus
    {
      runQueue := [];
      sleepQueue := [];
      waitQueue := [];
      fiberPool := [];
      currentFiber := null;
      idleFiber := null;
      forkedFiber := null;
      running := false;
      hasMessageBus := false;
    }

    method SetQueue(q: QueueName, s: seq<Fiber>)
      requires q != NoQueue
      modifies this`runQueue, this`sleepQueue, this`waitQueue, this`fiberPool
      ensures Queue(q) == s
      ensures forall p :: p != q ==> Queue(p) == old(Queue(p))
    {
      match q
      case RunQueue => runQueue := s;
      case SleepQueue => sleepQueue := s;
      case WaitQueue => waitQueue := s;
      case FiberPool => fiberPool := s;
    }

    /**
     * `queue_fiber`: records the queue in the fiber and links it at the
     * tail, after walking to the last fiber. The fiber must be on no
     * queue, as every caller ensures.
     */
    method QueueFiber(f: Fiber, q: QueueName)
      requires Valid() && f.queue == NoQueue && q != NoQueue
      modifies this`runQueue, this`sleepQueue, this`waitQueue, this`fiberPool, f`queue
      ensures Valid()
      ensures f.queue == q && Queue(q) == old(Queue(q)) + [f]
      ensures forall p :: p != q ==> Queue(p) == old(Queue(p))
    {
      var s := Queue(q);
      var t;
      if |s| == 0 {
        t := [f];
      } else {
        var last := ScanToTail(s);
        t := s[..last + 1] + [f];
      }
      Link(f, q, t);
    }

    /** Records queue `q` in an unqueued fiber and makes `t`, the queue with the fiber at its tail, the new queue. */
    method Link(f: Fiber, q: QueueName, t: seq<Fiber>)
      requires Valid() && f.queue == NoQueue && q != NoQueue && t == Queue(q) + [f]
      modifies this`runQueue, this`sleepQueue, this`waitQueue, this`fiberPool, f`queue
      ensures Valid()
      ensures f.queue == q && Queue(q) == t
      ensures forall p :: p != q ==> Queue(p) == old(Queue(p))
    {
      assert f !in Queue(q);
      f.queue := q;
      AppendedQueue(Queue(q), f, q);
      SetQueue(q, t);
      forall p | p != NoQueue
        ensures Tagged(Queue(p), p) && Unique(Queue(p))
      {
        if p != q {
          assert Queue(p) == old(Queue(p));
        }
      }
    }

    /**
     * `dequeue_fiber`: nothing for a fiber on no queue; otherwise the fiber
     * is unlinked from its queue, the others keeping their order, and it
     * records no queue. A fiber's record and the links agree, as every
     * caller ensures.
     */
    method DequeueFiber(f: Fiber)
      requires Valid() && (f.queue != NoQueue ==> f in Queue(f.queue))
      modifies this`runQueue, this`sleepQueue, this`waitQueue, this`fiberPool, f`queue
      ensures Valid()
      ensures f.queue == NoQueue
      ensures Queue(old(f.queue)) == Without(old(Queue(f.queue)), f)
      ensures forall p :: p != old(f.queue) ==> Queue(p) == old(Queue(p))
    {
      if f.queue == NoQueue {
        return;
      }
      var q := f.queue;
      var s := Queue(q);
      var k := IndexOf(s, f);
      Unlink(f, q, s[..k] + s[k + 1..]);
    }

    /** Makes `t`, the queue without the fiber, the new queue `q`, and records no queue in the fiber. */
    method Unlink(f: Fiber, q: QueueName, t: seq<Fiber>)
      requires Valid() && f.queue == q && q != NoQueue && f in Queue(q) && t == Without(Queue(q), f)
      modifies this`runQueue, this`sleepQueue, this`waitQueue, this`fiberPool, f`queue
      ensures Valid()
      ensures f.queue == NoQueue && Queue(q) == t
      ensures forall p :: p != q ==> Queue(p) == old(Queue(p))
    {
      WithoutMembers(Queue(q), f);
      forall p | p != NoQueue && p != q
        ensures f !in Queue(p)
      {
        assert Tagged(Queue(p), p);
      }
      SetQueue(q, t);
      f.queue := NoQueue;
    }

    /**
     * `getFiberContext`: the head of the fiber pool if there is one,
     * otherwise a fiber fresh from the heap with no stack; either way on no
     * queue and with its flags cleared.
     */
    method GetFiberContext() returns (f: Fiber)
      requires Valid()
      modifies this`runQueue, this`sleepQueue, this`waitQueue, this`fiberPool, fiberPool`queue, fiberPool`flags
      ensures Valid() && f.queue == NoQueue && f.flags == 0
      ensures old(fiberPool) != [] ==> f == old(fiberPool[0]) && fiberPool == old(fiberPool[1..])
      ensures old(fiberPool) == [] ==> fresh(f) && f.stackBottom == 0 && f.stackTop == 0
      ensures forall p :: Queue(p) == Without(old(Queue(p)), f)
    {
      if fiberPool != [] {
        f := fiberPool[0];
        f.flags := 0;
        assert f == Queue(FiberPool)[0];
        DequeueFiber(f);
        assert IndexOf(old(fiberPool), f) == 0;
      } else {
        f := new Fiber();
        f.flags := 0;
      }
    }

    /**
     * `scheduler_tick`: with the tick's timestamp in microseconds, walks the
     * sleep queue and moves every fiber whose wake-up time (in
     * milliseconds) has come to the tail of the run queue, in sleep-queue
     * order; the others stay asleep in their order.
     */
    method SchedulerTick(timestampUs: nat)
      requires Valid()
      modifies this`runQueue, this`sleepQueue, this`waitQueue, this`fiberPool, sleepQueue`queue
      ensures Valid()
      ensures sleepQueue == NotDue(old(sleepQueue), old(Contexts(sleepQueue)), timestampUs / 1000)
      ensures runQueue == old(runQueue) + Due(old(sleepQueue), old(Contexts(sleepQueue)), timestampUs / 1000)
      ensures waitQueue == old(waitQueue) && fiberPool == old(fiberPool)
    {
      var now := timestampUs / 1000;
      var s := sleepQueue;
      ghost var due := Expired(Contexts(s), now);
      var asleep: seq<Fiber> := [];
      var i := 0;
      while i < |s|
        invariant 0 <= i <= |s| && Valid()
        invariant sleepQueue == asleep + s[i..]
        invariant asleep == Select(s[..i], due[..i], false)
        invariant runQueue == old(runQueue) + Select(s[..i], due[..i], true)
        invariant waitQueue == old(waitQueue) && fiberPool == old(fiberPool)
      {
        assert due[i] <==> now >= s[i].context;
        asleep := TickTurn(s[i], s, due, i, now, asleep, old(runQueue));
        i := i + 1;
      }
      assert s[..i] == s && due[..i] == due;
    }

    /** One turn of `scheduler_tick`'s walk: the fiber at position `i` of the sleep queue it started from wakes if its time has come. */
    method TickTurn(f: Fiber, ghost s: seq<Fiber>, ghost due: seq<bool>, ghost i: int, now: int, asleep: seq<Fiber>, ghost run0: seq<Fiber>)
      returns (asleep': seq<Fiber>)
      requires Valid() && |due| == |s| && 0 <= i < |s| && f == s[i] && (due[i] <==> now >= f.context)
      requires sleepQueue == asleep + s[i..] && asleep == Select(s[..i], due[..i], false)
      requires runQueue == run0 + Select(s[..i], due[..i], true)
      modifies this`runQueue, this`sleepQueue, this`waitQueue, this`fiberPool, f`queue
      ensures Valid() && sleepQueue == asleep' + s[i + 1..] && asleep' == Select(s[..i + 1], due[..i + 1], false)
      ensures runQueue == run0 + Select(s[..i + 1], due[..i + 1], true)
      ensures waitQueue == old(waitQueue) && fiberPool == old(fiberPool)
    {
      SelectStep(s, due, i, true);
      SelectStep(s, due, i, false);
      SplitAt(s, i);
      if now >= f.context {
        WakeFiber(f, SleepQueue, asleep, s[i + 1..]);
        asleep' := asleep;
      } else {
        Regroup(asleep, f, s[i + 1..]);
        asleep' := asleep + [f];
      }
    }

    /**
     * `scheduler_event`: nothing without a message bus. Otherwise walks the
     * wait queue and moves to the tail of the run queue, in wait-queue
     * order, every waiter the event wakes (`WakesAt`); the others keep
     * waiting in their order. The scheduler then stops listening for the
     * event unless it is on NOTIFY or NOTIFY_ONE.
     */
    method SchedulerEvent(e: Event) returns (ignored: bool)
      requires Valid()
      modifies this`runQueue, this`sleepQueue, this`waitQueue, this`fiberPool, waitQueue`queue
      ensures Valid()
      ensures !hasMessageBus ==> !ignored && runQueue == old(runQueue) && waitQueue == old(waitQueue)
      ensures hasMessageBus ==>
        waitQueue == StillWaiting(old(waitQueue), old(Contexts(waitQueue)), e) &&
        runQueue == old(runQueue) + Woken(old(waitQueue), old(Contexts(waitQueue)), e)
      ensures hasMessageBus ==> (ignored <==> e.source as int != DEVICE_ID_NOTIFY && e.source as int != DEVICE_ID_NOTIFY_ONE)
      ensures sleepQueue == old(sleepQueue) && fiberPool == old(fiberPool)
    {
      ignored := false;
      if !hasMessageBus {
        return;
      }
      var s := waitQueue;
      ghost var ctx := Contexts(s);
      ghost var wake := Wakes(ctx, e);
      var waiting: seq<Fiber> := [];
      var notifyOneComplete := false;
      var i := 0;
      while i < |s|
        invariant 0 <= i <= |s| && Valid()
        invariant waitQueue == waiting + s[i..]
        invariant waiting == Select(s[..i], wake[..i], false)
        invariant runQueue == old(runQueue) + Select(s[..i], wake[..i], true)
        invariant sleepQueue == old(sleepQueue) && fiberPool == old(fiberPool)
        invariant notifyOneComplete == NotifyOneDone(ctx[..i], e)
      {
        assert s[i].context == ctx[i];
        waiting, notifyOneComplete := EventTurn(s[i], s, ctx, i, e, waiting, notifyOneComplete, old(runQueue));
        i := i + 1;
      }
      assert s[..i] == s && wake[..i] == wake;
      ignored := e.source as int != DEVICE_ID_NOTIFY && e.source as int != DEVICE_ID_NOTIFY_ONE;
    }

    /** One turn of `scheduler_event`'s walk, over the waiter at position `i` of the wait queue it started from. */
    method EventTurn(f: Fiber, ghost s: seq<Fiber>, ghost ctx: seq<u32>, ghost i: int, e: Event,
                     waiting: seq<Fiber>, notifyOneComplete: bool, ghost run0: seq<Fiber>)
      returns (waiting': seq<Fiber>, notifyOneComplete': bool)
      requires Valid() && |ctx| == |s| && 0 <= i < |s| && f == s[i] && f.context == ctx[i]
      requires waitQueue == waiting + s[i..] && waiting == Select(s[..i], Wakes(ctx, e)[..i], false)
      requires runQueue == run0 + Select(s[..i], Wakes(ctx, e)[..i], true)
      requires notifyOneComplete == NotifyOneDone(ctx[..i], e)
      modifies this`runQueue, this`sleepQueue, this`waitQueue, this`fiberPool, f`queue
      ensures Valid() && waitQueue == waiting' + s[i + 1..]
      ensures waiting' == Select(s[..i + 1], Wakes(ctx, e)[..i + 1], false)
      ensures runQueue == run0 + Select(s[..i + 1], Wakes(ctx, e)[..i + 1], true)
      ensures notifyOneComplete' == NotifyOneDone(ctx[..i + 1], e)
      ensures sleepQueue == old(sleepQueue) && fiberPool == old(fiberPool)
    {
      var id := WaitId(f.context);
      var value := WaitValue(f.context);
      ghost var wake := Wakes(ctx, e);
      SelectStep(s, wake, i, true);
      SelectStep(s, wake, i, false);
      SplitAt(s, i);
      NotifyOneStep(ctx, i, e);
      notifyOneComplete' := notifyOneComplete;
      if e.source as int == DEVICE_ID_NOTIFY_ONE && id as int == DEVICE_ID_NOTIFY && (value == DEVICE_EVT_ANY || value == e.value) {
        if !notifyOneComplete {
          WakeFiber(f, WaitQueue, waiting, s[i + 1..]);
          waiting' := waiting;
          notifyOneComplete' := true;
        } else {
          Regroup(waiting, f, s[i + 1..]);
          waiting' := waiting + [f];
        }
      } else if (id == DEVICE_ID_ANY || id == e.source) && (value == DEVICE_EVT_ANY || value == e.value) {
        WakeFiber(f, WaitQueue, waiting, s[i + 1..]);
        waiting' := waiting;
      } else {
        Regroup(waiting, f, s[i + 1..]);
        waiting' := waiting + [f];
      }
    }

    /**
     * Unlinks the fiber from its queue, links it at the tail of queue `q`
     * and stores `c` in its context. The source stores the context first;
     * neither queue operation reads it.
     */
    method Block(f: Fiber, c: u32, q: QueueName)
      requires Valid() && Recorded(f) && (q == SleepQueue || q == WaitQueue)
      modifies this`runQueue, this`sleepQueue, this`waitQueue, this`fiberPool, f`queue, f`context
      ensures Valid() && f.context == c && f.queue == q
      ensures Queue(q) == Without(old(Queue(q)), f) + [f]
      ensures forall p :: p != q ==> Queue(p) == Without(old(Queue(p)), f)
    {
      forall p | p != f.queue
        ensures Without(Queue(p), f) == Queue(p)
      {
        assert Tagged(Queue(p), p);
      }
      DequeueFiber(f);
      QueueFiber(f, q);
      f.context := c;
    }

    /**
     * The fiber a blocking call blocks: the current one or, in a
     * fork-on-block context, a fiber from `getFiberContext` that becomes the
     * forked fiber.
     */
    method BlockingFiber() returns (f: Fiber)
      requires Valid() && running
      modifies this`runQueue, this`sleepQueue, this`waitQueue, this`fiberPool, this`forkedFiber, fiberPool`queue, fiberPool`flags
      ensures Valid() && Recorded(f) && currentFiber == old(currentFiber)
      ensures !FlagSet(old(currentFiber.flags), DEVICE_FIBER_FLAG_FOB) ==>
        f == currentFiber && forkedFiber == old(forkedFiber) && unchanged(this`runQueue, this`sleepQueue, this`waitQueue, this`fiberPool)
      ensures FlagSet(old(currentFiber.flags), DEVICE_FIBER_FLAG_FOB) ==>
        f == forkedFiber && f.queue == NoQueue && f.flags == 0 &&
        (old(fiberPool) != [] ==> f == old(fiberPool[0]) && fiberPool == old(fiberPool[1..])) &&
        (old(fiberPool) == [] ==> fresh(f)) &&
        forall p :: Queue(p) == Without(old(Queue(p)), f)
    {
      f := currentFiber;
      if FlagSet(currentFiber.flags, DEVICE_FIBER_FLAG_FOB) {
        forkedFiber := GetFiberContext();
        f := forkedFiber;
      }
    }

    /**
     * `fiber_wake_on_event`: NOT_SUPPORTED without a message bus or while
     * the scheduler is not running. Otherwise the blocking fiber records the
     * event, value in the high half-word and id in the low one, and moves to
     * the tail of the wait queue; the scheduler listens for the event unless
     * its id is NOTIFY or NOTIFY_ONE.
     */
    method WakeOnEvent(id: u16, value: u16) returns (r: int, listen: bool, blocked: Fiber?)
      requires Valid()
      modifies this`runQueue, this`sleepQueue, this`waitQueue, this`fiberPool, this`forkedFiber,
        fiberPool`queue, fiberPool`flags, fiberPool`context,
        (if currentFiber == null then {} else {currentFiber})`queue,
        (if currentFiber == null then {} else {currentFiber})`context
      ensures Valid() && currentFiber == old(currentFiber)
      ensures !hasMessageBus || !running ==>
        r == DEVICE_NOT_SUPPORTED && !listen && blocked == null && forkedFiber == old(forkedFiber) &&
        unchanged(this`runQueue, this`sleepQueue, this`waitQueue, this`fiberPool)
      ensures hasMessageBus && running ==>
        r == DEVICE_OK && blocked != null &&
        blocked == (if FlagSet(old(currentFiber.flags), DEVICE_FIBER_FLAG_FOB) then forkedFiber else currentFiber) &&
        blocked.context == WaitContext(id, value) && blocked.queue == WaitQueue &&
        waitQueue == Without(old(waitQueue), blocked) + [blocked] &&
        runQueue == Without(old(runQueue), blocked) && sleepQueue == Without(old(sleepQueue), blocked) &&
        (listen <==> id as int != DEVICE_ID_NOTIFY && id as int != DEVICE_ID_NOTIFY_ONE)
    {
      if !hasMessageBus || !running {
        return DEVICE_NOT_SUPPORTED, false, null;
      }
      var f := BlockingFiber();
      ghost var run0, sleep0, wait0 := runQueue, sleepQueue, waitQueue;
      Block(f, WaitContext(id, value), WaitQueue);
      assert Queue(RunQueue) == Without(run0, f) && Queue(SleepQueue) == Without(sleep0, f);
      r, blocked := DEVICE_OK, f;
      listen := id as int != DEVICE_ID_NOTIFY && id as int != DEVICE_ID_NOTIFY_ONE;
    }

    /**
     * `fiber_sleep` up to its call of `schedule`: nothing while the scheduler
     * is not running. Otherwise the blocking fiber records its wake-up time,
     * the current time in milliseconds plus `t`, cut to 32 bits, and moves
     * to the tail of the sleep queue.
     */
    method FiberSleep(t: u32, nowMs: u64) returns (blocked: Fiber?)
      requires Valid()
      modifies this`runQueue, this`sleepQueue, this`waitQueue, this`fiberPool, this`forkedFiber,
        fiberPool`queue, fiberPool`flags, fiberPool`context,
        (if currentFiber == null then {} else {currentFiber})`queue,
        (if currentFiber == null then {} else {currentFiber})`context
      ensures Valid() && currentFiber == old(currentFiber)
      ensures !running ==>
        blocked == null && forkedFiber == old(forkedFiber) && unchanged(this`runQueue, this`sleepQueue, this`waitQueue, this`fiberPool)
      ensures running ==>
        blocked != null &&
        blocked == (if FlagSet(old(currentFiber.flags), DEVICE_FIBER_FLAG_FOB) then forkedFiber else currentFiber) &&
        blocked.context as int == (nowMs as int + t as int) % 0x1_0000_0000 && blocked.queue == SleepQueue &&
        sleepQueue == Without(old(sleepQueue), blocked) + [blocked] &&
        runQueue == Without(old(runQueue), blocked) && waitQueue == Without(old(waitQueue), blocked)
    {
      if !running {
        return null;
      }
      ghost var run00, wait00 := runQueue, waitQueue;
      var f := BlockingFiber();
      ghost var run0, wait0 := runQueue, waitQueue;
      Block(f, ToU32(nowMs + t), SleepQueue);
      assert Queue(RunQueue) == Without(run0, f) && Queue(WaitQueue) == Without(wait0, f);
      if f != old(currentFiber) {
        WithoutTwice(run00, f);
        WithoutTwice(wait00, f);
      }
      blocked := f;
    }

    /**
     * `schedule`: nothing while the scheduler is not running, and the
     * current fiber stays in a fork-on-block context. Otherwise the next
     * fiber is the idle fiber when the run queue is empty, else the current
     * fiber's successor on the run queue (wrapping to the head) when the
     * current fiber is on it, else the run queue's head. When that is the
     * idle fiber and the old fiber may not be paged out, the old fiber stays
     * current. The result says whether the current fiber changed.
     */
    method Schedule() returns (switched: bool)
      requires Valid() && (idleFiber != null ==> idleFiber.queue == NoQueue)
      modifies this`currentFiber
      ensures Valid() && switched == (currentFiber != old(currentFiber))
      ensures !running || FlagSet(old(currentFiber.flags), DEVICE_FIBER_FLAG_FOB) ==> currentFiber == old(currentFiber)
      ensures running && !FlagSet(old(currentFiber.flags), DEVICE_FIBER_FLAG_FOB) ==>
        var next := Pick(runQueue, old(currentFiber), old(currentFiber.queue) == RunQueue, idleFiber);
        if next == idleFiber && FlagSet(old(currentFiber.flags), DEVICE_FIBER_FLAG_DO_NOT_PAGE)
        then currentFiber == old(currentFiber)
        else currentFiber == next
    {
      if !running {
        return false;
      }
      var oldFiber := currentFiber;
      if FlagSet(currentFiber.flags, DEVICE_FIBER_FLAG_FOB) {
        return false;
      }
      var next := Pick(runQueue, currentFiber, currentFiber.queue == RunQueue, idleFiber);
      if runQueue != [] {
        assert Tagged(Queue(RunQueue), RunQueue);
        assert next == runQueue[IndexOf(runQueue, next)];
      }
      currentFiber := next;
      if currentFiber == idleFiber && FlagSet(oldFiber.flags, DEVICE_FIBER_FLAG_DO_NOT_PAGE) {
        currentFiber := oldFiber;
      }
      switched := currentFiber != oldFiber;
    }

    /** `dequeue_fiber` then `queue_fiber` onto the run queue, for a fiber between `before` and `after` on queue `q`. */
    method WakeFiber(f: Fiber, q: QueueName, ghost before: seq<Fiber>, ghost after: seq<Fiber>)
      requires Valid() && (q == SleepQueue || q == WaitQueue) && Queue(q) == before + [f] + after
      modifies this`runQueue, this`sleepQueue, this`waitQueue, this`fiberPool, f`queue
      ensures Valid()
      ensures Queue(q) == before + after && runQueue == old(runQueue) + [f]
      ensures fiberPool == old(fiberPool)
      ensures q == SleepQueue ==> waitQueue == old(waitQueue)
      ensures q == WaitQueue ==> sleepQueue == old(sleepQueue)
    {
      assert Queue(q)[|before|] == f;
      WithoutSplit(before, f, after);
      DequeueFiber(f);
      QueueFiber(f, RunQueue);
      assert Queue(FiberPool) == old(Queue(FiberPool));
      if q == SleepQueue {
        assert Queue(WaitQueue) == old(Queue(WaitQueue));
      } else {
        assert Queue(SleepQueue) == old(Queue(SleepQueue));
      }
    }
  }
}

=== FILE: device_listener.dfy ===
/**
 * source/core/DeviceListener.cpp and inc/core/DeviceListener.h: a listener
 * registered on an event bus. It names the component id and event value it
 * wants, the handler to call, and option flags; while its handler is busy it
 * can hold a short queue of further events.
 *
 * DeviceEvent.h is not part of this model: an event is its source id and
 * value, and DEVICE_ID_ANY / DEVICE_EVT_ANY take CODAL's value 0. Handlers
 * are identified by their addresses; the queue is a sequence rather than a
 * linked list of items.
 */
module DeviceListener {
  import opened CTypes

  const MESSAGE_BUS_LISTENER_PARAMETERISED: bv16 := 0x0001
  const MESSAGE_BUS_LISTENER_METHOD: bv16 := 0x0002
  const MESSAGE_BUS_LISTENER_BUSY: bv16 := 0x0004
  const MESSAGE_BUS_LISTENER_REENTRANT: bv16 := 0x0008
  const MESSAGE_BUS_LISTENER_QUEUE_IF_BUSY: bv16 := 0x0010
  const MESSAGE_BUS_LISTENER_DROP_IF_BUSY: bv16 := 0x0020
  const MESSAGE_BUS_LISTENER_NONBLOCKING: bv16 := 0x0040
  const MESSAGE_BUS_LISTENER_URGENT: bv16 := 0x0080
  const MESSAGE_BUS_LISTENER_DELETING: bv16 := 0x8000
  const MESSAGE_BUS_LISTENER_IMMEDIATE: bv16 := MESSAGE_BUS_LISTENER_NONBLOCKING | MESSAGE_BUS_LISTENER_URGENT

  /** EVENT_LISTENER_DEFAULT_FLAGS (DeviceConfig.h). */
  const EVENT_LISTENER_DEFAULT_FLAGS: bv16 := MESSAGE_BUS_LISTENER_QUEUE_IF_BUSY
  /** MESSAGE_BUS_LISTENER_MAX_QUEUE_DEPTH (DeviceConfig.h). */
  const MESSAGE_BUS_LISTENER_MAX_QUEUE_DEPTH: int := 10

  const DEVICE_ID_ANY: u16 := 0
  const DEVICE_EVT_ANY: u16 := 0

  datatype Event = Event(source: u16, value: u16)

  /**
   * The callback: a plain or parameterised C function, compared by address,
   * or a member function of an object, compared by object and member.
   */
  datatype Handler = Function(address: nat) | Member(target: nat, member: nat)

  /** The queue after `queue(e)`: e goes at the tail while fewer than the maximum depth are held, and is dropped otherwise. */
  function Enqueued(q: seq<Event>, e: Event): (r: seq<Event>)
    ensures |q| < MESSAGE_BUS_LISTENER_MAX_QUEUE_DEPTH ==> r == q + [e]
    ensures |q| >= MESSAGE_BUS_LISTENER_MAX_QUEUE_DEPTH ==> r == q
  {
    if |q| == 0 then [e]
    else if |q| < MESSAGE_BUS_LISTENER_MAX_QUEUE_DEPTH then q + [e]
    else q
  }

  /** A queue within the depth stays within it, keeps what it held in order, and an empty queue always takes the event. */
  lemma EnqueuedBounded(q: seq<Event>, e: Event)
    requires |q| <= MESSAGE_BUS_LISTENER_MAX_QUEUE_DEPTH
    ensures |Enqueued(q, e)| <= MESSAGE_BUS_LISTENER_MAX_QUEUE_DEPTH
    ensures Enqueued(q, e)[..|q|] == q
    ensures |q| == 0 ==> Enqueued(q, e) == [e]
  {
  }

  class Listener {
    const id: u16
    const value: u16
    const handler: Handler
    /** `cb_arg`: the argument given to a parameterised handler (0 for NULL). */
    const arg: nat
    var flags: bv16
    /** `evt`: the event the handler is (or was last) called with. */
    var evt: Event
    /** `evt_queue`: events waiting while the handler is busy. */
    var evtQueue: seq<Event>

    /** A listener calling a plain function; the flags are stored as given. */
    constructor Plain(id: u16, value: u16, address: nat, flags: bv16)
      ensures this.id == id && this.value == value && this.flags == flags
      ensures handler == Function(address) && arg == 0 && evtQueue == []
    {
      this.id := id;
      this.value := value;
      handler := Function(address);
      arg := 0;
      this.flags := flags;
      evt := Event(0, 0);
      evtQueue := [];
    }

    /** A listener calling a function with an argument; PARAMETERISED is added to the flags. */
    constructor Parameterised(id: u16, value: u16, address: nat, arg: nat, flags: bv16)
      ensures this.id == id && this.value == value
      ensures this.flags == flags | MESSAGE_BUS_LISTENER_PARAMETERISED
      ensures this.flags & MESSAGE_BUS_LISTENER_PARAMETERISED != 0
      ensures handler == Function(address) && this.arg == arg && evtQueue == []
    {
      this.id := id;
      this.value := value;
      handler := Function(address);
      this.arg := arg;
      this.flags := flags | MESSAGE_BUS_LISTENER_PARAMETERISED;
      evt := Event(0, 0);
      evtQueue := [];
    }

    /** A listener calling a member function; METHOD is added to the flags. */
    constructor MemberOf(id: u16, value: u16, target: nat, member: nat, flags: bv16)
      ensures this.id == id && this.value == value
      ensures this.flags == flags | MESSAGE_BUS_LISTENER_METHOD
      ensures this.flags & MESSAGE_BUS_LISTENER_METHOD != 0
      ensures handler == Member(target, member) && arg == 0 && evtQueue == []
    {
      this.id := id;
      this.value := value;
      handler := Member(target, member);
      arg := 0;
      this.flags := flags | MESSAGE_BUS_LISTENER_METHOD;
      evt := Event(0, 0);
      evtQueue := [];
    }

    /** `queue`: walks to the tail counting the depth, and links e there only if the depth is below the maximum. */
    method Queue(e: Event)
      modifies this`evtQueue
      ensures evtQueue == Enqueued(old(evtQueue), e)
    {
      if |evtQueue| == 0 {
        evtQueue := [e];
        return;
      }
      var depth := 1;
      var p := 0;
      while p + 1 < |evtQueue|
        invariant 0 <= p < |evtQueue| && depth == p + 1
        decreases |evtQueue| - p
      {
        p := p + 1;
        depth := depth + 1;
      }
      if depth < MESSAGE_BUS_LISTENER_MAX_QUEUE_DEPTH {
        evtQueue := evtQueue + [e];
      }
    }
  }
}

=== FILE: device_timer.dfy ===
/**
 * source/device/DeviceTimer.cpp: the SAMD21 `SystemClock`. The time is a
 * 64-bit microsecond count kept in software and advanced by an overflow
 * handler every `overflow_period_us`; clock events wait in a list ordered
 * by due time, and a one-shot timeout is armed for the head.
 *
 * The file's statics (the time, the overflow period and the event list)
 * are fields of the one timer object. The hardware timer's count since
 * its last reset is a parameter of each operation that reads the time.
 * Arming a timeout is represented by the delay it was last given.
 */
module DeviceTimer {
  import opened CTypes
  import opened ErrorNo
  import opened Wrappers
  import opened SystemClock
  import DeviceListener

  /** The overflow period `init` stores: 60 seconds. */
  const OVERFLOW_PERIOD_US: u32 := 60000000

  class Timer {
    const id: u16
    /** SYSTEM_CLOCK_INIT in `status`. */
    var initialised: bool
    /** current_time_us. */
    var currentTimeUs: u64
    /** overflow_period_us: 0 until `init`. */
    var overflowPeriodUs: u32
    /** event_list. */
    const eventList: ClockList
    /** The events raised on the bus, oldest first. */
    var raised: seq<DeviceListener.Event>
    /** The delay last given to `timeout`, which calls `eventReady`. */
    var timeoutUs: Option<u64>
    /** The delay last given to `overflowTimeout`, which calls `timerOverflow`. */
    var overflowTimeoutUs: Option<u64>

    ghost predicate Valid()
      reads this, eventList
    {
      Ascending(eventList.events)
    }

    constructor(id: u16)
      ensures Valid() && fresh(eventList) && eventList.events == []
      ensures this.id == id && !initialised && currentTimeUs == 0 && overflowPeriodUs == 0
      ensures raised == [] && timeoutUs == None && overflowTimeoutUs == None
    {
      this.id := id;
      initialised := false;
      currentTimeUs := 0;
      overflowPeriodUs := 0;
      eventList := new ClockList();
      raised := [];
      timeoutUs := None;
      overflowTimeoutUs := None;
    }

    /** `getTimeUs`, with the hardware timer at `elapsedUs`. */
    function TimeUs(elapsedUs: u32): (t: u64)
      reads this
      ensures t == ClockTimeUs(currentTimeUs, elapsedUs)
    {
      ClockTimeUs(currentTimeUs, elapsedUs)
    }

    /** `getTime`: the time in milliseconds. */
    function Time(elapsedUs: u32): (ms: u64)
      reads this
      ensures ms == Millis(TimeUs(elapsedUs))
    {
      Millis(TimeUs(elapsedUs))
    }

    /** `init`: starts the clock and arms the overflow handler once; later calls change nothing. */
    method Init() returns (r: int)
      modifies this
      ensures r == DEVICE_OK && initialised
      ensures old(initialised) ==> unchanged(this)
      ensures !old(initialised) ==>
        overflowPeriodUs == OVERFLOW_PERIOD_US && overflowTimeoutUs == Some(OVERFLOW_PERIOD_US as u64) &&
        currentTimeUs == old(currentTimeUs) && raised == old(raised) && timeoutUs == old(timeoutUs)
    {
      if initialised {
        return DEVICE_OK;
      }
      overflowPeriodUs := OVERFLOW_PERIOD_US;
      overflowTimeoutUs := Some(overflowPeriodUs as u64);
      initialised := true;
      r := DEVICE_OK;
    }

    /** `setTimeUs`. */
    method SetTimeUs(timestamp: u64) returns (r: int)
      modifies this`currentTimeUs
      ensures r == DEVICE_OK && currentTimeUs == timestamp && TimeUs(0) == timestamp
    {
      currentTimeUs := timestamp;
      r := DEVICE_OK;
    }

    /** `setTime`: milliseconds ×1000; with no time elapsed `getTime` gives back what was set. */
    method SetTime(timestamp: u64) returns (r: int)
      modifies this`currentTimeUs
      ensures r == DEVICE_OK && currentTimeUs == MillisToMicros(timestamp)
      ensures timestamp * MICROS_PER_MILLI < 0x1_0000_0000_0000_0000 ==> Time(0) == timestamp
    {
      r := SetTimeUs(MillisToMicros(timestamp));
    }

    /** `processEvents`: arms the timeout for the head when it is due within one overflow period. */
    method ProcessEvents(elapsedUs: u32)
      modifies this`timeoutUs
      ensures |eventList.events| == 0 ==> timeoutUs == old(timeoutUs)
      ensures |eventList.events| > 0 ==>
        var d := DueIn(eventList.events[0].timestamp, TimeUs(elapsedUs));
        timeoutUs == if d < overflowPeriodUs as u64 then Some(d) else old(timeoutUs)
    {
      if |eventList.events| == 0 {
        return;
      }
      var head := eventList.events[0];
      var usRemaining := DueIn(head.timestamp, TimeUs(elapsedUs));
      if usRemaining < overflowPeriodUs as u64 {
        timeoutUs := Some(usRemaining);
      }
    }

    /**
     * `eventReady`: raises the head event with this timer's id, unlinks it,
     * and re-adds a repeating one due one period from now; then arms the
     * timeout for the new head. On an empty list nothing happens.
     */
    method EventReady(elapsedUs: u32)
      requires Valid()
      modifies this, eventList
      ensures Valid()
      ensures old(|eventList.events|) == 0 ==> unchanged(this) && unchanged(eventList)
      ensures old(|eventList.events|) > 0 ==>
        var head := old(eventList.events[0]);
        var rest := old(eventList.events[1..]);
        (forall k :: 0 <= k < |rest| ==> head.timestamp <= rest[k].timestamp) &&
        raised == old(raised) + [DeviceListener.Event(id, head.value)] &&
        eventList.events == (if head.period == 0 then rest
                             else ClockAdded(rest, head.(timestamp := ToU64(TimeUs(elapsedUs) + head.period))))
      ensures old(|eventList.events|) > 0 ==> |eventList.events| > 0 ==>
        var d := DueIn(eventList.events[0].timestamp, TimeUs(elapsedUs));
        timeoutUs == if d < overflowPeriodUs as u64 then Some(d) else old(timeoutUs)
      ensures currentTimeUs == old(currentTimeUs) && overflowPeriodUs == old(overflowPeriodUs)
    {
      if |eventList.events| == 0 {
        return;
      }
      FireHead(elapsedUs);
      ProcessEvents(elapsedUs);
    }

    /** The part of `eventReady` that raises the head event, unlinks it and re-adds it when it repeats. */
    method FireHead(elapsedUs: u32)
      requires Valid() && |eventList.events| > 0
      modifies this`raised, eventList
      ensures Valid()
      ensures var head := old(eventList.events[0]);
        var rest := old(eventList.events[1..]);
        (forall k :: 0 <= k < |rest| ==> head.timestamp <= rest[k].timestamp) &&
        raised == old(raised) + [DeviceListener.Event(id, head.value)] &&
        eventList.events == (if head.period == 0 then rest
                             else ClockAdded(rest, head.(timestamp := ToU64(TimeUs(elapsedUs) + head.period))))
    {
      var head := eventList.events[0];
      raised := raised + [DeviceListener.Event(id, head.value)];
      eventList.events := eventList.events[1..];
      if head.period != 0 {
        var again := head.(timestamp := ToU64(TimeUs(elapsedUs) + head.period));
        ClockAddedAscending(eventList.events, again);
        eventList.AddToList(again);
      }
    }

    /** `timerOverflow`: the time advances by exactly one overflow period and the head is re-examined. */
    method TimerOverflow()
      modifies this`currentTimeUs, this`overflowTimeoutUs, this`timeoutUs
      ensures currentTimeUs == ToU64(old(currentTimeUs) + overflowPeriodUs)
      ensures overflowTimeoutUs == Some(overflowPeriodUs as u64)
      ensures |eventList.events| > 0 ==>
        var d := DueIn(eventList.events[0].timestamp, currentTimeUs);
        timeoutUs == if d < overflowPeriodUs as u64 then Some(d) else old(timeoutUs)
      ensures |eventList.events| == 0 ==> timeoutUs == old(timeoutUs)
    {
      overflowTimeoutUs := Some(overflowPeriodUs as u64);
      currentTimeUs := ToU64(currentTimeUs + overflowPeriodUs);
      ProcessEvents(0);
    }

    /**
     * `configureEvent`: links a new clock event due `period` from now
     * (repeating with that period when asked) and, when it became the head
     * and is due within one overflow period, arms the timeout for it.
     */
    method ConfigureEvent(period: u64, value: u16, repeating: bool, elapsedUs: u32) returns (r: int)
      requires Valid()
      modifies this`timeoutUs, eventList
      ensures Valid() && r == DEVICE_OK
      ensures var e := MakeClockEvent(ToU64(old(TimeUs(elapsedUs)) + period), period, value, repeating);
        eventList.events == ClockAdded(old(eventList.events), e) &&
        timeoutUs == if FirstAtLeast(old(eventList.events), e.timestamp) == 0 && period < overflowPeriodUs as u64
                     then Some(period) else old(timeoutUs)
    {
      ghost var before := eventList.events;
      var timestamp := ToU64(TimeUs(elapsedUs) + period);
      ClockAddedAscending(eventList.events, MakeClockEvent(timestamp, period, value, repeating));
      var clk := eventList.NewClockEvent(timestamp, period, value, repeating);
      assert eventList.events[0] == clk <==> FirstAtLeast(before, clk.timestamp) == 0 by {
        if FirstAtLeast(before, clk.timestamp) > 0 {
          assert eventList.events[0] == before[0];
        }
      }
      if eventList.events[0] == clk && period < overflowPeriodUs as u64 {
        timeoutUs := Some(period);
      }
      r := DEVICE_OK;
    }

    /** `eventAfterUs`: a one-shot event `interval` microseconds from now. */
    method EventAfterUs(interval: u64, value: u16, elapsedUs: u32) returns (r: int)
      requires Valid()
      modifies this`timeoutUs, eventList
      ensures Valid() && r == DEVICE_OK
      ensures eventList.events == ClockAdded(old(eventList.events), ClockEvent(value, 0, ToU64(old(TimeUs(elapsedUs)) + interval)))
    {
      r := ConfigureEvent(interval, value, false, elapsedUs);
    }

    /** `eventAfter`: a one-shot event `interval` milliseconds from now. */
    method EventAfter(interval: u64, value: u16, elapsedUs: u32) returns (r: int)
      requires Valid()
      modifies this`timeoutUs, eventList
      ensures Valid() && r == DEVICE_OK
      ensures eventList.events ==
        ClockAdded(old(eventList.events), ClockEvent(value, 0, ToU64(old(TimeUs(elapsedUs)) + MillisToMicros(interval))))
    {
      r := EventAfterUs(MillisToMicros(interval), value, elapsedUs);
    }

    /** `eventEveryUs`: a repeating event every `period` microseconds, first due one period from now. */
    method EventEveryUs(period: u64, value: u16, elapsedUs: u32) returns (r: int)
      requires Valid()
      modifies this`timeoutUs, eventList
      ensures Valid() && r == DEVICE_OK
      ensures eventList.events == ClockAdded(old(eventList.events), ClockEvent(value, period, ToU64(old(TimeUs(elapsedUs)) + period)))
    {
      r := ConfigureEvent(period, value, true, elapsedUs);
    }

    /** `eventEvery`: a repeating event every `period` milliseconds. */
    method EventEvery(period: u64, value: u16, elapsedUs: u32) returns (r: int)
      requires Valid()
      modifies this`timeoutUs, eventList
      ensures Valid() && r == DEVICE_OK
      ensures var us := MillisToMicros(period);
        eventList.events == ClockAdded(old(eventList.events), ClockEvent(value, us, ToU64(old(TimeUs(elapsedUs)) + us)))
    {
      r := EventEveryUs(MillisToMicros(period), value, elapsedUs);
    }
  }

  /** An overdue head is never armed: its unsigned delay wraps past any overflow period below 2^63. */
  lemma OverdueNotArmed(timestamp: u64, now: u64, overflowUs: u32)
    requires timestamp < now && now < 0x8000_0000_0000_0000
    ensures DueIn(timestamp, now) >= overflowUs as u64
  {
  }
}

=== FILE: error_no.dfy ===
/**
 * Return and panic codes of the CODAL runtime (inc/core/ErrorNo.h).
 * Operations that return an `int` status in the runtime return one of these.
 */
module ErrorNo {
  const DEVICE_OK: int := 0
  const DEVICE_INVALID_PARAMETER: int := -1001
  const DEVICE_NOT_SUPPORTED: int := -1002
  const DEVICE_CALIBRATION_IN_PROGRESS: int := -1003
  const DEVICE_CALIBRATION_REQUIRED: int := -1004
  const DEVICE_NO_RESOURCES: int := -1005
  const DEVICE_BUSY: int := -1006
  const DEVICE_CANCELLED: int := -1007
  const DEVICE_I2C_ERROR: int := -1010
  const DEVICE_SERIAL_IN_USE: int := -1011
  const DEVICE_NO_DATA: int := -1012
  const DEVICE_NOT_IMPLEMENTED: int := -1013

  /** Panic codes: terminal conditions rather than return values. */
  const DEVICE_OOM: int := 20
  const DEVICE_HEAP_ERROR: int := 30
  const DEVICE_NULL_DEREFERENCE: int := 40
  const DEVICE_USB_ERROR: int := 50
}

=== FILE: event_model.dfy ===
/**
 * inc/core/EventModel.h: the interface every event bus offers. `listen`
 * checks its arguments, builds a listener and hands it to the bus's `add`;
 * `ignore` builds a matching listener and hands it to `remove`. The base
 * class itself supports nothing. A static pointer names the default bus.
 *
 * Handlers are addresses, with 0 standing for NULL.
 */
module EventModel {
  import opened CTypes
  import opened ErrorNo
  import opened DeviceListener
  import opened DeviceComponent

  /** The checks `listen` makes before building a listener. */
  predicate ListenAccepted(id: int, handlerPresent: bool, flags: bv16)
  {
    handlerPresent && (id != DEVICE_ID_SCHEDULER || flags == MESSAGE_BUS_LISTENER_IMMEDIATE)
  }

  /** `EventModel::defaultEventBus`, the static pointer to the default bus. */
  class DefaultEventBus {
    var bus: object?

    constructor()
      ensures bus == null
    {
      bus := null;
    }

    /** `setDefaultEventModel`. */
    method SetDefaultEventModel(model: object) returns (r: int)
      modifies this
      ensures bus == model && r == DEVICE_OK
    {
      bus := model;
      r := DEVICE_OK;
    }
  }

  /** The base class: a bus that accepts nothing. */
  class EventModel {
    constructor()
    {
    }

    method Send(e: Event) returns (r: int)
      ensures r == DEVICE_NOT_SUPPORTED
    {
      r := DEVICE_NOT_SUPPORTED;
    }

    method Add(l: Listener?) returns (r: int)
      ensures r == DEVICE_NOT_SUPPORTED
    {
      r := DEVICE_NOT_SUPPORTED;
    }

    method Remove(l: Listener?) returns (r: int)
      ensures r == DEVICE_NOT_SUPPORTED
    {
      r := DEVICE_NOT_SUPPORTED;
    }

    function ElementAt(n: int): (l: Listener?)
      ensures l == null
    {
      null
    }

    /**
     * `listen` with a plain function: the argument checks, then `add`. On
     * the base class `add` always refuses, so nothing is ever registered.
     */
    method Listen(id: int, value: int, handler: nat, flags: bv16) returns (r: int)
      ensures !ListenAccepted(id, handler != 0, flags) ==> r == DEVICE_INVALID_PARAMETER
      ensures ListenAccepted(id, handler != 0, flags) ==> r == DEVICE_NOT_SUPPORTED
    {
      if handler == 0 {
        return DEVICE_INVALID_PARAMETER;
      }
      if id == DEVICE_ID_SCHEDULER && flags != MESSAGE_BUS_LISTENER_IMMEDIATE {
        return DEVICE_INVALID_PARAMETER;
      }
      var newListener := new Listener.Plain(ToU16(id), ToU16(value), handler, flags);
      var added := Add(newListener);
      if added == DEVICE_OK {
        return DEVICE_OK;
      }
      r := DEVICE_NOT_SUPPORTED;
    }

    /** `ignore` with a plain function: INVALID_PARAMETER for NULL, otherwise OK whatever `remove` reports. */
    method Ignore(id: int, value: int, handler: nat) returns (r: int)
      ensures r == (if handler == 0 then DEVICE_INVALID_PARAMETER else DEVICE_OK)
    {
      if handler == 0 {
        return DEVICE_INVALID_PARAMETER;
      }
      var listener := new Listener.Plain(ToU16(id), ToU16(value), handler, EVENT_LISTENER_DEFAULT_FLAGS);
      var _ := Remove(listener);
      r := DEVICE_OK;
    }
  }
}

=== FILE: fifo_stream.dfy ===
/**
 * source/samples/FIFOStream.cpp: a sample stream component that queues up
 * to 256 non-empty buffers from upstream, with separate switches for
 * accepting input and releasing output. The upstream `pull` is a
 * parameter: the buffer it would yield.
 */
module FIFOStream {
  import opened ManagedBuffers
  import ErrorNo

  /** The header names this bound TAPEDECK_MAXIMUM_BUFFERS too. */
  const FIFO_MAXIMUM_BUFFERS: int := 256

  class Fifo {
    var buffer: array<Buffer>
    var bufferCount: int
    var bufferLength: int
    var allowInput: bool
    var allowOutput: bool
    var downStreamConnected: bool

    /** Only non-empty buffers are ever queued, so bytes are held exactly when buffers are. */
    ghost predicate Valid()
      reads this, buffer
    {
      buffer.Length == FIFO_MAXIMUM_BUFFERS &&
      0 <= bufferCount <= FIFO_MAXIMUM_BUFFERS &&
      bufferLength == |Bytes(buffer[..bufferCount])| &&
      (forall i :: 0 <= i < bufferCount ==> buffer[i].bytes != []) &&
      forall i :: bufferCount <= i < FIFO_MAXIMUM_BUFFERS ==> buffer[i] == EMPTY
    }

    function Contents(): seq<Buffer>
      reads this, buffer
      requires Valid()
    {
      buffer[..bufferCount]
    }

    /** A new FIFO is empty, with input and output switched off. */
    constructor ()
      ensures Valid() && fresh(buffer) && Contents() == [] && bufferLength == 0
      ensures !allowInput && !allowOutput && !downStreamConnected
    {
      buffer := new Buffer[FIFO_MAXIMUM_BUFFERS](_ => EMPTY);
      bufferCount := 0;
      bufferLength := 0;
      allowInput := false;
      allowOutput := false;
      downStreamConnected := false;
    }

    /** `canPull`: output is on and some buffer is queued. */
    predicate CanPull()
      requires Valid()
      reads this, buffer
      ensures CanPull() <==> allowOutput && Contents() != []
    {
      BytesEmpty(Contents());
      bufferLength > 0 && allowOutput
    }

    /** `isFull`: despite its name, holds exactly when there is room for another buffer. */
    predicate IsFull()
      requires Valid()
      reads this, buffer
      ensures IsFull() <==> |Contents()| < FIFO_MAXIMUM_BUFFERS
    {
      bufferCount < FIFO_MAXIMUM_BUFFERS
    }

    /** The loop of `pull` that moves every slot down by one; the last slot becomes empty. */
    method ShiftDown()
      requires buffer.Length == FIFO_MAXIMUM_BUFFERS
      modifies buffer
      ensures forall j :: 0 <= j < FIFO_MAXIMUM_BUFFERS - 1 ==> buffer[j] == old(buffer[j + 1])
      ensures buffer[FIFO_MAXIMUM_BUFFERS - 1] == EMPTY
    {
      var i := 0;
      while i < FIFO_MAXIMUM_BUFFERS - 1
        invariant 0 <= i <= FIFO_MAXIMUM_BUFFERS - 1
        invariant forall j :: 0 <= j < i ==> buffer[j] == old(buffer[j + 1])
        invariant forall j :: i <= j < FIFO_MAXIMUM_BUFFERS ==> buffer[j] == old(buffer[j])
      {
        buffer[i] := buffer[i + 1];
        i := i + 1;
      }
      buffer[FIFO_MAXIMUM_BUFFERS - 1] := EMPTY;
    }

    /**
     * `pull`: with output on and data queued, the head buffer is removed
     * and returned, and the downstream is asked to pull again if more is
     * queued; otherwise an empty buffer comes back and nothing changes.
     */
    method Pull() returns (out: Buffer, notified: bool)
      requires Valid()
      modifies this`bufferCount, this`bufferLength, buffer
      ensures Valid()
      ensures old(CanPull()) ==> (out == old(Contents())[0] && Contents() == old(Contents())[1..] &&
        bufferLength == old(bufferLength) - |out.bytes| &&
        notified == (Contents() != [] && downStreamConnected))
      ensures !old(CanPull()) ==> (out == EMPTY && !notified && Contents() == old(Contents()) &&
        bufferLength == old(bufferLength))
    {
      if bufferLength > 0 && allowOutput {
        BytesEmpty(buffer[..bufferCount]);
        out := buffer[0];
        ghost var before := buffer[..bufferCount];
        ghost var length0 := bufferLength;
        ShiftDown();
        bufferLength := bufferLength - |out.bytes|;
        bufferCount := bufferCount - 1;
        assert forall j :: 0 <= j < bufferCount ==> buffer[j] == before[1..][j];
        assert buffer[..bufferCount] == before[1..];
        BytesTail(before);
        assert bufferLength == length0 - |before[0].bytes|;
        notified := bufferCount > 0 && downStreamConnected;
        return;
      }
      BytesEmpty(buffer[..bufferCount]);
      return EMPTY, false;
    }

    /**
     * `pullRequest`: the upstream buffer is always pulled. With every slot
     * taken it is dropped and the request refused; otherwise it is queued
     * only when input is on and it is not empty, and a first buffer with
     * output on wakes the downstream.
     */
    method PullRequest(incoming: Buffer) returns (status: int, notified: bool)
      requires Valid()
      modifies this`bufferCount, this`bufferLength, buffer
      ensures Valid()
      ensures old(bufferCount) >= FIFO_MAXIMUM_BUFFERS ==>
        (status == ErrorNo.DEVICE_NO_RESOURCES && !notified && Contents() == old(Contents()))
      ensures old(bufferCount) < FIFO_MAXIMUM_BUFFERS ==> status == ErrorNo.DEVICE_OK
      ensures old(bufferCount) < FIFO_MAXIMUM_BUFFERS && allowInput && incoming.bytes != [] ==>
        (Contents() == old(Contents()) + [incoming] && bufferLength == old(bufferLength) + |incoming.bytes| &&
         notified == (old(bufferCount) == 0 && allowOutput && downStreamConnected))
      ensures !(allowInput && incoming.bytes != []) ==>
        (Contents() == old(Contents()) && bufferLength == old(bufferLength) && !notified)
    {
      notified := false;
      if bufferCount >= FIFO_MAXIMUM_BUFFERS {
        return ErrorNo.DEVICE_NO_RESOURCES, false;
      }
      if allowInput && |incoming.bytes| > 0 {
        ghost var before := buffer[..bufferCount];
        buffer[bufferCount] := incoming;
        bufferCount := bufferCount + 1;
        bufferLength := bufferLength + |incoming.bytes|;
        assert buffer[..bufferCount] == before + [incoming];
        BytesSnoc(before, incoming);
        if bufferCount == 1 && allowOutput && downStreamConnected {
          notified := true;
        }
      }
      return ErrorNo.DEVICE_OK, notified;
    }

    method SetInputEnable(state: bool)
      modifies this`allowInput
      ensures allowInput == state
    {
      allowInput := state;
    }

    /**
     * `setOutputEnable`: the downstream is woken only when output goes from
     * off to on while data is queued.
     */
    method SetOutputEnable(state: bool) returns (notified: bool)
      requires Valid()
      modifies this`allowOutput
      ensures allowOutput == state
      ensures notified <==> !old(allowOutput) && state && Contents() != [] && downStreamConnected
    {
      var enabling := false;
      if allowOutput == false && state {
        enabling := true;
      }
      allowOutput := state;
      notified := enabling && bufferCount > 0 && downStreamConnected;
    }

    method Connect()
      modifies this`downStreamConnected
      ensures downStreamConnected
    {
      downStreamConnected := true;
    }

    method Disconnect()
      modifies this`downStreamConnected
      ensures !downStreamConnected
    {
      downStreamConnected := false;
    }
  }
}

=== FILE: heap_allocator.dfy ===
/**
 * source/core/DeviceHeapAllocator.cpp: a block allocator over one or more
 * word-aligned memory regions. Every block starts with a header word
 * holding its size in 32-bit words, the header included, with the top bit
 * set while the block is free. The blocks of a heap follow one another from
 * its first word to its end.
 *
 * A heap is represented by its byte bounds and an array of its words
 * followed by one more element: the word just past the heap's end, which
 * the coalescing loop of `device_malloc` reads before it tests the bound.
 * Pointers are byte addresses.
 */
module DeviceHeapAllocator {
  import opened CTypes
  import opened ErrorNo
  import opened Wrappers

  /** DeviceHeapAllocator.h is not part of this model; these two values are CODAL's. */
  const DEVICE_MAXIMUM_HEAPS: nat := 2
  const DEVICE_HEAP_BLOCK_FREE: nat := 0x8000_0000
  /** inc/core/DeviceConfig.h: the allocation unit in bytes. */
  const DEVICE_HEAP_BLOCK_SIZE: nat := 4

  /** `*block & ~DEVICE_HEAP_BLOCK_FREE`: the size a header records, in words. */
  function Size(h: u32): (s: nat)
    ensures s < DEVICE_HEAP_BLOCK_FREE && (h < DEVICE_HEAP_BLOCK_FREE ==> s == h)
  {
    if h >= DEVICE_HEAP_BLOCK_FREE then h - DEVICE_HEAP_BLOCK_FREE else h
  }

  /** `*block & DEVICE_HEAP_BLOCK_FREE`. */
  predicate IsFree(h: u32)
  {
    h >= DEVICE_HEAP_BLOCK_FREE
  }

  /** `size | DEVICE_HEAP_BLOCK_FREE`: the header of a free block of `size` words. */
  function FreeHeader(size: nat): (h: u32)
    requires size < DEVICE_HEAP_BLOCK_FREE
    ensures IsFree(h) && Size(h) == size
  {
    size + DEVICE_HEAP_BLOCK_FREE
  }

  /** The block whose header is at word `b` is non-empty and ends within the `n` words of the heap. */
  ghost predicate Step(w: seq<u32>, b: nat, n: nat)
    requires n < |w|
  {
    b < n && 0 < Size(w[b]) && b + Size(w[b]) <= n
  }

  /** Walking the headers from word `b` lands exactly on the end of the heap. */
  ghost predicate Tiles(w: seq<u32>, b: nat, n: nat)
    requires n < |w|
    decreases n - b
  {
    b == n || (Step(w, b, n) && Tiles(w, b + Size(w[b]), n))
  }

  /** Walking the headers from word `b` passes through word `c`: `c` is a block boundary. */
  ghost predicate Reaches(w: seq<u32>, b: nat, c: nat, n: nat)
    requires n < |w|
    decreases n - b
  {
    b == c || (Step(w, b, n) && Reaches(w, b + Size(w[b]), c, n))
  }

  /** The words of the run of free blocks that starts at boundary `c`: what the coalescing loop merges. */
  function FreeRun(w: seq<u32>, c: nat, n: nat): (s: nat)
    requires n < |w| && Tiles(w, c, n)
    ensures c + s <= n && Tiles(w, c + s, n)
    decreases n - c
  {
    if c == n || !IsFree(w[c]) then 0
    else Size(w[c]) + FreeRun(w, c + Size(w[c]), n)
  }

  /** A heap and the outcome of a search: its new words, and the header of the block found. */
  datatype Allocation = Allocation(words: seq<u32>, header: Option<nat>)

  /**
   * The first-fit walk of `device_malloc` from boundary `b`: used blocks
   * are skipped; a free block absorbs the free blocks after it, its header
   * is rewritten with the merged size, and the walk stops there if it is
   * large enough. Reaching the end of the heap finds nothing.
   */
  function FirstFit(w: seq<u32>, b: nat, n: nat, needed: nat): (r: Allocation)
    requires n < |w| && n < DEVICE_HEAP_BLOCK_FREE && Tiles(w, b, n)
    ensures |r.words| == |w|
    ensures r.header.Some? ==>
      b <= r.header.value < n && IsFree(r.words[r.header.value]) && Size(r.words[r.header.value]) >= needed
    decreases n - b
  {
    if b == n then Allocation(w, None)
    else if !IsFree(w[b]) then FirstFit(w, b + Size(w[b]), n, needed)
    else
      var s := FreeRun(w, b, n);
      var w' := w[b := FreeHeader(s)];
      TilesUpdate(w, b, FreeHeader(s), b + s, n);
      if s >= needed then Allocation(w', Some(b)) else FirstFit(w', b + s, n, needed)
  }

  /**
   * Taking `needed` words from the free block at `b`: the whole block when
   * at most one word would be left over or the split would reach the end
   * of the heap, otherwise a used block of `needed` words followed by a
   * free block of the rest.
   */
  function Claim(w: seq<u32>, b: nat, n: nat, needed: nat): (w': seq<u32>)
    requires n < |w| && b < n && IsFree(w[b]) && needed <= Size(w[b])
    ensures |w'| == |w| && !IsFree(w'[b]) && needed <= Size(w'[b]) <= Size(w[b])
    ensures forall i :: 0 <= i < |w| && i != b && i != b + needed ==> w'[i] == w[i]
  {
    var s := Size(w[b]);
    if s <= needed + 1 || b + needed + 1 >= n then w[b := s]
    else w[b + needed := FreeHeader(s - needed)][b := needed]
  }

  /** `blocksNeeded`: the words a request of `size` bytes takes, rounded up, plus the header. */
  function BlocksNeeded(size: nat): (needed: nat)
    ensures needed >= 1 && (size > 0 ==> needed >= 2) && (needed - 1) * DEVICE_HEAP_BLOCK_SIZE >= size
    ensures (needed - 2) * DEVICE_HEAP_BLOCK_SIZE < size || size == 0
  {
    var q := size / DEVICE_HEAP_BLOCK_SIZE;
    assert size == DEVICE_HEAP_BLOCK_SIZE * q + size % DEVICE_HEAP_BLOCK_SIZE;
    (if size % DEVICE_HEAP_BLOCK_SIZE == 0 then q else q + 1) + 1
  }

  /** `device_malloc` on the words of one heap: nothing for a zero size, otherwise first fit then claim. */
  function Allocate(w: seq<u32>, n: nat, size: nat): (r: Allocation)
    requires n < |w| && n < DEVICE_HEAP_BLOCK_FREE && Tiles(w, 0, n)
    requires size < 0x1_0000_0000
    ensures |r.words| == |w|
    ensures size == 0 ==> r.header.None?
    ensures r.header.Some? ==>
      r.header.value < n && !IsFree(r.words[r.header.value]) && Size(r.words[r.header.value]) >= BlocksNeeded(size)
  {
    if size == 0 then Allocation(w, None)
    else
      var needed := BlocksNeeded(size);
      var f := FirstFit(w, 0, n, needed);
      match f.header
      case None => f
      case Some(b) => Allocation(Claim(f.words, b, n, needed), Some(b))
  }

  // ---------------------------------------------------------------------
  // Frames: the walk from a boundary reads no word before it.

  lemma {:induction false} TilesUpdate(w: seq<u32>, i: nat, v: u32, c: nat, n: nat)
    requires n < |w| && i < |w| && i < c
    ensures Tiles(w[i := v], c, n) <==> Tiles(w, c, n)
    decreases n - c
  {
    if c != n && Step(w, c, n) {
      TilesUpdate(w, i, v, c + Size(w[c]), n);
    }
  }

  lemma {:induction false} ReachesUpdate(w: seq<u32>, i: nat, v: u32, c: nat, d: nat, n: nat)
    requires n < |w| && i < |w| && i < c
    ensures Reaches(w[i := v], c, d, n) <==> Reaches(w, c, d, n)
    decreases n - c
  {
    if c != d && Step(w, c, n) {
      ReachesUpdate(w, i, v, c + Size(w[c]), d, n);
    }
  }

  /** A boundary reached from `b` lies between `b` and the end of the heap. */
  lemma {:induction false} ReachesBounds(w: seq<u32>, b: nat, c: nat, n: nat)
    requires n < |w| && Tiles(w, b, n) && Reaches(w, b, c, n)
    ensures b <= c <= n && Tiles(w, c, n)
    decreases n - b
  {
    if b != c {
      ReachesBounds(w, b + Size(w[b]), c, n);
    }
  }

  /** A boundary after a free block that ends its run is reached by skipping the whole run. */
  lemma {:induction false} RunSkips(w: seq<u32>, b: nat, c: nat, n: nat)
    requires n < |w| && Tiles(w, b, n) && Reaches(w, b, c, n) && (c == n || (c < n && !IsFree(w[c])))
    ensures Reaches(w, b + FreeRun(w, b, n), c, n)
    decreases n - b
  {
    if b != c && b != n && IsFree(w[b]) {
      RunSkips(w, b + Size(w[b]), c, n);
    }
  }

  /** The walk from a boundary reads only the size of each header. */
  lemma {:induction false} TilesSameSizes(w: seq<u32>, w': seq<u32>, b: nat, n: nat)
    requires n < |w| == |w'| && forall i :: 0 <= i < |w| ==> Size(w'[i]) == Size(w[i])
    ensures Tiles(w', b, n) <==> Tiles(w, b, n)
    ensures forall c :: Reaches(w', b, c, n) <==> Reaches(w, b, c, n)
    decreases n - b
  {
    if Step(w, b, n) {
      TilesSameSizes(w, w', b + Size(w[b]), n);
    }
  }

  // ---------------------------------------------------------------------
  // The first-fit walk.

  /** The walk writes no word before the boundary it starts from. */
  lemma {:induction false} FirstFitFrame(w: seq<u32>, b: nat, n: nat, needed: nat, i: nat)
    requires n < |w| && n < DEVICE_HEAP_BLOCK_FREE && Tiles(w, b, n) && i < b
    ensures FirstFit(w, b, n, needed).words[i] == w[i]
    decreases n - b
  {
    if b == n {
    } else if !IsFree(w[b]) {
      FirstFitFrame(w, b + Size(w[b]), n, needed, i);
    } else {
      var s := FreeRun(w, b, n);
      TilesUpdate(w, b, FreeHeader(s), b + s, n);
      if s < needed {
        FirstFitFrame(w[b := FreeHeader(s)], b + s, n, needed, i);
      }
    }
  }

  /** The walk keeps the heap tiled and the block it finds is a boundary of the new heap. */
  lemma {:induction false} FirstFitTiles(w: seq<u32>, b: nat, n: nat, needed: nat)
    requires n < |w| && n < DEVICE_HEAP_BLOCK_FREE && Tiles(w, b, n)
    ensures var r := FirstFit(w, b, n, needed);
      Tiles(r.words, b, n) && (r.header.Some? ==> Reaches(r.words, b, r.header.value, n))
    decreases n - b
  {
    if b == n {
    } else if !IsFree(w[b]) {
      FirstFitTiles(w, b + Size(w[b]), n, needed);
      FirstFitFrame(w, b + Size(w[b]), n, needed, b);
    } else {
      var s := FreeRun(w, b, n);
      var w' := w[b := FreeHeader(s)];
      TilesUpdate(w, b, FreeHeader(s), b + s, n);
      if s < needed {
        FirstFitTiles(w', b + s, n, needed);
        FirstFitFrame(w', b + s, n, needed, b);
      }
    }
  }

  /**
   * Coalescing only merges free blocks: every used block of the heap is
   * still a block, with the same header, and is not the one found.
   */
  lemma {:induction false} FirstFitKeepsUsed(w: seq<u32>, b: nat, c: nat, n: nat, needed: nat)
    requires n < |w| && n < DEVICE_HEAP_BLOCK_FREE && Tiles(w, b, n)
    requires Reaches(w, b, c, n) && c < n && !IsFree(w[c])
    ensures var r := FirstFit(w, b, n, needed);
      Reaches(r.words, b, c, n) && r.words[c] == w[c] && r.header != Some(c)
    decreases n - b, 1
  {
    if b == c {
      FirstFitFrame(w, b + Size(w[b]), n, needed, b);
    } else if !IsFree(w[b]) {
      FirstFitKeepsUsed(w, b + Size(w[b]), c, n, needed);
      FirstFitFrame(w, b + Size(w[b]), n, needed, b);
    } else {
      FirstFitKeepsUsedAfterFree(w, b, c, n, needed);
    }
  }

  lemma {:induction false} FirstFitKeepsUsedAfterFree(w: seq<u32>, b: nat, c: nat, n: nat, needed: nat)
    requires n < |w| && n < DEVICE_HEAP_BLOCK_FREE && Tiles(w, b, n) && b < n && IsFree(w[b])
    requires Reaches(w, b, c, n) && c < n && !IsFree(w[c])
    ensures var r := FirstFit(w, b, n, needed);
      Reaches(r.words, b, c, n) && r.words[c] == w[c] && r.header != Some(c)
    decreases n - b, 0
  {
    var s := FreeRun(w, b, n);
    var w' := w[b := FreeHeader(s)];
    RunSkips(w, b, c, n);
    ReachesUpdate(w, b, FreeHeader(s), b + s, c, n);
    if s < needed {
      TilesUpdate(w, b, FreeHeader(s), b + s, n);
      FirstFitKeepsUsed(w', b + s, c, n, needed);
      FirstFitFrame(w', b + s, n, needed, b);
    }
  }

  /**
   * First fit: in the coalesced heap every free block before the one found
   * (every free block at all, when none is found) is too small.
   */
  lemma {:induction false} FirstFitIsFirst(w: seq<u32>, b: nat, c: nat, n: nat, needed: nat)
    requires n < |w| && n < DEVICE_HEAP_BLOCK_FREE && Tiles(w, b, n)
    requires var r := FirstFit(w, b, n, needed);
      Reaches(r.words, b, c, n) && c < n && IsFree(r.words[c]) && (r.header.None? || c < r.header.value)
    ensures Size(FirstFit(w, b, n, needed).words[c]) < needed
    decreases n - b, 2
  {
    if b == n {
    } else if !IsFree(w[b]) {
      FirstFitIsFirstAfterUsed(w, b, c, n, needed);
    } else {
      FirstFitIsFirstAfterFree(w, b, c, n, needed);
    }
  }

  lemma {:induction false} FirstFitIsFirstAfterUsed(w: seq<u32>, b: nat, c: nat, n: nat, needed: nat)
    requires n < |w| && n < DEVICE_HEAP_BLOCK_FREE && Tiles(w, b, n) && b < n && !IsFree(w[b])
    requires var r := FirstFit(w, b, n, needed);
      Reaches(r.words, b, c, n) && c < n && IsFree(r.words[c]) && (r.header.None? || c < r.header.value)
    ensures Size(FirstFit(w, b, n, needed).words[c]) < needed
    decreases n - b, 0
  {
    var next := b + Size(w[b]);
    var r := FirstFit(w, next, n, needed);
    assert FirstFit(w, b, n, needed) == r;
    FirstFitFrame(w, next, n, needed, b);
    assert Reaches(r.words, next, c, n);
    FirstFitIsFirst(w, next, c, n, needed);
  }

  lemma {:induction false} FirstFitIsFirstAfterFree(w: seq<u32>, b: nat, c: nat, n: nat, needed: nat)
    requires n < |w| && n < DEVICE_HEAP_BLOCK_FREE && Tiles(w, b, n) && b < n && IsFree(w[b])
    requires var r := FirstFit(w, b, n, needed);
      Reaches(r.words, b, c, n) && c < n && IsFree(r.words[c]) && (r.header.None? || c < r.header.value)
    ensures Size(FirstFit(w, b, n, needed).words[c]) < needed
    decreases n - b, 1
  {
    var s := FreeRun(w, b, n);
    var w' := w[b := FreeHeader(s)];
    TilesUpdate(w, b, FreeHeader(s), b + s, n);
    if s >= needed {
      ReachesBounds(w', b, c, n);
    } else {
      assert Tiles(w', b + s, n);
      assert FirstFit(w, b, n, needed) == FirstFit(w', b + s, n, needed);
      FirstFitFrame(w', b + s, n, needed, b);
      if c != b {
        FirstFitIsFirstAfterMerge(w', b, s, c, n, needed);
      }
    }
  }

  /** The search went on past a merged free block of s words at b that was too small. */
  lemma {:induction false} FirstFitIsFirstAfterMerge(w: seq<u32>, b: nat, s: nat, c: nat, n: nat, needed: nat)
    requires n < |w| && n < DEVICE_HEAP_BLOCK_FREE && 0 < s && b + s <= n && Tiles(w, b + s, n)
    requires s < needed && w[b] == FreeHeader(s) && c != b
    requires var r := FirstFit(w, b + s, n, needed);
      Reaches(r.words, b, c, n) && c < n && IsFree(r.words[c]) && (r.header.None? || c < r.header.value)
    ensures Size(FirstFit(w, b + s, n, needed).words[c]) < needed
    decreases n - b, 0
  {
    var r := FirstFit(w, b + s, n, needed);
    FirstFitFrame(w, b + s, n, needed, b);
    assert Size(r.words[b]) == s;
    assert Reaches(r.words, b + s, c, n);
    FirstFitIsFirst(w, b + s, c, n, needed);
  }

  // ---------------------------------------------------------------------
  // Claiming the block found.

  /** Claiming a free boundary block keeps the heap tiled and the block a boundary. */
  lemma {:induction false} ClaimTiles(w: seq<u32>, b: nat, h: nat, n: nat, needed: nat)
    requires n < |w| && Tiles(w, b, n) && Reaches(w, b, h, n)
    requires h < n && IsFree(w[h]) && 0 < needed <= Size(w[h])
    ensures Tiles(Claim(w, h, n, needed), b, n) && Reaches(Claim(w, h, n, needed), b, h, n)
    decreases n - b
  {
    if b == h {
      ClaimTilesHere(w, h, n, needed);
    } else {
      ReachesBounds(w, b, h, n);
      ClaimTiles(w, b + Size(w[b]), h, n, needed);
    }
  }

  /** The claimed block, split or not, is followed by the same tiling as before. */
  lemma ClaimTilesHere(w: seq<u32>, h: nat, n: nat, needed: nat)
    requires n < |w| && Tiles(w, h, n) && h < n && IsFree(w[h]) && 0 < needed <= Size(w[h])
    ensures Tiles(Claim(w, h, n, needed), h, n)
  {
    var s := Size(w[h]);
    if s <= needed + 1 || h + needed + 1 >= n {
      assert Claim(w, h, n, needed) == w[h := s];
      TilesUpdate(w, h, s, h + s, n);
    } else {
      var w1 := w[h + needed := FreeHeader(s - needed)];
      var w2 := w1[h := needed];
      assert Claim(w, h, n, needed) == w2;
      TilesUpdate(w, h + needed, FreeHeader(s - needed), h + s, n);
      TilesUpdate(w1, h, needed, h + s, n);
      assert Tiles(w2, h + needed, n);
    }
  }

  /** Claiming a free block leaves every used block a boundary with the same header. */
  lemma {:induction false} ClaimKeepsUsed(w: seq<u32>, b: nat, h: nat, c: nat, n: nat, needed: nat)
    requires n < |w| && Tiles(w, b, n) && Reaches(w, b, h, n) && Reaches(w, b, c, n)
    requires h < n && IsFree(w[h]) && 0 < needed <= Size(w[h])
    requires c < n && !IsFree(w[c])
    ensures Reaches(Claim(w, h, n, needed), b, c, n) && Claim(w, h, n, needed)[c] == w[c]
    decreases n - b
  {
    if b == c {
      ReachesBounds(w, c, h, n);
    } else if b == h {
      ClaimKeepsLaterUsed(w, h, c, n, needed);
    } else {
      ReachesBounds(w, b, h, n);
      ClaimKeepsUsed(w, b + Size(w[b]), h, c, n, needed);
    }
  }

  /** The used blocks after the claimed one are reached across it, whether it was split or not. */
  lemma ClaimKeepsLaterUsed(w: seq<u32>, h: nat, c: nat, n: nat, needed: nat)
    requires n < |w| && Tiles(w, h, n) && Reaches(w, h, c, n)
    requires h < n && IsFree(w[h]) && 0 < needed <= Size(w[h])
    requires c < n && !IsFree(w[c])
    ensures Reaches(Claim(w, h, n, needed), h, c, n) && Claim(w, h, n, needed)[c] == w[c]
  {
    var s := Size(w[h]);
    ReachesBounds(w, h + s, c, n);
    if s <= needed + 1 || h + needed + 1 >= n {
      assert Claim(w, h, n, needed) == w[h := s];
      ReachesUpdate(w, h, s, h + s, c, n);
    } else {
      ClaimSplitKeepsLaterUsed(w, h, c, n, needed);
    }
  }

  /** The same when the claimed block is split: the walk crosses the used part, then the free rest. */
  lemma ClaimSplitKeepsLaterUsed(w: seq<u32>, h: nat, c: nat, n: nat, needed: nat)
    requires n < |w| && h < n && IsFree(w[h]) && 0 < needed && h + Size(w[h]) <= c < n
    requires Size(w[h]) > needed + 1 && h + needed + 1 < n && Reaches(w, h + Size(w[h]), c, n)
    ensures Reaches(Claim(w, h, n, needed), h, c, n) && Claim(w, h, n, needed)[c] == w[c]
  {
    var s := Size(w[h]);
    var w1 := w[h + needed := FreeHeader(s - needed)];
    var w2 := w1[h := needed];
    assert Claim(w, h, n, needed) == w2;
    ReachesUpdate(w, h + needed, FreeHeader(s - needed), h + s, c, n);
    ReachesUpdate(w1, h, needed, h + s, c, n);
    assert Reaches(w2, h + needed, c, n);
  }

  /** Distinct boundaries start disjoint blocks: the earlier block ends at or before the later one. */
  lemma {:induction false} BoundariesDisjoint(w: seq<u32>, b: nat, c: nat, d: nat, n: nat)
    requires n < |w| && Tiles(w, b, n) && Reaches(w, b, c, n) && Reaches(w, b, d, n) && c < d
    ensures c < n && c + Size(w[c]) <= d
    decreases n - b
  {
    ReachesBounds(w, b, c, n);
    ReachesBounds(w, b, d, n);
    if b == c {
      ReachesBounds(w, c + Size(w[c]), d, n);
    } else {
      BoundariesDisjoint(w, b + Size(w[b]), c, d, n);
    }
  }

  /** No free block of the heap has `needed` words. */
  ghost predicate NoFit(w: seq<u32>, n: nat, needed: nat)
    requires n < |w|
  {
    forall c: nat :: Reaches(w, 0, c, n) && c < n && IsFree(w[c]) ==> Size(w[c]) < needed
  }

  /** Word `k` heads a used block of at least `needed` words, inside the heap. */
  ghost predicate InUse(w: seq<u32>, n: nat, k: nat, needed: nat)
    requires n < |w|
  {
    Reaches(w, 0, k, n) && k < n && !IsFree(w[k]) && needed <= Size(w[k]) && k + Size(w[k]) <= n
  }

  // ---------------------------------------------------------------------
  // `device_malloc` on one heap.

  /**
   * The heap stays tiled, and the block handed out is a used block of the
   * new heap, at least as large as the request, and inside the heap.
   */
  lemma AllocateTiles(w: seq<u32>, n: nat, size: nat)
    requires n < |w| && n < DEVICE_HEAP_BLOCK_FREE && Tiles(w, 0, n) && size < 0x1_0000_0000
    ensures var r := Allocate(w, n, size);
      Tiles(r.words, 0, n) &&
      (r.header.Some? ==> InUse(r.words, n, r.header.value, BlocksNeeded(size)))
  {
    if size > 0 {
      var needed := BlocksNeeded(size);
      var f := FirstFit(w, 0, n, needed);
      FirstFitTiles(w, 0, n, needed);
      if f.header.Some? {
        var h := f.header.value;
        ClaimTiles(f.words, 0, h, n, needed);
        ReachesBounds(Claim(f.words, h, n, needed), 0, h, n);
      }
    }
  }

  /**
   * Every block in use before the call is still a block in use, with the
   * same header, and the block handed out lies wholly outside it.
   */
  lemma AllocateKeepsUsed(w: seq<u32>, n: nat, size: nat, c: nat)
    requires n < |w| && n < DEVICE_HEAP_BLOCK_FREE && Tiles(w, 0, n) && size < 0x1_0000_0000
    requires Reaches(w, 0, c, n) && c < n && !IsFree(w[c])
    ensures var r := Allocate(w, n, size);
      Reaches(r.words, 0, c, n) && r.words[c] == w[c] &&
      (r.header.Some? ==>
        var h := r.header.value;
        h + Size(r.words[h]) <= c || c + Size(w[c]) <= h)
  {
    if size > 0 {
      var needed := BlocksNeeded(size);
      var f := FirstFit(w, 0, n, needed);
      FirstFitKeepsUsed(w, 0, c, n, needed);
      if f.header.Some? {
        var h := f.header.value;
        FirstFitTiles(w, 0, n, needed);
        ClaimKeepsUsed(f.words, 0, h, c, n, needed);
        AllocateTiles(w, n, size);
        var r := Allocate(w, n, size);
        if h < c {
          BoundariesDisjoint(r.words, 0, h, c, n);
        } else {
          BoundariesDisjoint(r.words, 0, c, h, n);
        }
      }
    }
  }

  /** NULL from `device_malloc` means that, once coalesced, no free block of the heap is large enough. */
  lemma AllocateNullMeansNoFit(w: seq<u32>, n: nat, size: nat)
    requires n < |w| && n < DEVICE_HEAP_BLOCK_FREE && Tiles(w, 0, n) && 0 < size < 0x1_0000_0000
    requires Allocate(w, n, size).header.None?
    ensures NoFit(Allocate(w, n, size).words, n, BlocksNeeded(size))
  {
    var r := Allocate(w, n, size);
    forall c: nat | Reaches(r.words, 0, c, n) && c < n && IsFree(r.words[c])
      ensures Size(r.words[c]) < BlocksNeeded(size)
    {
      FirstFitIsFirst(w, 0, c, n, BlocksNeeded(size));
    }
  }

  // ---------------------------------------------------------------------
  // `free` on one heap.

  /**
   * `free`'s check and update of the header before the pointer: a zero or
   * already free header is a heap error; otherwise it is marked free.
   */
  function Release(w: seq<u32>, k: nat): (r: Option<seq<u32>>)
    requires k < |w|
    ensures r.None? <==> w[k] == 0 || IsFree(w[k])
    ensures r.Some? ==> |r.value| == |w| && IsFree(r.value[k]) && Size(r.value[k]) == Size(w[k])
    ensures r.Some? ==> forall i :: 0 <= i < |w| && i != k ==> r.value[i] == w[i]
  {
    if w[k] == 0 || IsFree(w[k]) then None else Some(w[k := FreeHeader(w[k])])
  }

  /** Freeing changes no size, so the heap stays tiled with the same boundaries. */
  lemma ReleaseTiles(w: seq<u32>, k: nat, n: nat)
    requires n < |w| && k < |w| && Release(w, k).Some?
    ensures Tiles(Release(w, k).value, 0, n) <==> Tiles(w, 0, n)
    ensures forall c :: Reaches(Release(w, k).value, 0, c, n) <==> Reaches(w, 0, c, n)
  {
    TilesSameSizes(w, Release(w, k).value, 0, n);
  }

  /** A pointer `device_malloc` handed out is accepted by `free`, which gives its whole block back. */
  lemma AllocateThenRelease(w: seq<u32>, n: nat, size: nat)
    requires n < |w| && n < DEVICE_HEAP_BLOCK_FREE && Tiles(w, 0, n) && size < 0x1_0000_0000
    requires Allocate(w, n, size).header.Some?
    ensures var r := Allocate(w, n, size); var h := r.header.value;
      Release(r.words, h).Some? &&
      Tiles(Release(r.words, h).value, 0, n) && Reaches(Release(r.words, h).value, 0, h, n) &&
      Size(Release(r.words, h).value[h]) >= BlocksNeeded(size)
  {
    var r := Allocate(w, n, size);
    AllocateTiles(w, n, size);
    ReleaseTiles(r.words, r.header.value, n);
  }

  /** Freeing the same block twice is a heap error the second time. */
  lemma {:induction false} DoubleRelease(w: seq<u32>, k: nat)
    requires k < |w| && Release(w, k).Some?
    ensures Release(Release(w, k).value, k).None?
  {
  }

  // ---------------------------------------------------------------------
  // The heaps.

  /** `device_create_heap`'s sanity check: a non-empty, word-aligned range of at least two blocks. */
  predicate ValidRange(start: u32, end: u32)
  {
    !(end <= start || end - start < DEVICE_HEAP_BLOCK_SIZE * 2 || end % 4 != 0 || start % 4 != 0)
  }

  /** A range that passes the check holds at least two words, fewer than the free flag. */
  lemma ValidRangeWords(start: u32, end: u32)
    requires ValidRange(start, end)
    ensures 2 <= (end - start) / DEVICE_HEAP_BLOCK_SIZE < DEVICE_HEAP_BLOCK_FREE
    ensures (end - start) % DEVICE_HEAP_BLOCK_SIZE == 0
  {
  }

  /** `HeapDefinition`: the bounds of one heap and the words of its memory. */
  class Heap {
    /** `heap_start` and `heap_end`, as byte addresses. */
    const start: u32
    const end: u32
    /** The heap's words, then the word at `heap_end`. */
    const words: array<u32>

    /** The number of words in the heap. */
    function Words(): nat
      requires start <= end
    {
      (end - start) / DEVICE_HEAP_BLOCK_SIZE
    }

    /** The bounds passed the check and the memory covers them. */
    predicate Sized()
    {
      ValidRange(start, end) && words.Length == Words() + 1
    }

    /** Its blocks tile it. */
    ghost predicate Valid()
      reads words
    {
      Sized() && Words() < DEVICE_HEAP_BLOCK_FREE && Tiles(words[..], 0, Words())
    }

    /** `block + 1`: the address handed out for the block whose header is word `header`. */
    function Address(header: nat): (address: nat)
      ensures start < address && (address - start) % DEVICE_HEAP_BLOCK_SIZE == 0
      ensures HeaderOf(address) == header
    {
      start + DEVICE_HEAP_BLOCK_SIZE * (header + 1)
    }

    /** `memory - 1`: the word holding the header of the block at `address`. */
    function HeaderOf(address: nat): (header: int)
      requires start < address
      ensures header >= -1
    {
      (address - start) / DEVICE_HEAP_BLOCK_SIZE - 1
    }

    /** `address` was handed out for a request of `size` bytes: it follows the header of a used block large enough. */
    ghost predicate Holds(address: nat, size: nat)
      reads words
    {
      Sized() && start < address < end && address % 4 == 0 &&
      HeaderOf(address) >= 0 && InUse(words[..], Words(), HeaderOf(address), BlocksNeeded(size))
    }

    /** No free block of the heap has room for a request of `size` bytes. */
    ghost predicate Full(size: nat)
      reads words
    {
      Sized() && NoFit(words[..], Words(), BlocksNeeded(size))
    }

    /** Records the bounds of a heap over memory of unknown contents. */
    constructor(start: u32, end: u32)
      requires ValidRange(start, end)
      ensures this.start == start && this.end == end && Sized() && fresh(words)
    {
      this.start := start;
      this.end := end;
      words := new u32[(end - start) / DEVICE_HEAP_BLOCK_SIZE + 1];
    }

    /** `device_initialise_heap`: the whole heap becomes one free block. */
    method Initialise()
      requires Sized()
      modifies words
      ensures Valid()
      ensures words[..] == old(words[..])[0 := FreeHeader(Words())]
      ensures IsFree(words[0]) && Size(words[0]) == Words()
    {
      ValidRangeWords(start, end);
      words[0] := (end - start) / DEVICE_HEAP_BLOCK_SIZE;
      words[0] := FreeHeader(words[0]);
    }

    /**
     * The coalescing loop of `device_malloc`: the free block at `block`
     * absorbs the free blocks after it, reading the word at the end of the
     * heap before testing the bound.
     */
    method Coalesce(block: nat) returns (blockSize: nat)
      requires Sized() && Words() < DEVICE_HEAP_BLOCK_FREE
      requires block < Words() && Tiles(words[..], block, Words()) && IsFree(words[block])
      modifies words
      ensures blockSize == FreeRun(old(words[..]), block, Words())
      ensures words[..] == old(words[..])[block := FreeHeader(blockSize)]
    {
      var n := Words();
      ghost var w := words[..];
      blockSize := Size(words[block]);
      var next := block + blockSize;
      assert w[block := FreeHeader(blockSize)] == w;
      assert FreeRun(w, block, n) == blockSize + FreeRun(w, next, n);
      while IsFree(words[next])
        invariant block < next <= n && next == block + blockSize
        invariant Tiles(w, next, n)
        invariant blockSize + FreeRun(w, next, n) == FreeRun(w, block, n)
        invariant words[..] == w[block := FreeHeader(blockSize)]
        decreases n - next
      {
        if next >= n {
          break;
        }
        assert words[next] == w[next];
        assert FreeRun(w, next, n) == Size(w[next]) + FreeRun(w, next + Size(w[next]), n);
        blockSize := blockSize + Size(words[next]);
        words[block] := FreeHeader(blockSize);
        next := block + blockSize;
      }
    }

    /**
     * The search loop of `device_malloc`: used blocks are skipped, free
     * ones coalesced, until a block of at least `needed` words is found or
     * the end of the heap is reached.
     */
    method FindBlock(needed: nat) returns (block: nat, blockSize: nat)
      requires Valid()
      modifies words
      ensures Valid()
      ensures FirstFit(old(words[..]), 0, Words(), needed) ==
        Allocation(words[..], if block < Words() then Some(block) else None)
      ensures block < Words() ==> blockSize == Size(words[block])
    {
      var n := Words();
      ghost var w0 := words[..];
      FirstFitTiles(w0, 0, n, needed);
      block := 0;
      blockSize := 0;
      while block < n
        invariant block <= n && Tiles(words[..], block, n)
        invariant FirstFit(words[..], block, n, needed) == FirstFit(w0, 0, n, needed)
        decreases n - block
      {
        if !IsFree(words[block]) {
          block := block + words[block];
          continue;
        }
        ghost var w1 := words[..];
        blockSize := Coalesce(block);
        TilesUpdate(w1, block, FreeHeader(blockSize), block + blockSize, n);
        if blockSize >= needed {
          break;
        }
        block := block + blockSize;
      }
    }

    /**
     * The end of `device_malloc`: the free block found is marked used
     * whole, or split into a used block of `needed` words and a free rest.
     */
    method ClaimBlock(block: nat, blockSize: nat, needed: nat)
      requires Sized() && Words() < DEVICE_HEAP_BLOCK_FREE
      requires block < Words() && IsFree(words[block]) && blockSize == Size(words[block]) && needed <= blockSize
      modifies words
      ensures words[..] == Claim(old(words[..]), block, Words(), needed)
    {
      if blockSize <= needed + 1 || block + needed + 1 >= Words() {
        words[block] := Size(words[block]);
      } else {
        var split := block + needed;
        words[split] := blockSize - needed;
        words[split] := FreeHeader(words[split]);
        words[block] := needed;
      }
    }

    /**
     * `device_malloc`: a first-fit search that merges free blocks as it
     * goes, then claims the block found; NULL for a zero size or when no
     * free block is large enough.
     */
    method DeviceMalloc(size: u32) returns (p: Option<nat>)
      requires Valid()
      modifies words
      ensures Valid()
      ensures var r := Allocate(old(words[..]), Words(), size);
        words[..] == r.words && p == (if r.header.Some? then Some(Address(r.header.value)) else None)
      ensures p.Some? ==> size > 0 && Holds(p.value, size)
      ensures p.None? ==> size == 0 || Full(size)
    {
      var n := Words();
      var needed := if size % DEVICE_HEAP_BLOCK_SIZE == 0 then size / DEVICE_HEAP_BLOCK_SIZE
        else size / DEVICE_HEAP_BLOCK_SIZE + 1;
      if size == 0 {
        return None;
      }
      needed := needed + 1;
      ghost var w0 := words[..];
      AllocateTiles(w0, n, size);
      assert needed == BlocksNeeded(size);
      var block, blockSize := FindBlock(needed);
      ghost var w1 := words[..];
      if block >= n {
        assert Allocate(w0, n, size).words == w1;
        AllocateNullMeansNoFit(w0, n, size);
        return None;
      }
      ClaimBlock(block, blockSize, needed);
      p := Some(Address(block));
    }

    /**
     * The part of `free` for a pointer inside this heap: the header before
     * it must be that of a used block, which becomes free; a zero or free
     * header is a heap error.
     */
    method ReleaseBlock(mem: nat) returns (r: Status)
      requires Valid() && start < mem < end && mem % 4 == 0
      modifies words
      ensures Valid()
      ensures var rel := Release(old(words[..]), HeaderOf(mem));
        r == (if rel.None? then Panicked(DEVICE_HEAP_ERROR) else Returned) &&
        words[..] == (if rel.None? then old(words[..]) else rel.value)
    {
      var cb := (mem - start) / DEVICE_HEAP_BLOCK_SIZE - 1;
      if words[cb] == 0 || IsFree(words[cb]) {
        return Panicked(DEVICE_HEAP_ERROR);
      }
      ReleaseTiles(words[..], cb, Words());
      words[cb] := FreeHeader(words[cb]);
      r := Returned;
    }
  }

  /** The index of the first heap whose range strictly contains `address`, from `from` on; |hs| when none does. */
  function Owner(hs: seq<Heap>, address: nat, from: nat): (i: nat)
    requires from <= |hs|
    ensures from <= i <= |hs|
    ensures i < |hs| ==> hs[i].start < address < hs[i].end
    ensures forall j :: from <= j < i ==> !(hs[j].start < address < hs[j].end)
    decreases |hs| - from
  {
    if from == |hs| then from
    else if hs[from].start < address < hs[from].end then from
    else Owner(hs, address, from + 1)
  }

  /** What `malloc` gives back: a pointer, or a panic that does not return. */
  datatype Outcome = Pointer(address: nat) | Panic(code: int)

  /** How `free` ends: it returns, or it panics. */
  datatype Status = Returned | Panicked(code: int)

  /** The allocator's static state: the heaps created so far, in creation order, and `malloc`'s first-use flag. */
  class HeapAllocator {
    /** `heap[0 .. heap_count)`. */
    var heaps: seq<Heap>
    /** `malloc`'s static `initialised`. */
    var initialised: bool
    /** CODAL_HEAP_START and CODAL_HEAP_END, placed by the linker. */
    const heapStart: u32
    const heapEnd: u32

    ghost function Repr(): set<array<u32>>
      reads this
    {
      set h | h in heaps :: h.words
    }

    /** At most the maximum number of heaps, over distinct memory. */
    ghost predicate Distinct()
      reads this
    {
      |heaps| <= DEVICE_MAXIMUM_HEAPS &&
      forall i, j :: 0 <= i < j < |heaps| ==> heaps[i].words != heaps[j].words
    }

    ghost predicate Valid()
      reads this, Repr()
    {
      Distinct() && forall i :: 0 <= i < |heaps| ==> heaps[i].Valid()
    }

    /** No heap yet, and `malloc` not yet used. */
    constructor(heapStart: u32, heapEnd: u32)
      ensures Valid() && heaps == [] && !initialised
      ensures this.heapStart == heapStart && this.heapEnd == heapEnd
    {
      heaps := [];
      initialised := false;
      this.heapStart := heapStart;
      this.heapEnd := heapEnd;
    }

    /**
     * `device_create_heap`: NO_RESOURCES once the maximum number of heaps
     * exists, INVALID_PARAMETER for a range that fails the check, otherwise
     * a new heap of one free block is appended.
     */
    method CreateHeap(start: u32, end: u32) returns (r: int)
      requires Valid()
      modifies this`heaps
      ensures Valid()
      ensures |old(heaps)| == DEVICE_MAXIMUM_HEAPS ==> r == DEVICE_NO_RESOURCES && heaps == old(heaps)
      ensures |old(heaps)| < DEVICE_MAXIMUM_HEAPS && !ValidRange(start, end) ==>
        r == DEVICE_INVALID_PARAMETER && heaps == old(heaps)
      ensures |old(heaps)| < DEVICE_MAXIMUM_HEAPS && ValidRange(start, end) ==>
        r == DEVICE_OK && |heaps| == |old(heaps)| + 1 && heaps[..|old(heaps)|] == old(heaps) &&
        var h := heaps[|old(heaps)|];
        h.start == start && h.end == end && fresh(h.words) &&
        IsFree(h.words[0]) && Size(h.words[0]) == h.Words()
    {
      if |heaps| == DEVICE_MAXIMUM_HEAPS {
        return DEVICE_NO_RESOURCES;
      }
      if end <= start || end - start < DEVICE_HEAP_BLOCK_SIZE * 2 || end % 4 != 0 || start % 4 != 0 {
        return DEVICE_INVALID_PARAMETER;
      }
      var h := new Heap(start, end);
      h.Initialise();
      heaps := heaps + [h];
      r := DEVICE_OK;
    }

    /** One step of `malloc`'s search: `device_malloc` on heap `i`, described by what it hands out. */
    method TryHeap(i: nat, size: u32) returns (p: Option<nat>)
      requires Valid() && i < |heaps|
      modifies heaps[i].words
      ensures Valid()
      ensures p.Some? ==> size > 0 && heaps[i].Holds(p.value, size)
      ensures p.None? ==> size == 0 || heaps[i].Full(size)
    {
      p := heaps[i].DeviceMalloc(size);
    }

    /**
     * The search of `malloc`: each heap in creation order runs
     * `device_malloc` until one hands out a pointer; `k` is the heap that
     * did, or the number of heaps. Every heap before `k` is full for the
     * request, and the heaps after it are not touched.
     */
    method SearchHeaps(size: u32) returns (r: Outcome, ghost k: nat)
      requires Valid()
      modifies Repr()
      ensures Valid() && k <= |heaps|
      ensures forall j :: 0 <= j < k ==> size == 0 || heaps[j].Full(size)
      ensures forall j :: k < j < |heaps| ==> heaps[j].words[..] == old(heaps[j].words[..])
      ensures k < |heaps| ==> size > 0 && r.Pointer? && heaps[k].Holds(r.address, size)
      ensures k == |heaps| ==> r == Panic(DEVICE_OOM)
    {
      var i := 0;
      while i < |heaps|
        invariant 0 <= i <= |heaps| && Valid()
        invariant forall j :: 0 <= j < i ==> size == 0 || heaps[j].Full(size)
        invariant forall j :: i <= j < |heaps| ==> heaps[j].words[..] == old(heaps[j].words[..])
      {
        var p := TryHeap(i, size);
        if p.Some? {
          return Pointer(p.value), i;
        }
        i := i + 1;
      }
      r, k := Panic(DEVICE_OOM), i;
    }

    /**
     * `malloc`: on first use the linker-placed heap is created; then the
     * first heap with room hands out the pointer. When none has room the
     * device panics with DEVICE_OOM, which it also does for a zero size.
     */
    method Malloc(size: u32) returns (r: Outcome)
      requires Valid()
      modifies this`heaps, this`initialised, Repr()
      ensures Valid() && initialised
      ensures |heaps| == |old(heaps)| +
        (if !old(initialised) && |old(heaps)| < DEVICE_MAXIMUM_HEAPS && ValidRange(heapStart, heapEnd) then 1 else 0)
      ensures heaps[..|old(heaps)|] == old(heaps)
      ensures r.Pointer? ==>
        exists i :: 0 <= i < |heaps| && heaps[i].Holds(r.address, size) &&
          forall j :: 0 <= j < i ==> heaps[j].Full(size)
      ensures r.Panic? ==> r.code == DEVICE_OOM && (size == 0 || forall j :: 0 <= j < |heaps| ==> heaps[j].Full(size))
      ensures size == 0 ==> r == Panic(DEVICE_OOM)
    {
      if !initialised {
        var _ := CreateHeap(heapStart, heapEnd);
        initialised := true;
      }
      ghost var k;
      r, k := SearchHeaps(size);
    }

    /**
     * `free`: NULL is ignored; a pointer inside a heap must follow the
     * header of a used block, which becomes free; anything else is a heap
     * error and the device panics.
     */
    method Free(mem: nat) returns (r: Status)
      requires Valid() && mem % 4 == 0
      modifies Repr()
      ensures Valid()
      ensures mem == 0 ==> r == Returned
      ensures mem != 0 && Owner(heaps, mem, 0) == |heaps| ==> r == Panicked(DEVICE_HEAP_ERROR)
      ensures var i := Owner(heaps, mem, 0);
        forall j :: 0 <= j < |heaps| && (mem == 0 || j != i) ==> heaps[j].words[..] == old(heaps[j].words[..])
      ensures var i := Owner(heaps, mem, 0);
        mem != 0 && i < |heaps| ==>
          var rel := Release(old(heaps[i].words[..]), heaps[i].HeaderOf(mem));
          r == (if rel.None? then Panicked(DEVICE_HEAP_ERROR) else Returned) &&
          heaps[i].words[..] == (if rel.None? then old(heaps[i].words[..]) else rel.value)
    {
      if mem == 0 {
        return Returned;
      }
      var i := 0;
      while i < |heaps|
        invariant 0 <= i <= |heaps| && Owner(heaps, mem, i) == Owner(heaps, mem, 0)
      {
        if heaps[i].start < mem && mem < heaps[i].end {
          r := heaps[i].ReleaseBlock(mem);
          return;
        }
        i := i + 1;
      }
      r := Panicked(DEVICE_HEAP_ERROR);
    }
  }
}

=== FILE: level_detector.dfy ===
/**
 * source/drivers/LevelDetector.cpp: averages the magnitude of 16-bit
 * samples over a window and raises HIGH and LOW events when the level
 * crosses two thresholds, with hysteresis kept in two status flags.
 */
module LevelDetector {
  import opened CTypes
  import ErrorNo

  const LEVEL_THRESHOLD_LOW: int := 1
  const LEVEL_THRESHOLD_HIGH: int := 2
  const LEVEL_DETECTOR_DEFAULT_WINDOW_SIZE: int := 128

  function Abs(x: int): nat { if x < 0 then -x else x }

  /** The part of the detector that `pullRequest` changes. */
  datatype Acc = Acc(level: int, sigma: int, windowPosition: int, highPassed: bool, lowPassed: bool)

  /**
   * One sample: its magnitude joins the running sum; when the window is
   * full the level becomes the window's mean magnitude, the counters reset,
   * and the HIGH then the LOW threshold test may fire, each setting its own
   * flag and clearing the other.
   */
  function StepSample(a: Acc, s: int, windowSize: int, low: int, high: int): (r: (Acc, seq<int>))
    requires windowSize > 0
    ensures a.windowPosition + 1 != windowSize ==>
      r == (a.(sigma := a.sigma + Abs(s), windowPosition := a.windowPosition + 1), [])
    ensures a.windowPosition + 1 == windowSize ==> r.0.windowPosition == 0 && r.0.sigma == 0
    ensures a.windowPosition + 1 == windowSize && a.sigma >= 0 ==> r.0.level == (a.sigma + Abs(s)) / windowSize
    ensures LEVEL_THRESHOLD_HIGH in r.1 ==> !a.highPassed && r.0.level > high
    ensures LEVEL_THRESHOLD_LOW in r.1 ==> r.0.level < low
  {
    var sigma := a.sigma + Abs(s);
    var position := a.windowPosition + 1;
    if position == windowSize then
      var level := CDiv(sigma, windowSize);
      var fireHigh := !a.highPassed && level > high;
      var h1 := if fireHigh then true else a.highPassed;
      var l1 := if fireHigh then false else a.lowPassed;
      var fireLow := !l1 && level < low;
      var h2 := if fireLow then false else h1;
      var l2 := if fireLow then true else l1;
      (Acc(level, 0, 0, h2, l2),
       (if fireHigh then [LEVEL_THRESHOLD_HIGH] else []) + (if fireLow then [LEVEL_THRESHOLD_LOW] else []))
    else
      (a.(sigma := sigma, windowPosition := position), [])
  }

  /** A whole buffer of samples, in order, with the events raised. */
  function Feed(a: Acc, samples: seq<int>, windowSize: int, low: int, high: int): (Acc, seq<int>)
    requires windowSize > 0
  {
    if samples == [] then (a, [])
    else
      var (a1, e1) := Feed(a, samples[..|samples| - 1], windowSize, low, high);
      var (a2, e2) := StepSample(a1, samples[|samples| - 1], windowSize, low, high);
      (a2, e1 + e2)
  }

  lemma FeedStep(a: Acc, samples: seq<int>, i: nat, windowSize: int, low: int, high: int)
    requires windowSize > 0 && i < |samples|
    ensures var r := Feed(a, samples[..i], windowSize, low, high);
      var step := StepSample(r.0, samples[i], windowSize, low, high);
      Feed(a, samples[..i + 1], windowSize, low, high) == (step.0, r.1 + step.1)
  {
    assert samples[..i + 1][..i] == samples[..i];
  }

  /** The last event raised, as the flags remember it. */
  function Marker(a: Acc): seq<int>
  {
    if a.highPassed then [LEVEL_THRESHOLD_HIGH] else if a.lowPassed then [LEVEL_THRESHOLD_LOW] else []
  }

  predicate NoRepeat(ev: seq<int>)
  {
    forall i :: 0 < i < |ev| ==> ev[i] != ev[i - 1]
  }

  /** One sample keeps the flags exclusive and raises no event twice in a row. */
  lemma StepAlternates(a: Acc, s: int, windowSize: int, low: int, high: int)
    requires windowSize > 0 && !(a.highPassed && a.lowPassed)
    ensures var (a', ev) := StepSample(a, s, windowSize, low, high);
      !(a'.highPassed && a'.lowPassed) &&
      NoRepeat(Marker(a) + ev) &&
      (ev == [] ==> Marker(a') == Marker(a)) &&
      (ev != [] ==> Marker(a') == [ev[|ev| - 1]])
  {
  }

  /** Gluing: no repeats in x + y when none in x, none in m + y, and m names x's last element. */
  lemma NoRepeatGlue(x: seq<int>, m: seq<int>, y: seq<int>)
    requires NoRepeat(x) && NoRepeat(m + y) && |m| <= 1
    requires x == [] ==> m == []
    requires x != [] ==> m == [x[|x| - 1]]
    ensures NoRepeat(x + y)
  {
    if x != [] && y != [] {
      assert (m + y)[1] == y[0];
      forall i | 0 < i < |x + y|
        ensures (x + y)[i] != (x + y)[i - 1]
      {
        if i > |x| {
          assert (m + y)[i - |x| + 1] == y[i - |x|] && (m + y)[i - |x|] == y[i - |x| - 1];
        } else if i == |x| {
          assert (m + y)[0] == x[|x| - 1];
          assert (x + y)[i] == y[0] && (x + y)[i - 1] == x[|x| - 1];
        } else {
          assert (x + y)[i] == x[i] && (x + y)[i - 1] == x[i - 1];
        }
      }
    }
  }

  /**
   * HIGH and LOW events alternate: never the same event twice in a row,
   * including against the event the flags remember from before; the flags
   * end up naming the last event raised, and are never both set.
   */
  lemma {:induction false} EventsAlternate(a: Acc, samples: seq<int>, windowSize: int, low: int, high: int)
    requires windowSize > 0 && !(a.highPassed && a.lowPassed)
    ensures var (a', ev) := Feed(a, samples, windowSize, low, high);
      !(a'.highPassed && a'.lowPassed) &&
      NoRepeat(Marker(a) + ev) &&
      (ev == [] ==> Marker(a') == Marker(a)) &&
      (ev != [] ==> Marker(a') == [ev[|ev| - 1]])
    decreases |samples|
  {
    if samples != [] {
      var r1 := Feed(a, samples[..|samples| - 1], windowSize, low, high);
      EventsAlternate(a, samples[..|samples| - 1], windowSize, low, high);
      var r2 := StepSample(r1.0, samples[|samples| - 1], windowSize, low, high);
      assert Feed(a, samples, windowSize, low, high) == (r2.0, r1.1 + r2.1);
      AlternateStep(Marker(a), r1.1, r1.0, samples[|samples| - 1], windowSize, low, high);
    }
  }

  /** The events so far, then one more sample's: still alternating, and the flags still name the last one. */
  lemma AlternateStep(m: seq<int>, e1: seq<int>, a1: Acc, s: int, windowSize: int, low: int, high: int)
    requires windowSize > 0 && !(a1.highPassed && a1.lowPassed) && |m| <= 1
    requires NoRepeat(m + e1)
    requires e1 == [] ==> Marker(a1) == m
    requires e1 != [] ==> Marker(a1) == [e1[|e1| - 1]]
    ensures var (a2, e2) := StepSample(a1, s, windowSize, low, high);
      !(a2.highPassed && a2.lowPassed) &&
      NoRepeat(m + (e1 + e2)) &&
      (e1 + e2 == [] ==> Marker(a2) == m) &&
      (e1 + e2 != [] ==> Marker(a2) == [(e1 + e2)[|e1 + e2| - 1]])
  {
    var e2 := StepSample(a1, s, windowSize, low, high).1;
    StepAlternates(a1, s, windowSize, low, high);
    var x := m + e1;
    assert x == [] ==> Marker(a1) == [];
    assert x != [] ==> Marker(a1) == [x[|x| - 1]];
    NoRepeatGlue(x, Marker(a1), e2);
    assert m + (e1 + e2) == x + e2;
    if e2 != [] {
      assert (e1 + e2)[|e1 + e2| - 1] == e2[|e2| - 1];
    }
  }

  /** A position inside the window stays inside it. */
  lemma {:induction false} WindowBounded(a: Acc, samples: seq<int>, windowSize: int, low: int, high: int)
    requires windowSize > 0 && 0 <= a.windowPosition < windowSize && a.sigma >= 0
    ensures var a' := Feed(a, samples, windowSize, low, high).0;
      0 <= a'.windowPosition < windowSize && a'.sigma >= 0
    decreases |samples|
  {
    if samples != [] {
      WindowBounded(a, samples[..|samples| - 1], windowSize, low, high);
    }
  }

  /**
   * After `setWindowSize` shrinks the window below the current position,
   * no later sample completes a window: the level never changes again.
   */
  lemma {:induction false} ShrunkWindowNeverCloses(a: Acc, samples: seq<int>, windowSize: int, low: int, high: int)
    requires 0 < windowSize <= a.windowPosition
    ensures var (a', ev) := Feed(a, samples, windowSize, low, high);
      ev == [] && a'.level == a.level && a'.windowPosition == a.windowPosition + |samples|
    decreases |samples|
  {
    if samples != [] {
      ShrunkWindowNeverCloses(a, samples[..|samples| - 1], windowSize, low, high);
    }
  }

  /* ---- Threshold setters as written: 16-bit arguments, mutual calls ---- */

  datatype Thresholds = Thresholds(low: int, high: int, lowPassed: bool, highPassed: bool)

  function LowRank(t: Thresholds, v: u16): nat
  {
    if t.low == v then 0 else if t.high >= v then 1 else if v < 0xFFFF then 2 else 3
  }

  function HighRank(t: Thresholds, w: u16): nat
  {
    if t.high == w then 0 else if t.low <= w then 1 else if w > 0 || t.low == 0xFFFF then 2 else 4
  }

  /** `setLowThreshold` as written: high is raised to the 16-bit value low+1. */
  function SetLowAsWritten(t: Thresholds, v: u16): (r: Thresholds)
    ensures t.low != v && v < 0xFFFF ==> r.low == v
    decreases LowRank(t, v)
  {
    if t.low == v then t
    else
      var t1 := t.(low := v, lowPassed := false);
      if t1.high < t1.low then SetHighAsWritten(t1, ToU16(t1.low + 1)) else t1
  }

  /** `setHighThreshold` as written: low is lowered to the 16-bit value high-1. */
  function SetHighAsWritten(t: Thresholds, w: u16): (r: Thresholds)
    decreases HighRank(t, w)
  {
    if t.high == w then t
    else
      var t1 := t.(high := w, highPassed := false);
      if t1.low > t1.high then SetLowAsWritten(t1, ToU16(t1.high - 1)) else t1
  }

  /**
   * Setting a zero HIGH threshold while LOW is positive wraps the LOW
   * threshold round to 65535, so LOW ends up above HIGH.
   */
  lemma HighZeroInvertsThresholds()
    ensures SetHighAsWritten(Thresholds(10, 100, false, false), 0).low == 0xFFFF
    ensures SetHighAsWritten(Thresholds(10, 100, false, false), 0).high == 0
  {
    var t1 := Thresholds(10, 0, false, false);
    assert ToU16(-1) == 0xFFFF;
    assert SetLowAsWritten(t1, 0xFFFF) == SetHighAsWritten(Thresholds(0xFFFF, 0, false, false), 0);
  }

  /** Away from the ends of the 16-bit range, the setters as written do keep LOW no higher than HIGH. */
  lemma AsWrittenOrderedInsideRange(t: Thresholds, v: u16)
    requires 0 < v < 0xFFFF
    ensures t.low != v ==> SetLowAsWritten(t, v).low <= SetLowAsWritten(t, v).high
    ensures t.high != v ==> SetHighAsWritten(t, v).low <= SetHighAsWritten(t, v).high
  {
    assert ToU16(v + 1) == v + 1 && ToU16(v - 1) == v - 1;
  }

  class Detector {
    var level: int
    var sigma: int
    var windowPosition: int
    var windowSize: int
    var lowThreshold: int
    var highThreshold: int
    var initialised: bool
    var highPassed: bool
    var lowPassed: bool

    ghost predicate Valid()
      reads this
    {
      windowSize > 0 && !(highPassed && lowPassed)
    }

    function Accumulator(): Acc
      reads this
    {
      Acc(level, sigma, windowPosition, highPassed, lowPassed)
    }

    /** The constructor: everything zero, the default window, INITIALISED set. */
    constructor (highThreshold: int, lowThreshold: int)
      ensures Valid() && initialised && !highPassed && !lowPassed
      ensures level == 0 && sigma == 0 && windowPosition == 0
      ensures windowSize == LEVEL_DETECTOR_DEFAULT_WINDOW_SIZE
      ensures this.lowThreshold == lowThreshold && this.highThreshold == highThreshold
    {
      level, sigma, windowPosition := 0, 0, 0;
      windowSize := LEVEL_DETECTOR_DEFAULT_WINDOW_SIZE;
      this.lowThreshold := lowThreshold;
      this.highThreshold := highThreshold;
      initialised := true;
      highPassed, lowPassed := false, false;
    }

    /** `pullRequest` on one buffer of 16-bit samples; returns the events raised, in order. */
    method PullRequest(samples: seq<int>) returns (events: seq<int>)
      requires Valid()
      modifies this
      ensures Valid()
      ensures (Accumulator(), events) == Feed(old(Accumulator()), samples, windowSize, lowThreshold, highThreshold)
      ensures windowSize == old(windowSize) && lowThreshold == old(lowThreshold) && highThreshold == old(highThreshold)
      ensures initialised == old(initialised)
    {
      events := [];
      var i := 0;
      while i < |samples|
        invariant 0 <= i <= |samples| && Valid()
        invariant (Accumulator(), events) == Feed(old(Accumulator()), samples[..i], windowSize, lowThreshold, highThreshold)
        invariant windowSize == old(windowSize) && lowThreshold == old(lowThreshold) && highThreshold == old(highThreshold)
        invariant initialised == old(initialised)
      {
        var fired := AddSample(samples[i]);
        FeedStep(old(Accumulator()), samples, i, windowSize, lowThreshold, highThreshold);
        events := events + fired;
        i := i + 1;
      }
      assert samples[..|samples|] == samples;
    }

    /** The body of the `pullRequest` loop: one sample, and the events it raises. */
    method AddSample(sample: int) returns (fired: seq<int>)
      requires Valid()
      modifies this`level, this`sigma, this`windowPosition, this`highPassed, this`lowPassed
      ensures Valid()
      ensures (Accumulator(), fired) == StepSample(old(Accumulator()), sample, windowSize, lowThreshold, highThreshold)
    {
      ghost var a := Accumulator();
      sigma := sigma + Abs(sample);
      windowPosition := windowPosition + 1;
      fired := [];
      if windowPosition == windowSize {
        ghost var lv := CDiv(sigma, windowSize);
        ghost var fireHigh := !a.highPassed && lv > highThreshold;
        ghost var l1 := if fireHigh then false else a.lowPassed;
        ghost var fireLow := !l1 && lv < lowThreshold;
        level := CDiv(sigma, windowSize);
        sigma := 0;
        windowPosition := 0;
        if !highPassed && level > highThreshold {
          fired := fired + [LEVEL_THRESHOLD_HIGH];
          highPassed := true;
          lowPassed := false;
        }
        if !lowPassed && level < lowThreshold {
          fired := fired + [LEVEL_THRESHOLD_LOW];
          lowPassed := true;
          highPassed := false;
        }
        assert fired == (if fireHigh then [LEVEL_THRESHOLD_HIGH] else []) + (if fireLow then [LEVEL_THRESHOLD_LOW] else []);
        assert lowPassed == (if fireLow then true else l1);
      } else {
        assert Accumulator() == a.(sigma := a.sigma + Abs(sample), windowPosition := a.windowPosition + 1);
      }
    }

    /**
     * `setLowThreshold` with the argument kept at full width: the same value
     * changes nothing; otherwise LOW is stored with its flag cleared and HIGH
     * is raised above it when needed, so LOW ends no higher than HIGH.
     */
    method SetLowThreshold(value: int) returns (status: int)
      requires Valid()
      modifies this`lowThreshold, this`highThreshold, this`lowPassed, this`highPassed
      ensures Valid() && status == ErrorNo.DEVICE_OK
      ensures old(lowThreshold) == value ==> (lowThreshold == value && highThreshold == old(highThreshold) &&
        lowPassed == old(lowPassed) && highPassed == old(highPassed))
      ensures old(lowThreshold) != value ==> (lowThreshold == value && !lowPassed &&
        highThreshold == (if old(highThreshold) < value then value + 1 else old(highThreshold)) &&
        highPassed == (old(highThreshold) >= value && old(highPassed)))
      ensures old(lowThreshold) != value ==> lowThreshold <= highThreshold
      decreases if lowThreshold == value then 0 else if highThreshold >= value then 1 else 2
    {
      if lowThreshold == value {
        return ErrorNo.DEVICE_OK;
      }
      lowThreshold := value;
      lowPassed := false;
      if highThreshold < lowThreshold {
        var _ := SetHighThreshold(lowThreshold + 1);
      }
      return ErrorNo.DEVICE_OK;
    }

    /** `setHighThreshold`, the mirror image: LOW is lowered below HIGH when needed. */
    method SetHighThreshold(value: int) returns (status: int)
      requires Valid()
      modifies this`lowThreshold, this`highThreshold, this`lowPassed, this`highPassed
      ensures Valid() && status == ErrorNo.DEVICE_OK
      ensures old(highThreshold) == value ==> (highThreshold == value && lowThreshold == old(lowThreshold) &&
        lowPassed == old(lowPassed) && highPassed == old(highPassed))
      ensures old(highThreshold) != value ==> (highThreshold == value && !highPassed &&
        lowThreshold == (if old(lowThreshold) > value then value - 1 else old(lowThreshold)) &&
        lowPassed == (old(lowThreshold) <= value && old(lowPassed)))
      ensures old(highThreshold) != value ==> lowThreshold <= highThreshold
      decreases if highThreshold == value then 0 else if lowThreshold <= value then 1 else 2
    {
      if highThreshold == value {
        return ErrorNo.DEVICE_OK;
      }
      highThreshold := value;
      highPassed := false;
      if lowThreshold > highThreshold {
        var _ := SetLowThreshold(highThreshold - 1);
      }
      return ErrorNo.DEVICE_OK;
    }

    /** `setWindowSize`: a non-positive size is refused and the size kept. */
    method SetWindowSize(size: int) returns (status: int)
      requires Valid()
      modifies this`windowSize
      ensures Valid()
      ensures size <= 0 ==> status == ErrorNo.DEVICE_INVALID_PARAMETER && windowSize == old(windowSize)
      ensures size > 0 ==> status == ErrorNo.DEVICE_OK && windowSize == size
    {
      if size <= 0 {
        return ErrorNo.DEVICE_INVALID_PARAMETER;
      }
      windowSize := size;
      return ErrorNo.DEVICE_OK;
    }
  }
}

=== FILE: lis3dh.dfy ===
/**
 * source/drivers/LIS3DH.cpp: the LIS3DH accelerometer driver without its
 * I2C transport. Register writes and reads are represented by the status
 * each one reports and the bytes a read delivers; the register writes that
 * `configure` issues are returned in order.
 */
module LIS3DH {
  import opened CTypes
  import opened ErrorNo

  // Register map (inc/drivers/LIS3DH.h)
  const CTRL_REG1: int := 0x20
  const CTRL_REG3: int := 0x22
  const CTRL_REG4: int := 0x23
  const CTRL_REG5: int := 0x24

  // Gesture events
  const EVT_NONE: int := 0
  const EVT_TILT_UP: int := 1
  const EVT_TILT_DOWN: int := 2
  const EVT_TILT_LEFT: int := 3
  const EVT_TILT_RIGHT: int := 4
  const EVT_FACE_UP: int := 5
  const EVT_FACE_DOWN: int := 6
  const EVT_FREEFALL: int := 7
  const EVT_3G: int := 8
  const EVT_6G: int := 9
  const EVT_8G: int := 10
  const EVT_SHAKE: int := 11

  // Gesture recogniser constants
  const TILT_TOLERANCE: int := 200
  const SHAKE_TOLERANCE: int := 400
  const GESTURE_DAMPING: int := 5
  const SHAKE_DAMPING: int := 10
  const SHAKE_RTX: int := 30
  const FREEFALL_THRESHOLD: int := 400 * 400
  const THRESHOLD_3G: int := 3072 * 3072
  const THRESHOLD_6G: int := 6144 * 6144
  const THRESHOLD_8G: int := 8192 * 8192
  const SHAKE_COUNT_THRESHOLD: int := 4

  /** The sample rate table: periods in microseconds and their CTRL_REG1 codes. */
  const RATE_PERIODS: seq<int> := [2500, 5000, 10000, 20000, 40000, 100000, 1000000]
  const RATE_CODES: seq<int> := [0x70, 0x60, 0x50, 0x40, 0x30, 0x20, 0x10]
  /** The range table: ranges in g and their CTRL_REG4 codes. */
  const RANGES: seq<int> := [2, 4, 8, 16]
  const RANGE_CODES: seq<int> := [0, 1, 2, 3]

  ghost predicate Ascending(keys: seq<int>)
  {
    forall i, j :: 0 <= i < j < |keys| ==> keys[i] < keys[j]
  }

  /** Index of the first entry that is at least `req`, or |keys| when none is. */
  function FirstAtLeast(keys: seq<int>, req: int): (i: nat)
    ensures i <= |keys|
    ensures forall j :: 0 <= j < i ==> keys[j] < req
    ensures i < |keys| ==> keys[i] >= req
  {
    if keys == [] then 0
    else if keys[0] >= req then 0
    else 1 + FirstAtLeast(keys[1..], req)
  }

  /**
   * The table entry `configure` settles on: the smallest entry not below
   * the request, or the largest entry when every one is below it.
   */
  function Nearest(keys: seq<int>, req: int): (i: nat)
    requires |keys| > 0
    ensures i < |keys|
    ensures keys[i] >= req ==> forall j :: 0 <= j < i ==> keys[j] < req
    ensures keys[i] < req ==> i == |keys| - 1 && forall j :: 0 <= j < |keys| ==> keys[j] < req
  {
    var k := FirstAtLeast(keys, req);
    if k == |keys| then |keys| - 1 else k
  }

  lemma {:induction false} FirstAtLeastIs(keys: seq<int>, req: int, k: nat)
    requires k <= |keys|
    requires forall j :: 0 <= j < k ==> keys[j] < req
    requires k < |keys| ==> keys[k] >= req
    ensures FirstAtLeast(keys, req) == k
    decreases k
  {
    if k > 0 {
      FirstAtLeastIs(keys[1..], req, k - 1);
    }
  }

  /** The search loop of `configure`, run from the top of an ascending table downwards. */
  method NearestIndex(keys: seq<int>, req: int) returns (actual: int)
    requires |keys| > 0 && Ascending(keys)
    ensures actual == Nearest(keys, req)
  {
    actual := |keys| - 1;
    var i := |keys| - 1;
    while i >= 0
      invariant -1 <= i <= |keys| - 1
      invariant forall j :: i < j < |keys| ==> keys[j] >= req
      invariant actual == if i == |keys| - 1 then |keys| - 1 else i + 1
    {
      if keys[i] < req {
        break;
      }
      actual := i;
      i := i - 1;
    }
    FirstAtLeastIs(keys, req, i + 1);
  }

  /** `samplePeriod` after `configure`, for a requested period in milliseconds. */
  function SettledPeriod(requestMs: int): (p: int)
    ensures p in {2, 5, 10, 20, 40, 100, 1000}
  {
    RATE_PERIODS[Nearest(RATE_PERIODS, requestMs * 1000)] / 1000
  }

  /** `sampleRange` after `configure`, for a requested range in g. */
  function SettledRange(request: int): (g: int)
    ensures g in {2, 4, 8, 16}
  {
    RANGES[Nearest(RANGES, request)]
  }

  /** Setting the period that the driver reports leaves it unchanged. */
  lemma PeriodFixed(p: int)
    requires p == 2 || p == 5 || p == 10 || p == 20 || p == 40 || p == 100 || p == 1000
    ensures SettledPeriod(p) == p
  {
    var i := if p == 2 then 0 else if p == 5 then 1 else if p == 10 then 2 else if p == 20 then 3
      else if p == 40 then 4 else if p == 100 then 5 else 6;
    assert RATE_PERIODS[i] / 1000 == p;
    FirstAtLeastIs(RATE_PERIODS, p * 1000, i);
  }

  /** Setting the range that the driver reports leaves it unchanged. */
  lemma RangeFixed(g: int)
    requires g in {2, 4, 8, 16}
    ensures SettledRange(g) == g
  {
    if g == 2 { FirstAtLeastIs(RANGES, 2, 0); }
    else if g == 4 { FirstAtLeastIs(RANGES, 4, 1); }
    else if g == 8 { FirstAtLeastIs(RANGES, 8, 2); }
    else { FirstAtLeastIs(RANGES, 16, 3); }
  }

  /** `setPeriod(getPeriod())` and `setRange(getRange())` change nothing. */
  lemma SettledIdempotent(requestMs: int, request: int)
    ensures SettledPeriod(SettledPeriod(requestMs)) == SettledPeriod(requestMs)
    ensures SettledRange(SettledRange(request)) == SettledRange(request)
  {
    PeriodFixed(SettledPeriod(requestMs));
    RangeFixed(SettledRange(request));
  }

  /** `v | 0x07` for a non-negative v. */
  function Or7(v: nat): (r: nat)
    ensures r % 8 == 7 && r / 8 == v / 8
  {
    v - v % 8 + 7
  }

  /** The four control-register writes of `configure`, for the stored period (ms) and range (g). */
  function ControlWrites(periodMs: int, range: int): seq<(int, int)>
  {
    [(CTRL_REG1, Or7(RATE_CODES[Nearest(RATE_PERIODS, periodMs * 1000)])),
     (CTRL_REG3, 0x10),
     (CTRL_REG4, RANGE_CODES[Nearest(RANGES, range)] * 16),
     (CTRL_REG5, 0x08)]
  }

  // ---------------------------------------------------------------------
  // Samples and coordinate systems

  datatype Sample3D = Sample3D(x: int, y: int, z: int)
  datatype CoordinateSystem = SimpleCartesian | NorthEastDown | Raw

  /** `getX`, `getY` and `getZ` on the stored sample. */
  function Oriented(s: Sample3D, system: CoordinateSystem): (r: Sample3D)
  {
    match system
    case SimpleCartesian => Sample3D(-s.x, -s.y, s.z)
    case NorthEastDown => Sample3D(s.y, -s.x, -s.z)
    case Raw => s
  }

  /** The inverse of Oriented: the raw sample behind a reading. */
  function Unoriented(r: Sample3D, system: CoordinateSystem): (s: Sample3D)
  {
    match system
    case SimpleCartesian => Sample3D(-r.x, -r.y, r.z)
    case NorthEastDown => Sample3D(-r.y, r.x, -r.z)
    case Raw => r
  }

  function Force(s: Sample3D): (f: int)
    ensures f >= 0
  {
    s.x * s.x + s.y * s.y + s.z * s.z
  }

  /**
   * Every coordinate system is a rotation of the raw axes: no reading is
   * lost, and the magnitude is the same in each.
   */
  lemma OrientationIsRotation(s: Sample3D, system: CoordinateSystem)
    ensures Unoriented(Oriented(s, system), system) == s
    ensures Force(Oriented(s, system)) == Force(s)
    ensures Oriented(s, NorthEastDown) == Sample3D(-Oriented(s, SimpleCartesian).y, Oriented(s, SimpleCartesian).x, -Oriented(s, SimpleCartesian).z)
  {
  }

  /** `updateSample`'s scaling of one axis: the signed MSB, times 8, times the range in g. */
  function Scaled(msb: int, range: int): (v: int)
    requires -128 <= msb < 128 && range in {2, 4, 8, 16}
    ensures -0x8000 <= v < 0x8000
    ensures v == msb * 8 * range
  {
    assert -128 * 8 * 16 <= msb * 8 * range <= 127 * 8 * 16 by {
      MulBounds(msb * 8, range);
    }
    msb * 8 * range
  }

  lemma MulBounds(a: int, r: int)
    requires -1024 <= a <= 1016 && 0 < r <= 16
    ensures -1024 * 16 <= a * r <= 1016 * 16
  {
    if a >= 0 {
      assert a * r <= a * 16;
    } else {
      assert a * r >= a * 16;
    }
  }

  // ---------------------------------------------------------------------
  // Shake detection and posture

  /** The shake history of `ShakeHistory`: the shaken latch, one sign bit per axis, the crossing count and its timer. */
  datatype Shake = Shake(shaken: bool, x: bool, y: bool, z: bool, count: int, timer: int)
  /** The three impulse latches of `ShakeHistory`. */
  datatype Impulses = Impulses(g3: bool, g6: bool, g8: bool)

  ghost predicate ShakeInv(sh: Shake)
  {
    0 <= sh.count <= SHAKE_COUNT_THRESHOLD && 0 <= sh.timer < SHAKE_RTX &&
    (sh.shaken ==> sh.count == SHAKE_COUNT_THRESHOLD)
  }

  /** A zero crossing on one axis: a strong reading opposite to the last recorded sign. */
  predicate Crossing(v: int, flag: bool)
  {
    (v < -SHAKE_TOLERANCE && flag) || (v > SHAKE_TOLERANCE && !flag)
  }

  /** The decay of the shake history at the end of `instantaneousPosture`'s shake phase. */
  function Decay(sh: Shake): (r: Shake)
    ensures ShakeInv(sh) ==> ShakeInv(r) && r.count <= sh.count
  {
    if sh.count > 0 then
      var t := sh.timer + 1;
      if sh.shaken && t >= SHAKE_RTX then sh.(shaken := false, timer := 0, count := 0)
      else if !sh.shaken && t >= SHAKE_DAMPING then sh.(timer := 0, count := sh.count - 1)
      else sh.(timer := t)
    else sh
  }

  /**
   * The zero-crossing tests of `instantaneousPosture`: each axis with a
   * crossing has its sign bit flipped, and nothing else changes. Axes are
   * read in simple cartesian form.
   */
  function Crossings(sh: Shake, s: Sample3D): (r: (Shake, bool))
    ensures r.0 == sh.(x := r.0.x, y := r.0.y, z := r.0.z)
    ensures r.1 <==> (var c := Oriented(s, SimpleCartesian);
      Crossing(c.x, sh.x) || Crossing(c.y, sh.y) || Crossing(c.z, sh.z))
  {
    var c := Oriented(s, SimpleCartesian);
    var dx := Crossing(c.x, sh.x);
    var dy := Crossing(c.y, sh.y);
    var dz := Crossing(c.z, sh.z);
    (sh.(x := sh.x != dx, y := sh.y != dy, z := sh.z != dz), dx || dy || dz)
  }

  /** The counting part: a detected crossing counts up to the threshold, which reports SHAKE. */
  function Counted(sh: Shake, detected: bool): (r: (Shake, bool))
  {
    if detected && sh.count < SHAKE_COUNT_THRESHOLD then
      var n := sh.count + 1;
      if n == SHAKE_COUNT_THRESHOLD then (sh.(count := n, shaken := true, timer := 0), true)
      else (Decay(sh.(count := n, timer := if n == 1 then 0 else sh.timer)), false)
    else (Decay(sh), false)
  }

  /** The shake phase of `instantaneousPosture`: the new history and whether SHAKE is reported. */
  function ShakeStep(sh: Shake, s: Sample3D): (r: (Shake, bool))
  {
    var (sh1, detected) := Crossings(sh, s);
    Counted(sh1, detected)
  }

  /**
   * The shake count stays within its threshold, and SHAKE is reported
   * exactly when a crossing brings the count up to the threshold.
   */
  lemma ShakeCounting(sh: Shake, s: Sample3D)
    requires ShakeInv(sh)
    ensures ShakeInv(ShakeStep(sh, s).0)
    ensures ShakeStep(sh, s).1 <==>
      (sh.count == SHAKE_COUNT_THRESHOLD - 1 &&
       (var c := Oriented(s, SimpleCartesian); Crossing(c.x, sh.x) || Crossing(c.y, sh.y) || Crossing(c.z, sh.z)))
    ensures ShakeStep(sh, s).0.count <= sh.count + 1
  {
    var (sh1, detected) := Crossings(sh, s);
    assert ShakeInv(sh1);
    CountedKeepsInv(sh1, detected);
  }

  lemma CountedKeepsInv(sh: Shake, detected: bool)
    requires ShakeInv(sh)
    ensures ShakeInv(Counted(sh, detected).0)
    ensures Counted(sh, detected).1 <==> detected && sh.count == SHAKE_COUNT_THRESHOLD - 1
    ensures Counted(sh, detected).0.count <= sh.count + 1
  {
    if detected && sh.count < SHAKE_COUNT_THRESHOLD {
      var n := sh.count + 1;
      if n != SHAKE_COUNT_THRESHOLD {
        assert ShakeInv(sh.(count := n, timer := if n == 1 then 0 else sh.timer));
      }
    }
  }

  /** The posture part of `instantaneousPosture`: freefall first, then tilt, then face. */
  function Posture(s: Sample3D): (g: int)
    ensures EVT_NONE <= g <= EVT_FREEFALL
  {
    var c := Oriented(s, SimpleCartesian);
    if Force(s) < FREEFALL_THRESHOLD then EVT_FREEFALL
    else if c.x < -1000 + TILT_TOLERANCE then EVT_TILT_LEFT
    else if c.x > 1000 - TILT_TOLERANCE then EVT_TILT_RIGHT
    else if c.y < -1000 + TILT_TOLERANCE then EVT_TILT_DOWN
    else if c.y > 1000 - TILT_TOLERANCE then EVT_TILT_UP
    else if c.z < -1000 + TILT_TOLERANCE then EVT_FACE_UP
    else if c.z > 1000 - TILT_TOLERANCE then EVT_FACE_DOWN
    else EVT_NONE
  }

  /**
   * The priority order of postures: a posture is reported exactly when its
   * own test holds and every earlier test fails, and freefall can never be
   * reported while an axis is tilted.
   */
  lemma PosturePriority(s: Sample3D)
    ensures var c := Oriented(s, SimpleCartesian);
      (Posture(s) == EVT_FREEFALL <==> Force(s) < FREEFALL_THRESHOLD) &&
      (Posture(s) == EVT_TILT_LEFT <==> Force(s) >= FREEFALL_THRESHOLD && c.x < -800) &&
      (Posture(s) == EVT_FACE_DOWN <==>
        (Force(s) >= FREEFALL_THRESHOLD && -800 <= c.x <= 800 && -800 <= c.y <= 800 && c.z > 800)) &&
      (Posture(s) == EVT_NONE <==>
        (Force(s) >= FREEFALL_THRESHOLD && -800 <= c.x <= 800 && -800 <= c.y <= 800 && -800 <= c.z <= 800))
    ensures s.x * s.x >= FREEFALL_THRESHOLD ==> Posture(s) != EVT_FREEFALL
  {
  }

  // ---------------------------------------------------------------------
  // Gesture filtering (`updateGesture`)

  datatype Tracker = Tracker(shake: Shake, impulses: Impulses, sigma: int, impulseSigma: int, current: int, last: int)

  ghost predicate TrackerInv(t: Tracker)
  {
    ShakeInv(t.shake) && 0 <= t.sigma <= GESTURE_DAMPING && 0 <= t.impulseSigma <= GESTURE_DAMPING
  }

  /** The impulse phase: 3G/6G/8G events, each latched until the force has subsided. */
  function ImpulseStep(t: Tracker, force: int): (r: (Tracker, seq<int>))
  {
    var big := force > THRESHOLD_3G;
    var e3 := big && !t.impulses.g3;
    var e6 := big && force > THRESHOLD_6G && !t.impulses.g6;
    var e8 := big && force > THRESHOLD_8G && !t.impulses.g8;
    var latched := Impulses(t.impulses.g3 || e3, t.impulses.g6 || e6, t.impulses.g8 || e8);
    var quiet := if big then 0 else t.impulseSigma;
    var events := (if e3 then [EVT_3G] else []) + (if e6 then [EVT_6G] else []) + (if e8 then [EVT_8G] else []);
    if quiet < GESTURE_DAMPING then (t.(impulses := latched, impulseSigma := quiet + 1), events)
    else (t.(impulses := Impulses(false, false, false), impulseSigma := quiet), events)
  }

  /** An impulse event is never raised on two consecutive updates. */
  lemma ImpulseNoImmediateRepeat(t: Tracker, f1: int, f2: int)
    requires TrackerInv(t)
    ensures var (t1, e1) := ImpulseStep(t, f1);
      var (t2, e2) := ImpulseStep(t1, f2);
      (forall e :: e in e1 ==> e !in e2) && (e1 == [] || t1.impulseSigma == 1)
  {
  }

  /** The low-pass filter: a posture becomes the recorded gesture only once it has been stable. */
  function FilterStep(t: Tracker, g: int): (r: (Tracker, seq<int>))
    ensures g == EVT_SHAKE ==> r == (t, [EVT_SHAKE])
  {
    if g == EVT_SHAKE then (t, [EVT_SHAKE])
    else
      var current := g;
      var sigma := if g == t.current then (if t.sigma < GESTURE_DAMPING then t.sigma + 1 else t.sigma) else 0;
      if current != t.last && sigma >= GESTURE_DAMPING then (t.(current := current, sigma := sigma, last := current), [current])
      else (t.(current := current, sigma := sigma), [])
  }

  /** `updateGesture` on a new sample: impulse phase, shake phase, then the filter. */
  function UpdateGesture(t: Tracker, s: Sample3D): (r: (Tracker, seq<int>))
  {
    var (t1, ev1) := ImpulseStep(t, Force(s));
    var (sh2, shaken) := ShakeStep(t1.shake, s);
    var g := if shaken then EVT_SHAKE else Posture(s);
    var (t3, ev3) := FilterStep(t1.(shake := sh2), g);
    (t3, ev1 + ev3)
  }

  lemma UpdateGestureKeepsInv(t: Tracker, s: Sample3D)
    requires TrackerInv(t)
    ensures TrackerInv(UpdateGesture(t, s).0)
  {
    var (t1, ev1) := ImpulseStep(t, Force(s));
    ShakeCounting(t1.shake, s);
  }

  /** The filter fed a sequence of postures. */
  function Filtered(t: Tracker, gs: seq<int>): (r: Tracker)
  {
    if gs == [] then t else FilterStep(Filtered(t, gs[..|gs| - 1]), gs[|gs| - 1]).0
  }

  /**
   * Whatever the filter holds as its current posture is what the last
   * sigma + 1 postures fed to it were (all of them, when fewer were fed).
   */
  lemma {:induction false} FilterCountsRun(t: Tracker, gs: seq<int>)
    requires |gs| > 0 && forall k :: 0 <= k < |gs| ==> gs[k] != EVT_SHAKE
    ensures var r := Filtered(t, gs);
      forall j :: 0 <= j < |gs| && |gs| - 1 - r.sigma <= j ==> gs[j] == r.current
  {
    var prefix := gs[..|gs| - 1];
    var g := gs[|gs| - 1];
    if |prefix| > 0 {
      assert forall k :: 0 <= k < |prefix| ==> prefix[k] != EVT_SHAKE;
      FilterCountsRun(t, prefix);
    }
  }

  /**
   * A gesture event for g fires only when the GESTURE_DAMPING postures fed
   * before it were g as well (all of them, when fewer were fed since the
   * filter last started counting from zero).
   */
  lemma GestureNeedsStableRun(t: Tracker, gs: seq<int>, g: int)
    requires t.sigma == 0 && forall k :: 0 <= k < |gs| ==> gs[k] != EVT_SHAKE
    requires g != EVT_SHAKE && FilterStep(Filtered(t, gs), g).1 == [g]
    ensures |gs| >= GESTURE_DAMPING - 1
    ensures forall j :: 0 <= j < |gs| && |gs| - GESTURE_DAMPING <= j ==> gs[j] == g
  {
    var prev := Filtered(t, gs);
    assert prev.current == g && prev.sigma >= GESTURE_DAMPING - 1;
    SigmaBoundedByFed(t, gs);
    FilterCountsRun(t, gs);
  }

  lemma {:induction false} SigmaBoundedByFed(t: Tracker, gs: seq<int>)
    requires t.sigma == 0
    ensures Filtered(t, gs).sigma <= |gs|
  {
    if gs != [] {
      SigmaBoundedByFed(t, gs[..|gs| - 1]);
    }
  }

  /** The counting statements of `instantaneousPosture`, on the shake history alone. */
  method CountCrossing(sh0: Shake, detected: bool) returns (sh: Shake, shook: bool)
    ensures (sh, shook) == Counted(sh0, detected)
  {
    sh := sh0;
    shook := false;
    if detected && sh.count < SHAKE_COUNT_THRESHOLD {
      sh := sh.(count := sh.count + 1);
      if sh.count == 1 {
        sh := sh.(timer := 0);
      }
      if sh.count == SHAKE_COUNT_THRESHOLD {
        sh := sh.(shaken := true, timer := 0);
        shook := true;
        return;
      }
    }
    ghost var before := sh;
    assert Counted(sh0, detected) == (Decay(before), false);
    if sh.count > 0 {
      sh := sh.(timer := sh.timer + 1);
      if sh.shaken && sh.timer >= SHAKE_RTX {
        sh := sh.(shaken := false, timer := 0, count := 0);
      } else if !sh.shaken && sh.timer >= SHAKE_DAMPING {
        sh := sh.(timer := 0, count := sh.count - 1);
      }
    }
    assert sh == Decay(before);
  }

  // ---------------------------------------------------------------------
  // The driver object

  class Accelerometer {
    var samplePeriod: u16
    var sampleRange: u8
    var sample: Sample3D
    /** DEVICE_COMPONENT_STATUS_IDLE_TICK in `status`. */
    var idleTick: bool
    /** ACCELEROMETER_IMU_DATA_VALID in `status`. */
    var imuDataValid: bool
    var sigma: int
    var impulseSigma: int
    var lastGesture: int
    var currentGesture: int
    var shake: Shake
    var impulses: Impulses

    ghost predicate Valid()
      reads this
    {
      TrackerInv(Gestures()) && sampleRange in {2, 4, 8, 16}
    }

    function Gestures(): Tracker
      reads this
    {
      Tracker(shake, impulses, sigma, impulseSigma, currentGesture, lastGesture)
    }

    /** 20 ms at 2 g, no gesture yet, and the impulse events latched. */
    constructor (writeStatus: seq<int>)
      requires |writeStatus| == 4
      ensures Valid()
      ensures samplePeriod == 20 && sampleRange == 2
      ensures lastGesture == EVT_NONE && currentGesture == EVT_NONE && sigma == 0 && impulseSigma == 0
      ensures shake == Shake(false, false, false, false, 0, 0) && impulses == Impulses(true, true, true)
    {
      samplePeriod := 20;
      sampleRange := 2;
      sample := Sample3D(0, 0, 0);
      idleTick := false;
      imuDataValid := false;
      sigma := 0;
      impulseSigma := 0;
      lastGesture := EVT_NONE;
      currentGesture := EVT_NONE;
      shake := Shake(false, false, false, false, 0, 0);
      impulses := Impulses(true, true, true);
      new;
      FirstAtLeastIs(RATE_PERIODS, 20000, 3);
      FirstAtLeastIs(RANGES, 2, 0);
      var result, written := Configure(writeStatus);
    }

    /** The register writes in order, stopping at the first one whose status is not zero. */
    static method WriteRegisters(writes: seq<(int, int)>, writeStatus: seq<int>) returns (result: int, written: seq<(int, int)>)
      requires |writes| == 4 && |writeStatus| == 4
      ensures result == DEVICE_OK <==> forall k :: 0 <= k < 4 ==> writeStatus[k] == 0
      ensures result == DEVICE_OK || result == DEVICE_I2C_ERROR
      ensures result == DEVICE_OK ==> written == writes
      ensures result != DEVICE_OK ==>
        (0 < |written| <= 4 && written == writes[..|written|] &&
         writeStatus[|written| - 1] != 0 && forall k :: 0 <= k < |written| - 1 ==> writeStatus[k] == 0)
    {
      if writeStatus[0] != 0 {
        return DEVICE_I2C_ERROR, writes[..1];
      }
      if writeStatus[1] != 0 {
        return DEVICE_I2C_ERROR, writes[..2];
      }
      if writeStatus[2] != 0 {
        return DEVICE_I2C_ERROR, writes[..3];
      }
      if writeStatus[3] != 0 {
        return DEVICE_I2C_ERROR, writes;
      }
      return DEVICE_OK, writes;
    }

    /**
     * `configure`: settles the period and range on the nearest table
     * entries, then writes the four control registers, stopping at the
     * first write that fails. `writeStatus[k]` is what the k-th write reports.
     */
    method Configure(writeStatus: seq<int>) returns (result: int, written: seq<(int, int)>)
      requires |writeStatus| == 4
      modifies this`samplePeriod, this`sampleRange
      ensures samplePeriod == SettledPeriod(old(samplePeriod)) && sampleRange == SettledRange(old(sampleRange))
      ensures var writes := ControlWrites(old(samplePeriod) as int, old(sampleRange) as int);
        (result == DEVICE_OK <==> forall k :: 0 <= k < 4 ==> writeStatus[k] == 0) &&
        (result == DEVICE_OK || result == DEVICE_I2C_ERROR) &&
        (result == DEVICE_OK ==> written == writes) &&
        (result != DEVICE_OK ==>
           (0 < |written| <= 4 && written == writes[..|written|] &&
            writeStatus[|written| - 1] != 0 && forall k :: 0 <= k < |written| - 1 ==> writeStatus[k] == 0))
    {
      var writes := ControlWrites(samplePeriod as int, sampleRange as int);
      var rate := NearestIndex(RATE_PERIODS, samplePeriod as int * 1000);
      var range := NearestIndex(RANGES, sampleRange as int);
      samplePeriod := RATE_PERIODS[rate] / 1000;
      sampleRange := RANGES[range];
      result, written := WriteRegisters(writes, writeStatus);
    }

    /** `setPeriod`: the request is stored in a 16-bit field, then the device reconfigured. */
    method SetPeriod(period: int, writeStatus: seq<int>) returns (result: int)
      requires |writeStatus| == 4
      modifies this`samplePeriod, this`sampleRange
      ensures samplePeriod == SettledPeriod(ToU16(period)) && sampleRange == SettledRange(old(sampleRange))
      ensures result == DEVICE_OK <==> forall k :: 0 <= k < 4 ==> writeStatus[k] == 0
    {
      samplePeriod := ToU16(period);
      var written;
      result, written := Configure(writeStatus);
    }

    /** `setRange`: the request is stored in an 8-bit field, then the device reconfigured. */
    method SetRange(range: int, writeStatus: seq<int>) returns (result: int)
      requires |writeStatus| == 4
      modifies this`samplePeriod, this`sampleRange
      ensures sampleRange == SettledRange(ToU8(range)) && samplePeriod == SettledPeriod(old(samplePeriod))
      ensures result == DEVICE_OK <==> forall k :: 0 <= k < 4 ==> writeStatus[k] == 0
    {
      sampleRange := ToU8(range);
      var written;
      result, written := Configure(writeStatus);
    }

    /**
     * `updateSample`: when the interrupt line is high, reads the six data
     * bytes, scales the MSBs into milli-g, marks pitch and roll stale and
     * runs the gesture recogniser. The gesture events raised are returned.
     */
    method UpdateSample(int1High: bool, readStatus: int, data: seq<int>) returns (result: int, events: seq<int>)
      requires Valid()
      requires |data| == 6 && forall k :: 0 <= k < 6 ==> -128 <= data[k] < 128
      modifies this
      ensures Valid() && idleTick
      ensures samplePeriod == old(samplePeriod) && sampleRange == old(sampleRange)
      ensures result == (if int1High && readStatus != 0 then DEVICE_I2C_ERROR else DEVICE_OK)
      ensures result == DEVICE_OK && int1High ==>
        sample == Sample3D(data[1] * 8 * sampleRange, data[3] * 8 * sampleRange, data[5] * 8 * sampleRange) &&
        !imuDataValid && (Gestures(), events) == UpdateGesture(old(Gestures()), sample)
      ensures result != DEVICE_OK || !int1High ==>
        sample == old(sample) && Gestures() == old(Gestures()) && events == [] && imuDataValid == old(imuDataValid)
    {
      idleTick := true;
      events := [];
      if int1High {
        if readStatus != 0 {
          return DEVICE_I2C_ERROR, events;
        }
        sample := Sample3D(Scaled(data[1], sampleRange), Scaled(data[3], sampleRange), Scaled(data[5], sampleRange));
        imuDataValid := false;
        events := UpdateGestures();
      }
      result := DEVICE_OK;
    }

    /** `instantaneousPosture`: the shake phase, then the posture of the stored sample. */
    method InstantaneousPosture() returns (g: int)
      requires ShakeInv(shake)
      modifies this`shake
      ensures ShakeInv(shake)
      ensures shake == ShakeStep(old(shake), sample).0
      ensures g == (if ShakeStep(old(shake), sample).1 then EVT_SHAKE else Posture(sample))
    {
      ShakeCounting(shake, sample);
      var c := Oriented(sample, SimpleCartesian);
      var detected := false;
      var sh := shake;
      if Crossing(c.x, sh.x) {
        detected := true;
        sh := sh.(x := !sh.x);
      }
      if Crossing(c.y, sh.y) {
        detected := true;
        sh := sh.(y := !sh.y);
      }
      if Crossing(c.z, sh.z) {
        detected := true;
        sh := sh.(z := !sh.z);
      }
      assert (sh, detected) == Crossings(old(shake), sample);
      var shook;
      sh, shook := CountCrossing(sh, detected);
      shake := sh;
      if shook {
        return EVT_SHAKE;
      }
      g := Posture(sample);
    }

    /** `updateGesture`: returns the gesture events it raises, in order. */
    method UpdateGestures() returns (events: seq<int>)
      requires TrackerInv(Gestures())
      modifies this`shake, this`impulses, this`sigma, this`impulseSigma, this`currentGesture, this`lastGesture
      ensures TrackerInv(Gestures())
      ensures (Gestures(), events) == UpdateGesture(old(Gestures()), sample)
    {
      UpdateGestureKeepsInv(Gestures(), sample);
      var t;
      t, events := ImpulsePhase(Gestures(), Force(sample));
      impulses, impulseSigma := t.impulses, t.impulseSigma;
      var g := InstantaneousPosture();
      var filtered;
      t, filtered := FilterPhase(Gestures(), g);
      sigma, currentGesture, lastGesture := t.sigma, t.current, t.last;
      events := events + filtered;
    }
  }

  /** The impulse statements of `updateGesture`, on a copy of the gesture state. */
  method ImpulsePhase(t0: Tracker, force: int) returns (t: Tracker, events: seq<int>)
    ensures (t, events) == ImpulseStep(t0, force)
  {
    t := t0;
    events := [];
    if force > THRESHOLD_3G {
      if !t.impulses.g3 {
        events := events + [EVT_3G];
        t := t.(impulses := t.impulses.(g3 := true));
      }
      if force > THRESHOLD_6G && !t.impulses.g6 {
        events := events + [EVT_6G];
        t := t.(impulses := t.impulses.(g6 := true));
      }
      if force > THRESHOLD_8G && !t.impulses.g8 {
        events := events + [EVT_8G];
        t := t.(impulses := t.impulses.(g8 := true));
      }
      t := t.(impulseSigma := 0);
    }
    ghost var big := force > THRESHOLD_3G;
    ghost var e3 := big && !t0.impulses.g3;
    ghost var e6 := big && force > THRESHOLD_6G && !t0.impulses.g6;
    ghost var e8 := big && force > THRESHOLD_8G && !t0.impulses.g8;
    assert events == (if e3 then [EVT_3G] else []) + (if e6 then [EVT_6G] else []) + (if e8 then [EVT_8G] else []);
    assert t == t0.(impulses := Impulses(t0.impulses.g3 || e3, t0.impulses.g6 || e6, t0.impulses.g8 || e8),
                    impulseSigma := if big then 0 else t0.impulseSigma);
    if t.impulseSigma < GESTURE_DAMPING {
      t := t.(impulseSigma := t.impulseSigma + 1);
    } else {
      t := t.(impulses := Impulses(false, false, false));
    }
  }

  /** The filtering statements of `updateGesture`, after the posture g has been determined. */
  method FilterPhase(t0: Tracker, g: int) returns (t: Tracker, events: seq<int>)
    ensures (t, events) == FilterStep(t0, g)
  {
    t := t0;
    events := [];
    if g == EVT_SHAKE {
      events := [EVT_SHAKE];
      return;
    }
    if g == t.current {
      if t.sigma < GESTURE_DAMPING {
        t := t.(sigma := t.sigma + 1);
      }
    } else {
      t := t.(current := g, sigma := 0);
    }
    if t.current != t.last && t.sigma >= GESTURE_DAMPING {
      t := t.(last := t.current);
      events := [t.last];
    }
  }
}

=== FILE: managed_buffer.dfy ===
/**
 * The buffers the stream components pass around, taken as values: their
 * bytes and whether they live in read-only (flash) memory. ManagedBuffer
 * itself is not part of this model.
 */
module ManagedBuffers {
  import opened CTypes

  datatype Buffer = Buffer(bytes: seq<u8>, readOnly: bool)

  /** What a default-constructed buffer holds. */
  const EMPTY: Buffer := Buffer([], false)

  /** The bytes of several buffers, one after the other. */
  function Bytes(bs: seq<Buffer>): seq<u8>
  {
    if bs == [] then [] else bs[0].bytes + Bytes(bs[1..])
  }

  lemma {:induction false} BytesAppend(a: seq<Buffer>, b: seq<Buffer>)
    ensures Bytes(a + b) == Bytes(a) + Bytes(b)
    decreases |a|
  {
    if a == [] {
      assert a + b == b;
    } else {
      assert (a + b)[1..] == a[1..] + b && (a + b)[0] == a[0];
      BytesAppend(a[1..], b);
      assert Bytes(a + b) == a[0].bytes + (Bytes(a[1..]) + Bytes(b));
    }
  }

  /** The bytes of buffer i follow those of the buffers before it. */
  lemma BytesSplitAt(bs: seq<Buffer>, i: nat)
    requires i < |bs|
    ensures Bytes(bs) == Bytes(bs[..i]) + bs[i].bytes + Bytes(bs[i + 1..])
  {
    assert bs == bs[..i] + bs[i..];
    BytesAppend(bs[..i], bs[i..]);
    assert bs[i..][1..] == bs[i + 1..];
  }

  /** Writing byte `off` of buffer i writes the corresponding byte of the whole. */
  lemma BytesUpdate(bs: seq<Buffer>, i: nat, off: nat, v: u8)
    requires i < |bs| && off < |bs[i].bytes|
    ensures var bs' := bs[i := bs[i].(bytes := bs[i].bytes[off := v])];
      |Bytes(bs[..i])| + off < |Bytes(bs)| &&
      Bytes(bs') == Bytes(bs)[|Bytes(bs[..i])| + off := v]
  {
    var bs' := bs[i := bs[i].(bytes := bs[i].bytes[off := v])];
    BytesSplitAt(bs, i);
    BytesSplitAt(bs', i);
    assert bs'[..i] == bs[..i] && bs'[i + 1..] == bs[i + 1..];
  }

  /** Dropping the head drops exactly its bytes. */
  lemma BytesTail(bs: seq<Buffer>)
    requires bs != []
    ensures |Bytes(bs[1..])| == |Bytes(bs)| - |bs[0].bytes|
  {
  }

  /** Appending a buffer appends its bytes. */
  lemma BytesSnoc(bs: seq<Buffer>, b: Buffer)
    ensures Bytes(bs + [b]) == Bytes(bs) + b.bytes
  {
    BytesAppend(bs, [b]);
    assert [b][1..] == [];
  }

  /** Bytes are present exactly when some buffer is non-empty. */
  lemma {:induction false} BytesEmpty(bs: seq<Buffer>)
    ensures |Bytes(bs)| == 0 <==> forall i :: 0 <= i < |bs| ==> bs[i].bytes == []
    decreases |bs|
  {
    if bs != [] {
      BytesEmpty(bs[1..]);
      assert forall i :: 1 <= i < |bs| ==> bs[1..][i - 1] == bs[i];
    }
  }
}

=== FILE: mbed_pin.dfy ===
/**
 * target/MBED_CLASSIC/source/MbedPin.cpp: the mode bits of an I/O pin and
 * the arithmetic of its servo output. The mbed peripheral objects a pin
 * drives (DigitalOut, DigitalIn, AnalogIn, DynamicPwm, TimedInterruptIn,
 * DeviceButton) are not part of this model: what they read is passed in,
 * and what is written to them is recorded in fields of the pin.
 */
module MbedPin {
  import opened ErrorNo
  import opened CTypes
  import opened Arith

  // Status flags (inc/drivers/Pin.h)
  const IO_STATUS_DIGITAL_IN: int := 0x01
  const IO_STATUS_DIGITAL_OUT: int := 0x02
  const IO_STATUS_ANALOG_IN: int := 0x04
  const IO_STATUS_ANALOG_OUT: int := 0x08
  const IO_STATUS_TOUCH_IN: int := 0x10
  const IO_STATUS_EVENT_ON_EDGE: int := 0x20
  const IO_STATUS_EVENT_PULSE_ON_EDGE: int := 0x40

  const PIN_CAPABILITY_DIGITAL: int := 0x01
  const PIN_CAPABILITY_ANALOG: int := 0x02

  const DEVICE_PIN_MAX_OUTPUT: int := 1023
  const DEVICE_PIN_MAX_SERVO_RANGE: int := 180
  const DEVICE_PIN_DEFAULT_SERVO_RANGE: int := 2000
  const DEVICE_PIN_DEFAULT_SERVO_CENTER: int := 1500

  const DEVICE_PIN_EVENT_NONE: int := 0
  const DEVICE_PIN_EVENT_ON_EDGE: int := 1
  const DEVICE_PIN_EVENT_ON_PULSE: int := 2
  const DEVICE_PIN_EVENT_ON_TOUCH: int := 3

  const DEVICE_PIN_EVT_RISE: int := 2
  const DEVICE_PIN_EVT_FALL: int := 3
  const DEVICE_PIN_EVT_PULSE_HI: int := 4
  const DEVICE_PIN_EVT_PULSE_LO: int := 5

  datatype PullMode = PullNone | PullDown | PullUp

  /** An event raised by the pin: its value and its timestamp. */
  datatype PinEvent = PinEvent(value: int, timestamp: int)

  /** `flags & flag != 0` for a single-bit flag. */
  predicate Bit(flags: nat, flag: int)
    requires flag > 0
  {
    (flags / flag) % 2 == 1
  }

  /** `status &= ~flag` for a single-bit flag. */
  function Clear(flags: nat, flag: int): (r: nat)
    requires flag > 0
    ensures !Bit(r, flag)
  {
    if Bit(flags, flag) then (DivLessOne(flags, flag); flags - flag) else flags
  }

  /** The status values a pin can hold: disconnected, or exactly one mode bit. */
  predicate OneMode(status: int)
  {
    status in {0, IO_STATUS_DIGITAL_IN, IO_STATUS_DIGITAL_OUT, IO_STATUS_ANALOG_IN, IO_STATUS_ANALOG_OUT,
               IO_STATUS_TOUCH_IN, IO_STATUS_EVENT_ON_EDGE, IO_STATUS_EVENT_PULSE_ON_EDGE}
  }

  /**
   * `setServoValue`'s pulse width in microseconds: value clipped to 180,
   * scaled into the range around the center, in C integer arithmetic.
   */
  function ServoPulse(value: int, range: int, center: int): (us: int)
    requires value >= 0 && range >= 1 && center >= 1
  {
    var clipped := if value > DEVICE_PIN_MAX_SERVO_RANGE then DEVICE_PIN_MAX_SERVO_RANGE else value;
    var lower := (center - range / 2) * 1000;
    var scaled := lower + range * (clipped * 1000 / DEVICE_PIN_MAX_SERVO_RANGE);
    CDiv(scaled, 1000)
  }

  /**
   * The C `int` expressions of `setServoValue` (the lower end times 1000,
   * the range times the scaled value, and their sum) all stay within 32
   * bits; `ServoPulse` equals the source's result only when they do, since
   * a signed overflow in C has no defined value.
   */
  predicate ServoFitsInt32(value: int, range: int, center: int)
    requires value >= 0 && range >= 1 && center >= 1
  {
    var clipped := if value > DEVICE_PIN_MAX_SERVO_RANGE then DEVICE_PIN_MAX_SERVO_RANGE else value;
    var lower := (center - range / 2) * 1000;
    var offset := range * (clipped * 1000 / DEVICE_PIN_MAX_SERVO_RANGE);
    -0x8000_0000 <= lower < 0x8000_0000 &&
    -0x8000_0000 <= offset < 0x8000_0000 &&
    -0x8000_0000 <= lower + offset < 0x8000_0000
  }

  /** With a range and a center of at most 1000000 us, no intermediate overflows, whatever the value. */
  lemma ServoFitsModerate(value: int, range: int, center: int)
    requires value >= 0 && 1 <= range <= 1_000_000 && 1 <= center <= 1_000_000
    ensures ServoFitsInt32(value, range, center)
  {
    var clipped := if value > DEVICE_PIN_MAX_SERVO_RANGE then DEVICE_PIN_MAX_SERVO_RANGE else value;
    var step := clipped * 1000 / DEVICE_PIN_MAX_SERVO_RANGE;
    assert 0 <= step <= 1000;
    MulBounds(range, step, 1_000_000, 1000);
  }

  /**
   * The argument checks accept a center of 3000000 us, for which the lower
   * end of the range times 1000 no longer fits in a 32-bit `int`.
   */
  lemma ServoOverflowAccepted()
    ensures var value, range, center := 90, 180, 3_000_000;
      value >= 0 && range >= 1 && center >= 1 && !ServoFitsInt32(value, range, center)
  {
  }

  /** With the default range and center, 0 degrees is 500 us and 180 degrees 2500 us. */
  lemma ServoDefaults()
    ensures ServoPulse(0, DEVICE_PIN_DEFAULT_SERVO_RANGE, DEVICE_PIN_DEFAULT_SERVO_CENTER) == 500
    ensures ServoPulse(90, DEVICE_PIN_DEFAULT_SERVO_RANGE, DEVICE_PIN_DEFAULT_SERVO_CENTER) == 1500
    ensures ServoPulse(180, DEVICE_PIN_DEFAULT_SERVO_RANGE, DEVICE_PIN_DEFAULT_SERVO_CENTER) == 2500
  {
  }

  /**
   * While the lower end of the range is not negative, the pulse lies
   * between the lower end and the lower end plus the range, and every
   * value above 180 gives the same pulse as 180.
   */
  lemma ServoPulseBounds(value: int, range: int, center: int)
    requires value >= 0 && range >= 1 && center >= 1 && center >= range / 2
    ensures center - range / 2 <= ServoPulse(value, range, center) <= center - range / 2 + range
    ensures value > DEVICE_PIN_MAX_SERVO_RANGE ==>
      ServoPulse(value, range, center) == ServoPulse(DEVICE_PIN_MAX_SERVO_RANGE, range, center)
  {
    var clipped := if value > DEVICE_PIN_MAX_SERVO_RANGE then DEVICE_PIN_MAX_SERVO_RANGE else value;
    var step := clipped * 1000 / DEVICE_PIN_MAX_SERVO_RANGE;
    assert 0 <= step <= 1000;
    MulBetween(range, step);
    var lower := (center - range / 2) * 1000;
    var scaled := lower + range * step;
    assert lower >= 0;
    assert scaled / 1000 == (center - range / 2) + (range * step) / 1000 by {
      DivAddMultiple(center - range / 2, range * step);
    }
    assert (range * step) / 1000 <= range by {
      assert range * step <= range * 1000;
    }
  }

  /** The pulse never decreases as the requested angle grows. */
  lemma ServoPulseMonotone(v1: int, v2: int, range: int, center: int)
    requires 0 <= v1 <= v2 && range >= 1 && center >= 1
    ensures ServoPulse(v1, range, center) <= ServoPulse(v2, range, center)
  {
    var c1 := if v1 > DEVICE_PIN_MAX_SERVO_RANGE then DEVICE_PIN_MAX_SERVO_RANGE else v1;
    var c2 := if v2 > DEVICE_PIN_MAX_SERVO_RANGE then DEVICE_PIN_MAX_SERVO_RANGE else v2;
    var s1 := c1 * 1000 / DEVICE_PIN_MAX_SERVO_RANGE;
    var s2 := c2 * 1000 / DEVICE_PIN_MAX_SERVO_RANGE;
    DivMonotone(c1 * 1000, c2 * 1000, DEVICE_PIN_MAX_SERVO_RANGE);
    assert range * s1 <= range * s2 by {
      MulLeq(range, s1, s2);
    }
    var lower := (center - range / 2) * 1000;
    CDivMonotone(lower + range * s1, lower + range * s2, 1000);
  }

  lemma MulBetween(a: int, b: int)
    requires a >= 1 && 0 <= b <= 1000
    ensures 0 <= a * b <= a * 1000
  {
  }

  lemma MulLeq(a: int, b: int, c: int)
    requires a >= 0 && b <= c
    ensures a * b <= a * c
  {
  }

  lemma DivAddMultiple(k: int, r: int)
    requires k >= 0 && r >= 0
    ensures (k * 1000 + r) / 1000 == k + r / 1000
  {
  }

  lemma CDivMonotone(a: int, b: int, d: int)
    requires a <= b && d > 0
    ensures CDiv(a, d) <= CDiv(b, d)
  {
    if a >= 0 {
      DivMonotone(a, b, d);
      assert CDiv(a, d) == a / d && CDiv(b, d) == b / d;
    } else if b >= 0 {
      DivMonotone(0, -a, d);
      DivMonotone(0, b, d);
      assert CDiv(a, d) == -((-a) / d) && CDiv(b, d) == b / d;
    } else {
      DivMonotone(-b, -a, d);
      assert CDiv(a, d) == -((-a) / d) && CDiv(b, d) == -((-b) / d);
    }
  }

  class Pin {
    const capability: int
    /** DEVICE_DEFAULT_PWM_PERIOD, which the servo output restores. */
    const defaultPwmPeriodUs: int
    /** The period a newly created DynamicPwm starts with. */
    const initialPwmPeriodUs: int
    var status: nat
    var pullMode: PullMode
    /** The last value written to the DigitalOut. */
    var digitalOut: int
    /** The last level written to the PWM output, as a value in 0..1023. */
    var analogOut: int
    var pwmPeriodUs: int
    var pulseWidthUs: int
    /** The timestamp kept by the TimedInterruptIn: the time of the last edge, 0 before any. */
    var edgeTimestamp: int

    ghost predicate Valid()
      reads this
    {
      OneMode(status)
    }

    predicate Digital()
    {
      capability >= 0 && Bit(capability, PIN_CAPABILITY_DIGITAL)
    }

    predicate Analog()
    {
      capability >= 0 && Bit(capability, PIN_CAPABILITY_ANALOG)
    }

    /** A new pin is disconnected, with the default pull mode. */
    constructor (capability: int, defaultPwmPeriodUs: int, initialPwmPeriodUs: int)
      ensures Valid() && status == 0 && pullMode == PullNone
      ensures this.capability == capability && this.defaultPwmPeriodUs == defaultPwmPeriodUs
      ensures this.initialPwmPeriodUs == initialPwmPeriodUs
    {
      this.capability := capability;
      this.defaultPwmPeriodUs := defaultPwmPeriodUs;
      this.initialPwmPeriodUs := initialPwmPeriodUs;
      status := 0;
      pullMode := PullNone;
      digitalOut := 0;
      analogOut := 0;
      pwmPeriodUs := 0;
      pulseWidthUs := 0;
      edgeTimestamp := 0;
    }

    /** `disconnect`: releases whatever the pin drove and clears every mode bit. */
    method Disconnect()
      modifies this`status
      ensures Valid() && status == 0
    {
      status := 0;
    }

    /**
     * `setDigitalValue`: needs the digital capability and a value of 0 or
     * 1; the pin then becomes a digital output and drives the value.
     */
    method SetDigitalValue(value: int) returns (result: int)
      requires Valid()
      modifies this`status, this`digitalOut
      ensures Valid()
      ensures !Digital() ==> result == DEVICE_NOT_SUPPORTED && status == old(status) && digitalOut == old(digitalOut)
      ensures Digital() && (value < 0 || value > 1) ==>
        result == DEVICE_INVALID_PARAMETER && status == old(status) && digitalOut == old(digitalOut)
      ensures Digital() && 0 <= value <= 1 ==>
        result == DEVICE_OK && status == IO_STATUS_DIGITAL_OUT && digitalOut == value
    {
      if !Digital() {
        return DEVICE_NOT_SUPPORTED;
      }
      if value < 0 || value > 1 {
        return DEVICE_INVALID_PARAMETER;
      }
      if !Bit(status, IO_STATUS_DIGITAL_OUT) {
        Disconnect();
        status := status + IO_STATUS_DIGITAL_OUT;
      }
      digitalOut := value;
      return DEVICE_OK;
    }

    /**
     * `getDigitalValue`: unless the pin already reads digitally (as an input
     * or for edge events) it becomes a digital input. `level` is what the
     * input reads.
     */
    method GetDigitalValue(level: int) returns (result: int)
      requires Valid()
      modifies this`status
      ensures Valid()
      ensures !Digital() ==> result == DEVICE_NOT_SUPPORTED && status == old(status)
      ensures Digital() ==> result == level
      ensures Digital() && old(status) in {IO_STATUS_DIGITAL_IN, IO_STATUS_EVENT_ON_EDGE, IO_STATUS_EVENT_PULSE_ON_EDGE} ==>
        status == old(status)
      ensures Digital() && old(status) !in {IO_STATUS_DIGITAL_IN, IO_STATUS_EVENT_ON_EDGE, IO_STATUS_EVENT_PULSE_ON_EDGE} ==>
        status == IO_STATUS_DIGITAL_IN
    {
      if !Digital() {
        return DEVICE_NOT_SUPPORTED;
      }
      if !(Bit(status, IO_STATUS_DIGITAL_IN) || Bit(status, IO_STATUS_EVENT_ON_EDGE) || Bit(status, IO_STATUS_EVENT_PULSE_ON_EDGE)) {
        Disconnect();
        status := status + IO_STATUS_DIGITAL_IN;
      }
      return level;
    }

    /** `getDigitalValue(pull)`: sets the pull mode, then reads. */
    method GetDigitalValueWithPull(pull: PullMode, level: int) returns (result: int)
      requires Valid()
      modifies this`status, this`pullMode
      ensures Valid() && pullMode == pull
      ensures !Digital() ==> result == DEVICE_NOT_SUPPORTED
      ensures Digital() ==> result == level
    {
      var ignored := SetPull(pull);
      result := GetDigitalValue(level);
    }

    /**
     * `obtainAnalogChannel`: unless the pin is an analogue output whose
     * DynamicPwm still drives it, a new DynamicPwm is attached.
     */
    method ObtainAnalogChannel(pwmStillOurs: bool) returns (result: int)
      requires Valid()
      modifies this`status, this`pwmPeriodUs
      ensures Valid() && result == DEVICE_OK && status == IO_STATUS_ANALOG_OUT
      ensures old(status) == IO_STATUS_ANALOG_OUT && pwmStillOurs ==> pwmPeriodUs == old(pwmPeriodUs)
      ensures !(old(status) == IO_STATUS_ANALOG_OUT && pwmStillOurs) ==> pwmPeriodUs == initialPwmPeriodUs
    {
      if !Bit(status, IO_STATUS_ANALOG_OUT) || !pwmStillOurs {
        Disconnect();
        pwmPeriodUs := initialPwmPeriodUs;
        status := status + IO_STATUS_ANALOG_OUT;
      }
      return DEVICE_OK;
    }

    /**
     * `setAnalogValue`: rejects levels outside 0..1023, then drives the PWM
     * output. The capability it checks is the digital one.
     */
    method SetAnalogValue(value: int, pwmStillOurs: bool) returns (result: int)
      requires Valid()
      modifies this`status, this`pwmPeriodUs, this`analogOut
      ensures Valid()
      ensures !Digital() ==> result == DEVICE_NOT_SUPPORTED && status == old(status)
      ensures Digital() && !(0 <= value <= DEVICE_PIN_MAX_OUTPUT) ==>
        result == DEVICE_INVALID_PARAMETER && status == old(status) && analogOut == old(analogOut)
      ensures Digital() && 0 <= value <= DEVICE_PIN_MAX_OUTPUT ==>
        result == DEVICE_OK && status == IO_STATUS_ANALOG_OUT && analogOut == value
    {
      if !Digital() {
        return DEVICE_NOT_SUPPORTED;
      }
      if value < 0 || value > DEVICE_PIN_MAX_OUTPUT {
        return DEVICE_INVALID_PARAMETER;
      }
      var obtained := ObtainAnalogChannel(pwmStillOurs);
      if obtained == DEVICE_OK {
        analogOut := value;
        return DEVICE_OK;
      }
      return DEVICE_OK;
    }

    /** `setServoPulseUs`: an analogue output at the default PWM period with the given pulse. */
    method SetServoPulseUs(pulseWidth: int, pwmStillOurs: bool) returns (result: int)
      requires Valid()
      modifies this`status, this`pwmPeriodUs, this`pulseWidthUs
      ensures Valid()
      ensures !Analog() ==> result == DEVICE_NOT_SUPPORTED && status == old(status)
      ensures Analog() && pulseWidth < 0 ==> result == DEVICE_INVALID_PARAMETER && status == old(status)
      ensures Analog() && pulseWidth >= 0 ==>
        result == DEVICE_OK && status == IO_STATUS_ANALOG_OUT &&
        pwmPeriodUs == defaultPwmPeriodUs && pulseWidthUs == pulseWidth
    {
      if !Analog() {
        return DEVICE_NOT_SUPPORTED;
      }
      if pulseWidth < 0 {
        return DEVICE_INVALID_PARAMETER;
      }
      var obtained := ObtainAnalogChannel(pwmStillOurs);
      if obtained == DEVICE_OK {
        if pwmPeriodUs != defaultPwmPeriodUs {
          pwmPeriodUs := defaultPwmPeriodUs;
        }
        pulseWidthUs := pulseWidth;
      }
      return DEVICE_OK;
    }

    /** `setServoValue`: validates the arguments, then drives the pulse ServoPulse computes. */
    method SetServoValue(value: int, range: int, center: int, pwmStillOurs: bool) returns (result: int)
      requires Valid()
      modifies this`status, this`pwmPeriodUs, this`pulseWidthUs
      ensures Valid()
      ensures !Analog() ==> result == DEVICE_NOT_SUPPORTED && status == old(status)
      ensures Analog() && (value < 0 || range < 1 || center < 1) ==>
        result == DEVICE_INVALID_PARAMETER && status == old(status)
      ensures Analog() && value >= 0 && range >= 1 && center >= 1 ==>
        (ServoPulse(value, range, center) < 0 ==> result == DEVICE_INVALID_PARAMETER) &&
        (ServoPulse(value, range, center) >= 0 ==>
          result == DEVICE_OK && status == IO_STATUS_ANALOG_OUT && pulseWidthUs == ServoPulse(value, range, center))
    {
      if !Analog() {
        return DEVICE_NOT_SUPPORTED;
      }
      if value < 0 || range < 1 || center < 1 {
        return DEVICE_INVALID_PARAMETER;
      }
      var v := value;
      if v > DEVICE_PIN_MAX_SERVO_RANGE {
        v := DEVICE_PIN_MAX_SERVO_RANGE;
      }
      var lower := (center - range / 2) * 1000;
      v := v * 1000;
      var scaled := lower + range * (v / DEVICE_PIN_MAX_SERVO_RANGE);
      result := SetServoPulseUs(CDiv(scaled, 1000), pwmStillOurs);
    }

    /** `getAnalogValue`: the pin becomes an analogue input; the 16-bit reading is cut to 10 bits. */
    method GetAnalogValue(reading: u16) returns (result: int)
      requires Valid()
      modifies this`status
      ensures Valid()
      ensures !Analog() ==> result == DEVICE_NOT_SUPPORTED && status == old(status)
      ensures Analog() ==> status == IO_STATUS_ANALOG_IN && 0 <= result <= DEVICE_PIN_MAX_OUTPUT && result == reading / 64
    {
      if !Analog() {
        return DEVICE_NOT_SUPPORTED;
      }
      if !Bit(status, IO_STATUS_ANALOG_IN) {
        Disconnect();
        status := status + IO_STATUS_ANALOG_IN;
      }
      return reading / 64;
    }

    /** `isInput`, `isOutput`, `isDigital`, `isAnalog`: tests of the status bits. */
    function IsInput(): (r: int)
      reads this
      ensures OneMode(status) ==> (r == 1 <==> status in {IO_STATUS_DIGITAL_IN, IO_STATUS_ANALOG_IN})
      ensures r == 0 || r == 1
    {
      if Bit(status, IO_STATUS_DIGITAL_IN) || Bit(status, IO_STATUS_ANALOG_IN) then 1 else 0
    }

    function IsOutput(): (r: int)
      reads this
      ensures OneMode(status) ==> (r == 1 <==> status in {IO_STATUS_DIGITAL_OUT, IO_STATUS_ANALOG_OUT})
      ensures r == 0 || r == 1
    {
      if Bit(status, IO_STATUS_DIGITAL_OUT) || Bit(status, IO_STATUS_ANALOG_OUT) then 1 else 0
    }

    function IsDigital(): (r: int)
      reads this
      ensures OneMode(status) ==> (r == 1 <==> status in {IO_STATUS_DIGITAL_IN, IO_STATUS_DIGITAL_OUT})
      ensures r == 0 || r == 1
    {
      if Bit(status, IO_STATUS_DIGITAL_IN) || Bit(status, IO_STATUS_DIGITAL_OUT) then 1 else 0
    }

    function IsAnalog(): (r: int)
      reads this
      ensures OneMode(status) ==> (r == 1 <==> status in {IO_STATUS_ANALOG_IN, IO_STATUS_ANALOG_OUT})
      ensures r == 0 || r == 1
    {
      if Bit(status, IO_STATUS_ANALOG_IN) || Bit(status, IO_STATUS_ANALOG_OUT) then 1 else 0
    }

    /** `isTouched`: the pin becomes a touch input; `pressed` is what the button reports. */
    method IsTouched(pressed: int) returns (result: int)
      requires Valid()
      modifies this`status
      ensures Valid()
      ensures !Digital() ==> result == DEVICE_NOT_SUPPORTED && status == old(status)
      ensures Digital() ==> result == pressed && status == IO_STATUS_TOUCH_IN
    {
      if !Digital() {
        return DEVICE_NOT_SUPPORTED;
      }
      if !Bit(status, IO_STATUS_TOUCH_IN) {
        Disconnect();
        status := status + IO_STATUS_TOUCH_IN;
      }
      return pressed;
    }

    /** `setAnalogPeriodUs`: a pin that is not yet an analogue output first drops to level 0. */
    method SetAnalogPeriodUs(period: int, pwmStillOurs: bool) returns (result: int)
      requires Valid()
      modifies this`status, this`pwmPeriodUs, this`analogOut
      ensures Valid()
      ensures old(status) != IO_STATUS_ANALOG_OUT && !Digital() ==> result == DEVICE_NOT_SUPPORTED && status == old(status)
      ensures old(status) == IO_STATUS_ANALOG_OUT || Digital() ==>
        result == DEVICE_OK && status == IO_STATUS_ANALOG_OUT && pwmPeriodUs == period
      ensures old(status) != IO_STATUS_ANALOG_OUT && Digital() ==> analogOut == 0
    {
      if !Bit(status, IO_STATUS_ANALOG_OUT) {
        var ret := SetAnalogValue(0, pwmStillOurs);
        if ret != DEVICE_OK {
          return ret;
        }
      }
      pwmPeriodUs := period;
      return DEVICE_OK;
    }

    /** `setAnalogPeriod`: the same as setAnalogPeriodUs on the period in microseconds. */
    method SetAnalogPeriod(period: int, pwmStillOurs: bool) returns (result: int)
      requires Valid()
      modifies this`status, this`pwmPeriodUs, this`analogOut
      ensures Valid()
      ensures old(status) == IO_STATUS_ANALOG_OUT || Digital() ==>
        result == DEVICE_OK && status == IO_STATUS_ANALOG_OUT && pwmPeriodUs == period * 1000
      ensures old(status) != IO_STATUS_ANALOG_OUT && !Digital() ==> result == DEVICE_NOT_SUPPORTED
    {
      result := SetAnalogPeriodUs(period * 1000, pwmStillOurs);
    }

    /** `getAnalogPeriodUs`: the PWM period, available only on an analogue output. */
    function GetAnalogPeriodUs(): (r: int)
      reads this
      ensures Bit(status, IO_STATUS_ANALOG_OUT) ==> r == pwmPeriodUs
      ensures !Bit(status, IO_STATUS_ANALOG_OUT) ==> r == DEVICE_NOT_SUPPORTED
    {
      if !Bit(status, IO_STATUS_ANALOG_OUT) then DEVICE_NOT_SUPPORTED else pwmPeriodUs
    }

    /** `getAnalogPeriod`: the period in milliseconds (the error code divided as well). */
    function GetAnalogPeriod(): (r: int)
      reads this
      ensures Bit(status, IO_STATUS_ANALOG_OUT) && pwmPeriodUs >= 0 ==> r == pwmPeriodUs / 1000
    {
      CDiv(GetAnalogPeriodUs(), 1000)
    }

    /**
     * `setPull`: the pull mode is always recorded, but only applied (and
     * OK returned) on a digital input or an edge-event pin.
     */
    method SetPull(pull: PullMode) returns (result: int)
      modifies this`pullMode
      ensures pullMode == pull
      ensures result == (if Bit(status, IO_STATUS_DIGITAL_IN) || Bit(status, IO_STATUS_EVENT_ON_EDGE) ||
                            Bit(status, IO_STATUS_EVENT_PULSE_ON_EDGE) then DEVICE_OK else DEVICE_NOT_SUPPORTED)
    {
      pullMode := pull;
      if Bit(status, IO_STATUS_DIGITAL_IN) {
        return DEVICE_OK;
      }
      if Bit(status, IO_STATUS_EVENT_ON_EDGE) || Bit(status, IO_STATUS_EVENT_PULSE_ON_EDGE) {
        return DEVICE_OK;
      }
      return DEVICE_NOT_SUPPORTED;
    }

    /**
     * `pulseWidthEvent`: the time since the previous edge is reported,
     * unless there was none; the edge time is then recorded.
     */
    method PulseWidthEvent(eventValue: int, now: int) returns (events: seq<PinEvent>)
      modifies this`edgeTimestamp
      ensures edgeTimestamp == now
      ensures events == if old(edgeTimestamp) != 0 then [PinEvent(eventValue, now - old(edgeTimestamp))] else []
    {
      events := [];
      var previous := edgeTimestamp;
      if previous != 0 {
        events := [PinEvent(eventValue, now - previous)];
      }
      edgeTimestamp := now;
    }

    /** `onRise`: ends a low pulse in pulse mode, or reports a rise in edge mode. */
    method OnRise(now: int) returns (events: seq<PinEvent>)
      requires Valid()
      modifies this`edgeTimestamp
      ensures status == IO_STATUS_EVENT_PULSE_ON_EDGE ==>
        edgeTimestamp == now &&
        events == if old(edgeTimestamp) != 0 then [PinEvent(DEVICE_PIN_EVT_PULSE_LO, now - old(edgeTimestamp))] else []
      ensures status == IO_STATUS_EVENT_ON_EDGE ==> events == [PinEvent(DEVICE_PIN_EVT_RISE, now)] && edgeTimestamp == old(edgeTimestamp)
      ensures status !in {IO_STATUS_EVENT_ON_EDGE, IO_STATUS_EVENT_PULSE_ON_EDGE} ==> events == [] && edgeTimestamp == old(edgeTimestamp)
    {
      events := [];
      if Bit(status, IO_STATUS_EVENT_PULSE_ON_EDGE) {
        events := PulseWidthEvent(DEVICE_PIN_EVT_PULSE_LO, now);
      }
      if Bit(status, IO_STATUS_EVENT_ON_EDGE) {
        events := events + [PinEvent(DEVICE_PIN_EVT_RISE, now)];
      }
    }

    /** `onFall`: ends a high pulse in pulse mode, or reports a fall in edge mode. */
    method OnFall(now: int) returns (events: seq<PinEvent>)
      requires Valid()
      modifies this`edgeTimestamp
      ensures status == IO_STATUS_EVENT_PULSE_ON_EDGE ==>
        edgeTimestamp == now &&
        events == if old(edgeTimestamp) != 0 then [PinEvent(DEVICE_PIN_EVT_PULSE_HI, now - old(edgeTimestamp))] else []
      ensures status == IO_STATUS_EVENT_ON_EDGE ==> events == [PinEvent(DEVICE_PIN_EVT_FALL, now)] && edgeTimestamp == old(edgeTimestamp)
      ensures status !in {IO_STATUS_EVENT_ON_EDGE, IO_STATUS_EVENT_PULSE_ON_EDGE} ==> events == [] && edgeTimestamp == old(edgeTimestamp)
    {
      events := [];
      if Bit(status, IO_STATUS_EVENT_PULSE_ON_EDGE) {
        events := PulseWidthEvent(DEVICE_PIN_EVT_PULSE_HI, now);
      }
      if Bit(status, IO_STATUS_EVENT_ON_EDGE) {
        events := events + [PinEvent(DEVICE_PIN_EVT_FALL, now)];
      }
    }

    /**
     * `enableRiseFallEvents`: a pin not yet watching edges gets a fresh
     * edge watcher (whose timestamp starts at 0); afterwards exactly the
     * requested event bit is set, or none for any other event type.
     */
    method EnableRiseFallEvents(eventType: int) returns (result: int)
      requires Valid()
      modifies this`status, this`edgeTimestamp
      ensures Valid() && result == DEVICE_OK
      ensures status == (if eventType == DEVICE_PIN_EVENT_ON_EDGE then IO_STATUS_EVENT_ON_EDGE
                         else if eventType == DEVICE_PIN_EVENT_ON_PULSE then IO_STATUS_EVENT_PULSE_ON_EDGE
                         else 0)
      ensures old(status) !in {IO_STATUS_EVENT_ON_EDGE, IO_STATUS_EVENT_PULSE_ON_EDGE} ==> edgeTimestamp == 0
      ensures old(status) in {IO_STATUS_EVENT_ON_EDGE, IO_STATUS_EVENT_PULSE_ON_EDGE} ==> edgeTimestamp == old(edgeTimestamp)
    {
      if !(Bit(status, IO_STATUS_EVENT_ON_EDGE) || Bit(status, IO_STATUS_EVENT_PULSE_ON_EDGE)) {
        Disconnect();
        edgeTimestamp := 0;
      }
      status := Clear(Clear(status, IO_STATUS_EVENT_ON_EDGE), IO_STATUS_EVENT_PULSE_ON_EDGE);
      assert status == 0;
      if eventType == DEVICE_PIN_EVENT_ON_EDGE {
        status := status + IO_STATUS_EVENT_ON_EDGE;
      } else if eventType == DEVICE_PIN_EVENT_ON_PULSE {
        status := status + IO_STATUS_EVENT_PULSE_ON_EDGE;
      }
      return DEVICE_OK;
    }

    /** `disableEvents`: an edge, pulse or touch pin is disconnected; any other is left as it is. */
    method DisableEvents() returns (result: int)
      requires Valid()
      modifies this`status
      ensures Valid() && result == DEVICE_OK
      ensures old(status) in {IO_STATUS_EVENT_ON_EDGE, IO_STATUS_EVENT_PULSE_ON_EDGE, IO_STATUS_TOUCH_IN} ==> status == 0
      ensures old(status) !in {IO_STATUS_EVENT_ON_EDGE, IO_STATUS_EVENT_PULSE_ON_EDGE, IO_STATUS_TOUCH_IN} ==> status == old(status)
    {
      if Bit(status, IO_STATUS_EVENT_ON_EDGE) || Bit(status, IO_STATUS_EVENT_PULSE_ON_EDGE) || Bit(status, IO_STATUS_TOUCH_IN) {
        Disconnect();
      }
      return DEVICE_OK;
    }

    /** `eventOn`: selects the event mode; an unknown type is rejected and changes nothing. */
    method EventOn(eventType: int, pressed: int) returns (result: int)
      requires Valid()
      modifies this`status, this`edgeTimestamp
      ensures Valid()
      ensures eventType !in {DEVICE_PIN_EVENT_NONE, DEVICE_PIN_EVENT_ON_EDGE, DEVICE_PIN_EVENT_ON_PULSE, DEVICE_PIN_EVENT_ON_TOUCH} ==>
        result == DEVICE_INVALID_PARAMETER && status == old(status)
      ensures eventType in {DEVICE_PIN_EVENT_NONE, DEVICE_PIN_EVENT_ON_EDGE, DEVICE_PIN_EVENT_ON_PULSE, DEVICE_PIN_EVENT_ON_TOUCH} ==>
        result == DEVICE_OK
      ensures eventType == DEVICE_PIN_EVENT_ON_EDGE ==> status == IO_STATUS_EVENT_ON_EDGE
      ensures eventType == DEVICE_PIN_EVENT_ON_PULSE ==> status == IO_STATUS_EVENT_PULSE_ON_EDGE
      ensures eventType == DEVICE_PIN_EVENT_ON_TOUCH && Digital() ==> status == IO_STATUS_TOUCH_IN
      ensures eventType == DEVICE_PIN_EVENT_NONE ==>
        status !in {IO_STATUS_EVENT_ON_EDGE, IO_STATUS_EVENT_PULSE_ON_EDGE, IO_STATUS_TOUCH_IN}
    {
      if eventType == DEVICE_PIN_EVENT_ON_EDGE || eventType == DEVICE_PIN_EVENT_ON_PULSE {
        var ignored := EnableRiseFallEvents(eventType);
      } else if eventType == DEVICE_PIN_EVENT_ON_TOUCH {
        var ignored := IsTouched(pressed);
      } else if eventType == DEVICE_PIN_EVENT_NONE {
        var ignored := DisableEvents();
      } else {
        return DEVICE_INVALID_PARAMETER;
      }
      return DEVICE_OK;
    }
  }

  /** In every status a pin can hold, input and output, and digital and analogue, exclude each other. */
  lemma ModesExclusive(p: Pin)
    requires p.Valid()
    ensures !(p.IsInput() == 1 && p.IsOutput() == 1)
    ensures !(p.IsDigital() == 1 && p.IsAnalog() == 1)
    ensures p.status == 0 ==> p.IsInput() == 0 && p.IsOutput() == 0 && p.IsDigital() == 0 && p.IsAnalog() == 0
  {
  }
}

=== FILE: mbed_timer.dfy ===
/**
 * target/MBED_CLASSIC/source/MbedTimer.cpp: the mbed-classic `Timer`. The
 * time is a 64-bit microsecond count kept in software and advanced by an
 * overflow handler every `overflow_period_us`; timer events wait in the
 * ordered list of inc/core/Timer.h, and `processEvents` raises those that
 * are due and arms a one-shot timeout for the next.
 *
 * The file's statics (the time, the overflow period and the event list)
 * are fields of the one timer object. The hardware timer's count since
 * its last reset is a parameter of each operation that reads the time, and
 * stays the same for the length of one call. Arming a timeout is
 * represented by the delay it was last given.
 */
module MbedTimer {
  import opened CTypes
  import opened ErrorNo
  import opened Wrappers
  import opened TimerEvents
  import SystemClock
  import DeviceListener

  /** The overflow period the constructor stores: 60 seconds. */
  const OVERFLOW_PERIOD_US: u32 := 60000000
  /** `processEvents` starts over rather than arm a timeout shorter than this. */
  const MINIMUM_DELAY_US: u64 := 100

  /** What `processEvents` does once its pass over the list is over. */
  datatype Next =
    | Idle                    // returns without arming the timeout
    | Restart                 // `goto START`
    | Attach(delayUs: u64)    // arms the timeout for the head

  /**
   * The decision after the pass, from the head; an empty list leaves the
   * static list head itself, whose default-constructed timestamp is 0.
   */
  function Decide(events: seq<TimerEvent>, now: u64, overflowUs: u32): (next: Next)
    ensures next.Restart? <==> |events| == 0 || events[0].timestamp < now + MINIMUM_DELAY_US
    ensures next.Attach? ==>
      |events| > 0 && now + next.delayUs == events[0].timestamp &&
      MINIMUM_DELAY_US <= next.delayUs < overflowUs as u64
    ensures next.Idle? ==> |events| > 0 && events[0].timestamp >= now + overflowUs
  {
    var timestamp := if |events| == 0 then DefaultEvent().timestamp else events[0].timestamp;
    var usRemaining := SystemClock.DueIn(timestamp, now);
    if timestamp < now || usRemaining < MINIMUM_DELAY_US then Restart
    else if usRemaining < overflowUs as u64 then Attach(usRemaining)
    else Idle
  }

  // ---------------------------------------------------------------------
  // The pass of `processEvents`, on the entries.

  /** How overdue an entry is at `now`, plus one; 0 for an entry not yet due. */
  function Weight(x: TimerEvent, now: u64): nat
  {
    if x.timestamp <= now then now - x.timestamp + 1 else 0
  }

  /** The sum of the weights: it drops with each event the pass raises. */
  function Load(s: seq<TimerEvent>, now: u64): nat
  {
    if |s| == 0 then 0 else Weight(s[0], now) + Load(s[1..], now)
  }

  lemma {:induction false} LoadConcat(a: seq<TimerEvent>, b: seq<TimerEvent>, now: u64)
    ensures Load(a + b, now) == Load(a, now) + Load(b, now)
  {
    if |a| > 0 {
      assert (a + b)[1..] == a[1..] + b;
      LoadConcat(a[1..], b, now);
    } else {
      assert a + b == b;
    }
  }

  /**
   * What holds at the cursor `c` of the pass that started from `s0`:
   * the list is ordered and free of duplicates, every entry not yet due
   * is still ahead of the cursor, and every one-shot entry that was due
   * is either still ahead or gone from the list and raised.
   */
  ghost predicate PassInv(s0: seq<TimerEvent>, l: seq<TimerEvent>, c: nat, now: u64, raised: seq<DeviceListener.Event>)
  {
    c <= |l| && Ascending(l) && Unique(l) &&
    (forall x :: x in s0 && now < x.timestamp ==> x in l[c..]) &&
    (forall x :: x in s0 && x.timestamp <= now && x.period == 0 ==>
      x in l[c..] || (Absent(l, x.id, x.value) && DeviceListener.Event(x.id, x.value) in raised))
  }

  /** Unlinking the entry at `c`: the rest keeps order and distinctness, and loses only that entry. */
  lemma {:induction false} Unlink(l: seq<TimerEvent>, c: nat, now: u64)
    requires c < |l| && Ascending(l) && Unique(l)
    ensures var rest := l[..c] + l[c + 1..];
      Ascending(rest) && Unique(rest) && rest[c..] == l[c + 1..] &&
      Absent(rest, l[c].id, l[c].value) &&
      (forall x :: x in rest ==> x in l) &&
      Load(l[c..], now) == Weight(l[c], now) + Load(l[c + 1..], now)
  {
    var rest := l[..c] + l[c + 1..];
    assert forall i :: 0 <= i < c ==> rest[i] == l[i];
    assert forall i :: c <= i < |rest| ==> rest[i] == l[i + 1];
    assert l[c..][1..] == l[c + 1..];
  }

  /** Raising and deleting a due one-shot entry at the cursor keeps the pass invariant and lowers the load. */
  lemma {:induction false} OneShotStep(s0: seq<TimerEvent>, l: seq<TimerEvent>, c: nat, now: u64, raised: seq<DeviceListener.Event>)
    requires PassInv(s0, l, c, now, raised) && c < |l| && l[c].timestamp <= now && l[c].period == 0
    ensures var rest := l[..c] + l[c + 1..];
      PassInv(s0, rest, c, now, raised + [DeviceListener.Event(l[c].id, l[c].value)]) &&
      Load(rest[c..], now) < Load(l[c..], now)
  {
    var rest := l[..c] + l[c + 1..];
    var raised' := raised + [DeviceListener.Event(l[c].id, l[c].value)];
    Unlink(l, c, now);
    assert l[c..] == [l[c]] + l[c + 1..];
    forall x | x in s0 && x.timestamp <= now && x.period == 0
      ensures x in rest[c..] || (Absent(rest, x.id, x.value) && DeviceListener.Event(x.id, x.value) in raised')
    {
      if x !in l[c..] {
        assert Absent(l, x.id, x.value);
      }
    }
  }

  /**
   * Re-inserting an entry into the rest of the list: what was ahead of the
   * cursor stays ahead of the (possibly moved) cursor, and the load ahead
   * grows by the entry's weight only when it went in ahead.
   */
  lemma {:induction false} Reinserted(rest: seq<TimerEvent>, again: TimerEvent, c: nat, now: u64)
    requires c <= |rest|
    ensures var k := FirstAtLeast(rest, again.timestamp);
      var l' := Inserted(rest, again);
      var c' := if k <= c then c + 1 else c;
      c' <= |l'| &&
      (forall x :: x in l' ==> x in rest || x == again) &&
      (forall x :: x in rest[c..] ==> x in l'[c'..]) &&
      Load(l'[c'..], now) == Load(rest[c..], now) + (if k <= c then 0 else Weight(again, now))
  {
    var k := FirstAtLeast(rest, again.timestamp);
    var l' := Inserted(rest, again);
    assert l' == rest[..k] + [again] + rest[k..];
    assert rest == rest[..k] + rest[k..];
    if k <= c {
      assert l'[c + 1..] == rest[c..];
    } else {
      assert l'[c..] == rest[c..k] + ([again] + rest[k..]);
      assert rest[c..] == rest[c..k] + rest[k..];
      LoadConcat(rest[c..k], [again] + rest[k..], now);
      LoadConcat([again], rest[k..], now);
      LoadConcat(rest[c..k], rest[k..], now);
    }
  }

  /**
   * The pass invariant carries over from `l` at `c` to `l'` at `c'` when
   * the entry at the cursor, a repeating one, was unlinked to give `rest`
   * and re-inserted to give `l'`.
   */
  lemma {:induction false} RepeatInv(s0: seq<TimerEvent>, l: seq<TimerEvent>, c: nat, now: u64, raised: seq<DeviceListener.Event>,
                  rest: seq<TimerEvent>, again: TimerEvent, l': seq<TimerEvent>, c': nat)
    requires PassInv(s0, l, c, now, raised) && c < |l| && l[c].timestamp <= now && l[c].period != 0
    requires |rest| == |l| - 1 && rest[c..] == l[c + 1..] && (forall x :: x in rest ==> x in l)
    requires c' <= |l'| && Ascending(l') && Unique(l') && (forall x :: x in rest[c..] ==> x in l'[c'..])
    requires Matches(again, l[c].id, l[c].value) && forall x :: x in l' ==> x in rest || x == again
    ensures PassInv(s0, l', c', now, raised + [DeviceListener.Event(l[c].id, l[c].value)])
  {
    var e := l[c];
    var raised' := raised + [DeviceListener.Event(e.id, e.value)];
    assert l[c..] == [e] + l[c + 1..];
    forall x | x in s0 && x.timestamp <= now && x.period == 0
      ensures x in l'[c'..] || (Absent(l', x.id, x.value) && DeviceListener.Event(x.id, x.value) in raised')
    {
      if x !in l[c..] {
        assert !Matches(e, x.id, x.value);
      }
    }
    forall x | x in s0 && now < x.timestamp
      ensures x in l'[c'..]
    {
      assert x in rest[c..];
    }
  }

  /**
   * Raising a due repeating entry at the cursor and re-adding it one
   * period later lowers the load ahead of the cursor, which moves past the
   * re-added entry when it went in behind.
   */
  lemma {:induction false} RepeatLoad(l: seq<TimerEvent>, c: nat, now: u64)
    requires Ascending(l) && Unique(l) && c < |l| && l[c].timestamp <= now
    ensures var rest := l[..c] + l[c + 1..];
      var again := l[c].(timestamp := ToU64(l[c].timestamp + l[c].period));
      var c' := if FirstAtLeast(rest, again.timestamp) <= c then c + 1 else c;
      c' <= |Added(rest, again)| && Load(Added(rest, again)[c'..], now) < Load(l[c..], now)
  {
    var e := l[c];
    var rest := l[..c] + l[c + 1..];
    var again := e.(timestamp := ToU64(e.timestamp + e.period));
    var k := FirstAtLeast(rest, again.timestamp);
    var c' := if k <= c then c + 1 else c;
    var l' := Inserted(rest, again);
    assert |rest| == |l| - 1 && rest[c..] == l[c + 1..] && Absent(rest, e.id, e.value) &&
      Load(l[c..], now) == Weight(e, now) + Load(rest[c..], now) by {
      Unlink(l, c, now);
    }
    assert Added(rest, again) == l' by {
      AddedAbsent(rest, again);
    }
    assert c' <= |l'| && Load(l'[c'..], now) == Load(rest[c..], now) + (if k <= c then 0 else Weight(again, now)) by {
      Reinserted(rest, again, c, now);
    }
    if k > c {
      assert rest[c].timestamp < again.timestamp && rest[c] == l[c + 1];
    }
  }

  /**
   * Raising a due repeating entry at the cursor and re-adding it one
   * period later gives the list `l'` with the cursor at `c'`: past the
   * re-added entry when it went in behind. The pass invariant holds there
   * and the load ahead of the cursor is lower.
   */
  lemma {:induction false} RepeatStep(s0: seq<TimerEvent>, l: seq<TimerEvent>, c: nat, now: u64, raised: seq<DeviceListener.Event>)
      returns (l': seq<TimerEvent>, c': nat)
    requires PassInv(s0, l, c, now, raised) && c < |l| && l[c].timestamp <= now && l[c].period != 0
    ensures var rest := l[..c] + l[c + 1..];
      var again := l[c].(timestamp := ToU64(l[c].timestamp + l[c].period));
      l' == Added(rest, again) && c' == if FirstAtLeast(rest, again.timestamp) <= c then c + 1 else c
    ensures PassInv(s0, l', c', now, raised + [DeviceListener.Event(l[c].id, l[c].value)])
    ensures Load(l'[c'..], now) < Load(l[c..], now)
  {
    var e := l[c];
    var rest := l[..c] + l[c + 1..];
    var again := e.(timestamp := ToU64(e.timestamp + e.period));
    var k := FirstAtLeast(rest, again.timestamp);
    c' := if k <= c then c + 1 else c;
    l' := Inserted(rest, again);
    assert Ascending(rest) && Unique(rest) && |rest| == |l| - 1 && rest[c..] == l[c + 1..] &&
      Absent(rest, e.id, e.value) && (forall x :: x in rest ==> x in l) by {
      Unlink(l, c, now);
    }
    assert Added(rest, again) == l' by {
      AddedAbsent(rest, again);
    }
    assert Ascending(l') && Unique(l') by {
      InsertedAscending(rest, again);
      InsertedUnique(rest, again);
    }
    assert c' <= |l'| && (forall x :: x in l' ==> x in rest || x == again) &&
      (forall x :: x in rest[c..] ==> x in l'[c'..]) by {
      Reinserted(rest, again, c, now);
    }
    RepeatInv(s0, l, c, now, raised, rest, again, l', c');
    RepeatLoad(l, c, now);
  }

  /** When the pass stops, no entry ahead of the cursor is due, so every due one-shot entry has gone and been raised. */
  lemma {:induction false} PassDone(s0: seq<TimerEvent>, l: seq<TimerEvent>, c: nat, now: u64, raised: seq<DeviceListener.Event>)
    requires PassInv(s0, l, c, now, raised) && (c == |l| || l[c].timestamp > now)
    ensures forall x :: x in s0 && now < x.timestamp ==> x in l
    ensures forall x :: x in s0 && x.timestamp <= now && x.period == 0 ==>
      Absent(l, x.id, x.value) && DeviceListener.Event(x.id, x.value) in raised
  {
    assert forall i :: c <= i < |l| ==> l[c].timestamp <= l[i].timestamp;
  }

  /** What a pass of `processEvents` does: the events it raises, in order, and the list it leaves. */
  datatype Outcome = Outcome(raised: seq<DeviceListener.Event>, events: seq<TimerEvent>)

  /**
   * One turn of the loop on the due entry at the cursor `c`: the entry is
   * unlinked and, when it repeats, re-added one period later (the due time
   * wraps at 64 bits); the cursor moves to the entry that followed it, which
   * is one further on when the re-added entry went in behind.
   */
  function Turn(l: seq<TimerEvent>, c: nat): (seq<TimerEvent>, nat)
    requires c < |l|
  {
    var e := l[c];
    var rest := l[..c] + l[c + 1..];
    if e.period == 0 then (rest, c)
    else
      var again := e.(timestamp := ToU64(e.timestamp + e.period));
      (Added(rest, again), if FirstAtLeast(rest, again.timestamp) <= c then c + 1 else c)
  }

  /** A turn keeps the list ordered and free of duplicates, and lowers the load ahead of the cursor. */
  lemma {:induction false} TurnFacts(l: seq<TimerEvent>, c: nat, now: u64)
    requires Ascending(l) && Unique(l) && c < |l| && l[c].timestamp <= now
    ensures Turn(l, c).1 <= |Turn(l, c).0| && Ascending(Turn(l, c).0) && Unique(Turn(l, c).0)
    ensures Load(Turn(l, c).0[Turn(l, c).1..], now) < Load(l[c..], now)
  {
    var e := l[c];
    var rest := l[..c] + l[c + 1..];
    Unlink(l, c, now);
    if e.period != 0 {
      var again := e.(timestamp := ToU64(e.timestamp + e.period));
      RepeatLoad(l, c, now);
      AddedProperties(rest, again);
    }
  }

  /**
   * The pass from the cursor `c` with the time read as `now`: while the
   * entry at the cursor is due it is raised and the loop turns; the first
   * entry not yet due, or the end of the list, stops it.
   */
  ghost function Pass(l: seq<TimerEvent>, c: nat, now: u64): (o: Outcome)
    requires c <= |l| && Ascending(l) && Unique(l)
    ensures Ascending(o.events) && Unique(o.events)
    ensures |o.raised| == 0 <==> c == |l| || now < l[c].timestamp
    decreases Load(l[c..], now)
  {
    if c < |l| && l[c].timestamp <= now then
      TurnFacts(l, c, now);
      var t := Turn(l, c);
      var o := Pass(t.0, t.1, now);
      Outcome([DeviceListener.Event(l[c].id, l[c].value)] + o.raised, o.events)
    else Outcome([], l)
  }

  /** An entry behind the cursor's entry is still ahead of the cursor after the turn. */
  lemma {:induction false} TurnKeepsAhead(l: seq<TimerEvent>, c: nat, now: u64, x: TimerEvent)
    requires Ascending(l) && Unique(l) && c < |l| && x in l[c + 1..]
    ensures Turn(l, c).1 <= |Turn(l, c).0| && x in Turn(l, c).0[Turn(l, c).1..]
  {
    var e := l[c];
    var rest := l[..c] + l[c + 1..];
    Unlink(l, c, now);
    if e.period != 0 {
      var again := e.(timestamp := ToU64(e.timestamp + e.period));
      AddedAbsent(rest, again);
      Reinserted(rest, again, c, now);
    }
  }

  /**
   * A turn keeps every entry with another id and value, and re-adds the
   * entry at the cursor, when it repeats, with its id, value and period.
   */
  lemma {:induction false} TurnKeeps(l: seq<TimerEvent>, c: nat, y: TimerEvent)
    requires Unique(l) && c < |l| && y in l
    ensures !Matches(y, l[c].id, l[c].value) ==> y in Turn(l, c).0
    ensures y == l[c] && y.period != 0 ==> y.(timestamp := ToU64(y.timestamp + y.period)) in Turn(l, c).0
  {
    var e := l[c];
    var rest := l[..c] + l[c + 1..];
    var again := e.(timestamp := ToU64(e.timestamp + e.period));
    if !Matches(y, e.id, e.value) {
      var i :| 0 <= i < |l| && l[i] == y;
      assert y in rest by {
        if i < c { assert rest[i] == y; } else { assert rest[i - 1] == y; }
      }
    }
    if e.period != 0 {
      AddedProperties(rest, again);
    }
  }

  /** The pass at a due entry raises it and goes on from where the turn leaves the cursor. */
  lemma PassTurn(l: seq<TimerEvent>, c: nat, now: u64)
    requires Ascending(l) && Unique(l) && c < |l| && l[c].timestamp <= now
    ensures Turn(l, c).1 <= |Turn(l, c).0| && Ascending(Turn(l, c).0) && Unique(Turn(l, c).0)
    ensures var t := Turn(l, c);
      Pass(l, c, now) == Outcome([DeviceListener.Event(l[c].id, l[c].value)] + Pass(t.0, t.1, now).raised, Pass(t.0, t.1, now).events)
  {
    TurnFacts(l, c, now);
  }

  /** The pass raises nothing and leaves the list as it is once the entry at the cursor is not due. */
  lemma PassStops(l: seq<TimerEvent>, c: nat, now: u64)
    requires Ascending(l) && Unique(l) && c <= |l| && (c == |l| || now < l[c].timestamp)
    ensures Pass(l, c, now) == Outcome([], l)
  {
  }

  /**
   * Partway through the pass that started on `s0`, with `base` raised
   * before it: what is left of the pass from the cursor `c` completes it.
   */
  ghost predicate PassSoFar(s0: seq<TimerEvent>, base: seq<DeviceListener.Event>, l: seq<TimerEvent>, c: nat, now: u64,
                            fired: seq<DeviceListener.Event>)
  {
    Ascending(s0) && Unique(s0) && c <= |l| && Ascending(l) && Unique(l) &&
    base + Pass(s0, 0, now).raised == fired + Pass(l, c, now).raised &&
    Pass(s0, 0, now).events == Pass(l, c, now).events
  }

  /** A turn on a due entry, with that entry raised, keeps the pass on course. */
  lemma PassSoFarStep(s0: seq<TimerEvent>, base: seq<DeviceListener.Event>, l: seq<TimerEvent>, c: nat, now: u64,
                      fired: seq<DeviceListener.Event>)
    requires PassSoFar(s0, base, l, c, now, fired) && c < |l| && l[c].timestamp <= now
    ensures PassSoFar(s0, base, Turn(l, c).0, Turn(l, c).1, now, fired + [DeviceListener.Event(l[c].id, l[c].value)])
  {
    PassTurn(l, c, now);
  }

  /** Once the pass stops, the events raised and the list are those of the whole pass. */
  lemma PassSoFarDone(s0: seq<TimerEvent>, base: seq<DeviceListener.Event>, l: seq<TimerEvent>, c: nat, now: u64,
                      fired: seq<DeviceListener.Event>)
    requires PassSoFar(s0, base, l, c, now, fired) && (c == |l| || now < l[c].timestamp)
    ensures fired == base + Pass(s0, 0, now).raised && l == Pass(s0, 0, now).events
  {
    PassStops(l, c, now);
  }

  /** Every entry due ahead of the cursor is raised by the pass, one-shot or repeating. */
  lemma {:induction false} PassRaisesDue(l: seq<TimerEvent>, c: nat, now: u64, x: TimerEvent)
    requires c <= |l| && Ascending(l) && Unique(l) && x in l[c..] && x.timestamp <= now
    ensures DeviceListener.Event(x.id, x.value) in Pass(l, c, now).raised
    decreases Load(l[c..], now)
  {
    var i :| c <= i < |l| && l[i] == x;
    assert l[c].timestamp <= now;
    if l[c] != x {
      assert x in l[c + 1..];
      TurnFacts(l, c, now);
      TurnKeepsAhead(l, c, now, x);
      PassRaisesDue(Turn(l, c).0, Turn(l, c).1, now, x);
    }
  }

  /**
   * A repeating entry never leaves the list for good: after the pass an
   * entry with its id, value and period is still there.
   */
  lemma {:induction false} PassKeepsRepeating(l: seq<TimerEvent>, c: nat, now: u64, y: TimerEvent)
    requires c <= |l| && Ascending(l) && Unique(l) && y in l && y.period != 0
    ensures exists z :: z in Pass(l, c, now).events && Matches(z, y.id, y.value) && z.period == y.period
    decreases Load(l[c..], now)
  {
    if c < |l| && l[c].timestamp <= now {
      TurnFacts(l, c, now);
      TurnKeeps(l, c, y);
      var t := Turn(l, c);
      if Matches(y, l[c].id, l[c].value) {
        assert y == l[c];
        PassKeepsRepeating(t.0, t.1, now, y.(timestamp := ToU64(y.timestamp + y.period)));
      } else {
        PassKeepsRepeating(t.0, t.1, now, y);
      }
    } else {
      assert y in Pass(l, c, now).events;
    }
  }

  // ---------------------------------------------------------------------
  // The timer object.

  class Timer {
    const id: u16
    /** SYSTEM_CLOCK_INIT in `status`. */
    var initialised: bool
    /** current_time_us. */
    var currentTimeUs: u64
    /** overflow_period_us. */
    var overflowPeriodUs: u32
    /** event_list. */
    const eventList: EventList
    /** The events raised on the bus, oldest first. */
    var raised: seq<DeviceListener.Event>
    /** The delay last given to `timeout`, which calls `processEvents`. */
    var timeoutUs: Option<u64>
    /** The delay last given to `overflowTimeout`, which calls `timerOverflow`. */
    var overflowTimeoutUs: Option<u64>

    /** The event list is ordered by due time and holds one entry per id and value. */
    ghost predicate Valid()
      reads this, eventList
    {
      Ascending(eventList.events) && Unique(eventList.events)
    }

    constructor(id: u16)
      ensures Valid() && fresh(eventList) && eventList.events == []
      ensures this.id == id && !initialised && currentTimeUs == 0 && overflowPeriodUs == OVERFLOW_PERIOD_US
      ensures raised == [] && timeoutUs == None && overflowTimeoutUs == None
    {
      this.id := id;
      initialised := false;
      currentTimeUs := 0;
      eventList := new EventList();
      overflowPeriodUs := OVERFLOW_PERIOD_US;
      raised := [];
      timeoutUs := None;
      overflowTimeoutUs := None;
    }

    /** `getTimeUs`, with the hardware timer at `elapsedUs`. */
    function TimeUs(elapsedUs: u32): (t: u64)
      reads this
      ensures t == SystemClock.ClockTimeUs(currentTimeUs, elapsedUs)
    {
      SystemClock.ClockTimeUs(currentTimeUs, elapsedUs)
    }

    /** `getTime`: the time in milliseconds. */
    function Time(elapsedUs: u32): (ms: u64)
      reads this
      ensures ms == SystemClock.Millis(TimeUs(elapsedUs))
    {
      SystemClock.Millis(TimeUs(elapsedUs))
    }

    /** `init`: starts the clock and arms the overflow handler once; later calls change nothing. */
    method Init() returns (r: int)
      modifies this
      ensures r == DEVICE_OK && initialised
      ensures old(initialised) ==> unchanged(this)
      ensures !old(initialised) ==>
        overflowTimeoutUs == Some(overflowPeriodUs as u64) && overflowPeriodUs == old(overflowPeriodUs) &&
        currentTimeUs == old(currentTimeUs) && raised == old(raised) && timeoutUs == old(timeoutUs)
    {
      if initialised {
        return DEVICE_OK;
      }
      overflowTimeoutUs := Some(overflowPeriodUs as u64);
      initialised := true;
      r := DEVICE_OK;
    }

    /** `setTimeUs`. */
    method SetTimeUs(timestamp: u64) returns (r: int)
      modifies this`currentTimeUs
      ensures r == DEVICE_OK && currentTimeUs == timestamp && TimeUs(0) == timestamp
    {
      currentTimeUs := timestamp;
      r := DEVICE_OK;
    }

    /** `setTime`: milliseconds ×1000; with no time elapsed `getTime` gives back what was set. */
    method SetTime(timestamp: u64) returns (r: int)
      modifies this`currentTimeUs
      ensures r == DEVICE_OK && currentTimeUs == SystemClock.MillisToMicros(timestamp)
      ensures timestamp * SystemClock.MICROS_PER_MILLI < 0x1_0000_0000_0000_0000 ==> Time(0) == timestamp
    {
      r := SetTimeUs(SystemClock.MillisToMicros(timestamp));
    }

    /**
     * `processEvents`, one pass from START: raises the events that are
     * due, in list order, stopping at the first that is not; a one-shot
     * event leaves the list and a repeating one is re-added one period
     * later. Then the head decides between starting over, arming the
     * timeout and waiting for the overflow handler.
     */
    method ProcessEvents(elapsedUs: u32) returns (next: Next)
      requires Valid()
      modifies this`raised, this`timeoutUs, eventList
      ensures Valid() && old(raised) <= raised
      ensures old(|eventList.events|) == 0 ==>
        next == Idle && eventList.events == old(eventList.events) && raised == old(raised) && timeoutUs == old(timeoutUs)
      ensures old(|eventList.events|) > 0 ==> next == Decide(eventList.events, TimeUs(elapsedUs), overflowPeriodUs)
      ensures forall x :: x in old(eventList.events) && TimeUs(elapsedUs) < x.timestamp ==> x in eventList.events
      ensures forall x :: x in old(eventList.events) && x.timestamp <= TimeUs(elapsedUs) && x.period == 0 ==>
        Absent(eventList.events, x.id, x.value) && DeviceListener.Event(x.id, x.value) in raised
      ensures timeoutUs == if next.Attach? then Some(next.delayUs) else old(timeoutUs)
      ensures raised == old(raised) + Pass(old(eventList.events), 0, TimeUs(elapsedUs)).raised
      ensures eventList.events == Pass(old(eventList.events), 0, TimeUs(elapsedUs)).events
    {
      if |eventList.events| == 0 {
        return Idle;
      }
      var now := TimeUs(elapsedUs);
      RunPass(now);
      next := Decide(eventList.events, now, overflowPeriodUs);
      if next.Attach? {
        timeoutUs := Some(next.delayUs);
      }
    }

    /** The loop of `processEvents` over the list, with the time read as `now`. */
    method RunPass(now: u64)
      requires Valid()
      modifies this`raised, eventList
      ensures Valid() && old(raised) <= raised
      ensures forall x :: x in old(eventList.events) && now < x.timestamp ==> x in eventList.events
      ensures forall x :: x in old(eventList.events) && x.timestamp <= now && x.period == 0 ==>
        Absent(eventList.events, x.id, x.value) && DeviceListener.Event(x.id, x.value) in raised
      ensures raised == old(raised) + Pass(old(eventList.events), 0, now).raised
      ensures eventList.events == Pass(old(eventList.events), 0, now).events
    {
      ghost var s0 := eventList.events;
      var fired := raised;
      var c: nat := 0;
      while c < |eventList.events| && eventList.events[c].timestamp <= now
        invariant raised == old(raised) && c <= |eventList.events|
        invariant PassInv(s0, eventList.events, c, now, fired) && old(raised) <= fired
        invariant PassSoFar(s0, old(raised), eventList.events, c, now, fired)
        decreases Load(eventList.events[c..], now)
      {
        ghost var l, c0, fired0 := eventList.events, c, fired;
        c, fired := RaiseAt(c, now, s0, fired);
        PassSoFarStep(s0, old(raised), l, c0, now, fired0);
      }
      raised := fired;
      PassDone(s0, eventList.events, c, now, fired);
      PassSoFarDone(s0, old(raised), eventList.events, c, now, fired);
    }

    /**
     * One turn of the loop of `processEvents` with the cursor at a due
     * entry: the entry is raised and unlinked, and a repeating one is
     * re-added one period later; the cursor moves to the saved next entry.
     */
    method RaiseAt(c: nat, now: u64, ghost s0: seq<TimerEvent>, fired: seq<DeviceListener.Event>)
        returns (c': nat, fired': seq<DeviceListener.Event>)
      requires PassInv(s0, eventList.events, c, now, fired)
      requires c < |eventList.events| && eventList.events[c].timestamp <= now
      modifies eventList
      ensures PassInv(s0, eventList.events, c', now, fired') && fired <= fired'
      ensures Load(eventList.events[c'..], now) < old(Load(eventList.events[c..], now))
      ensures (eventList.events, c') == Turn(old(eventList.events), c)
      ensures fired' == fired + [DeviceListener.Event(old(eventList.events)[c].id, old(eventList.events)[c].value)]
    {
      var l := eventList.events;
      var e := l[c];
      var rest := l[..c] + l[c + 1..];
      fired' := fired + [DeviceListener.Event(e.id, e.value)];
      if e.period == 0 {
        OneShotStep(s0, l, c, now, fired);
        eventList.events := rest;
        c' := c;
      } else {
        ghost var l', c'' := RepeatStep(s0, l, c, now, fired);
        var again := e.(timestamp := ToU64(e.timestamp + e.period));
        var behind := FirstAtLeast(rest, again.timestamp) <= c;
        eventList.events := rest;
        eventList.AddToList(again);
        c' := if behind then c + 1 else c;
        assert eventList.events == l' && c' == c'';
      }
    }

    /** `timerOverflow`: the time advances by exactly one overflow period and the list is processed. */
    method TimerOverflow() returns (next: Next)
      requires Valid()
      modifies this`currentTimeUs, this`overflowTimeoutUs, this`raised, this`timeoutUs, eventList
      ensures Valid()
      ensures currentTimeUs == ToU64(old(currentTimeUs) + overflowPeriodUs)
      ensures overflowTimeoutUs == Some(overflowPeriodUs as u64)
      ensures old(|eventList.events|) > 0 ==> next == Decide(eventList.events, currentTimeUs, overflowPeriodUs)
      ensures forall x :: x in old(eventList.events) && x.timestamp <= currentTimeUs && x.period == 0 ==>
        Absent(eventList.events, x.id, x.value) && DeviceListener.Event(x.id, x.value) in raised
      ensures timeoutUs == if next.Attach? then Some(next.delayUs) else old(timeoutUs)
      ensures raised == old(raised) + Pass(old(eventList.events), 0, currentTimeUs).raised
      ensures eventList.events == Pass(old(eventList.events), 0, currentTimeUs).events
    {
      overflowTimeoutUs := Some(overflowPeriodUs as u64);
      currentTimeUs := ToU64(currentTimeUs + overflowPeriodUs);
      next := ProcessEvents(0);
    }

    /**
     * `configureEvent`: adds an event due `period` from now (repeating
     * with that period when asked), replacing any with the same id and
     * value; when it became the head and is due within one overflow period
     * the timeout is armed for it.
     */
    method ConfigureEvent(period: u64, id: u16, value: u16, repeating: bool, elapsedUs: u32) returns (r: int)
      requires Valid()
      modifies this`timeoutUs, eventList
      ensures Valid() && r == DEVICE_OK
      ensures var e := MakeEvent(ToU64(old(TimeUs(elapsedUs)) + period), period, id, value, repeating);
        eventList.events == Added(old(eventList.events), e) &&
        timeoutUs == if eventList.events[0] == e && period < overflowPeriodUs as u64 then Some(period) else old(timeoutUs)
    {
      var timestamp := ToU64(TimeUs(elapsedUs) + period);
      AddedProperties(eventList.events, MakeEvent(timestamp, period, id, value, repeating));
      var clk := eventList.NewEvent(timestamp, period, id, value, repeating);
      assert clk in eventList.events;
      if eventList.events[0] == clk && period < overflowPeriodUs as u64 {
        timeoutUs := Some(period);
      }
      r := DEVICE_OK;
    }

    /** `eventAfterUs`: a one-shot event `interval` microseconds from now. */
    method EventAfterUs(interval: u64, id: u16, value: u16, elapsedUs: u32) returns (r: int)
      requires Valid()
      modifies this`timeoutUs, eventList
      ensures Valid() && r == DEVICE_OK
      ensures eventList.events == Added(old(eventList.events), TimerEvent(id, value, 0, ToU64(old(TimeUs(elapsedUs)) + interval)))
    {
      r := ConfigureEvent(interval, id, value, false, elapsedUs);
    }

    /** `eventAfter`: a one-shot event `interval` milliseconds from now. */
    method EventAfter(interval: u64, id: u16, value: u16, elapsedUs: u32) returns (r: int)
      requires Valid()
      modifies this`timeoutUs, eventList
      ensures Valid() && r == DEVICE_OK
      ensures eventList.events ==
        Added(old(eventList.events), TimerEvent(id, value, 0, ToU64(old(TimeUs(elapsedUs)) + SystemClock.MillisToMicros(interval))))
    {
      r := EventAfterUs(SystemClock.MillisToMicros(interval), id, value, elapsedUs);
    }

    /** `eventEveryUs`: a repeating event every `period` microseconds, first due one period from now. */
    method EventEveryUs(period: u64, id: u16, value: u16, elapsedUs: u32) returns (r: int)
      requires Valid()
      modifies this`timeoutUs, eventList
      ensures Valid() && r == DEVICE_OK
      ensures eventList.events == Added(old(eventList.events), TimerEvent(id, value, period, ToU64(old(TimeUs(elapsedUs)) + period)))
    {
      r := ConfigureEvent(period, id, value, true, elapsedUs);
    }

    /** `eventEvery`: a repeating event every `period` milliseconds. */
    method EventEvery(period: u64, id: u16, value: u16, elapsedUs: u32) returns (r: int)
      requires Valid()
      modifies this`timeoutUs, eventList
      ensures Valid() && r == DEVICE_OK
      ensures var us := SystemClock.MillisToMicros(period);
        eventList.events == Added(old(eventList.events), TimerEvent(id, value, us, ToU64(old(TimeUs(elapsedUs)) + us)))
    {
      r := EventEveryUs(SystemClock.MillisToMicros(period), id, value, elapsedUs);
    }

    /** `cancel`: every pending event with this id and value is removed, and no other. */
    method Cancel(id: u16, value: u16) returns (r: int)
      requires Valid()
      modifies eventList
      ensures Valid() && r == DEVICE_OK
      ensures eventList.events == Removed(old(eventList.events), id, value)
      ensures Absent(eventList.events, id, value)
      ensures forall x :: x in old(eventList.events) && !Matches(x, id, value) ==> x in eventList.events
    {
      RemovedAscending(eventList.events, id, value);
      RemovedUnique(eventList.events, id, value);
      RemovedContents(eventList.events, id, value);
      eventList.RemoveFromList(id, value);
      r := DEVICE_OK;
    }
  }
}

=== FILE: message_bus.dfy ===
/**
 * source/drivers/DeviceMessageBus.cpp: CODAL's event bus. Listeners are
 * kept in a list ordered by (id, value); events sent to the bus wait in a
 * FIFO queue of bounded length and are delivered from the scheduler's idle
 * callback to every listener whose id and value match, ANY acting as a
 * wildcard. Removing a listener only marks it; marked listeners are
 * unlinked later, when none of their handlers is running.
 *
 * Listeners are objects, as on the device; the `next` links of the list
 * and of the event queue are represented by sequence order. Handlers are
 * code outside the model: delivering an event is recorded as the listener
 * being activated with that event, and `AsyncCallback` gives the sequence
 * of events a handler is called with.
 */
module DeviceMessageBus {
  import opened CTypes
  import opened ErrorNo
  import opened Wrappers
  import opened DeviceListener
  import opened EventModel
  import opened DeviceComponent

  /** DEVICE_SCHEDULER_EVT_IDLE (DeviceFiber.h). */
  const DEVICE_SCHEDULER_EVT_IDLE: u16 := 2

  /** Listeners are ordered by id, then by value. */
  predicate KeyLe(a: Listener, b: Listener)
  {
    a.id < b.id || (a.id == b.id && a.value <= b.value)
  }

  /** The key of `l` is strictly below (id, value). */
  predicate Below(l: Listener, id: u16, value: u16)
  {
    l.id < id || (l.id == id && l.value < value)
  }

  predicate Sorted(ls: seq<Listener>)
  {
    forall i, j :: 0 <= i < j < |ls| ==> KeyLe(ls[i], ls[j])
  }

  predicate Distinct(ls: seq<Listener>)
  {
    forall i, j :: 0 <= i < j < |ls| ==> ls[i] != ls[j]
  }

  /** `add`'s test for a listener that would capture the same events with the same handler. */
  predicate SameRegistration(l: Listener, id: u16, value: u16, h: Handler)
  {
    l.id == id && l.value == value && l.handler == h
  }

  /** The first listener registered with this id, value and handler, or -1. */
  function FirstDuplicate(ls: seq<Listener>, id: u16, value: u16, h: Handler, from: nat): (k: int)
    requires from <= |ls|
    ensures k == -1 || from <= k < |ls|
    ensures k >= 0 ==> SameRegistration(ls[k], id, value, h)
    ensures k >= 0 ==> forall j :: from <= j < k ==> !SameRegistration(ls[j], id, value, h)
    ensures k == -1 ==> forall j :: from <= j < |ls| ==> !SameRegistration(ls[j], id, value, h)
    decreases |ls| - from
  {
    if from == |ls| then -1
    else if SameRegistration(ls[from], id, value, h) then from
    else FirstDuplicate(ls, id, value, h, from + 1)
  }

  /** The first listener at or after `from` whose key is not below (id, value). */
  function FirstNotBelow(ls: seq<Listener>, id: u16, value: u16, from: nat): (i: nat)
    requires from <= |ls|
    ensures from <= i <= |ls|
    ensures forall j :: from <= j < i ==> Below(ls[j], id, value)
    ensures i < |ls| ==> !Below(ls[i], id, value)
    decreases |ls| - from
  {
    if from == |ls| || !Below(ls[from], id, value) then from
    else FirstNotBelow(ls, id, value, from + 1)
  }

  /**
   * Where `add` links a new listener: before the first listener whose key
   * is not below the new one, except that a head with an equal key stays
   * the head and the new listener goes second.
   */
  function InsertPosition(ls: seq<Listener>, id: u16, value: u16): (pos: nat)
    ensures pos <= |ls|
    ensures forall j :: 0 <= j < pos ==> ls[j].id < id || (ls[j].id == id && ls[j].value <= value)
    ensures Sorted(ls) ==> forall j :: pos <= j < |ls| ==> id < ls[j].id || (id == ls[j].id && value <= ls[j].value)
  {
    var i := FirstNotBelow(ls, id, value, 0);
    if i == 0 && |ls| > 0 && ls[0].id == id && ls[0].value == value then 1 else i
  }

  /** The list with `nl` linked at its insert position: taking it out again gives back the list. */
  function Inserted(ls: seq<Listener>, nl: Listener): (r: seq<Listener>)
    ensures |r| == |ls| + 1
    ensures var pos := InsertPosition(ls, nl.id, nl.value); r[pos] == nl && r[..pos] + r[pos + 1..] == ls
  {
    var pos := InsertPosition(ls, nl.id, nl.value);
    assert (ls[..pos] + [nl] + ls[pos..])[pos + 1..] == ls[pos..];
    ls[..pos] + [nl] + ls[pos..]
  }

  /** Linking adds `nl` and keeps every listener already there. */
  lemma InsertedMembers(ls: seq<Listener>, nl: Listener)
    ensures nl in Inserted(ls, nl)
    ensures forall x :: x in Inserted(ls, nl) <==> x == nl || x in ls
  {
    var pos := InsertPosition(ls, nl.id, nl.value);
    var r := Inserted(ls, nl);
    assert r == r[..pos] + [nl] + r[pos + 1..];
  }

  /** Each entry of the linked list: the listeners before the position, `nl`, then the rest shifted by one. */
  lemma InsertedAt(ls: seq<Listener>, nl: Listener, k: nat)
    requires k <= |ls|
    ensures var pos := InsertPosition(ls, nl.id, nl.value);
      Inserted(ls, nl)[k] == if k < pos then ls[k] else if k == pos then nl else ls[k - 1]
  {
    var pos := InsertPosition(ls, nl.id, nl.value);
    assert Inserted(ls, nl) == ls[..pos] + [nl] + ls[pos..];
  }

  /** Linking a new listener at its position keeps the list ordered and free of repeats. */
  lemma InsertedSorted(ls: seq<Listener>, nl: Listener)
    requires Sorted(ls) && Distinct(ls) && nl !in ls
    ensures Sorted(Inserted(ls, nl)) && Distinct(Inserted(ls, nl))
  {
    var pos := InsertPosition(ls, nl.id, nl.value);
    var r := Inserted(ls, nl);
    forall i, j | 0 <= i < j < |r|
      ensures KeyLe(r[i], r[j]) && r[i] != r[j]
    {
      InsertedAt(ls, nl, i);
      InsertedAt(ls, nl, j);
    }
  }

  lemma ClearingAbsentBit(f: bv16, bit: bv16)
    requires f & bit == 0
    ensures f & !bit == f
  {
  }

  /** `remove`'s test: the same handler, and the pattern's id and value match or are ANY. */
  predicate Cancels(id: u16, value: u16, h: Handler, l: Listener)
  {
    l.handler == h && (id == DEVICE_ID_ANY || id == l.id) && (value == DEVICE_EVT_ANY || value == l.value)
  }

  /** The flags of each listener, in list order. */
  function FlagsOf(ls: seq<Listener>): (fs: seq<bv16>)
    reads set l | l in ls
    ensures |fs| == |ls|
    ensures forall k :: 0 <= k < |ls| ==> fs[k] == ls[k].flags
  {
    seq(|ls|, k reads ls requires 0 <= k < |ls| => ls[k].flags)
  }

  /** Marked for deletion and not running: `deleteMarkedListeners` unlinks it. */
  predicate Doomed(flags: bv16)
  {
    flags & MESSAGE_BUS_LISTENER_DELETING != 0 && flags & MESSAGE_BUS_LISTENER_BUSY == 0
  }

  /** The listeners that stay, in their order, given each listener's flags. */
  function Survivors(ls: seq<Listener>, fs: seq<bv16>): (r: seq<Listener>)
    requires |fs| == |ls|
    ensures |r| <= |ls|
  {
    if ls == [] then []
    else
      var n := |ls| - 1;
      Survivors(ls[..n], fs[..n]) + (if Doomed(fs[n]) then [] else [ls[n]])
  }

  /** Only listeners of the list survive. */
  lemma {:induction false} SurvivorsSubset(ls: seq<Listener>, fs: seq<bv16>)
    requires |fs| == |ls|
    ensures forall k :: 0 <= k < |Survivors(ls, fs)| ==> Survivors(ls, fs)[k] in ls
    decreases |ls|
  {
    if ls != [] {
      var n := |ls| - 1;
      SurvivorsSubset(ls[..n], fs[..n]);
      assert forall x :: x in ls[..n] ==> x in ls;
    }
  }

  /** In a list without repeats, exactly the doomed listeners are gone. */
  lemma {:induction false} SurvivorsExact(ls: seq<Listener>, fs: seq<bv16>, k: int)
    requires |fs| == |ls| && Distinct(ls) && 0 <= k < |ls|
    ensures ls[k] in Survivors(ls, fs) <==> !Doomed(fs[k])
    decreases |ls|
  {
    var n := |ls| - 1;
    SurvivorsSubset(ls[..n], fs[..n]);
    if k < n {
      SurvivorsExact(ls[..n], fs[..n], k);
      assert ls[..n][k] == ls[k] != ls[n];
    } else {
      assert ls[n] !in ls[..n];
    }
  }

  /** Unlinking keeps the survivors in order, so the list stays ordered and free of repeats. */
  lemma {:induction false} SurvivorsSorted(ls: seq<Listener>, fs: seq<bv16>)
    requires |fs| == |ls| && Sorted(ls) && Distinct(ls)
    ensures Sorted(Survivors(ls, fs)) && Distinct(Survivors(ls, fs))
    decreases |ls|
  {
    if ls != [] {
      var n := |ls| - 1;
      SurvivorsSorted(ls[..n], fs[..n]);
      var s := Survivors(ls[..n], fs[..n]);
      SurvivorsSubset(ls[..n], fs[..n]);
      forall x | x in s
        ensures KeyLe(x, ls[n]) && x != ls[n]
      {
        var i :| 0 <= i < n && ls[..n][i] == x;
        assert ls[i] == x;
      }
    }
  }

  /** The listener wants events of this source and value. */
  predicate Receives(l: Listener, e: Event)
  {
    (l.id == e.source || l.id == DEVICE_ID_ANY) && (l.value == e.value || l.value == DEVICE_EVT_ANY)
  }

  /** The pass a listener belongs to: the urgent one when the scheduler is not running, else as its IMMEDIATE flags say. */
  predicate Urgent(flags: bv16, schedulerRunning: bool)
  {
    !schedulerRunning || flags & MESSAGE_BUS_LISTENER_IMMEDIATE == MESSAGE_BUS_LISTENER_IMMEDIATE
  }

  /** `process` activates the listener, whose flags are given, in this pass. */
  predicate Activates(l: Listener, flags: bv16, e: Event, urgent: bool, schedulerRunning: bool)
  {
    Receives(l, e) && Urgent(flags, schedulerRunning) == urgent && flags & MESSAGE_BUS_LISTENER_DELETING == 0
  }

  /** The listeners a pass activates, in list order. */
  function Activated(ls: seq<Listener>, fs: seq<bv16>, e: Event, urgent: bool, schedulerRunning: bool): (r: seq<Listener>)
    requires |fs| == |ls|
    ensures |r| <= |ls|
  {
    if ls == [] then []
    else
      var n := |ls| - 1;
      Activated(ls[..n], fs[..n], e, urgent, schedulerRunning) +
        (if Activates(ls[n], fs[n], e, urgent, schedulerRunning) then [ls[n]] else [])
  }

  /** Only listeners of the list are activated. */
  lemma {:induction false} ActivatedSubset(ls: seq<Listener>, fs: seq<bv16>, e: Event, urgent: bool, schedulerRunning: bool)
    requires |fs| == |ls|
    ensures forall x :: x in Activated(ls, fs, e, urgent, schedulerRunning) ==> x in ls
    decreases |ls|
  {
    if ls != [] {
      var n := |ls| - 1;
      ActivatedSubset(ls[..n], fs[..n], e, urgent, schedulerRunning);
      assert forall x :: x in ls[..n] ==> x in ls;
    }
  }

  /** In a list without repeats, a listener is activated exactly when it receives the event in this pass. */
  lemma {:induction false} ActivatedExact(ls: seq<Listener>, fs: seq<bv16>, e: Event, urgent: bool, schedulerRunning: bool, k: int)
    requires |fs| == |ls| && Distinct(ls) && 0 <= k < |ls|
    ensures ls[k] in Activated(ls, fs, e, urgent, schedulerRunning) <==> Activates(ls[k], fs[k], e, urgent, schedulerRunning)
    decreases |ls|
  {
    var n := |ls| - 1;
    ActivatedSubset(ls[..n], fs[..n], e, urgent, schedulerRunning);
    if k < n {
      ActivatedExact(ls[..n], fs[..n], e, urgent, schedulerRunning, k);
      assert ls[..n][k] == ls[k] != ls[n];
    } else {
      assert ls[n] !in ls[..n];
    }
  }

  /** `process` returns 1: every listener that receives the event was activated in this pass. */
  predicate Complete(ls: seq<Listener>, fs: seq<bv16>, e: Event, urgent: bool, schedulerRunning: bool)
    requires |fs| == |ls|
  {
    forall k :: 0 <= k < |ls| && Receives(ls[k], e) ==> Activates(ls[k], fs[k], e, urgent, schedulerRunning)
  }

  /** One more listener in a pass. */
  lemma PassStep(ls: seq<Listener>, fs: seq<bv16>, i: int, e: Event, urgent: bool, schedulerRunning: bool)
    requires |fs| == |ls| && 0 <= i < |ls|
    ensures Activated(ls[..i + 1], fs[..i + 1], e, urgent, schedulerRunning) ==
      Activated(ls[..i], fs[..i], e, urgent, schedulerRunning) +
        (if Activates(ls[i], fs[i], e, urgent, schedulerRunning) then [ls[i]] else [])
    ensures Complete(ls[..i + 1], fs[..i + 1], e, urgent, schedulerRunning) ==
      (Complete(ls[..i], fs[..i], e, urgent, schedulerRunning) &&
       (Receives(ls[i], e) ==> Activates(ls[i], fs[i], e, urgent, schedulerRunning)))
  {
    assert ls[..i + 1][..i] == ls[..i] && fs[..i + 1][..i] == fs[..i];
  }

  /**
   * Between the urgent pass and the normal pass, every listener that
   * receives an event and is not marked for deletion is activated exactly
   * once; without the scheduler every such listener is urgent.
   */
  lemma PassesPartition(l: Listener, flags: bv16, e: Event, schedulerRunning: bool)
    requires Receives(l, e) && flags & MESSAGE_BUS_LISTENER_DELETING == 0
    ensures Activates(l, flags, e, true, schedulerRunning) != Activates(l, flags, e, false, schedulerRunning)
    ensures !schedulerRunning ==> Activates(l, flags, e, true, schedulerRunning)
  {
  }

  /** The number of events idle handles: all of them, or up to the one after which there is work to run. */
  function IdleCount(queued: nat, stopAfter: nat): (n: nat)
    ensures n <= queued
    ensures queued > 0 ==> n >= 1
  {
    if stopAfter == 0 || stopAfter > queued then queued else stopAfter
  }

  /** Where idle stops: after the whole queue, or after exactly `stopAfter` events. */
  lemma IdleSplit(q0: seq<Event>, delivered: seq<Event>, rest: seq<Event>, stopAfter: nat)
    requires delivered + rest == q0
    requires (rest == [] && (stopAfter == 0 || |delivered| <= stopAfter)) || (stopAfter > 0 && |delivered| == stopAfter)
    ensures delivered == q0[..IdleCount(|q0|, stopAfter)] && rest == q0[IdleCount(|q0|, stopAfter)..]
  {
    assert q0[..|delivered|] == delivered && q0[|delivered|..] == rest;
  }

  class MessageBus {
    /** The listener list, in list order. */
    var listeners: seq<Listener>
    /** The event queue from `evt_queue_head` to `evt_queue_tail`. */
    var queue: seq<Event>
    var queueLength: int

    ghost predicate Valid()
      reads this
    {
      Sorted(listeners) && Distinct(listeners) &&
      queueLength == |queue| <= MESSAGE_BUS_LISTENER_MAX_QUEUE_DEPTH
    }

    /**
     * The constructor: empty list and queue, then the bus registers its own
     * idle handler for the scheduler's idle event, and becomes the default
     * bus if there is none. `self` and `idle` stand for the bus object and
     * its member function.
     */
    constructor(registry: DefaultEventBus, self: nat, idle: nat)
      requires self != 0 && idle != 0
      modifies registry
      ensures Valid() && queue == []
      ensures |listeners| == 1 && fresh(listeners[0])
      ensures listeners[0].id == DEVICE_ID_SCHEDULER && listeners[0].value == DEVICE_SCHEDULER_EVT_IDLE
      ensures listeners[0].handler == Member(self, idle)
      ensures listeners[0].flags == MESSAGE_BUS_LISTENER_IMMEDIATE | MESSAGE_BUS_LISTENER_METHOD
      ensures registry.bus == (if old(registry.bus) == null then this else old(registry.bus))
    {
      listeners := [];
      queue := [];
      queueLength := 0;
      new;
      var r := ListenMember(DEVICE_ID_SCHEDULER, DEVICE_SCHEDULER_EVT_IDLE, self, idle, MESSAGE_BUS_LISTENER_IMMEDIATE);
      if registry.bus == null {
        registry.bus := this;
      }
    }

    /**
     * `add`: INVALID_PARAMETER for NULL. A listener already registered with
     * the same id, value and handler is not added again: that entry loses
     * its DELETING mark and NOT_SUPPORTED is returned. Otherwise the new
     * listener is linked at its place in the (id, value) order and an
     * announcement event (DEVICE_ID_MESSAGE_BUS_LISTENER, id) is raised.
     */
    method Add(nl: Listener?) returns (r: int, announced: Option<Event>)
      requires Valid()
      modifies this, listeners
      ensures Valid() && queue == old(queue)
      ensures nl == null ==> r == DEVICE_INVALID_PARAMETER && announced == None && listeners == old(listeners)
      ensures forall j :: (0 <= j < |old(listeners)| &&
                          (nl == null || j != FirstDuplicate(old(listeners), nl.id, nl.value, nl.handler, 0))) ==>
        unchanged(old(listeners)[j])
      ensures nl != null && FirstDuplicate(old(listeners), nl.id, nl.value, nl.handler, 0) >= 0 ==>
        (var k := FirstDuplicate(old(listeners), nl.id, nl.value, nl.handler, 0);
         r == DEVICE_NOT_SUPPORTED && announced == None && listeners == old(listeners) &&
         listeners[k].flags == old(listeners[k].flags) & !MESSAGE_BUS_LISTENER_DELETING &&
         listeners[k].evt == old(listeners[k].evt) && listeners[k].evtQueue == old(listeners[k].evtQueue))
      ensures nl != null && FirstDuplicate(old(listeners), nl.id, nl.value, nl.handler, 0) == -1 ==>
        (r == DEVICE_OK && announced == Some(Event(DEVICE_ID_MESSAGE_BUS_LISTENER, nl.id)) &&
         listeners == Inserted(old(listeners), nl))
    {
      if nl == null {
        return DEVICE_INVALID_PARAMETER, None;
      }
      var k := FindDuplicate(nl.id, nl.value, nl.handler);
      if k >= 0 {
        Resurrect(listeners[k]);
        return DEVICE_NOT_SUPPORTED, None;
      }
      Link(nl);
      r := DEVICE_OK;
      announced := Some(Event(DEVICE_ID_MESSAGE_BUS_LISTENER, nl.id));
    }

    /** A listener found registered again loses its DELETING mark. */
    static method Resurrect(l: Listener)
      modifies l`flags
      ensures l.flags == old(l.flags) & !MESSAGE_BUS_LISTENER_DELETING
    {
      if l.flags & MESSAGE_BUS_LISTENER_DELETING != 0 {
        l.flags := l.flags & !MESSAGE_BUS_LISTENER_DELETING;
      } else {
        ClearingAbsentBit(l.flags, MESSAGE_BUS_LISTENER_DELETING);
      }
    }

    /** The new listener becomes the whole list, or is linked at its place by `FindPlace`. */
    method Link(nl: Listener)
      requires Valid() && FirstDuplicate(listeners, nl.id, nl.value, nl.handler, 0) == -1
      modifies this
      ensures Valid() && queue == old(queue)
      ensures listeners == Inserted(old(listeners), nl)
    {
      assert nl !in listeners;
      InsertedSorted(listeners, nl);
      if |listeners| == 0 {
        listeners := [nl];
        return;
      }
      var pos := FindPlace(nl.id, nl.value);
      listeners := listeners[..pos] + [nl] + listeners[pos..];
    }

    /**
     * The first walk of `add`: a listener with the same id and value and
     * the same handler (for two member callbacks the same object and
     * method, otherwise the same function address).
     */
    method FindDuplicate(id: u16, value: u16, h: Handler) returns (k: int)
      ensures k == FirstDuplicate(listeners, id, value, h, 0)
    {
      var i := 0;
      while i < |listeners|
        invariant 0 <= i <= |listeners|
        invariant FirstDuplicate(listeners, id, value, h, 0) == FirstDuplicate(listeners, id, value, h, i)
      {
        var l := listeners[i];
        if l.id == id && l.value == value && l.handler == h {
          return i;
        }
        i := i + 1;
      }
      k := -1;
    }

    /** The two walks of `add` and its choice between the front of the list and the place after `p`. */
    method FindPlace(id: u16, value: u16) returns (pos: nat)
      requires Valid() && |listeners| > 0
      ensures pos == InsertPosition(listeners, id, value)
    {
      var p := 0;
      var l := 0;
      while l < |listeners| && listeners[l].id < id
        invariant 0 <= l <= |listeners| && p == (if l == 0 then 0 else l - 1)
        invariant forall j :: 0 <= j < l ==> Below(listeners[j], id, value)
      {
        p := l;
        l := l + 1;
      }
      while l < |listeners| && listeners[l].id == id && listeners[l].value < value
        invariant 0 <= l <= |listeners| && p == (if l == 0 then 0 else l - 1)
        invariant forall j :: 0 <= j < l ==> Below(listeners[j], id, value)
        invariant l < |listeners| ==> listeners[l].id >= id
      {
        p := l;
        l := l + 1;
      }
      var first := FirstNotBelow(listeners, id, value, 0);
      assert l == first;
      if p == 0 && (id < listeners[p].id || (listeners[p].id == id && listeners[p].value > value)) {
        pos := 0;
      } else {
        pos := p + 1;
      }
    }

    /**
     * `remove`: never unlinks. Every listener with the same handler whose
     * id and value match the argument's (ANY in the argument matching all)
     * is marked DELETING; OK if at least one was, INVALID_PARAMETER if none
     * was or the argument is NULL.
     */
    method Remove(pattern: Listener?) returns (r: int)
      requires Valid()
      modifies listeners
      ensures forall k :: 0 <= k < |listeners| ==>
        listeners[k].evt == old(listeners[k].evt) && listeners[k].evtQueue == old(listeners[k].evtQueue)
      ensures pattern == null ==>
        (r == DEVICE_INVALID_PARAMETER && forall k :: 0 <= k < |listeners| ==> listeners[k].flags == old(listeners[k].flags))
      ensures pattern != null ==>
        forall k :: 0 <= k < |listeners| ==>
          listeners[k].flags ==
            (if Cancels(pattern.id, pattern.value, pattern.handler, listeners[k])
             then old(listeners[k].flags) | MESSAGE_BUS_LISTENER_DELETING
             else old(listeners[k].flags))
      ensures pattern != null ==>
        (r == DEVICE_OK <==>
           exists k :: 0 <= k < |listeners| && Cancels(pattern.id, pattern.value, pattern.handler, listeners[k]))
      ensures r == DEVICE_OK || r == DEVICE_INVALID_PARAMETER
    {
      if pattern == null {
        return DEVICE_INVALID_PARAMETER;
      }
      var removed := 0;
      var i := 0;
      while i < |listeners|
        invariant 0 <= i <= |listeners|
        invariant forall k :: 0 <= k < |listeners| ==>
          listeners[k].evt == old(listeners[k].evt) && listeners[k].evtQueue == old(listeners[k].evtQueue)
        invariant forall k :: 0 <= k < |listeners| ==>
          listeners[k].flags ==
            (if k < i && Cancels(pattern.id, pattern.value, pattern.handler, listeners[k])
             then old(listeners[k].flags) | MESSAGE_BUS_LISTENER_DELETING
             else old(listeners[k].flags))
        invariant removed > 0 <==>
          exists k :: 0 <= k < i && Cancels(pattern.id, pattern.value, pattern.handler, listeners[k])
      {
        var hit := Cancel(listeners[i], pattern.id, pattern.value, pattern.handler);
        if hit {
          removed := removed + 1;
        }
        i := i + 1;
      }
      r := if removed > 0 then DEVICE_OK else DEVICE_INVALID_PARAMETER;
    }

    /** One listener in `remove`: marked DELETING when it has the handler and its id and value match. */
    static method Cancel(l: Listener, id: u16, value: u16, h: Handler) returns (hit: bool)
      modifies l`flags
      ensures hit == Cancels(id, value, h, l)
      ensures l.flags == (if hit then old(l.flags) | MESSAGE_BUS_LISTENER_DELETING else old(l.flags))
    {
      hit := false;
      if l.handler == h {
        if (id == DEVICE_ID_ANY || id == l.id) && (value == DEVICE_EVT_ANY || value == l.value) {
          l.flags := l.flags | MESSAGE_BUS_LISTENER_DELETING;
          hit := true;
        }
      }
    }

    /** `deleteMarkedListeners`: unlinks exactly the marked listeners that are not busy and returns how many. */
    method DeleteMarkedListeners() returns (removed: int)
      requires Valid()
      modifies this
      ensures Valid() && queue == old(queue)
      ensures listeners == Survivors(old(listeners), old(FlagsOf(listeners)))
      ensures removed == |old(listeners)| - |listeners|
    {
      ghost var fs := FlagsOf(listeners);
      SurvivorsSorted(listeners, fs);
      var kept: seq<Listener> := [];
      removed := 0;
      var i := 0;
      while i < |listeners|
        invariant 0 <= i <= |listeners|
        invariant kept == Survivors(listeners[..i], fs[..i])
        invariant removed == i - |kept|
      {
        assert listeners[..i + 1][..i] == listeners[..i] && fs[..i + 1][..i] == fs[..i];
        var l := listeners[i];
        if l.flags & MESSAGE_BUS_LISTENER_DELETING != 0 && l.flags & MESSAGE_BUS_LISTENER_BUSY == 0 {
          removed := removed + 1;
        } else {
          kept := kept + [l];
        }
        i := i + 1;
      }
      assert listeners[..i] == listeners && fs[..i] == fs;
      listeners := kept;
    }

    /**
     * `process`: walks the list; each listener that receives the event and
     * belongs to this pass, and is not marked for deletion, is given the
     * event and activated. Returns 1 when no receiving listener was left
     * for another pass, 0 otherwise.
     */
    method Process(e: Event, urgent: bool, schedulerRunning: bool) returns (complete: int, activated: seq<Listener>)
      modifies listeners`evt
      ensures activated == Activated(listeners, old(FlagsOf(listeners)), e, urgent, schedulerRunning)
      ensures complete == (if Complete(listeners, old(FlagsOf(listeners)), e, urgent, schedulerRunning) then 1 else 0)
      ensures forall x :: x in activated ==> x.evt == e
      ensures forall x :: x in listeners && x !in activated ==> x.evt == old(x.evt)
    {
      ghost var ls, fs := listeners, FlagsOf(listeners);
      complete := 1;
      activated := [];
      var i := 0;
      while i < |listeners|
        invariant 0 <= i <= |ls| && listeners == ls
        invariant forall k :: 0 <= k < |ls| ==> ls[k].flags == fs[k]
        invariant activated == Activated(ls[..i], fs[..i], e, urgent, schedulerRunning)
        invariant complete == (if Complete(ls[..i], fs[..i], e, urgent, schedulerRunning) then 1 else 0)
        invariant forall x :: x in activated ==> x.evt == e
        invariant forall x :: x in ls && x !in activated ==> x.evt == old(x.evt)
      {
        PassStep(ls, fs, i, e, urgent, schedulerRunning);
        var l := listeners[i];
        var activates, missed := Visit(l, e, urgent, schedulerRunning);
        if activates {
          activated := activated + [l];
        }
        if missed {
          complete := 0;
        }
        i := i + 1;
      }
      assert ls[..i] == ls && fs[..i] == fs;
    }

    /** One listener in `process`: given the event and activated when it receives it in this pass; `missed` when it receives it but belongs to another pass or is marked for deletion. */
    static method Visit(l: Listener, e: Event, urgent: bool, schedulerRunning: bool) returns (activates: bool, missed: bool)
      modifies l`evt
      ensures activates == Activates(l, l.flags, e, urgent, schedulerRunning)
      ensures missed == (Receives(l, e) && !activates)
      ensures l.evt == (if activates then e else old(l.evt))
    {
      activates := false;
      missed := false;
      if Receives(l, e) {
        if Urgent(l.flags, schedulerRunning) == urgent && l.flags & MESSAGE_BUS_LISTENER_DELETING == 0 {
          l.evt := e;
          activates := true;
        } else {
          missed := true;
        }
      }
    }

    /**
     * `queueEvent`: the urgent pass runs first; if it handled every
     * receiving listener nothing is queued, and neither is anything when
     * the queue is at its maximum length. Otherwise the event joins the
     * tail of the queue.
     */
    method QueueEvent(e: Event, schedulerRunning: bool) returns (activated: seq<Listener>)
      requires Valid()
      modifies this, listeners`evt
      ensures Valid() && listeners == old(listeners)
      ensures activated == Activated(listeners, old(FlagsOf(listeners)), e, true, schedulerRunning)
      ensures queue ==
        (if Complete(listeners, old(FlagsOf(listeners)), e, true, schedulerRunning) ||
            |old(queue)| >= MESSAGE_BUS_LISTENER_MAX_QUEUE_DEPTH
         then old(queue) else old(queue) + [e])
    {
      var complete;
      complete, activated := Process(e, true, schedulerRunning);
      if complete == 1 {
        return;
      }
      if queueLength >= MESSAGE_BUS_LISTENER_MAX_QUEUE_DEPTH {
        return;
      }
      queue := queue + [e];
      queueLength := queueLength + 1;
    }

    /** `dequeueEvent`: the head of the queue, or nothing when it is empty. */
    method DequeueEvent() returns (item: Option<Event>)
      requires Valid()
      modifies this
      ensures Valid() && listeners == old(listeners)
      ensures old(queue) == [] ==> item == None && queue == []
      ensures old(queue) != [] ==> item == Some(old(queue)[0]) && queue == old(queue)[1..]
    {
      item := None;
      if |queue| > 0 {
        item := Some(queue[0]);
        queue := queue[1..];
        queueLength := queueLength - 1;
      }
    }

    /** `send`: the event goes through `queueEvent`; the result is always OK. */
    method Send(e: Event, schedulerRunning: bool) returns (r: int)
      requires Valid()
      modifies this, listeners`evt
      ensures Valid() && listeners == old(listeners) && r == DEVICE_OK
      ensures queue ==
        (if Complete(listeners, old(FlagsOf(listeners)), e, true, schedulerRunning) ||
            |old(queue)| >= MESSAGE_BUS_LISTENER_MAX_QUEUE_DEPTH
         then old(queue) else old(queue) + [e])
    {
      var _ := QueueEvent(e, schedulerRunning);
      r := DEVICE_OK;
    }

    /**
     * `idle`: unlinks the marked listeners, then delivers queued events in
     * order to the normal pass until the queue is empty or, after
     * `stopAfter` events (0: never), the scheduler has work to run.
     */
    method Idle(schedulerRunning: bool, stopAfter: nat) returns (delivered: seq<Event>)
      requires Valid()
      modifies this, listeners`evt
      ensures Valid() && listeners == Survivors(old(listeners), old(FlagsOf(listeners)))
      ensures delivered == old(queue)[..IdleCount(|old(queue)|, stopAfter)]
      ensures queue == old(queue)[IdleCount(|old(queue)|, stopAfter)..]
    {
      var _ := DeleteMarkedListeners();
      SurvivorsSubset(old(listeners), old(FlagsOf(listeners)));
      delivered := Drain(schedulerRunning, stopAfter);
    }

    /** One turn of `idle`'s loop: the oldest queued event, if any, goes to the normal pass. */
    method DeliverNext(schedulerRunning: bool) returns (item: Option<Event>)
      requires Valid()
      modifies this, listeners`evt
      ensures Valid() && listeners == old(listeners)
      ensures old(queue) == [] ==> item == None && queue == []
      ensures old(queue) != [] ==> item == Some(old(queue)[0]) && queue == old(queue)[1..]
    {
      item := DequeueEvent();
      if item.Some? {
        var _, _ := Process(item.value, false, schedulerRunning);
      }
    }

    /** The loop of `idle`: queued events go, in order, to the normal pass. */
    method Drain(schedulerRunning: bool, stopAfter: nat) returns (delivered: seq<Event>)
      requires Valid()
      modifies this, listeners`evt
      ensures Valid() && listeners == old(listeners)
      ensures delivered == old(queue)[..IdleCount(|old(queue)|, stopAfter)]
      ensures queue == old(queue)[IdleCount(|old(queue)|, stopAfter)..]
    {
      delivered := [];
      while true
        invariant Valid() && listeners == old(listeners)
        invariant delivered + queue == old(queue)
        invariant stopAfter == 0 || |delivered| < stopAfter
        decreases |queue|
      {
        var item := DeliverNext(schedulerRunning);
        if item.None? {
          IdleSplit(old(queue), delivered, queue, stopAfter);
          return;
        }
        delivered := delivered + [item.value];
        if |delivered| == stopAfter {
          IdleSplit(old(queue), delivered, queue, stopAfter);
          return;
        }
      }
    }

    /** `elementAt(n)`: the n-th listener; NULL past the end; the head for n <= 0. */
    method ElementAt(n: int) returns (l: Listener?)
      ensures |listeners| == 0 ==> l == null
      ensures |listeners| > 0 && n <= 0 ==> l == listeners[0]
      ensures 0 < n < |listeners| ==> l == listeners[n]
      ensures n >= |listeners| ==> l == null
    {
      var k := 0;
      var m := n;
      while m > 0
        invariant 0 <= k <= |listeners| && (n > 0 ==> k + m == n && m >= 0) && (n <= 0 ==> k == 0 && m == n)
        decreases m
      {
        if k == |listeners| {
          return null;
        }
        m := m - 1;
        k := k + 1;
      }
      l := if k < |listeners| then listeners[k] else null;
    }

    /** `listen` with a plain function: the argument checks, then `add`; a refused listener is discarded. */
    method Listen(id: int, value: int, handler: nat, flags: bv16) returns (r: int)
      requires Valid()
      modifies this, listeners
      ensures Valid() && queue == old(queue)
      ensures !ListenAccepted(id, handler != 0, flags) ==> r == DEVICE_INVALID_PARAMETER && listeners == old(listeners)
      ensures ListenAccepted(id, handler != 0, flags) ==>
        (r == DEVICE_OK <==> FirstDuplicate(old(listeners), ToU16(id), ToU16(value), Function(handler), 0) == -1)
      ensures ListenAccepted(id, handler != 0, flags) && r != DEVICE_OK ==>
        r == DEVICE_NOT_SUPPORTED && listeners == old(listeners)
      ensures r == DEVICE_OK ==> Registered(old(listeners), listeners, ToU16(id), ToU16(value), Function(handler), flags)
      ensures r == DEVICE_OK ==> fresh(listeners[InsertPosition(old(listeners), ToU16(id), ToU16(value))])
    {
      if handler == 0 {
        return DEVICE_INVALID_PARAMETER;
      }
      if id == DEVICE_ID_SCHEDULER && flags != MESSAGE_BUS_LISTENER_IMMEDIATE {
        return DEVICE_INVALID_PARAMETER;
      }
      var newListener := new Listener.Plain(ToU16(id), ToU16(value), handler, flags);
      var added, _ := Add(newListener);
      if added == DEVICE_OK {
        return DEVICE_OK;
      }
      r := DEVICE_NOT_SUPPORTED;
    }

    /** `listen` with a member function: a NULL object or method is refused as well. */
    method ListenMember(id: u16, value: u16, target: nat, member: nat, flags: bv16) returns (r: int)
      requires Valid()
      modifies this, listeners
      ensures Valid() && queue == old(queue)
      ensures !ListenAccepted(id, target != 0 && member != 0, flags) ==>
        r == DEVICE_INVALID_PARAMETER && listeners == old(listeners)
      ensures ListenAccepted(id, target != 0 && member != 0, flags) ==>
        (r == DEVICE_OK <==> FirstDuplicate(old(listeners), id, value, Member(target, member), 0) == -1)
      ensures ListenAccepted(id, target != 0 && member != 0, flags) && r != DEVICE_OK ==>
        r == DEVICE_NOT_SUPPORTED && listeners == old(listeners)
      ensures r == DEVICE_OK ==>
        Registered(old(listeners), listeners, id, value, Member(target, member), flags | MESSAGE_BUS_LISTENER_METHOD)
      ensures r == DEVICE_OK ==> fresh(listeners[InsertPosition(old(listeners), id, value)])
    {
      if target == 0 || member == 0 {
        return DEVICE_INVALID_PARAMETER;
      }
      if id as int == DEVICE_ID_SCHEDULER && flags != MESSAGE_BUS_LISTENER_IMMEDIATE {
        return DEVICE_INVALID_PARAMETER;
      }
      var newListener := new Listener.MemberOf(id, value, target, member, flags);
      var added, _ := Add(newListener);
      if added == DEVICE_OK {
        return DEVICE_OK;
      }
      r := DEVICE_NOT_SUPPORTED;
    }

    /**
     * `ignore` with a plain function: INVALID_PARAMETER for NULL; otherwise
     * the listeners `remove` matches are marked and the result is OK
     * whether or not any were.
     */
    method Ignore(id: int, value: int, handler: nat) returns (r: int)
      requires Valid()
      modifies listeners
      ensures r == (if handler == 0 then DEVICE_INVALID_PARAMETER else DEVICE_OK)
      ensures forall k :: 0 <= k < |listeners| ==>
        listeners[k].flags ==
          (if handler != 0 && Cancels(ToU16(id), ToU16(value), Function(handler), listeners[k])
           then old(listeners[k].flags) | MESSAGE_BUS_LISTENER_DELETING
           else old(listeners[k].flags))
    {
      if handler == 0 {
        return DEVICE_INVALID_PARAMETER;
      }
      var listener := new Listener.Plain(ToU16(id), ToU16(value), handler, EVENT_LISTENER_DEFAULT_FLAGS);
      var _ := Remove(listener);
      r := DEVICE_OK;
    }
  }

  /** After a successful `listen`: a fresh listener with these fields sits at its place in the order. */
  ghost predicate Registered(before: seq<Listener>, after: seq<Listener>, id: u16, value: u16, h: Handler, flags: bv16)
    reads set l | l in after
  {
    var pos := InsertPosition(before, id, value);
    |after| == |before| + 1 && after[..pos] == before[..pos] && after[pos + 1..] == before[pos..] &&
    after[pos].id == id && after[pos].value == value && after[pos].handler == h && after[pos].flags == flags &&
    after[pos].evtQueue == []
  }

  /**
   * `async_callback`: a busy listener drops the event or queues it when so
   * configured. Otherwise it is marked busy, its handler is called with the
   * event and then, when it queues, with each queued event in order, and
   * the busy mark is cleared. Returns the events the handler is called with.
   */
  method AsyncCallback(l: Listener) returns (handled: seq<Event>)
    modifies l
    ensures old(l.flags) & MESSAGE_BUS_LISTENER_BUSY != 0 && old(l.flags) & MESSAGE_BUS_LISTENER_DROP_IF_BUSY != 0 ==>
      handled == [] && l.flags == old(l.flags) && l.evtQueue == old(l.evtQueue)
    ensures (old(l.flags) & MESSAGE_BUS_LISTENER_BUSY != 0 && old(l.flags) & MESSAGE_BUS_LISTENER_DROP_IF_BUSY == 0 &&
             old(l.flags) & MESSAGE_BUS_LISTENER_QUEUE_IF_BUSY != 0) ==>
      handled == [] && l.flags == old(l.flags) && l.evtQueue == Enqueued(old(l.evtQueue), old(l.evt))
    ensures (old(l.flags) & MESSAGE_BUS_LISTENER_BUSY == 0 ||
             old(l.flags) & (MESSAGE_BUS_LISTENER_DROP_IF_BUSY | MESSAGE_BUS_LISTENER_QUEUE_IF_BUSY) == 0) ==>
      l.flags == old(l.flags) & !MESSAGE_BUS_LISTENER_BUSY &&
      (if old(l.flags) & MESSAGE_BUS_LISTENER_QUEUE_IF_BUSY != 0
       then handled == [old(l.evt)] + old(l.evtQueue) && l.evtQueue == []
       else handled == [old(l.evt)] && l.evtQueue == old(l.evtQueue))
  {
    if l.flags & MESSAGE_BUS_LISTENER_BUSY != 0 {
      if l.flags & MESSAGE_BUS_LISTENER_DROP_IF_BUSY != 0 {
        return [];
      }
      if l.flags & MESSAGE_BUS_LISTENER_QUEUE_IF_BUSY != 0 {
        l.Queue(l.evt);
        return [];
      }
    }
    l.flags := l.flags | MESSAGE_BUS_LISTENER_BUSY;
    ghost var pending := l.evtQueue;
    handled := [];
    while true
      invariant l.flags == old(l.flags) | MESSAGE_BUS_LISTENER_BUSY
      invariant l.flags & MESSAGE_BUS_LISTENER_QUEUE_IF_BUSY != 0 ==>
        handled + [l.evt] + l.evtQueue == [old(l.evt)] + old(l.evtQueue)
      invariant l.flags & MESSAGE_BUS_LISTENER_QUEUE_IF_BUSY == 0 ==>
        handled == [] && l.evt == old(l.evt) && l.evtQueue == old(l.evtQueue)
      decreases |l.evtQueue|
    {
      handled := handled + [l.evt];
      if l.flags & MESSAGE_BUS_LISTENER_QUEUE_IF_BUSY != 0 && |l.evtQueue| > 0 {
        l.evt := l.evtQueue[0];
        l.evtQueue := l.evtQueue[1..];
      } else {
        break;
      }
    }
    l.flags := l.flags & !MESSAGE_BUS_LISTENER_BUSY;
  }
}

=== FILE: morse_code.dfy ===
/**
 * source/samples/MorseCode.cpp: a message is sent as Morse code by
 * switching the display columns and a tone on and off with timed sleeps.
 * The model records what the program does as a trace of actions: the
 * tone/LED switching and each sleep with its duration.
 */
module MorseCode {
  /** Timing constants, in milliseconds. */
  const FRAME_LENGTH: int := 280
  const MAX_FRAME_LENGTH: int := 500
  const MIN_FRAME_LENGTH: int := 10
  const DOT_TIME: int := FRAME_LENGTH
  const DASH_TIME: int := DOT_TIME * 3
  const INNER_SEP_TIME: int := DOT_TIME * 1
  const LETTER_SEP_TIME: int := DOT_TIME * 3
  const WORD_SEP_TIME: int := DOT_TIME * 7

  /** Symbol values of the letter tables. */
  const TERM: int := 0
  const DIT: int := 1
  const DAH: int := 2

  /** The letter codes A..Z, each terminated by TERM. */
  const LETTERS: seq<seq<int>> := [
    [DIT, DAH, TERM], [DAH, DIT, DIT, DIT, TERM], [DAH, DIT, DAH, DIT, TERM],
    [DAH, DIT, DIT, TERM], [DIT, TERM], [DIT, DIT, DAH, DIT, TERM],
    [DAH, DAH, DIT, TERM], [DIT, DIT, DIT, DIT, TERM], [DIT, DIT, TERM],
    [DIT, DAH, DAH, DAH, TERM], [DAH, DIT, DAH, TERM], [DIT, DAH, DIT, DIT, TERM],
    [DAH, DAH, TERM], [DAH, DIT, TERM], [DAH, DAH, DAH, TERM],
    [DIT, DAH, DAH, DIT, TERM], [DAH, DAH, DIT, DAH, TERM], [DIT, DAH, DIT, TERM],
    [DIT, DIT, DIT, TERM], [DAH, TERM], [DIT, DIT, DAH, TERM],
    [DIT, DIT, DIT, DAH, TERM], [DIT, DAH, DAH, TERM], [DAH, DIT, DIT, DAH, TERM],
    [DAH, DIT, DAH, DAH, TERM], [DAH, DAH, DIT, DIT, TERM]
  ]

  /** The spelled-out names of the digits 0..9. */
  const NUMBERS: seq<string> :=
    ["ZERO", "ONE", "TWO", "THREE", "FOUR", "FIVE", "SIX", "SEVEN", "EIGHT", "NINE"]

  /** What the program does: `on()`, `off()` or `uBit.sleep(ms)`. */
  datatype Action = On | Off | Sleep(ms: int)

  /** A letter code: a non-empty run of dits and dahs closed by TERM. */
  predicate IsCode(code: seq<int>)
  {
    |code| >= 2 && code[|code| - 1] == TERM &&
    forall i :: 0 <= i < |code| - 1 ==> code[i] == DIT || code[i] == DAH
  }

  /** The frame length lies within its declared bounds. */
  lemma FrameLengthInRange()
    ensures MIN_FRAME_LENGTH <= FRAME_LENGTH <= MAX_FRAME_LENGTH
    ensures DASH_TIME == 3 * DOT_TIME && INNER_SEP_TIME == DOT_TIME
    ensures LETTER_SEP_TIME == 3 * DOT_TIME && WORD_SEP_TIME == 7 * DOT_TIME
  {
  }

  /** Every entry of the letter table is a well-formed code. */
  lemma LetterTable()
    ensures |LETTERS| == 26
    ensures forall i :: 0 <= i < 26 ==> IsCode(LETTERS[i])
  {
  }

  /** Every digit name consists of capital letters, so it indexes the letter table. */
  lemma NumberTable()
    ensures |NUMBERS| == 10
    ensures forall n :: 0 <= n < 10 ==> IsWord(NUMBERS[n])
  {
  }

  predicate IsWord(w: string)
  {
    forall i :: 0 <= i < |w| ==> 'A' <= w[i] <= 'Z'
  }

  /** The actions for one symbol: on, the symbol's time, off, the gap inside a letter. */
  function SymbolTrace(sym: int): seq<Action>
  {
    if sym == DIT then [On, Sleep(DOT_TIME), Off, Sleep(INNER_SEP_TIME)]
    else if sym == DAH then [On, Sleep(DASH_TIME), Off, Sleep(INNER_SEP_TIME)]
    else []
  }

  /** The actions for the symbols of a code up to its first TERM. */
  function SymbolsTrace(code: seq<int>): seq<Action>
  {
    if code == [] || code[0] == TERM then [] else SymbolTrace(code[0]) + SymbolsTrace(code[1..])
  }

  /** `blinkLetter`: the symbols, then the gap between letters. */
  function LetterTrace(code: seq<int>): seq<Action>
  {
    SymbolsTrace(code) + [Sleep(LETTER_SEP_TIME)]
  }

  /** The code of a capital letter. */
  function LetterCode(u: char): (code: seq<int>)
    requires 'A' <= u <= 'Z'
    ensures IsCode(code)
  {
    LetterTable();
    LETTERS[u as int - 'A' as int]
  }

  /** The letters of a word, one after another. */
  function WordTrace(w: string): seq<Action>
    requires IsWord(w)
  {
    if w == [] then [] else WordTrace(w[..|w| - 1]) + LetterTrace(LetterCode(w[|w| - 1]))
  }

  lemma WordTraceNext(w: string, i: nat)
    requires IsWord(w) && i < |w|
    ensures WordTrace(w[..i + 1]) == WordTrace(w[..i]) + LetterTrace(LetterCode(w[i]))
  {
    assert w[..i + 1][..i] == w[..i];
  }

  /** `blinkDigit`: the letters of the digit's name, then the gap between words. */
  function DigitTrace(n: int): seq<Action>
    requires 0 <= n < 10
  {
    NumberTable();
    WordTrace(NUMBERS[n]) + [Sleep(WORD_SEP_TIME)]
  }

  predicate IsAsciiDigit(c: char) { '0' <= c <= '9' }
  predicate IsAsciiAlpha(c: char) { 'A' <= c <= 'Z' || 'a' <= c <= 'z' }

  function ToUpper(c: char): (u: char)
    requires IsAsciiAlpha(c)
    ensures 'A' <= u <= 'Z'
  {
    if 'a' <= c <= 'z' then (c as int - 32) as char else c
  }

  /** One character of the message: a digit is spelled out, a letter is upper-cased, anything else is skipped. */
  function CharTrace(c: char): seq<Action>
  {
    if IsAsciiDigit(c) then DigitTrace(c as int - '0' as int)
    else if IsAsciiAlpha(c) then LetterTrace(LetterCode(ToUpper(c)))
    else []
  }

  /** One pass over the message, character by character. */
  function MessageTrace(msg: string): seq<Action>
  {
    if msg == [] then [] else MessageTrace(msg[..|msg| - 1]) + CharTrace(msg[|msg| - 1])
  }

  /** Total time slept by a trace. */
  function Duration(t: seq<Action>): int
  {
    if t == [] then 0 else Duration(t[..|t| - 1]) + (if t[|t| - 1].Sleep? then t[|t| - 1].ms else 0)
  }

  lemma {:induction false} DurationAppend(a: seq<Action>, b: seq<Action>)
    ensures Duration(a + b) == Duration(a) + Duration(b)
    decreases |b|
  {
    if b == [] {
      assert a + b == a;
    } else {
      DurationAppend(a, b[..|b| - 1]);
      assert (a + b)[..|a + b| - 1] == a + b[..|b| - 1];
    }
  }

  function Count(code: seq<int>, sym: int): nat
  {
    if code == [] || code[0] == TERM then 0 else (if code[0] == sym then 1 else 0) + Count(code[1..], sym)
  }

  /**
   * The time a letter takes: each dit is a dot plus the inner gap, each dah
   * three dots plus the inner gap, and the letter gap of three dots follows.
   */
  lemma {:induction false} LetterDuration(code: seq<int>)
    requires IsCode(code)
    ensures Duration(LetterTrace(code)) == DOT_TIME * (2 * Count(code, DIT) + 4 * Count(code, DAH) + 3)
  {
    SymbolsDuration(code);
    DurationAppend(SymbolsTrace(code), [Sleep(LETTER_SEP_TIME)]);
  }

  lemma SignalDuration(on: int, gap: int)
    ensures Duration([On, Sleep(on), Off, Sleep(gap)]) == on + gap
  {
    var s := [On, Sleep(on), Off, Sleep(gap)];
    assert [On][..0] == [];
    assert Duration([On]) == 0;
    assert [On, Sleep(on)][..1] == [On];
    assert Duration([On, Sleep(on)]) == on;
    assert [On, Sleep(on), Off][..2] == [On, Sleep(on)];
    assert Duration([On, Sleep(on), Off]) == on;
    assert s[..3] == [On, Sleep(on), Off];
  }

  lemma {:induction false} SymbolsDuration(code: seq<int>)
    requires forall i :: 0 <= i < |code| ==> code[i] == DIT || code[i] == DAH || code[i] == TERM
    ensures Duration(SymbolsTrace(code)) == DOT_TIME * (2 * Count(code, DIT) + 4 * Count(code, DAH))
    decreases |code|
  {
    if code != [] && code[0] != TERM {
      SymbolsDuration(code[1..]);
      DurationAppend(SymbolTrace(code[0]), SymbolsTrace(code[1..]));
      var s := SymbolTrace(code[0]);
      SignalDuration(if code[0] == DIT then DOT_TIME else DASH_TIME, INNER_SEP_TIME);
    }
  }

  /** A letter is sent the same whichever its case. */
  lemma CaseInsensitive(c: char)
    requires 'a' <= c <= 'z'
    ensures CharTrace(c) == CharTrace((c as int - 32) as char)
  {
    var u := (c as int - 32) as char;
    assert !IsAsciiDigit(c) && IsAsciiAlpha(c) && ToUpper(c) == u;
    assert !IsAsciiDigit(u) && IsAsciiAlpha(u) && ToUpper(u) == u;
  }

  lemma SymbolsTraceStep(code: seq<int>)
    requires code != [] && code[0] != TERM
    ensures SymbolsTrace(code) == SymbolTrace(code[0]) + SymbolsTrace(code[1..])
  {
  }

  /** `blinkLetter`: walks the code until TERM, switching on and off for each symbol. */
  method BlinkLetter(morse: seq<int>) returns (trace: seq<Action>)
    requires IsCode(morse)
    ensures trace == LetterTrace(morse)
  {
    var i := 0;
    trace := [];
    while morse[i] != TERM
      invariant 0 <= i < |morse|
      invariant trace + SymbolsTrace(morse[i..]) == SymbolsTrace(morse)
      decreases |morse| - i
    {
      var step: seq<Action>;
      if morse[i] == DIT {
        step := [On, Sleep(DOT_TIME), Off, Sleep(INNER_SEP_TIME)];
      } else if morse[i] == DAH {
        step := [On, Sleep(DASH_TIME), Off, Sleep(INNER_SEP_TIME)];
      } else {
        step := [];
      }
      SymbolsTraceStep(morse[i..]);
      assert morse[i..][1..] == morse[i + 1..];
      assert (trace + step) + SymbolsTrace(morse[i + 1..]) == trace + (step + SymbolsTrace(morse[i + 1..]));
      trace := trace + step;
      i := i + 1;
    }
    trace := trace + [Sleep(LETTER_SEP_TIME)];
  }

  /** `blinkDigit`: blinks each letter of the digit's name, then waits a word gap. */
  method BlinkDigit(n: int) returns (trace: seq<Action>)
    requires 0 <= n < 10
    ensures trace == DigitTrace(n)
  {
    NumberTable();
    var letters := NUMBERS[n];
    trace := [];
    for i := 0 to |letters|
      invariant trace == WordTrace(letters[..i])
    {
      var t := BlinkLetter(LetterCode(letters[i]));
      WordTraceNext(letters, i);
      trace := trace + t;
    }
    assert letters[..|letters|] == letters;
    trace := trace + [Sleep(WORD_SEP_TIME)];
  }

  /**
   * One pass of `morse_code`'s endless loop over the message, whose
   * terminating NUL character is visited too (and skipped).
   */
  method SendMessage(message: string) returns (trace: seq<Action>)
    ensures trace == MessageTrace(message + [0 as char])
  {
    var chars := message + [0 as char];
    trace := [];
    for i := 0 to |chars|
      invariant trace == MessageTrace(chars[..i])
    {
      assert chars[..i + 1][..i] == chars[..i];
      var ch := chars[i];
      var t: seq<Action> := [];
      if IsAsciiDigit(ch) {
        t := BlinkDigit(ch as int - '0' as int);
      } else if IsAsciiAlpha(ch) {
        t := BlinkLetter(LetterCode(ToUpper(ch)));
      }
      assert t == CharTrace(ch);
      trace := trace + t;
    }
    assert chars[..|chars|] == chars;
  }
}

=== FILE: multi_button.dfy ===
/**
 * source/drivers/MultiButton.cpp: a virtual button made of two others (A+B
 * on the micro:bit). It listens to the events of both sub-buttons, keeps a
 * pressed, a hold-triggered and a suppressed bit for each of them in its
 * status word, and raises its own DOWN, HOLD, UP, CLICK and LONG_CLICK when
 * the two are used together. A sub-button released on its own may raise
 * that sub-button's CLICK or LONG_CLICK, when configured for all events and
 * not suppressed by an earlier chord.
 *
 * Events the button raises are appended to `raised`; their delivery by the
 * message bus is not part of this model. The inherited click count is the
 * `AbstractButton.Button` the multi-button holds.
 */
module MultiButton {
  import opened CTypes
  import opened DeviceListener
  import AbstractButton

  /** The status bits (MultiButton.h). */
  const MULTI_BUTTON_STATE_1: u16 := 0x01
  const MULTI_BUTTON_STATE_2: u16 := 0x02
  const MULTI_BUTTON_HOLD_TRIGGERED_1: u16 := 0x04
  const MULTI_BUTTON_HOLD_TRIGGERED_2: u16 := 0x08
  const MULTI_BUTTON_SUPRESSED_1: u16 := 0x10
  const MULTI_BUTTON_SUPRESSED_2: u16 := 0x20
  const MULTI_BUTTON_ATTACHED: u16 := 0x40

  /** Button event values (AbstractButton.h). */
  const DEVICE_BUTTON_EVT_DOWN: u16 := 1
  const DEVICE_BUTTON_EVT_UP: u16 := 2
  const DEVICE_BUTTON_EVT_CLICK: u16 := 3
  const DEVICE_BUTTON_EVT_LONG_CLICK: u16 := 4
  const DEVICE_BUTTON_EVT_HOLD: u16 := 5
  const DEVICE_BUTTON_EVT_DOUBLE_CLICK: u16 := 6

  /** DEVICE_BUTTON_SIMPLE_EVENTS (0) and DEVICE_BUTTON_ALL_EVENTS (1). */
  datatype Configuration = SimpleEvents | AllEvents

  /** The three per-sub-button facts the status word records. */
  datatype Flag = Pressed | Held | Supressed

  /** The ids the multi-button was built with: its two sub-buttons and its own. */
  datatype Wiring = Wiring(button1: u16, button2: u16, id: u16)

  /** The bit of a flag for the first sub-button. */
  function Mask1(f: Flag): (m: u16)
  {
    match f
    case Pressed => MULTI_BUTTON_STATE_1
    case Held => MULTI_BUTTON_HOLD_TRIGGERED_1
    case Supressed => MULTI_BUTTON_SUPRESSED_1
  }

  /** The bit of a flag for the second sub-button. */
  function Mask2(f: Flag): (m: u16)
  {
    match f
    case Pressed => MULTI_BUTTON_STATE_2
    case Held => MULTI_BUTTON_HOLD_TRIGGERED_2
    case Supressed => MULTI_BUTTON_SUPRESSED_2
  }

  /**
   * The status word, as the flags set in it for each sub-button: `first`
   * holds those whose bit for button1 is set, `second` those for button2.
   * The class sets no other bit of the word.
   */
  datatype Status = Status(first: set<Flag>, second: set<Flag>)

  /** The status word of a new component: no bit set. */
  const CLEAR: Status := Status({}, {})

  /** `otherSubButton`: button2 for button1, and button1 for any other id. */
  function OtherSubButton(w: Wiring, b: u16): (o: u16)
    ensures b == w.button1 ==> o == w.button2
    ensures b != w.button1 ==> o == w.button1
  {
    if b == w.button1 then w.button2 else w.button1
  }

  /**
   * `isSubButtonPressed`, `isSubButtonHeld` and `isSubButtonSupressed`: the
   * flag's bit of the named sub-button masked out of the status word (so
   * non-zero rather than 1 when set); 0 for an id that is neither sub-button.
   */
  function SubFlag(w: Wiring, status: Status, f: Flag, b: u16): (r: int)
    ensures b != w.button1 && b != w.button2 ==> r == 0
    ensures b == w.button1 ==> (r != 0 <==> f in status.first)
    ensures b != w.button1 && b == w.button2 ==> (r != 0 <==> f in status.second)
    ensures r == 0 || r == Mask1(f) || r == Mask2(f)
  {
    if b == w.button1 then (if f in status.first then Mask1(f) else 0)
    else if b == w.button2 then (if f in status.second then Mask2(f) else 0)
    else 0
  }

  /** `if (value) status |= bit; else status &= ~bit;` on the flags of one sub-button. */
  function Put(flags: set<Flag>, f: Flag, value: bool): (r: set<Flag>)
    ensures f in r <==> value
    ensures forall g :: g != f ==> (g in r <==> g in flags)
  {
    if value then flags + {f} else flags - {f}
  }

  /**
   * `setButtonState`, `setHoldState` and `setSupressedState`: the status
   * word with the flag's bit of the named sub-button set or cleared. Only
   * that bit changes; an id that is neither sub-button changes nothing.
   */
  function WithFlag(w: Wiring, status: Status, f: Flag, b: u16, value: bool): (s: Status)
    ensures b != w.button1 && b != w.button2 ==> s == status
    ensures b == w.button1 ==> (f in s.first <==> value)
    ensures b == w.button2 ==> (f in s.second <==> value)
    ensures b != w.button1 ==> s.first == status.first
    ensures b != w.button2 ==> s.second == status.second
    ensures forall g :: g != f ==> (g in s.first <==> g in status.first) && (g in s.second <==> g in status.second)
  {
    Status(if b == w.button1 then Put(status.first, f, value) else status.first,
           if b == w.button2 then Put(status.second, f, value) else status.second)
  }

  /** Setting a sub-button's flag and reading it back gives the value set. */
  lemma ReadAfterWrite(w: Wiring, status: Status, f: Flag, b: u16, value: bool)
    requires b == w.button1 || b == w.button2
    ensures SubFlag(w, WithFlag(w, status, f, b, value), f, b) != 0 <==> value
  {
  }

  /**
   * Setting one flag leaves the other flags of both sub-buttons as they
   * were, and with distinct sub-buttons also the same flag of the other one.
   */
  lemma WriteKeepsOthers(w: Wiring, status: Status, f: Flag, b: u16, value: bool, g: Flag, c: u16)
    requires g != f || (w.button1 != w.button2 && (b == w.button1 || b == w.button2) && c != b)
    ensures SubFlag(w, WithFlag(w, status, f, b, value), g, c) == SubFlag(w, status, g, c)
  {
  }

  /** `isPressed` on the multi-button: 1 when both pressed bits are set, else 0. */
  function IsPressed(status: Status): (r: int)
    ensures r == 0 || r == 1
    ensures r == 1 <==> Pressed in status.first && Pressed in status.second
  {
    if Pressed in status.first && Pressed in status.second then 1 else 0
  }

  /** The multi-button is pressed exactly when each of two distinct sub-buttons is. */
  lemma IsPressedMeansBoth(w: Wiring, status: Status)
    requires w.button1 != w.button2
    ensures IsPressed(status) == 1 <==>
      SubFlag(w, status, Pressed, w.button1) != 0 && SubFlag(w, status, Pressed, w.button2) != 0
  {
  }

  /** What one sub-button event does: the new status word, the events raised in order, and whether a click was counted. */
  datatype Response = Response(status: Status, raised: seq<Event>, clicked: bool)

  /** The CLICK, or the LONG_CLICK when held, that a release raises on `source`. */
  function ClickOf(source: u16, held: bool): (e: Event)
    ensures e.source == source
    ensures e.value == (if held then DEVICE_BUTTON_EVT_LONG_CLICK else DEVICE_BUTTON_EVT_CLICK)
  {
    Event(source, if held then DEVICE_BUTTON_EVT_LONG_CLICK else DEVICE_BUTTON_EVT_CLICK)
  }

  /** The response to a release of `button` (the UP case of `onButtonEvent`). */
  function Released(w: Wiring, config: Configuration, status: Status, button: u16): (r: Response)
    ensures !r.clicked && |r.raised| <= 2
    ensures button == w.button1 || button == w.button2 ==>
      SubFlag(w, r.status, Pressed, button) == 0 && SubFlag(w, r.status, Held, button) == 0 &&
      SubFlag(w, r.status, Supressed, button) == 0
  {
    var other := OtherSubButton(w, button);
    var heldHere := SubFlag(w, status, Held, button) != 0;
    var chord := SubFlag(w, status, Pressed, other) != 0;
    var raised :=
      if chord then
        [Event(w.id, DEVICE_BUTTON_EVT_UP), ClickOf(w.id, heldHere && SubFlag(w, status, Held, other) != 0)]
      else if SubFlag(w, status, Supressed, button) == 0 && config == AllEvents then
        [ClickOf(button, heldHere)]
      else [];
    var s0 := if chord then WithFlag(w, status, Supressed, other, true) else status;
    var s1 := WithFlag(w, s0, Pressed, button, false);
    var s2 := WithFlag(w, s1, Held, button, false);
    var s3 := WithFlag(w, s2, Supressed, button, false);
    assert button == w.button1 || button == w.button2 ==> SubFlag(w, s3, Pressed, button) == 0 by {
      if button == w.button1 || button == w.button2 {
        ReadAfterWrite(w, s0, Pressed, button, false);
        WriteKeepsOthers(w, s1, Held, button, false, Pressed, button);
        WriteKeepsOthers(w, s2, Supressed, button, false, Pressed, button);
      }
    }
    assert button == w.button1 || button == w.button2 ==> SubFlag(w, s3, Held, button) == 0 by {
      if button == w.button1 || button == w.button2 {
        ReadAfterWrite(w, s1, Held, button, false);
        WriteKeepsOthers(w, s2, Supressed, button, false, Held, button);
      }
    }
    Response(s3, raised, false)
  }

  /** `onButtonEvent`: the response of the multi-button to event `evt` of one of its sub-buttons. */
  function Respond(w: Wiring, config: Configuration, status: Status, evt: Event): (r: Response)
    ensures evt.value !in {DEVICE_BUTTON_EVT_DOWN, DEVICE_BUTTON_EVT_HOLD, DEVICE_BUTTON_EVT_UP} ==>
      r == Response(status, [], false)
    ensures r.clicked ==> evt.value == DEVICE_BUTTON_EVT_DOWN && r.raised == [Event(w.id, DEVICE_BUTTON_EVT_DOWN)]
  {
    var button := evt.source;
    var other := OtherSubButton(w, button);
    if evt.value == DEVICE_BUTTON_EVT_DOWN then
      var s := WithFlag(w, status, Pressed, button, true);
      var chord := SubFlag(w, s, Pressed, other) != 0;
      Response(s, if chord then [Event(w.id, DEVICE_BUTTON_EVT_DOWN)] else [], chord)
    else if evt.value == DEVICE_BUTTON_EVT_HOLD then
      var s := WithFlag(w, status, Held, button, true);
      Response(s, if SubFlag(w, s, Held, other) != 0 then [Event(w.id, DEVICE_BUTTON_EVT_HOLD)] else [], false)
    else if evt.value == DEVICE_BUTTON_EVT_UP then
      Released(w, config, status, button)
    else
      Response(status, [], false)
  }

  /** A sub-button of two distinct ones. */
  predicate IsSub(w: Wiring, b: u16)
  {
    w.button1 != w.button2 && (b == w.button1 || b == w.button2)
  }

  /**
   * DOWN marks the sub-button pressed. The multi-button raises its own DOWN
   * and counts a click exactly when the other sub-button was already down.
   */
  lemma DownJoinsChord(w: Wiring, config: Configuration, status: Status, b: u16)
    requires IsSub(w, b)
    ensures var r := Respond(w, config, status, Event(b, DEVICE_BUTTON_EVT_DOWN));
      r.status == WithFlag(w, status, Pressed, b, true) &&
      (SubFlag(w, status, Pressed, OtherSubButton(w, b)) != 0 ==> r.raised == [Event(w.id, DEVICE_BUTTON_EVT_DOWN)] && r.clicked) &&
      (SubFlag(w, status, Pressed, OtherSubButton(w, b)) == 0 ==> r.raised == [] && !r.clicked)
  {
    WriteKeepsOthers(w, status, Pressed, b, true, Pressed, OtherSubButton(w, b));
  }

  /** HOLD marks the sub-button held, and raises the multi-button's HOLD exactly when the other one is held too. */
  lemma HoldJoinsChord(w: Wiring, config: Configuration, status: Status, b: u16)
    requires IsSub(w, b)
    ensures var r := Respond(w, config, status, Event(b, DEVICE_BUTTON_EVT_HOLD));
      r.status == WithFlag(w, status, Held, b, true) && !r.clicked &&
      (SubFlag(w, status, Held, OtherSubButton(w, b)) != 0 ==> r.raised == [Event(w.id, DEVICE_BUTTON_EVT_HOLD)]) &&
      (SubFlag(w, status, Held, OtherSubButton(w, b)) == 0 ==> r.raised == [])
  {
    WriteKeepsOthers(w, status, Held, b, true, Held, OtherSubButton(w, b));
  }

  /**
   * Releasing one sub-button while the other is down ends a chord: the
   * multi-button raises UP and then LONG_CLICK if both were held, else
   * CLICK, and the other sub-button is suppressed so that its own release
   * raises no click of its own.
   */
  lemma UpEndsChord(w: Wiring, config: Configuration, status: Status, b: u16)
    requires IsSub(w, b) && SubFlag(w, status, Pressed, OtherSubButton(w, b)) != 0
    ensures var r := Respond(w, config, status, Event(b, DEVICE_BUTTON_EVT_UP));
      var both := SubFlag(w, status, Held, b) != 0 && SubFlag(w, status, Held, OtherSubButton(w, b)) != 0;
      r.raised == [Event(w.id, DEVICE_BUTTON_EVT_UP),
                   Event(w.id, if both then DEVICE_BUTTON_EVT_LONG_CLICK else DEVICE_BUTTON_EVT_CLICK)] &&
      SubFlag(w, r.status, Supressed, OtherSubButton(w, b)) != 0 &&
      SubFlag(w, r.status, Pressed, OtherSubButton(w, b)) != 0
  {
  }

  /**
   * Releasing a sub-button on its own raises its CLICK or LONG_CLICK only
   * when it is not suppressed and all events are configured; the other
   * sub-button's flags are left alone.
   */
  lemma UpAlone(w: Wiring, config: Configuration, status: Status, b: u16)
    requires IsSub(w, b) && SubFlag(w, status, Pressed, OtherSubButton(w, b)) == 0
    ensures var r := Respond(w, config, status, Event(b, DEVICE_BUTTON_EVT_UP));
      (r.raised != [] <==> SubFlag(w, status, Supressed, b) == 0 && config == AllEvents) &&
      (r.raised != [] ==> r.raised == [ClickOf(b, SubFlag(w, status, Held, b) != 0)]) &&
      forall f :: SubFlag(w, r.status, f, OtherSubButton(w, b)) == SubFlag(w, status, f, OtherSubButton(w, b))
  {
  }

  /** The effect of several sub-button events in turn: the final status, every event raised, and the clicks counted. */
  datatype Trace = Trace(status: Status, raised: seq<Event>, clicks: nat)

  function Run(w: Wiring, config: Configuration, status: Status, evts: seq<Event>): (t: Trace)
    ensures t.clicks <= |evts|
  {
    if evts == [] then Trace(status, [], 0)
    else
      var t := Run(w, config, status, evts[..|evts| - 1]);
      var r := Respond(w, config, t.status, evts[|evts| - 1]);
      Trace(r.status, t.raised + r.raised, t.clicks + if r.clicked then 1 else 0)
  }

  /**
   * A chord: press A, press B, release A, release B. Whatever the
   * configuration, the multi-button raises DOWN, UP and CLICK, one click is
   * counted, neither sub-button raises a click, and every bit ends clear.
   */
  lemma ChordClick(w: Wiring, config: Configuration)
    requires w.button1 != w.button2
    ensures Run(w, config, CLEAR, [Event(w.button1, DEVICE_BUTTON_EVT_DOWN), Event(w.button2, DEVICE_BUTTON_EVT_DOWN),
                                   Event(w.button1, DEVICE_BUTTON_EVT_UP), Event(w.button2, DEVICE_BUTTON_EVT_UP)]) ==
      Trace(CLEAR, [Event(w.id, DEVICE_BUTTON_EVT_DOWN), Event(w.id, DEVICE_BUTTON_EVT_UP), Event(w.id, DEVICE_BUTTON_EVT_CLICK)], 1)
  {
    var e1, e2 := Event(w.button1, DEVICE_BUTTON_EVT_DOWN), Event(w.button2, DEVICE_BUTTON_EVT_DOWN);
    var e3, e4 := Event(w.button1, DEVICE_BUTTON_EVT_UP), Event(w.button2, DEVICE_BUTTON_EVT_UP);
    assert [e1, e2, e3, e4][..3] == [e1, e2, e3] && [e1, e2, e3][..2] == [e1, e2] && [e1, e2][..1] == [e1];
    assert Run(w, config, CLEAR, [e1]) == Trace(Status({Pressed}, {}), [], 0);
    assert Run(w, config, CLEAR, [e1, e2]) == Trace(Status({Pressed}, {Pressed}), [Event(w.id, DEVICE_BUTTON_EVT_DOWN)], 1);
    assert Released(w, config, Status({Pressed}, {Pressed}), w.button1).status == Status({}, {Pressed, Supressed});
    assert Released(w, config, Status({}, {Pressed, Supressed}), w.button2).status == CLEAR;
  }

  /** A lone press and release of one sub-button raises its CLICK only when all events are configured. */
  lemma LoneClick(w: Wiring, config: Configuration)
    requires w.button1 != w.button2
    ensures Run(w, config, CLEAR, [Event(w.button1, DEVICE_BUTTON_EVT_DOWN), Event(w.button1, DEVICE_BUTTON_EVT_UP)]) ==
      Trace(CLEAR, if config == AllEvents then [Event(w.button1, DEVICE_BUTTON_EVT_CLICK)] else [], 0)
  {
    var e1, e2 := Event(w.button1, DEVICE_BUTTON_EVT_DOWN), Event(w.button1, DEVICE_BUTTON_EVT_UP);
    assert [e1, e2][..1] == [e1];
    assert Run(w, config, CLEAR, [e1]) == Trace(Status({Pressed}, {}), [], 0);
    assert Released(w, config, Status({Pressed}, {}), w.button1).status == CLEAR;
  }

  class MultiButton {
    /** The inherited AbstractButton part: the click count. */
    const base: AbstractButton.Button
    const button1: u16
    const button2: u16
    const id: u16
    var status: Status
    var eventConfiguration: Configuration
    /** Every event this button has raised, oldest first. */
    var raised: seq<Event>
    /** The ids it listens to on the default event bus, for any value. */
    var listening: seq<u16>

    function Wires(): (w: Wiring)
      ensures w.button1 == button1 && w.button2 == button2 && w.id == id
    {
      Wiring(button1, button2, id)
    }

    /**
     * Starts with every bit clear, no clicks and SIMPLE_EVENTS, and
     * listens for every event of both sub-buttons when there is a default
     * event bus.
     */
    constructor(button1: u16, button2: u16, id: u16, hasBus: bool)
      ensures this.button1 == button1 && this.button2 == button2 && this.id == id
      ensures status == CLEAR && eventConfiguration == SimpleEvents && raised == []
      ensures fresh(base) && base.clickCount == 0
      ensures listening == if hasBus then [button1, button2] else []
    {
      base := new AbstractButton.Button();
      this.button1 := button1;
      this.button2 := button2;
      this.id := id;
      status := CLEAR;
      eventConfiguration := SimpleEvents;
      raised := [];
      listening := if hasBus then [button1, button2] else [];
    }

    /** `setButtonState`, `setHoldState` and `setSupressedState`: set or clear one flag of a sub-button. */
    method SetSubButtonFlag(f: Flag, button: u16, value: int)
      modifies this`status
      ensures status == WithFlag(Wires(), old(status), f, button, value != 0)
    {
      if button == button1 {
        if value != 0 {
          status := status.(first := status.first + {f});
        } else {
          status := status.(first := status.first - {f});
        }
      }
      if button == button2 {
        if value != 0 {
          status := status.(second := status.second + {f});
        } else {
          status := status.(second := status.second - {f});
        }
      }
    }

    /** `setEventConfiguration`. */
    method SetEventConfiguration(config: Configuration)
      modifies this`eventConfiguration
      ensures eventConfiguration == config
    {
      eventConfiguration := config;
    }

    /** `onButtonEvent`: reacts to one event of a sub-button as `Respond` describes, counting a chord's click. */
    method OnButtonEvent(evt: Event)
      modifies this`status, this`raised, base
      ensures var r := Respond(Wires(), eventConfiguration, old(status), evt);
        status == r.status && raised == old(raised) + r.raised &&
        base.clickCount == if r.clicked then ToU16(old(base.clickCount) + 1) else old(base.clickCount)
    {
      var button := evt.source;
      var other := OtherSubButton(Wires(), button);
      if evt.value == DEVICE_BUTTON_EVT_DOWN {
        SetSubButtonFlag(Pressed, button, 1);
        if SubFlag(Wires(), status, Pressed, other) != 0 {
          raised := raised + [Event(id, DEVICE_BUTTON_EVT_DOWN)];
          base.Click();
        }
      } else if evt.value == DEVICE_BUTTON_EVT_HOLD {
        SetSubButtonFlag(Held, button, 1);
        if SubFlag(Wires(), status, Held, other) != 0 {
          raised := raised + [Event(id, DEVICE_BUTTON_EVT_HOLD)];
        }
      } else if evt.value == DEVICE_BUTTON_EVT_UP {
        if SubFlag(Wires(), status, Pressed, other) != 0 {
          raised := raised + [Event(id, DEVICE_BUTTON_EVT_UP)];
          if SubFlag(Wires(), status, Held, button) != 0 && SubFlag(Wires(), status, Held, other) != 0 {
            raised := raised + [Event(id, DEVICE_BUTTON_EVT_LONG_CLICK)];
          } else {
            raised := raised + [Event(id, DEVICE_BUTTON_EVT_CLICK)];
          }
          SetSubButtonFlag(Supressed, other, 1);
        } else if SubFlag(Wires(), status, Supressed, button) == 0 && eventConfiguration == AllEvents {
          if SubFlag(Wires(), status, Held, button) != 0 {
            raised := raised + [Event(button, DEVICE_BUTTON_EVT_LONG_CLICK)];
          } else {
            raised := raised + [Event(button, DEVICE_BUTTON_EVT_CLICK)];
          }
        }
        SetSubButtonFlag(Pressed, button, 0);
        SetSubButtonFlag(Held, button, 0);
        SetSubButtonFlag(Supressed, button, 0);
      }
    }

    /** `isPressed`. */
    function IsVirtuallyPressed(): (r: int)
      reads this
      ensures r == 1 <==> Pressed in status.first && Pressed in status.second
    {
      IsPressed(status)
    }
  }
}

=== FILE: noise_profiler.dfy ===
/**
 * source/NoiseProfiler.cpp: a data sink that builds a histogram of 8-bit
 * samples near zero and sums the absolute differences between consecutive
 * samples, until a fixed number of samples has been seen.
 */
module NoiseProfiler {
  const NOISE_PROFILE_RANGE: int := 10
  const NOISE_PROFILE_SIZE: int := 2 * NOISE_PROFILE_RANGE + 1
  const NOISE_PROFILE_TOTAL_SAMPLES: int := 110000

  function Abs(x: int): int { if x < 0 then -x else x }

  /** Sum of the absolute differences between neighbouring samples. */
  function Variation(s: seq<int>): int
  {
    if |s| <= 1 then 0 else Variation(s[..|s| - 1]) + Abs(s[|s| - 1] - s[|s| - 2])
  }

  /** How many samples equal v. */
  function Occurrences(s: seq<int>, v: int): nat
  {
    if s == [] then 0 else Occurrences(s[..|s| - 1], v) + (if s[|s| - 1] == v then 1 else 0)
  }

  function Sum(s: seq<int>): int
  {
    if s == [] then 0 else Sum(s[..|s| - 1]) + s[|s| - 1]
  }

  /** How many of n new samples are still counted when `samples` have been seen. */
  function Counted(samples: int, n: nat): (k: nat)
    requires samples <= NOISE_PROFILE_TOTAL_SAMPLES
    ensures k <= n && samples + k <= NOISE_PROFILE_TOTAL_SAMPLES
    ensures k < n ==> samples + k == NOISE_PROFILE_TOTAL_SAMPLES
  {
    if n <= NOISE_PROFILE_TOTAL_SAMPLES - samples then n else NOISE_PROFILE_TOTAL_SAMPLES - samples
  }

  /** Adding one to an entry adds one to the sum. */
  lemma {:induction false} SumIncrement(s: seq<int>, j: int)
    requires 0 <= j < |s|
    ensures Sum(s[j := s[j] + 1]) == Sum(s) + 1
    decreases |s|
  {
    var t := s[j := s[j] + 1];
    if j < |s| - 1 {
      assert t[..|t| - 1] == s[..|s| - 1][j := s[j] + 1];
      SumIncrement(s[..|s| - 1], j);
    } else {
      assert t[..|t| - 1] == s[..|s| - 1];
    }
  }

  lemma {:induction false} SumZeros(n: nat)
    ensures Sum(seq(n, _ => 0)) == 0
  {
    if n > 0 {
      assert seq(n, _ => 0)[..n - 1] == seq(n - 1, _ => 0);
      SumZeros(n - 1);
    }
  }

  class Profiler {
    var noiseProfile: array<int>
    var variance: int
    var samples: int

    /**
     * At most the total is ever counted, the histogram holds no more
     * entries than samples, and each counted sample adds at most 255 to
     * the variance.
     */
    ghost predicate Valid()
      reads this, noiseProfile
    {
      noiseProfile.Length == NOISE_PROFILE_SIZE &&
      0 <= samples <= NOISE_PROFILE_TOTAL_SAMPLES &&
      (forall j :: 0 <= j < NOISE_PROFILE_SIZE ==> noiseProfile[j] >= 0) &&
      Sum(noiseProfile[..]) <= samples &&
      0 <= variance <= 255 * samples
    }

    /** The constructor calls `reset`. */
    constructor ()
      ensures Valid() && fresh(noiseProfile)
      ensures noiseProfile[..] == seq(NOISE_PROFILE_SIZE, _ => 0) && samples == 0 && variance == 0
    {
      noiseProfile := new int[NOISE_PROFILE_SIZE](_ => 0);
      samples := 0;
      variance := 0;
      new;
      assert noiseProfile[..] == seq(NOISE_PROFILE_SIZE, _ => 0);
      SumZeros(NOISE_PROFILE_SIZE);
    }

    /** `reset`: zeroes the histogram, the sample count and the variance. */
    method Reset()
      requires noiseProfile.Length == NOISE_PROFILE_SIZE
      modifies this`samples, this`variance, noiseProfile
      ensures Valid()
      ensures noiseProfile[..] == seq(NOISE_PROFILE_SIZE, _ => 0) && samples == 0 && variance == 0
    {
      for i := 0 to NOISE_PROFILE_SIZE
        invariant forall j :: 0 <= j < i ==> noiseProfile[j] == 0
      {
        noiseProfile[i] := 0;
      }
      samples := 0;
      variance := 0;
      assert noiseProfile[..] == seq(NOISE_PROFILE_SIZE, _ => 0);
      SumZeros(NOISE_PROFILE_SIZE);
    }

    /** A sample within the range adds one to its histogram entry; any other leaves the histogram alone. */
    method Tally(s: int)
      requires Valid() && samples < NOISE_PROFILE_TOTAL_SAMPLES
      modifies noiseProfile
      ensures forall j :: 0 <= j < NOISE_PROFILE_SIZE ==>
        noiseProfile[j] == old(noiseProfile[j]) + (if j - NOISE_PROFILE_RANGE == s then 1 else 0)
      ensures (forall j :: 0 <= j < NOISE_PROFILE_SIZE ==> noiseProfile[j] >= 0) && Sum(noiseProfile[..]) <= samples + 1
    {
      if s <= NOISE_PROFILE_RANGE && s >= -NOISE_PROFILE_RANGE {
        SumIncrement(noiseProfile[..], s + NOISE_PROFILE_RANGE);
        noiseProfile[s + NOISE_PROFILE_RANGE] := noiseProfile[s + NOISE_PROFILE_RANGE] + 1;
      }
    }

    /**
     * `pullRequest` on one buffer of signed 8-bit samples: the samples that
     * still fit under the total are counted; those within the range are
     * added to the histogram at index sample + RANGE; the variance grows by
     * the variation of the counted samples, the first of the buffer not
     * being differenced against anything.
     */
    method PullRequest(buf: seq<int>)
      requires Valid()
      requires forall i :: 0 <= i < |buf| ==> -128 <= buf[i] < 128
      modifies this`samples, this`variance, noiseProfile
      ensures Valid() && variance < 0x8000_0000
      ensures var k := Counted(old(samples), |buf|);
        samples == old(samples) + k &&
        variance == old(variance) + Variation(buf[..k]) &&
        forall j :: 0 <= j < NOISE_PROFILE_SIZE ==>
          noiseProfile[j] == old(noiseProfile[j]) + Occurrences(buf[..k], j - NOISE_PROFILE_RANGE)
    {
      var p := 0;
      var first := true;
      var s1 := 0;
      ghost var k := 0;
      assert buf[..k] == [];
      assert forall v :: Occurrences(buf[..k], v) == 0;
      while p < |buf|
        invariant 0 <= p <= |buf| && k == Counted(old(samples), p)
        invariant Valid()
        invariant samples == old(samples) + k
        invariant variance == old(variance) + Variation(buf[..k])
        invariant forall j :: 0 <= j < NOISE_PROFILE_SIZE ==>
          noiseProfile[j] == old(noiseProfile[j]) + Occurrences(buf[..k], j - NOISE_PROFILE_RANGE)
        invariant first <==> k == 0
        invariant k > 0 ==> s1 == buf[k - 1]
      {
        if samples < NOISE_PROFILE_TOTAL_SAMPLES {
          var s := buf[p];
          assert k == p;
          assert buf[..k + 1][..k] == buf[..k];
          Tally(s);
          if first {
            first := false;
          } else {
            assert Abs(s - s1) <= 255;
            variance := variance + Abs(s - s1);
          }
          s1 := s;
          samples := samples + 1;
          k := k + 1;
        }
        p := p + 1;
      }
    }

    /** `isDone`: the test is complete once the total has been counted; never more is counted. */
    predicate IsDone()
      requires Valid()
      reads this, noiseProfile
      ensures IsDone() <==> samples == NOISE_PROFILE_TOTAL_SAMPLES
    {
      samples >= NOISE_PROFILE_TOTAL_SAMPLES
    }
  }

  /**
   * Neighbouring 8-bit samples differ by at most 255, so the variance of a
   * full run stays far below the 32-bit limit of its `int` field.
   */
  lemma {:induction false} VariationBound(s: seq<int>)
    requires forall i :: 0 <= i < |s| ==> -128 <= s[i] < 128
    ensures 0 <= Variation(s) <= 255 * (if |s| == 0 then 0 else |s| - 1)
    decreases |s|
  {
    if |s| > 1 {
      VariationBound(s[..|s| - 1]);
    }
  }

  lemma FullRunFitsInt32(s: seq<int>)
    requires forall i :: 0 <= i < |s| ==> -128 <= s[i] < 128
    requires |s| <= NOISE_PROFILE_TOTAL_SAMPLES
    ensures Variation(s) < 0x8000_0000
  {
    VariationBound(s);
  }
}

=== FILE: oob_v3.dfy ===
/**
 * The melody player of source/samples/OOB_v3.cpp. A melody is a list of
 * notes in the MakeCode format `NOTE[modifiers][:duration]`; each note is
 * parsed into a semitone offset from A4 (or a rest) and a duration.
 * The pitch computation `440 * 2^(offset/12)` is floating point and is
 * not part of this model; the model stops at the semitone offset.
 */
module OobV3 {
  import opened Wrappers

  const DEFAULT_TEMPO_BPM: int := 120
  const MS_PER_BPM: int := (60000 / DEFAULT_TEMPO_BPM) / 4
  const NOTE_LEN: int := 6

  /** Panic codes raised by the parser. */
  const PANIC_BAD_NOTE: int := 123
  const PANIC_BAD_MODIFIER: int := 124
  const PANIC_BAD_DURATION: int := 125

  const MELODY_POWER_UP: seq<string> := ["G4:1", "C5", "E", "G:2", "E:1", "G:3"]
  const MELODY_POWER_DOWN: seq<string> := ["G5:1", "D#", "C", "G4:2", "B5:1", "C:3"]

  /** One played note: a rest, or a tone `semitones` away from A4, held for `durationMs`. */
  datatype Tone = Tone(rest: bool, semitones: int, durationMs: int)

  /** The state carried from one note to the next. */
  datatype Carry = Carry(octave: int, durationMs: int)

  datatype NoteResult = NoteOk(tone: Tone, carry: Carry) | NotePanic(code: int)

  /** The outcome of playing a melody: every tone, or the tones before a panic and its code. */
  datatype MelodyResult = Played(tones: seq<Tone>) | Panicked(before: seq<Tone>, code: int)

  /** The distance of a note letter from A in semitones; `None` for a letter the switch rejects. */
  function Distance(c: char): (d: Option<int>)
    ensures d.Some? <==> c in "ABCDEFG"
  {
    match c
    case 'A' => Some(0)
    case 'B' => Some(2)
    case 'C' => Some(-9)
    case 'D' => Some(-7)
    case 'E' => Some(-5)
    case 'F' => Some(-4)
    case 'G' => Some(-2)
    case _ => None
  }

  function At(note: string, i: nat): char
  {
    if i < |note| then note[i] else 0 as char
  }

  predicate IsDigit(c: char) { '0' <= c <= '9' }

  /** `atoi` on a string that starts with a digit: the value of the leading digits. */
  function LeadingValue(s: string, acc: int): (v: int)
    requires acc >= 0
    ensures v >= acc
    decreases |s|
  {
    if s != [] && IsDigit(s[0]) then LeadingValue(s[1..], acc * 10 + (s[0] as int - '0' as int)) else acc
  }

  datatype Scan = Scanned(stop: nat, distance: int, octave: int) | ScanPanic

  /** The modifier loop from position i: '#' raises, 'b' lowers, a digit sets the octave, until ':' or the end. */
  function Modifiers(note: string, i: nat, distance: int, octave: int): Scan
    decreases |note| - i
  {
    var c := At(note, i);
    if c == ':' || c == 0 as char then Scanned(i, distance, octave)
    else if c == '#' then Modifiers(note, i + 1, distance + 1, octave)
    else if c == 'b' then Modifiers(note, i + 1, distance - 1, octave)
    else if IsDigit(c) then Modifiers(note, i + 1, distance, c as int - '0' as int)
    else ScanPanic
  }

  /** One note of `playMelody`, given the octave and duration carried from the previous note. */
  function NoteSpec(note: string, carry: Carry): NoteResult
  {
    var first := At(note, 0);
    var rest := first == 'R';
    if !rest && Distance(first).None? then NotePanic(PANIC_BAD_NOTE)
    else
      var d0 := if rest then 0 else Distance(first).value;
      match Modifiers(note, 1, d0, carry.octave)
      case ScanPanic => NotePanic(PANIC_BAD_MODIFIER)
      case Scanned(k, d, oct) =>
        if At(note, k) == ':' && !IsDigit(At(note, k + 1)) then NotePanic(PANIC_BAD_DURATION)
        else
          var dur := if At(note, k) == ':' then LeadingValue(note[k + 1..], 0) * MS_PER_BPM else carry.durationMs;
          NoteOk(Tone(rest, if rest then 0 else (oct - 4) * 12 + d, dur), Carry(oct, dur))
  }

  /** The whole melody: notes in order, carrying octave and duration, stopping at the first panic. */
  function MelodySpec(melody: seq<string>, carry: Carry): MelodyResult
    decreases |melody|
  {
    if melody == [] then Played([])
    else match NoteSpec(melody[0], carry)
      case NotePanic(code) => Panicked([], code)
      case NoteOk(t, c) =>
        match MelodySpec(melody[1..], c)
        case Played(ts) => Played([t] + ts)
        case Panicked(ts, code) => Panicked([t] + ts, code)
  }

  const DEFAULT_CARRY: Carry := Carry(4, 4 * MS_PER_BPM)

  /** Defaults are octave 4 and a 500 ms note. */
  lemma Defaults()
    ensures DEFAULT_CARRY == Carry(4, 500) && MS_PER_BPM == 125
  {
  }

  /** `TUNE_LEN`: the number of notes of a melody array. */
  function TuneLen(tune: seq<string>): (n: nat)
    ensures n == |tune|
  {
    |tune|
  }

  /** Parses one note: the letter switch, then the modifier loop, then the optional duration. */
  method PlayNote(note: string, carry: Carry) returns (r: NoteResult)
    ensures r == NoteSpec(note, carry)
  {
    var c := At(note, 0);
    var distanceFromA := 0;
    var rest := false;
    if c == 'A' { distanceFromA := 0; }
    else if c == 'B' { distanceFromA := 2; }
    else if c == 'C' { distanceFromA := -9; }
    else if c == 'D' { distanceFromA := -7; }
    else if c == 'E' { distanceFromA := -5; }
    else if c == 'F' { distanceFromA := -4; }
    else if c == 'G' { distanceFromA := -2; }
    else if c == 'R' { rest := true; }
    else { return NotePanic(PANIC_BAD_NOTE); }
    var octave := carry.octave;
    var durationMs := carry.durationMs;
    var i := 1;
    ghost var d0 := distanceFromA;
    while At(note, i) != ':' && At(note, i) != 0 as char
      invariant Modifiers(note, i, distanceFromA, octave) == Modifiers(note, 1, d0, carry.octave)
      decreases |note| - i
    {
      var m := At(note, i);
      if m == '#' {
        distanceFromA := distanceFromA + 1;
      } else if m == 'b' {
        distanceFromA := distanceFromA - 1;
      } else if IsDigit(m) {
        octave := m as int - '0' as int;
      } else {
        return NotePanic(PANIC_BAD_MODIFIER);
      }
      i := i + 1;
    }
    if At(note, i) == ':' {
      i := i + 1;
      if !IsDigit(At(note, i)) {
        return NotePanic(PANIC_BAD_DURATION);
      }
      durationMs := LeadingValue(note[i..], 0) * MS_PER_BPM;
    }
    var semitones := if rest then 0 else (octave - 4) * 12 + distanceFromA;
    r := NoteOk(Tone(rest, semitones, durationMs), Carry(octave, durationMs));
  }

  /** `playMelody`: plays the notes in order, starting from the defaults. */
  method PlayMelody(melody: seq<string>) returns (r: MelodyResult)
    ensures r == MelodySpec(melody, DEFAULT_CARRY)
  {
    var carry := DEFAULT_CARRY;
    var played: seq<Tone> := [];
    var i := 0;
    while i < |melody|
      invariant 0 <= i <= |melody|
      invariant MelodySpec(melody, DEFAULT_CARRY) == Prefix(played, MelodySpec(melody[i..], carry))
    {
      var n := PlayNote(melody[i], carry);
      assert melody[i..][1..] == melody[i + 1..];
      match n
      case NotePanic(code) =>
        return Panicked(played, code);
      case NoteOk(t, c) =>
        PrefixAssoc(played, t, MelodySpec(melody[i + 1..], c));
        played := played + [t];
        carry := c;
      i := i + 1;
    }
    r := Played(played);
  }

  /** The tones `ts` played before the outcome `m` of the remaining notes. */
  function Prefix(ts: seq<Tone>, m: MelodyResult): MelodyResult
  {
    match m
    case Played(rest) => Played(ts + rest)
    case Panicked(rest, code) => Panicked(ts + rest, code)
  }

  lemma PrefixAssoc(ts: seq<Tone>, t: Tone, m: MelodyResult)
    ensures Prefix(ts, Prefix([t], m)) == Prefix(ts + [t], m)
  {
    match m
    case Played(rest) => assert ts + ([t] + rest) == ts + [t] + rest;
    case Panicked(rest, code) => assert ts + ([t] + rest) == ts + [t] + rest;
  }

  /**
   * Modifiers: '#' raises the note a semitone and 'b' lowers it, a digit
   * sets the octave, and any other character panics with 124.
   */
  lemma ModifierEffects(l: char, x: char, carry: Carry)
    requires l in "ABCDEFG"
    ensures NoteSpec([l, '#'], carry).NoteOk? && NoteSpec([l, 'b'], carry).NoteOk? && NoteSpec([l], carry).NoteOk?
    ensures NoteSpec([l, '#'], carry).tone.semitones == NoteSpec([l], carry).tone.semitones + 1
    ensures NoteSpec([l, 'b'], carry).tone.semitones == NoteSpec([l], carry).tone.semitones - 1
    ensures IsDigit(x) ==> (NoteSpec([l, x], carry) ==
      NoteOk(Tone(false, (x as int - '0' as int - 4) * 12 + Distance(l).value, carry.durationMs),
             Carry(x as int - '0' as int, carry.durationMs)))
    ensures !IsDigit(x) && x !in "#b:" && x != 0 as char ==> NoteSpec([l, x], carry) == NotePanic(PANIC_BAD_MODIFIER)
  {
    assert Modifiers([l, '#'], 1, Distance(l).value, carry.octave) == Scanned(2, Distance(l).value + 1, carry.octave);
    assert Modifiers([l, 'b'], 1, Distance(l).value, carry.octave) == Scanned(2, Distance(l).value - 1, carry.octave);
    assert Modifiers([l], 1, Distance(l).value, carry.octave) == Scanned(1, Distance(l).value, carry.octave);
    if IsDigit(x) {
      assert Modifiers([l, x], 1, Distance(l).value, carry.octave) == Scanned(2, Distance(l).value, x as int - '0' as int);
    }
  }

  /** A ':' must be followed by a digit; a rest keeps the carried duration and has no pitch. */
  lemma DurationAndRest(x: char, carry: Carry)
    ensures !IsDigit(x) ==> NoteSpec(['A', ':', x], carry) == NotePanic(PANIC_BAD_DURATION)
    ensures IsDigit(x) ==> (NoteSpec(['A', ':', x], carry).NoteOk? &&
      NoteSpec(['A', ':', x], carry).tone.durationMs == (x as int - '0' as int) * MS_PER_BPM)
    ensures NoteSpec("R", carry) == NoteOk(Tone(true, 0, carry.durationMs), carry)
    ensures !(x in "ABCDEFGR") ==> NoteSpec([x], carry) == NotePanic(PANIC_BAD_NOTE)
  {
    assert ['A', ':', x][2..] == [x];
    assert Modifiers(['A', ':', x], 1, 0, carry.octave) == Scanned(1, 0, carry.octave);
    if IsDigit(x) {
      assert LeadingValue([x][1..], x as int - '0' as int) == x as int - '0' as int;
    }
  }

  lemma PowerUpNotes()
    ensures NoteSpec("G4:1", Carry(4, 500)) == NoteOk(Tone(false, -2, 125), Carry(4, 125))
    ensures NoteSpec("C5", Carry(4, 125)) == NoteOk(Tone(false, 3, 125), Carry(5, 125))
    ensures NoteSpec("E", Carry(5, 125)) == NoteOk(Tone(false, 7, 125), Carry(5, 125))
    ensures NoteSpec("G:2", Carry(5, 125)) == NoteOk(Tone(false, 10, 250), Carry(5, 250))
    ensures NoteSpec("E:1", Carry(5, 250)) == NoteOk(Tone(false, 7, 125), Carry(5, 125))
    ensures NoteSpec("G:3", Carry(5, 125)) == NoteOk(Tone(false, 10, 375), Carry(5, 375))
  {
    assert LeadingValue("1", 0) == 1 && LeadingValue("2", 0) == 2 && LeadingValue("3", 0) == 3;
    assert Modifiers("G4:1", 1, -2, 4) == Scanned(2, -2, 4);
    assert "G4:1"[3..] == "1";
    assert Modifiers("C5", 1, -9, 4) == Scanned(2, -9, 5);
    assert "G:2"[2..] == "2" && "E:1"[2..] == "1" && "G:3"[2..] == "3";
  }

  /** The power-up tune: the octave and the duration carry over between notes. */
  lemma PowerUpTune()
    ensures MelodySpec(MELODY_POWER_UP, DEFAULT_CARRY) == Played([
      Tone(false, -2, 125), Tone(false, 3, 125), Tone(false, 7, 125),
      Tone(false, 10, 250), Tone(false, 7, 125), Tone(false, 10, 375)])
  {
    var m := MELODY_POWER_UP;
    PowerUpNotes();
    assert m[5..][1..] == [];
    assert m[4..][1..] == m[5..];
    assert m[3..][1..] == m[4..];
    assert m[2..][1..] == m[3..];
    assert m[1..][1..] == m[2..];
    assert MelodySpec(m[5..], Carry(5, 125)) == Played([Tone(false, 10, 375)]);
    assert MelodySpec(m[4..], Carry(5, 250)) == Played([Tone(false, 7, 125), Tone(false, 10, 375)]);
    assert MelodySpec(m[3..], Carry(5, 125)) == Played([Tone(false, 10, 250), Tone(false, 7, 125), Tone(false, 10, 375)]);
    assert MelodySpec(m[2..], Carry(5, 125)) == Played([Tone(false, 7, 125), Tone(false, 10, 250), Tone(false, 7, 125), Tone(false, 10, 375)]);
  }
}

=== FILE: samd21_dmac.dfy ===
/**
 * source/device/SAMD21/SAMD21DMAC.cpp: the SAMD21 DMA controller driver.
 * The descriptor table lives in a byte buffer inside the driver object,
 * moved up to the next 16-byte boundary. Entries 0..COUNT-1 are the
 * write-back descriptors and entries COUNT..2*COUNT-1 the channel
 * descriptors, whose VALID bit marks a channel as allocated. A table of
 * components receives the transfer-complete interrupt of each channel.
 *
 * Descriptor memory is represented by its address arithmetic and by the
 * VALID bit of each entry; components by their identity (0 for NULL); the
 * controller's registers other than CHID are outside the model.
 */
module SAMD21DMAC {
  import opened CTypes
  import opened ErrorNo

  const DMA_DESCRIPTOR_ALIGNMENT: int := 16
  const DMA_DESCRIPTOR_COUNT: int := 4
  /** sizeof(DmacDescriptor): BTCTRL, BTCNT, SRCADDR, DSTADDR and DESCADDR, 16 bytes. */
  const DESCRIPTOR_SIZE: int := 16
  const NULL: int := 0

  /** The size of `descriptorsBuffer` as declared: room for COUNT + 1 descriptors plus the alignment slack. */
  const DECLARED_BUFFER_BYTES: int := DESCRIPTOR_SIZE * (DMA_DESCRIPTOR_COUNT + 1) + DMA_DESCRIPTOR_ALIGNMENT
  /** The size the table needs: 2 * COUNT descriptors plus the alignment slack. */
  const NEEDED_BUFFER_BYTES: int := DESCRIPTOR_SIZE * (DMA_DESCRIPTOR_COUNT * 2) + DMA_DESCRIPTOR_ALIGNMENT

  /** The descriptor base: the first multiple of the alignment at or above the buffer start. */
  function AlignedBase(start: nat): (base: nat)
    ensures base % DMA_DESCRIPTOR_ALIGNMENT == 0
    ensures start <= base < start + DMA_DESCRIPTOR_ALIGNMENT
    ensures forall q :: start <= q < base ==> q % DMA_DESCRIPTOR_ALIGNMENT != 0
  {
    if start % DMA_DESCRIPTOR_ALIGNMENT == 0 then start
    else start + (DMA_DESCRIPTOR_ALIGNMENT - start % DMA_DESCRIPTOR_ALIGNMENT)
  }

  /** Descriptor `index` of a table built in a buffer of `bytes` bytes at `start` lies inside the buffer. */
  predicate Fits(start: nat, bytes: nat, index: int)
  {
    0 <= index &&
    start <= AlignedBase(start) + index * DESCRIPTOR_SIZE &&
    AlignedBase(start) + (index + 1) * DESCRIPTOR_SIZE <= start + bytes
  }

  /**
   * With the declared buffer size the last channel descriptor, which
   * `allocateChannel` reads and writes, lies past the end of the buffer,
   * wherever the buffer starts.
   */
  lemma DeclaredBufferOverrun(start: nat)
    ensures !Fits(start, DECLARED_BUFFER_BYTES, 2 * DMA_DESCRIPTOR_COUNT - 1)
  {
  }

  /** The bytes the constructor's `memclr` clears from the aligned base: 2 * COUNT descriptors. */
  const CLEARED_BYTES: int := DESCRIPTOR_SIZE * (DMA_DESCRIPTOR_COUNT * 2)
  /** The size of the `descriptors` pointer that follows the buffer in the object, on a 32-bit core. */
  const POINTER_SIZE: int := 4

  /**
   * With the declared buffer size the constructor's clear always runs over
   * the four bytes right after the buffer, where the object keeps its
   * `descriptors` pointer: the stored pointer to the table is zeroed,
   * wherever the buffer starts.
   */
  lemma DeclaredClearZeroesPointer(start: nat)
    ensures AlignedBase(start) <= start + DECLARED_BUFFER_BYTES
    ensures start + DECLARED_BUFFER_BYTES + POINTER_SIZE <= AlignedBase(start) + CLEARED_BYTES
  {
  }

  /**
   * With the declared buffer size the descriptors of channels 2 and 3 lie
   * outside the buffer wherever it starts, while channels 0 and 1 always
   * lie inside it when the buffer is already aligned.
   */
  lemma DeclaredChannelsOutside(start: nat, channel: int)
    requires 0 <= channel < DMA_DESCRIPTOR_COUNT
    ensures Fits(start, DECLARED_BUFFER_BYTES, DescriptorIndex(channel)) ==> channel < 2
    ensures start % DMA_DESCRIPTOR_ALIGNMENT == 0 && channel < 2 ==> Fits(start, DECLARED_BUFFER_BYTES, DescriptorIndex(channel))
  {
  }

  /** With room for 2 * COUNT descriptors every entry the driver addresses fits, wherever the buffer starts. */
  lemma NeededBufferFits(start: nat, index: int)
    requires 0 <= index < 2 * DMA_DESCRIPTOR_COUNT
    ensures Fits(start, NEEDED_BUFFER_BYTES, index)
  {
  }

  /**
   * `getDescriptor`: the entry a channel number selects; a number of COUNT
   * or more gets entry 0, and a negative one passes the `channel < COUNT`
   * test and gets entry channel + COUNT.
   */
  function DescriptorIndex(channel: int): (index: int)
    ensures 0 <= channel < DMA_DESCRIPTOR_COUNT ==>
      (DMA_DESCRIPTOR_COUNT <= index < 2 * DMA_DESCRIPTOR_COUNT && index - DMA_DESCRIPTOR_COUNT == channel)
    ensures channel >= DMA_DESCRIPTOR_COUNT ==> index == 0
    ensures channel < 0 ==> index == channel + DMA_DESCRIPTOR_COUNT
  {
    if channel < DMA_DESCRIPTOR_COUNT then channel + DMA_DESCRIPTOR_COUNT else 0
  }

  /** Distinct channels have distinct channel descriptors. */
  lemma DescriptorsDistinct(c1: int, c2: int)
    requires 0 <= c1 < DMA_DESCRIPTOR_COUNT && 0 <= c2 < DMA_DESCRIPTOR_COUNT && c1 != c2
    ensures DescriptorIndex(c1) != DescriptorIndex(c2)
  {
  }

  /** The lowest channel whose VALID bit is clear, or -1, given the channel descriptors' VALID bits. */
  function FirstFree(channels: seq<bool>): (c: int)
    ensures -1 <= c < |channels|
    ensures c >= 0 ==> !channels[c] && forall k :: 0 <= k < c ==> channels[k]
    ensures c == -1 ==> forall k :: 0 <= k < |channels| ==> channels[k]
  {
    FirstFreeFrom(channels, 0)
  }

  function FirstFreeFrom(channels: seq<bool>, from: nat): (c: int)
    requires from <= |channels|
    ensures c == -1 || from <= c < |channels|
    ensures c >= 0 ==> !channels[c] && forall k :: from <= k < c ==> channels[k]
    ensures c == -1 ==> forall k :: from <= k < |channels| ==> channels[k]
    decreases |channels| - from
  {
    if from == |channels| then -1
    else if !channels[from] then from
    else FirstFreeFrom(channels, from + 1)
  }

  class Dmac {
    /** The address of `descriptorsBuffer`. */
    const bufferStart: nat
    /** `descriptors`: the aligned base of the table. */
    const base: nat
    /** The VALID bit of each of the 2 * COUNT descriptor entries. */
    const valid: array<bool>
    /** `apps`: the component notified for each channel. */
    const apps: array<int>
    /** CHID: the channel the controller's channel registers address. */
    var chid: int

    ghost predicate Valid()
      reads this
    {
      valid.Length == 2 * DMA_DESCRIPTOR_COUNT && apps.Length == DMA_DESCRIPTOR_COUNT &&
      base == AlignedBase(bufferStart) &&
      forall index :: 0 <= index < 2 * DMA_DESCRIPTOR_COUNT ==> Fits(bufferStart, NEEDED_BUFFER_BYTES, index)
    }

    /**
     * Moves the table up to the alignment boundary one byte at a time and
     * clears every descriptor. The buffer is taken to have room for the
     * 2 * COUNT entries the driver uses (`NEEDED_BUFFER_BYTES`), not the
     * declared COUNT + 1; `DeclaredBufferOverrun` and
     * `DeclaredClearZeroesPointer` state what the declared size leads to.
     */
    constructor(bufferStart: nat)
      ensures Valid() && fresh(valid) && fresh(apps)
      ensures this.bufferStart == bufferStart
      ensures forall index :: 0 <= index < 2 * DMA_DESCRIPTOR_COUNT ==> !valid[index]
      ensures forall c :: 0 <= c < DMA_DESCRIPTOR_COUNT ==> apps[c] == NULL
    {
      var ptr := bufferStart;
      while ptr % DMA_DESCRIPTOR_ALIGNMENT != 0
        invariant bufferStart <= ptr <= AlignedBase(bufferStart)
        decreases AlignedBase(bufferStart) - ptr
      {
        ptr := ptr + 1;
      }
      this.bufferStart := bufferStart;
      base := ptr;
      valid := new bool[2 * DMA_DESCRIPTOR_COUNT](_ => false);
      apps := new int[DMA_DESCRIPTOR_COUNT](_ => NULL);
      new;
      forall index | 0 <= index < 2 * DMA_DESCRIPTOR_COUNT
        ensures Fits(bufferStart, NEEDED_BUFFER_BYTES, index)
      {
        NeededBufferFits(bufferStart, index);
      }
    }

    /** The address `getDescriptor` returns for a channel. */
    function DescriptorAddress(channel: int): (address: int)
      reads this
      requires Valid()
      ensures 0 <= channel < DMA_DESCRIPTOR_COUNT ==>
        (address % DESCRIPTOR_SIZE == 0 && bufferStart <= address &&
         address + DESCRIPTOR_SIZE <= bufferStart + NEEDED_BUFFER_BYTES)
    {
      base + DescriptorIndex(channel) * DESCRIPTOR_SIZE
    }

    /**
     * `allocateChannel`: marks the lowest channel whose descriptor is not
     * VALID and returns it (a number in 0..COUNT-1), or NO_RESOURCES when
     * every channel is taken.
     */
    method AllocateChannel() returns (r: int)
      requires Valid()
      modifies valid
      ensures Valid()
      ensures r == DEVICE_NO_RESOURCES || 0 <= r < DMA_DESCRIPTOR_COUNT
      ensures r == DEVICE_NO_RESOURCES ==>
        (FirstFree(old(valid[DMA_DESCRIPTOR_COUNT..])) == -1 && valid[..] == old(valid[..]))
      ensures r != DEVICE_NO_RESOURCES ==>
        (r == FirstFree(old(valid[DMA_DESCRIPTOR_COUNT..])) && !old(valid[DescriptorIndex(r)]) &&
         valid[..] == old(valid[..])[DescriptorIndex(r) := true])
    {
      var i := 0;
      while i < DMA_DESCRIPTOR_COUNT
        invariant 0 <= i <= DMA_DESCRIPTOR_COUNT && valid[..] == old(valid[..])
        invariant FirstFree(valid[DMA_DESCRIPTOR_COUNT..]) == FirstFreeFrom(valid[DMA_DESCRIPTOR_COUNT..], i)
      {
        if !valid[i + DMA_DESCRIPTOR_COUNT] {
          valid[i + DMA_DESCRIPTOR_COUNT] := true;
          return i;
        }
        i := i + 1;
      }
      r := DEVICE_NO_RESOURCES;
    }

    /** `onTransferComplete`: registers the component for a channel's completion interrupt. */
    method OnTransferComplete(channel: int, component: int) returns (r: int)
      requires Valid() && channel >= 0
      modifies apps
      ensures Valid()
      ensures channel >= DMA_DESCRIPTOR_COUNT ==> (r == DEVICE_INVALID_PARAMETER && apps[..] == old(apps[..]))
      ensures channel < DMA_DESCRIPTOR_COUNT ==>
        (r == DEVICE_OK && apps[..] == old(apps[..])[channel := component])
    {
      if channel >= DMA_DESCRIPTOR_COUNT {
        return DEVICE_INVALID_PARAMETER;
      }
      apps[channel] := component;
      r := DEVICE_OK;
    }

    /**
     * `DMAC_Handler`: selects the pending channel, notifies its registered
     * component if there is one, and restores the channel selection.
     */
    method Handler(pending: int) returns (notified: int)
      requires Valid() && 0 <= pending < DMA_DESCRIPTOR_COUNT
      modifies this`chid
      ensures chid == old(chid)
      ensures notified == apps[pending]
    {
      var oldChannel := chid;
      chid := pending;
      notified := NULL;
      if apps[pending] != NULL {
        notified := apps[pending];
      }
      chid := oldChannel;
    }
  }

  /** A channel handed out is not handed out again while its VALID bit stays set. */
  lemma NoDoubleAllocation(before: seq<bool>, c: int)
    requires |before| == 2 * DMA_DESCRIPTOR_COUNT && 0 <= c < DMA_DESCRIPTOR_COUNT
    requires FirstFree(before[DMA_DESCRIPTOR_COUNT..]) == c
    ensures FirstFree(before[DescriptorIndex(c) := true][DMA_DESCRIPTOR_COUNT..]) != c
  {
  }
}

=== FILE: snapshot_version.dfy ===
/**
 * The snapshot version numbers shared by utils/python/codal_utils.py and
 * build.py: a version is an X.Y.Z triple rendered as `vX.Y.Z`. Each lock
 * commits the message `Snapshot <version>`; the next lock finds the most
 * recent such message by searching the text of `git log -n 100` for the
 * pattern `Snapshot v(\d+)\.(\d+)\.(\d+)` and bumps the numbers found.
 *
 * The regular expression search is modelled by functions on positions in
 * the log text: `re.search` returns the match that starts leftmost, and a
 * greedy `\d+` followed by a literal '.' can only end where the run of
 * digits ends, so each number is the longest run of digits at its
 * position. Only the ASCII digits are modelled as `\d`.
 */
module SnapshotVersion {
  import opened Wrappers
  import opened Text

  /** The literal part of the pattern in front of the first number. */
  const PREFIX: string := "Snapshot v"

  datatype Triple = Triple(major: nat, minor: nat, patch: nat)

  /** Lexicographic order on triples: the order of releases. */
  predicate Below(a: Triple, b: Triple)
  {
    a.major < b.major ||
    (a.major == b.major && (a.minor < b.minor || (a.minor == b.minor && a.patch < b.patch)))
  }

  /** How far a greedy `\d+` starting at i reaches: the end of the run of digits there. */
  function DigitEnd(s: string, i: nat): (e: nat)
    requires i <= |s|
    ensures i <= e <= |s|
    ensures forall k :: i <= k < e ==> IsDigitChar(s[k])
    ensures e == |s| || !IsDigitChar(s[e])
    decreases |s| - i
  {
    if i < |s| && IsDigitChar(s[i]) then DigitEnd(s, i + 1) else i
  }

  /** All of s[i..j] are digits. */
  predicate DigitsBetween(s: string, i: nat, j: nat)
    requires i <= j <= |s|
  {
    forall k :: i <= k < j ==> IsDigitChar(s[k])
  }

  /** `int()` of the digits s[i..j]. */
  function ValueOf(s: string, i: nat, j: nat): nat
    requires i <= j <= |s| && DigitsBetween(s, i, j)
    decreases j - i
  {
    if j == i then 0 else ValueOf(s, i, j - 1) * 10 + (s[j - 1] as int - '0' as int)
  }

  /**
   * Where the groups of `(\d+)\.(\d+)\.(\d+)` end when the match starts at
   * i: the groups are s[i..end0], s[end0 + 1..end1] and s[end1 + 1..end2].
   */
  datatype Groups = Groups(end0: nat, end1: nat, end2: nat)

  /** g is a match of `(\d+)\.(\d+)\.(\d+)` at i with the greedy last group. */
  predicate Shape(s: string, i: nat, g: Groups)
  {
    i < g.end0 && g.end0 + 1 < g.end1 && g.end1 + 1 < g.end2 && g.end2 <= |s| &&
    DigitsBetween(s, i, g.end0) && s[g.end0] == '.' &&
    DigitsBetween(s, g.end0 + 1, g.end1) && s[g.end1] == '.' &&
    DigitsBetween(s, g.end1 + 1, g.end2) && (g.end2 == |s| || !IsDigitChar(s[g.end2]))
  }

  /** `(\d+)\.(\d+)\.(\d+)` at i. */
  function GroupsAt(s: string, i: nat): (g: Option<Groups>)
    requires i <= |s|
    ensures g.Some? ==> Shape(s, i, g.value)
  {
    var e0 := DigitEnd(s, i);
    if e0 == i || e0 == |s| || s[e0] != '.' then None
    else
      var e1 := DigitEnd(s, e0 + 1);
      if e1 == e0 + 1 || e1 == |s| || s[e1] != '.' then None
      else
        var e2 := DigitEnd(s, e1 + 1);
        if e2 == e1 + 1 then None else Some(Groups(e0, e1, e2))
  }

  /** The numbers the three groups stand for. */
  function VersionOf(s: string, i: nat, g: Groups): Triple
    requires Shape(s, i, g)
  {
    Triple(ValueOf(s, i, g.end0), ValueOf(s, g.end0 + 1, g.end1), ValueOf(s, g.end1 + 1, g.end2))
  }

  /** The literal `Snapshot v` at p. */
  predicate LiteralAt(s: string, p: nat)
  {
    p + |PREFIX| <= |s| && s[p..p + |PREFIX|] == PREFIX
  }

  /** A match of the triple part: the numbers, and the index just past the third one. */
  datatype TripleMatch = TripleMatch(version: Triple, end: nat)

  /** The match of `Snapshot v(\d+)\.(\d+)\.(\d+)` that starts at p, if there is one. */
  function TripleAt(s: string, p: nat): (r: Option<TripleMatch>)
    requires p <= |s|
    ensures r.Some? ==> LiteralAt(s, p) && p + |PREFIX| < r.value.end <= |s|
  {
    if LiteralAt(s, p) then
      var g := GroupsAt(s, p + |PREFIX|);
      if g.None? then None else Some(TripleMatch(VersionOf(s, p + |PREFIX|, g.value), g.value.end2))
    else None
  }

  /** `re.search` from position `from`: the leftmost start of a match. */
  function Search(s: string, from: nat): (p: Option<nat>)
    requires from <= |s|
    ensures p.Some? ==> from <= p.value <= |s| && TripleAt(s, p.value).Some?
    ensures p.Some? ==> forall q :: from <= q < p.value ==> TripleAt(s, q).None?
    ensures p.None? ==> forall q :: from <= q <= |s| ==> TripleAt(s, q).None?
    decreases |s| - from
  {
    if TripleAt(s, from).Some? then Some(from)
    else if from == |s| then None
    else Search(s, from + 1)
  }

  /** The triple of the first snapshot message in a log, or None when there is none. */
  function FindSnapshot(log: string): (r: Option<TripleMatch>)
    ensures r.Some? <==> exists q :: 0 <= q <= |log| && TripleAt(log, q).Some?
    ensures r.Some? ==> r.value.end <= |log|
  {
    var p := Search(log, 0);
    if p.Some? then TripleAt(log, p.value) else None
  }

  /** `"v%d.%d.%d"`. */
  function Render(t: Triple): (v: string)
    ensures |v| >= 6 && v[0] == 'v'
  {
    "v" + NatDigits(t.major) + "." + NatDigits(t.minor) + "." + NatDigits(t.patch)
  }

  /**
   * The bump a lock applies without a branch suffix: major (X+1, 0, 0) when
   * asked, else minor (X, Y+1, 0) when asked, else patch (X, Y, Z+1).
   */
  function Bump(t: Triple, major: bool, minor: bool): (b: Triple)
    ensures major ==> b == Triple(t.major + 1, 0, 0)
    ensures !major && minor ==> b == Triple(t.major, t.minor + 1, 0)
    ensures !major && !minor ==> b == Triple(t.major, t.minor, t.patch + 1)
  {
    if major then Triple(t.major + 1, 0, 0)
    else if minor then Triple(t.major, t.minor + 1, 0)
    else Triple(t.major, t.minor, t.patch + 1)
  }

  /** Every bump gives a later release. */
  lemma BumpIncreases(t: Triple, major: bool, minor: bool)
    ensures Below(t, Bump(t, major, minor))
  {
  }

  /** A non-empty string of digits. */
  predicate IsDigits(d: string)
  {
    |d| > 0 && forall k :: 0 <= k < |d| ==> IsDigitChar(d[k])
  }

  /** s holds the text d from position i on. */
  predicate At(s: string, i: nat, d: string)
  {
    i + |d| <= |s| && forall k :: 0 <= k < |d| ==> s[i + k] == d[k]
  }

  /** The middle of a concatenation sits at the end of the left part. */
  lemma {:induction false} AtConcat(x: string, d: string, y: string)
    ensures At(x + d + y, |x|, d)
  {
    forall k | 0 <= k < |d|
      ensures (x + d + y)[|x| + k] == d[k]
    {
      assert (x + d + y)[|x| + k] == (x + d)[|x| + k];
    }
  }

  /** Text at a position splits into its two halves. */
  lemma {:induction false} AtSplit(s: string, i: nat, d1: string, d2: string)
    requires At(s, i, d1 + d2)
    ensures At(s, i, d1) && At(s, i + |d1|, d2)
  {
    forall k | 0 <= k < |d2|
      ensures s[i + |d1| + k] == d2[k]
    {
      assert s[i + (|d1| + k)] == (d1 + d2)[|d1| + k];
    }
    forall k | 0 <= k < |d1|
      ensures s[i + k] == d1[k]
    {
      assert s[i + k] == (d1 + d2)[k];
    }
  }

  /** The greedy run of digits ends where the digits end when a non-digit follows. */
  lemma {:induction false} DigitEndOf(s: string, i: nat, j: nat)
    requires i <= j <= |s| && DigitsBetween(s, i, j) && (j == |s| || !IsDigitChar(s[j]))
    ensures DigitEnd(s, i) == j
    decreases j - i
  {
    if i < j {
      DigitEndOf(s, i + 1, j);
    }
  }

  /** `(\d+)\.(\d+)\.(\d+)` matches at i exactly with the groups of the shape. */
  lemma {:induction false} GroupsAtShape(s: string, i: nat, g: Groups)
    requires i <= |s|
    ensures GroupsAt(s, i) == Some(g) <==> Shape(s, i, g)
  {
    if Shape(s, i, g) {
      DigitEndOf(s, i, g.end0);
      DigitEndOf(s, g.end0 + 1, g.end1);
      DigitEndOf(s, g.end1 + 1, g.end2);
    }
  }

  /** A committed message is the literal followed by the three numbers with dots between them. */
  lemma {:induction false} MessageText(t: Triple)
    ensures "Snapshot " + Render(t) ==
      PREFIX + (NatDigits(t.major) + ("." + (NatDigits(t.minor) + ("." + NatDigits(t.patch)))))
  {
  }

  /** The pieces of a message of that form, each at its place. */
  lemma {:induction false} MessagePieces(s: string, p: nat, a: string, b: string, c: string)
    requires At(s, p, PREFIX + (a + ("." + (b + ("." + c)))))
    ensures At(s, p, PREFIX) && At(s, p + |PREFIX|, a) && At(s, p + |PREFIX| + |a|, ".") &&
      At(s, p + |PREFIX| + |a| + 1, b) && At(s, p + |PREFIX| + |a| + 1 + |b|, ".") &&
      At(s, p + |PREFIX| + |a| + 1 + |b| + 1, c)
  {
    var i := p + |PREFIX|;
    AtSplit(s, p, PREFIX, a + ("." + (b + ("." + c))));
    AtSplit(s, i, a, "." + (b + ("." + c)));
    AtSplit(s, i + |a|, ".", b + ("." + c));
    AtSplit(s, i + |a| + 1, b, "." + c);
    AtSplit(s, i + |a| + 1 + |b|, ".", c);
  }

  /** The literal written at p is found there. */
  lemma {:induction false} LiteralOf(s: string, p: nat)
    requires At(s, p, PREFIX)
    ensures LiteralAt(s, p)
  {
    assert s[p..p + |PREFIX|] == PREFIX by {
      forall k | 0 <= k < |PREFIX|
        ensures s[p..p + |PREFIX|][k] == PREFIX[k]
      {
        assert s[p + k] == PREFIX[k];
      }
    }
  }

  /** Digits written at a position make a run of digits there. */
  lemma {:induction false} DigitsAt(s: string, i: nat, d: string)
    requires At(s, i, d) && IsDigits(d)
    ensures DigitsBetween(s, i, i + |d|)
  {
    forall k | i <= k < i + |d|
      ensures IsDigitChar(s[k])
    {
      assert s[i + (k - i)] == d[k - i];
    }
  }

  /** Three runs of digits separated by dots, and not followed by a digit, are the groups. */
  lemma {:induction false} ShapeOf(s: string, i: nat, a: string, b: string, c: string)
    requires IsDigits(a) && IsDigits(b) && IsDigits(c)
    requires At(s, i, a) && At(s, i + |a|, ".") && At(s, i + |a| + 1, b) && At(s, i + |a| + 1 + |b|, ".")
    requires At(s, i + |a| + 1 + |b| + 1, c)
    requires var e2 := i + |a| + 1 + |b| + 1 + |c|; e2 == |s| || !IsDigitChar(s[e2])
    ensures Shape(s, i, Groups(i + |a|, i + |a| + 1 + |b|, i + |a| + 1 + |b| + 1 + |c|))
  {
    assert s[i + |a| + 0] == "."[0] && s[i + |a| + 1 + |b| + 0] == "."[0];
    DigitsAt(s, i, a);
    DigitsAt(s, i + |a| + 1, b);
    DigitsAt(s, i + |a| + 1 + |b| + 1, c);
  }

  /** A rendered number written at a position is read back by `ValueOf`. */
  lemma {:induction false} NatAt(s: string, i: nat, n: nat)
    requires At(s, i, NatDigits(n))
    ensures DigitsBetween(s, i, i + |NatDigits(n)|) && ValueOf(s, i, i + |NatDigits(n)|) == n
    decreases n
  {
    var d := NatDigits(n);
    DigitsAt(s, i, d);
    if n >= 10 {
      AtSplit(s, i, NatDigits(n / 10), [DigitChar(n % 10)]);
      NatAt(s, i, n / 10);
      assert s[i + |d| - 1] == d[|d| - 1];
    } else {
      assert s[i + 0] == d[0];
    }
  }


  /** The literal and three runs of digits with dots between them, followed by a non-digit, are a match. */
  lemma {:induction false} DigitsMessage(s: string, p: nat, a: string, b: string, c: string)
    requires At(s, p, PREFIX + (a + ("." + (b + ("." + c)))))
    requires IsDigits(a) && IsDigits(b) && IsDigits(c)
    requires var e2 := p + |PREFIX| + |a| + 1 + |b| + 1 + |c|; e2 == |s| || !IsDigitChar(s[e2])
    ensures LiteralAt(s, p)
    ensures var i := p + |PREFIX|;
      Shape(s, i, Groups(i + |a|, i + |a| + 1 + |b|, i + |a| + 1 + |b| + 1 + |c|))
  {
    MessagePieces(s, p, a, b, c);
    LiteralOf(s, p);
    ShapeOf(s, p + |PREFIX|, a, b, c);
  }


  /** The literal and the groups make the match. */
  lemma {:induction false} TripleAtOf(s: string, p: nat, g: Groups)
    requires p <= |s| && LiteralAt(s, p) && Shape(s, p + |PREFIX|, g)
    ensures TripleAt(s, p) == Some(TripleMatch(VersionOf(s, p + |PREFIX|, g), g.end2))
  {
    GroupsAtShape(s, p + |PREFIX|, g);
  }

  /** Rendered numbers written at the places of the groups are read back as the triple. */
  lemma {:induction false} GroupsRead(s: string, i: nat, g: Groups, t: Triple)
    requires Shape(s, i, g)
    requires At(s, i, NatDigits(t.major)) && g.end0 == i + |NatDigits(t.major)|
    requires At(s, g.end0 + 1, NatDigits(t.minor)) && g.end1 == g.end0 + 1 + |NatDigits(t.minor)|
    requires At(s, g.end1 + 1, NatDigits(t.patch)) && g.end2 == g.end1 + 1 + |NatDigits(t.patch)|
    ensures VersionOf(s, i, g) == t
  {
    NatAt(s, i, t.major);
    NatAt(s, g.end0 + 1, t.minor);
    NatAt(s, g.end1 + 1, t.patch);
  }

  /** Where the groups of a committed message written at p end. */
  function MessageGroups(p: nat, t: Triple): (g: Groups)
    ensures g.end2 == p + |PREFIX| + |NatDigits(t.major)| + 1 + |NatDigits(t.minor)| + 1 + |NatDigits(t.patch)|
  {
    var i := p + |PREFIX|;
    var e0 := i + |NatDigits(t.major)|;
    var e1 := e0 + 1 + |NatDigits(t.minor)|;
    Groups(e0, e1, e1 + 1 + |NatDigits(t.patch)|)
  }

  /** The text of a committed message: the literal, then the rendered numbers with dots between them. */
  predicate MessageWritten(s: string, p: nat, t: Triple)
  {
    At(s, p, PREFIX + (NatDigits(t.major) + ("." + (NatDigits(t.minor) + ("." + NatDigits(t.patch))))))
  }

  /** A committed message followed by a non-digit has the literal and the groups at their places. */
  lemma {:induction false} MessageShape(s: string, p: nat, t: Triple)
    requires MessageWritten(s, p, t)
    requires var e2 := MessageGroups(p, t).end2; e2 == |s| || !IsDigitChar(s[e2])
    ensures LiteralAt(s, p) && Shape(s, p + |PREFIX|, MessageGroups(p, t))
  {
    DigitsMessage(s, p, NatDigits(t.major), NatDigits(t.minor), NatDigits(t.patch));
  }

  /** The groups of a committed message are read back as its triple. */
  lemma {:induction false} MessageVersion(s: string, p: nat, t: Triple)
    requires MessageWritten(s, p, t) && Shape(s, p + |PREFIX|, MessageGroups(p, t))
    ensures VersionOf(s, p + |PREFIX|, MessageGroups(p, t)) == t
  {
    MessagePieces(s, p, NatDigits(t.major), NatDigits(t.minor), NatDigits(t.patch));
    GroupsRead(s, p + |PREFIX|, MessageGroups(p, t), t);
  }

  /**
   * The literal and the rendered numbers with dots between them, followed
   * by a non-digit, are matched at the literal and read back as the triple.
   */
  lemma {:induction false} MessageAt(s: string, p: nat, t: Triple)
    requires MessageWritten(s, p, t)
    requires var e2 := MessageGroups(p, t).end2; e2 == |s| || !IsDigitChar(s[e2])
    ensures TripleAt(s, p) == Some(TripleMatch(t, MessageGroups(p, t).end2))
  {
    MessageShape(s, p, t);
    MessageVersion(s, p, t);
    TripleAtOf(s, p, MessageGroups(p, t));
  }

  /** The search from `from` stops at the first match. */
  lemma {:induction false} SearchFinds(s: string, from: nat, p: nat)
    requires from <= p <= |s| && TripleAt(s, p).Some?
    requires forall q :: from <= q < p ==> TripleAt(s, q).None?
    ensures Search(s, from) == Some(p)
    decreases p - from
  {
    if from < p {
      SearchFinds(s, from + 1, p);
    }
  }

  /** The first match in the log is the one found. */
  lemma {:induction false} FoundFirst(s: string, p: nat)
    requires p <= |s| && TripleAt(s, p).Some?
    requires forall q :: 0 <= q < p ==> TripleAt(s, q).None?
    ensures FindSnapshot(s) == TripleAt(s, p)
  {
    SearchFinds(s, 0, p);
  }

  /** Equal texts written at the same place. */
  lemma {:induction false} AtSame(s: string, p: nat, d: string, d2: string)
    requires At(s, p, d) && d == d2
    ensures At(s, p, d2)
  {
  }

  /**
   * The message a lock commits, `Snapshot ` and the rendered version,
   * written at p and not followed by a digit, is a match at p that reads
   * back the triple.
   */
  lemma {:induction false} RenderedAt(s: string, p: nat, t: Triple)
    requires At(s, p, "Snapshot " + Render(t))
    requires var e := p + 9 + |Render(t)|; e == |s| || !IsDigitChar(s[e])
    ensures TripleAt(s, p) == Some(TripleMatch(t, p + 9 + |Render(t)|))
  {
    MessageText(t);
    AtSame(s, p, "Snapshot " + Render(t),
      PREFIX + (NatDigits(t.major) + ("." + (NatDigits(t.minor) + ("." + NatDigits(t.patch))))));
    MessageAt(s, p, t);
  }

  /**
   * The message a lock commits is found again: with no earlier match in
   * the log, and the message not followed by a digit, the search finds it
   * and reads back the triple that was rendered.
   */
  lemma {:induction false} RenderParses(s: string, p: nat, t: Triple)
    requires At(s, p, "Snapshot " + Render(t))
    requires var e := p + 9 + |Render(t)|; e == |s| || !IsDigitChar(s[e])
    requires forall q :: 0 <= q < p ==> TripleAt(s, q).None?
    ensures FindSnapshot(s) == Some(TripleMatch(t, p + 9 + |Render(t)|))
  {
    RenderedAt(s, p, t);
    FoundFirst(s, p);
  }
}

=== FILE: synthesizer.dfy ===
/**
 * source/drivers/Synthesizer.cpp: a sawtooth tone generator that fills
 * buffers of 16-bit samples and hands them to a downstream stream.
 */
module Synthesizer {
  import opened CTypes
  import opened Arith
  import ErrorNo

  const DEFAULT_BUFFER_SIZE: int := 512
  const MAX_VOLUME: int := 1023
  /** The period, in nanoseconds, that `setFrequency(261.62)` stores. */
  const DEFAULT_PERIOD_NS: int := 3822337

  /** The oscillator: where in the current period the wave is, and that period's length. */
  datatype Osc = Osc(position: int, periodNs: int)

  /** One sample: the sawtooth value amplitude*position/periodNs, stored as 16 bits; 0 for a non-positive period. */
  function Sample(amplitude: int, o: Osc): (v: u16)
    ensures 0 <= amplitude < 0x1_0000 && 0 <= o.position <= o.periodNs && 0 < o.periodNs ==>
      v <= amplitude
    ensures o.periodNs <= 0 ==> v == 0
  {
    if o.periodNs > 0 then
      var raw := CDiv(amplitude * o.position, o.periodNs);
      SawtoothBound(amplitude, o.position, o.periodNs);
      InRangeU16(raw);
      ToU16(raw)
    else 0
  }

  lemma SawtoothBound(a: int, p: int, period: int)
    requires 0 < period
    ensures 0 <= a && 0 <= p <= period ==> 0 <= a * p / period <= a
  {
    if 0 <= a && 0 <= p <= period {
      assert a * period - a * p == a * (period - p);
      DivMonotone(a * p, a * period, period);
    }
  }

  lemma InRangeU16(x: int)
    ensures 0 <= x < 0x1_0000 ==> ToU16(x) == x
  {
  }

  /**
   * Advancing the oscillator by one sample: the position moves on by the
   * sample period; once it passes the period it wraps, and only then is a
   * requested new period adopted.
   */
  function Step(o: Osc, samplePeriodNs: int, newPeriodNs: int): (o': Osc)
    ensures o'.periodNs != o.periodNs ==> o.position + samplePeriodNs > o.periodNs && o'.periodNs == newPeriodNs
    ensures o.position + samplePeriodNs > o.periodNs ==> o'.position == o.position + samplePeriodNs - o.periodNs
    ensures o.position + samplePeriodNs <= o.periodNs ==> o' == Osc(o.position + samplePeriodNs, o.periodNs)
  {
    var p := o.position + samplePeriodNs;
    if p > o.periodNs then Osc(p - o.periodNs, newPeriodNs) else Osc(p, o.periodNs)
  }

  /** The oscillator after k samples. */
  function Iterate(o: Osc, k: nat, samplePeriodNs: int, newPeriodNs: int): Osc
  {
    if k == 0 then o else Step(Iterate(o, k - 1, samplePeriodNs, newPeriodNs), samplePeriodNs, newPeriodNs)
  }

  /** The first n samples the oscillator produces. */
  function Samples(amplitude: int, o: Osc, n: nat, samplePeriodNs: int, newPeriodNs: int): (s: seq<u16>)
    ensures |s| == n
  {
    if n == 0 then []
    else Samples(amplitude, o, n - 1, samplePeriodNs, newPeriodNs) + [Sample(amplitude, Iterate(o, n - 1, samplePeriodNs, newPeriodNs))]
  }

  /** The j-th sample is taken from the oscillator after j steps. */
  lemma {:induction false} SamplesAt(amplitude: int, o: Osc, n: nat, samplePeriodNs: int, newPeriodNs: int, j: nat)
    requires j < n
    ensures Samples(amplitude, o, n, samplePeriodNs, newPeriodNs)[j] == Sample(amplitude, Iterate(o, j, samplePeriodNs, newPeriodNs))
  {
    if j < n - 1 {
      SamplesAt(amplitude, o, n - 1, samplePeriodNs, newPeriodNs, j);
    }
  }

  /**
   * With a sample period no longer than the wave's period and no pending
   * change of period, the position stays within one period.
   */
  lemma {:induction false} PositionStaysInPeriod(o: Osc, k: nat, samplePeriodNs: int)
    requires 0 <= samplePeriodNs <= o.periodNs && 0 <= o.position <= o.periodNs
    ensures Iterate(o, k, samplePeriodNs, o.periodNs).periodNs == o.periodNs
    ensures 0 <= Iterate(o, k, samplePeriodNs, o.periodNs).position <= o.periodNs
  {
    if k > 0 {
      PositionStaysInPeriod(o, k - 1, samplePeriodNs);
    }
  }

  /** Under the same conditions every sample of a buffer lies between 0 and the amplitude. */
  lemma SamplesBounded(amplitude: int, o: Osc, n: nat, samplePeriodNs: int, j: nat)
    requires 0 <= samplePeriodNs <= o.periodNs && 0 <= o.position <= o.periodNs
    requires 0 <= amplitude <= MAX_VOLUME && j < n
    ensures Samples(amplitude, o, n, samplePeriodNs, o.periodNs)[j] <= amplitude
  {
    SamplesAt(amplitude, o, n, samplePeriodNs, o.periodNs, j);
    PositionStaysInPeriod(o, j, samplePeriodNs);
  }

  /** The number of 16-bit samples in a buffer of `bufferSize` bytes. */
  function SampleCount(bufferSize: int): (n: nat)
    ensures 2 * n <= bufferSize || n == 0
    ensures bufferSize > 0 ==> bufferSize < 2 * n + 2
  {
    if bufferSize > 0 then bufferSize / 2 else 0
  }

  /** `setBufferSize` as written: the stored size is validated, not the argument. */
  function SetBufferSizeAsWritten(stored: int, size: int): (r: (int, int))
    ensures stored > 0 ==> r == (ErrorNo.DEVICE_OK, size)
    ensures stored <= 0 ==> r == (ErrorNo.DEVICE_INVALID_PARAMETER, stored)
  {
    if stored <= 0 then (ErrorNo.DEVICE_INVALID_PARAMETER, stored) else (ErrorNo.DEVICE_OK, size)
  }

  /**
   * As written, a zero size is accepted, after which every later call is
   * refused, a valid size included.
   */
  lemma SetBufferSizeLocksUp()
    ensures SetBufferSizeAsWritten(DEFAULT_BUFFER_SIZE, 0) == (ErrorNo.DEVICE_OK, 0)
    ensures SetBufferSizeAsWritten(0, DEFAULT_BUFFER_SIZE) == (ErrorNo.DEVICE_INVALID_PARAMETER, 0)
  {
  }

  class Synth {
    var samplePeriodNs: int
    var bufferSize: int
    var position: int
    var periodNs: int
    var newPeriodNs: int
    var amplitude: int
    /** The buffer last generated, one entry per 16-bit sample. */
    var buffer: seq<u16>

    ghost predicate Valid()
      reads this
    {
      0 <= amplitude <= MAX_VOLUME && bufferSize > 0 && samplePeriodNs >= 0
    }

    /** The constructor: 512-byte buffers, position 0, full volume, the default period. */
    constructor (sampleRate: int)
      requires sampleRate > 0
      ensures Valid()
      ensures samplePeriodNs == 1_000_000_000 / sampleRate && samplePeriodNs * sampleRate <= 1_000_000_000
      ensures bufferSize == DEFAULT_BUFFER_SIZE && position == 0 && amplitude == MAX_VOLUME
      ensures periodNs == newPeriodNs == DEFAULT_PERIOD_NS && buffer == []
    {
      samplePeriodNs := CDiv(1_000_000_000, sampleRate);
      bufferSize := DEFAULT_BUFFER_SIZE;
      position := 0;
      newPeriodNs := DEFAULT_PERIOD_NS;
      amplitude := MAX_VOLUME;
      periodNs := DEFAULT_PERIOD_NS;
      buffer := [];
    }

    /** `setFrequency`, given the period it computes in floating point. */
    method SetPeriod(period: int)
      modifies this`newPeriodNs
      ensures newPeriodNs == period
    {
      newPeriodNs := period;
    }

    /** `setVolume`: values outside 0..1023 are refused and leave the amplitude as it was. */
    method SetVolume(volume: int) returns (status: int)
      requires Valid()
      modifies this`amplitude
      ensures Valid()
      ensures 0 <= volume <= MAX_VOLUME ==> status == ErrorNo.DEVICE_OK && amplitude == volume
      ensures !(0 <= volume <= MAX_VOLUME) ==> status == ErrorNo.DEVICE_INVALID_PARAMETER && amplitude == old(amplitude)
    {
      if volume < 0 || volume > 1023 {
        return ErrorNo.DEVICE_INVALID_PARAMETER;
      }
      amplitude := volume;
      return ErrorNo.DEVICE_OK;
    }

    /**
     * `setBufferSize` with the argument validated: a non-positive size is
     * refused, so the stored size stays positive and later calls keep working.
     */
    method SetBufferSize(size: int) returns (status: int)
      requires Valid()
      modifies this`bufferSize
      ensures Valid()
      ensures size > 0 ==> status == ErrorNo.DEVICE_OK && bufferSize == size
      ensures size <= 0 ==> status == ErrorNo.DEVICE_INVALID_PARAMETER && bufferSize == old(bufferSize)
    {
      if size <= 0 {
        return ErrorNo.DEVICE_INVALID_PARAMETER;
      }
      bufferSize := size;
      return ErrorNo.DEVICE_OK;
    }

    /**
     * One pass of the `generate` loop: a buffer of bufferSize/2 samples, the
     * i-th taken from the oscillator after i steps, and the oscillator left
     * after all of them.
     */
    method Generate()
      modifies this`buffer, this`position, this`periodNs
      ensures var n := SampleCount(bufferSize);
        var o0 := Osc(old(position), old(periodNs));
        |buffer| == n &&
        buffer == Samples(amplitude, o0, n, samplePeriodNs, newPeriodNs) &&
        Osc(position, periodNs) == Iterate(o0, n, samplePeriodNs, newPeriodNs)
    {
      var n := SampleCount(bufferSize);
      var pos, per := position, periodNs;
      var out: seq<u16> := [];
      var i := 0;
      while i < n
        invariant 0 <= i <= n && |out| == i
        invariant Osc(pos, per) == Iterate(Osc(position, periodNs), i, samplePeriodNs, newPeriodNs)
        invariant out == Samples(amplitude, Osc(position, periodNs), i, samplePeriodNs, newPeriodNs)
      {
        var v := Sample(amplitude, Osc(pos, per));
        out := out + [v];
        pos := pos + samplePeriodNs;
        if pos > per {
          pos := pos - per;
          per := newPeriodNs;
        }
        i := i + 1;
      }
      position, periodNs := pos, per;
      buffer := out;
    }

    /** `pull`: the buffer last generated. */
    method Pull() returns (b: seq<u16>)
      ensures b == buffer
    {
      b := buffer;
    }
  }
}

=== FILE: system_clock.dfy ===
/**
 * inc/core/SystemClock.h: the clock events of the generic `SystemClock`
 * interface, kept in an intrusive list that `DeviceTimer` reads from the
 * head. The list is represented by the sequence of its entries from the
 * head, each entry by its field values.
 */
module SystemClock {
  import opened CTypes

  /** `ClockEvent`: the event value to raise, its repeat period (0 for a one-shot) and when it is due. */
  datatype ClockEvent = ClockEvent(value: u16, period: u64, timestamp: u64)

  /** The default constructor. */
  function DefaultClockEvent(): (e: ClockEvent)
    ensures e.value == 0 && e.period == 0 && e.timestamp == 0
  {
    ClockEvent(0, 0, 0)
  }

  /** The fields the list-adding constructor stores: the period is kept only for a repeating event. */
  function MakeClockEvent(timestamp: u64, period: u64, value: u16, repeating: bool): (e: ClockEvent)
    ensures e.timestamp == timestamp && e.value == value
    ensures e.period != 0 ==> repeating
    ensures repeating ==> e.period == period
  {
    ClockEvent(value, if repeating then period else 0, timestamp)
  }

  const MICROS_PER_MILLI: int := 1000

  /** `getTimeUs`: the stored time plus the hardware timer's count, as a 64-bit unsigned sum. */
  function ClockTimeUs(currentUs: u64, elapsedUs: u32): (t: u64)
    ensures currentUs + elapsedUs < 0x1_0000_0000_0000_0000 ==> t == currentUs + elapsedUs
    ensures currentUs + elapsedUs >= 0x1_0000_0000_0000_0000 ==> t == currentUs + elapsedUs - 0x1_0000_0000_0000_0000
  {
    ToU64(currentUs + elapsedUs)
  }

  /** The millisecond-to-microsecond conversion of `setTime`, `eventAfter` and `eventEvery`: ×1000 in 64 bits. */
  function MillisToMicros(ms: u64): (us: u64)
    ensures ms * MICROS_PER_MILLI < 0x1_0000_0000_0000_0000 ==>
      us % MICROS_PER_MILLI == 0 && us / MICROS_PER_MILLI == ms
  {
    ToU64(ms * MICROS_PER_MILLI)
  }

  /** `getTime`: microseconds ÷1000, rounding down. */
  function Millis(us: u64): (ms: u64)
    ensures ms * MICROS_PER_MILLI <= us < (ms + 1) * MICROS_PER_MILLI
  {
    us / MICROS_PER_MILLI
  }

  /** `usRemaining`: the delay from `now` to a timestamp as a 64-bit unsigned difference; an overdue timestamp wraps to a delay of at least 2^64 - now. */
  function DueIn(timestamp: u64, now: u64): (d: u64)
    ensures timestamp >= now ==> now + d == timestamp
    ensures timestamp < now ==> d >= 0x1_0000_0000_0000_0000 - now
  {
    ToU64(timestamp - now)
  }

  /** Entries are in non-decreasing order of due time, so the head is the next one due. */
  ghost predicate Ascending(s: seq<ClockEvent>)
  {
    forall i, j :: 0 <= i < j < |s| ==> s[i].timestamp <= s[j].timestamp
  }

  /** The index of the first entry due at or after `t`, or the length when there is none. */
  function FirstAtLeast(s: seq<ClockEvent>, t: u64): (k: nat)
    ensures k <= |s| && (k < |s| ==> s[k].timestamp >= t)
    ensures forall i :: 0 <= i < k ==> s[i].timestamp < t
  {
    if |s| == 0 || s[0].timestamp >= t then 0 else 1 + FirstAtLeast(s[1..], t)
  }

  /** The entry the loop of `addToList` stops at: the first due no earlier than `t`, or the last. */
  function StopEntry(s: seq<ClockEvent>, t: u64): (i: nat)
    requires |s| > 0
    ensures i < |s| && (s[i].timestamp >= t || i == |s| - 1)
    ensures forall k :: 0 <= k < i ==> s[k].timestamp < t
  {
    if s[0].timestamp >= t || |s| == 1 then 0 else 1 + StopEntry(s[1..], t)
  }

  /**
   * `addToList` as written: an empty list takes the event as its only
   * entry; otherwise `list_add` links it directly AFTER the entry the
   * loop stops at.
   */
  function ClockAddedAsWritten(s: seq<ClockEvent>, e: ClockEvent): (r: seq<ClockEvent>)
  {
    if |s| == 0 then [e]
    else
      var i := StopEntry(s, e.timestamp);
      s[..i + 1] + [e] + s[i + 1..]
  }

  /** `addToList` with the event linked before the first entry due no earlier, or after the last. */
  function ClockAdded(s: seq<ClockEvent>, e: ClockEvent): (r: seq<ClockEvent>)
  {
    var k := FirstAtLeast(s, e.timestamp);
    s[..k] + [e] + s[k..]
  }

  /** The corrected insertion grows the list by exactly the event. */
  lemma ClockAddedGrows(s: seq<ClockEvent>, e: ClockEvent)
    ensures multiset(ClockAdded(s, e)) == multiset(s) + multiset{e}
  {
    var k := FirstAtLeast(s, e.timestamp);
    assert s == s[..k] + s[k..];
  }

  /** As written, the insertion also grows the list by exactly the event. */
  lemma ClockAddedAsWrittenGrows(s: seq<ClockEvent>, e: ClockEvent)
    ensures multiset(ClockAddedAsWritten(s, e)) == multiset(s) + multiset{e}
  {
    if |s| > 0 {
      var i := StopEntry(s, e.timestamp);
      assert s == s[..i + 1] + s[i + 1..];
    }
  }

  /** The corrected insertion keeps an ascending list ascending, so the head stays the next one due. */
  lemma ClockAddedAscending(s: seq<ClockEvent>, e: ClockEvent)
    requires Ascending(s)
    ensures Ascending(ClockAdded(s, e))
  {
    var k := FirstAtLeast(s, e.timestamp);
    var r := ClockAdded(s, e);
    forall i, j | 0 <= i < j < |r|
      ensures r[i].timestamp <= r[j].timestamp
    {
      if j < k {
        assert r[i] == s[i] && r[j] == s[j];
      } else if j == k {
        assert r[i] == s[i];
      } else if i < k {
        assert r[i] == s[i] && r[j] == s[j - 1];
      } else if i == k {
        assert r[j] == s[j - 1];
      } else {
        assert r[i] == s[i - 1] && r[j] == s[j - 1];
      }
    }
  }

  /** As written, an event due before the only pending one is linked behind it: the list is out of order. */
  lemma ClockAddedAsWrittenOutOfOrder()
    ensures var later := ClockEvent(1, 0, 5);
      var earlier := ClockEvent(2, 0, 3);
      ClockAddedAsWritten([later], earlier) == [later, earlier] &&
      !Ascending(ClockAddedAsWritten([later], earlier)) &&
      ClockAdded([later], earlier) == [earlier, later]
  {
    var later := ClockEvent(1, 0, 5);
    var earlier := ClockEvent(2, 0, 3);
    assert ClockAddedAsWritten([later], earlier)[0].timestamp > ClockAddedAsWritten([later], earlier)[1].timestamp;
  }

  /** The code as written agrees with the corrected insertion for an event due after every pending one. */
  lemma ClockAddedAsWrittenAgrees(s: seq<ClockEvent>, e: ClockEvent)
    requires forall k :: 0 <= k < |s| ==> s[k].timestamp < e.timestamp
    ensures ClockAddedAsWritten(s, e) == ClockAdded(s, e)
  {
    if |s| > 0 {
      assert StopEntry(s, e.timestamp) == |s| - 1;
      assert FirstAtLeast(s, e.timestamp) == |s| by {
        FirstAtLeastIs(s, e.timestamp, |s|);
      }
    }
  }

  /** FirstAtLeast is characterised by its two ensures. */
  lemma {:induction false} FirstAtLeastIs(s: seq<ClockEvent>, t: u64, k: nat)
    requires k <= |s| && (k < |s| ==> s[k].timestamp >= t)
    requires forall i :: 0 <= i < k ==> s[i].timestamp < t
    ensures FirstAtLeast(s, t) == k
  {
    if |s| > 0 && s[0].timestamp < t {
      FirstAtLeastIs(s[1..], t, k - 1);
    }
  }

  /** An intrusive list head and the clock events linked to it. */
  class ClockList {
    var events: seq<ClockEvent>

    /** The default `ClockEvent` used as a list head: INIT_LIST_HEAD gives an empty list. */
    constructor()
      ensures events == []
    {
      events := [];
    }

    /**
     * `addToList`: an empty list takes the event as its only entry;
     * otherwise the loop walks to the first entry due no earlier, or to
     * the last, and the event is linked before that entry, or after the
     * last one when every entry is due earlier.
     */
    method AddToList(e: ClockEvent)
      modifies this
      ensures events == ClockAdded(old(events), e)
      ensures |events| == |old(events)| + 1
    {
      if |events| == 0 {
        events := [e];
        return;
      }
      var i := 0;
      while events[i].timestamp < e.timestamp && i + 1 < |events|
        invariant 0 <= i < |events|
        invariant forall k :: 0 <= k < i ==> events[k].timestamp < e.timestamp
        decreases |events| - i
      {
        i := i + 1;
      }
      if events[i].timestamp >= e.timestamp {
        FirstAtLeastIs(events, e.timestamp, i);
        events := events[..i] + [e] + events[i..];
      } else {
        FirstAtLeastIs(events, e.timestamp, |events|);
        events := events + [e];
      }
    }

    /**
     * The constructor that links a new clock event into this list, here with
     * the corrected ordered insertion `ClockAdded` (the source's constructor
     * uses the as-written `addToList`): the list grows by exactly one.
     */
    method NewClockEvent(timestamp: u64, period: u64, value: u16, repeating: bool) returns (e: ClockEvent)
      modifies this
      ensures e == MakeClockEvent(timestamp, period, value, repeating)
      ensures events == ClockAdded(old(events), e) && |events| == |old(events)| + 1
    {
      e := ClockEvent(value, if repeating then period else 0, timestamp);
      AddToList(e);
    }
  }
}

=== FILE: tape_deck.dfy ===
/**
 * source/samples/TapeDeck.cpp: a sample stream component that records up
 * to 32 buffers from upstream and plays them back in order. The upstream
 * `pull` is a parameter: the buffer it would yield.
 */
module TapeDeck {
  import opened ManagedBuffers
  import ErrorNo

  const TAPEDECK_MAXIMUM_BUFFERS: int := 32

  class Deck {
    var buffer: array<Buffer>
    var bufferCount: int
    var bufferLength: int
    var downStreamConnected: bool

    ghost predicate Valid()
      reads this, buffer
    {
      buffer.Length == TAPEDECK_MAXIMUM_BUFFERS &&
      0 <= bufferCount <= TAPEDECK_MAXIMUM_BUFFERS &&
      bufferLength == |Bytes(buffer[..bufferCount])| &&
      forall i :: bufferCount <= i < TAPEDECK_MAXIMUM_BUFFERS ==> buffer[i] == EMPTY
    }

    function Contents(): seq<Buffer>
      reads this, buffer
      requires Valid()
    {
      buffer[..bufferCount]
    }

    /** A new deck is empty. */
    constructor ()
      ensures Valid() && fresh(buffer) && Contents() == [] && bufferLength == 0 && !downStreamConnected
    {
      buffer := new Buffer[TAPEDECK_MAXIMUM_BUFFERS](_ => EMPTY);
      bufferCount := 0;
      bufferLength := 0;
      downStreamConnected := false;
    }

    /** `canPull`: some bytes are recorded, i.e. some recorded buffer is not empty. */
    predicate CanPull()
      requires Valid()
      reads this, buffer
      ensures CanPull() <==> exists i :: 0 <= i < |Contents()| && Contents()[i].bytes != []
    {
      BytesEmpty(Contents());
      bufferLength > 0
    }

    /**
     * `isFull`: despite its name, holds exactly when there is still room
     * for another buffer.
     */
    predicate IsFull()
      requires Valid()
      reads this, buffer
      ensures IsFull() <==> |Contents()| < TAPEDECK_MAXIMUM_BUFFERS
    {
      bufferCount < TAPEDECK_MAXIMUM_BUFFERS
    }

    /**
     * `pull`: with bytes recorded, the first buffer is played back and
     * removed; otherwise the (empty) first slot is returned and nothing
     * changes, even when empty buffers are recorded.
     */
    method Pull() returns (out: Buffer)
      requires Valid()
      modifies this`bufferCount, this`bufferLength, buffer
      ensures Valid()
      ensures old(bufferLength) > 0 ==> (|old(Contents())| > 0 && out == old(Contents())[0] &&
        Contents() == old(Contents())[1..] && bufferLength == old(bufferLength) - |out.bytes|)
      ensures old(bufferLength) == 0 ==> (out == old(buffer[0]) && Contents() == old(Contents()) &&
        bufferLength == 0)
    {
      out := buffer[0];
      if bufferLength > 0 {
        ghost var before := buffer[..bufferCount];
        ghost var all := buffer[..];
        ghost var length0 := bufferLength;
        assert before != [];
        var i := 0;
        while i < TAPEDECK_MAXIMUM_BUFFERS - 1
          modifies buffer
          invariant 0 <= i <= TAPEDECK_MAXIMUM_BUFFERS - 1
          invariant forall j :: 0 <= j < i ==> buffer[j] == all[j + 1]
          invariant forall j :: i <= j < TAPEDECK_MAXIMUM_BUFFERS ==> buffer[j] == all[j]
        {
          buffer[i] := buffer[i + 1];
          i := i + 1;
        }
        buffer[TAPEDECK_MAXIMUM_BUFFERS - 1] := EMPTY;
        bufferLength := bufferLength - |out.bytes|;
        bufferCount := bufferCount - 1;
        assert forall j :: 0 <= j < bufferCount ==> buffer[j] == before[1..][j];
        assert buffer[..bufferCount] == before[1..];
        BytesTail(before);
        assert bufferLength == length0 - |before[0].bytes|;
      }
    }

    /**
     * `pullRequest`: with every slot taken, refuses without pulling
     * upstream; otherwise pulls and records the buffer, even an empty one.
     */
    method PullRequest(incoming: Buffer) returns (status: int, pulled: bool)
      requires Valid()
      modifies this`bufferCount, this`bufferLength, buffer
      ensures Valid()
      ensures old(bufferCount) >= TAPEDECK_MAXIMUM_BUFFERS ==>
        (status == ErrorNo.DEVICE_NO_RESOURCES && !pulled && Contents() == old(Contents()) && bufferLength == old(bufferLength))
      ensures old(bufferCount) < TAPEDECK_MAXIMUM_BUFFERS ==>
        (status == ErrorNo.DEVICE_OK && pulled && Contents() == old(Contents()) + [incoming] &&
         bufferLength == old(bufferLength) + |incoming.bytes|)
    {
      if bufferCount >= TAPEDECK_MAXIMUM_BUFFERS {
        return ErrorNo.DEVICE_NO_RESOURCES, false;
      }
      ghost var before := buffer[..bufferCount];
      buffer[bufferCount] := incoming;
      bufferCount := bufferCount + 1;
      bufferLength := bufferLength + |incoming.bytes|;
      assert buffer[..bufferCount] == before + [incoming];
      BytesSnoc(before, incoming);
      return ErrorNo.DEVICE_OK, true;
    }

    method Connect()
      modifies this`downStreamConnected
      ensures downStreamConnected
    {
      downStreamConnected := true;
    }

    method Disconnect()
      modifies this`downStreamConnected
      ensures !downStreamConnected
    {
      downStreamConnected := false;
    }
  }
}

=== FILE: text.dfy ===
/**
 * Decimal rendering of integers, as done by the runtime's `itoa` and by
 * `ManagedString(int)`: an optional '-' followed by the digits without
 * leading zeros ("0" for zero).
 */
module Text {
  function DigitChar(d: int): (c: char)
    requires 0 <= d < 10
    ensures '0' <= c <= '9' && c as int - '0' as int == d
  {
    (d + '0' as int) as char
  }

  predicate IsDigitChar(c: char) { '0' <= c <= '9' }

  /** Digits of a natural number, most significant first, at least one digit. */
  function NatDigits(n: nat): (s: string)
    ensures |s| >= 1
    ensures forall i :: 0 <= i < |s| ==> IsDigitChar(s[i])
    ensures n >= 10 ==> s[0] != '0'
    decreases n
  {
    if n < 10 then [DigitChar(n)] else NatDigits(n / 10) + [DigitChar(n % 10)]
  }

  /** Signed decimal rendering. */
  function Decimal(n: int): (s: string)
    ensures |s| >= 1
    ensures n >= 0 ==> s == NatDigits(n)
    ensures n < 0 ==> s == "-" + NatDigits(-n)
  {
    if n < 0 then "-" + NatDigits(-n) else NatDigits(n)
  }

  /** Value of a string of decimal digits. */
  function DigitsValue(s: string): (v: int)
    requires forall i :: 0 <= i < |s| ==> IsDigitChar(s[i])
    ensures v >= 0
    decreases |s|
  {
    if s == [] then 0
    else
      assert IsDigitChar(s[|s| - 1]);
      DigitsValue(s[..|s| - 1]) * 10 + (s[|s| - 1] as int - '0' as int)
  }

  /** Parsing a rendered natural number gives it back. */
  lemma {:induction false} NatDigitsRoundTrip(n: nat)
    ensures DigitsValue(NatDigits(n)) == n
    decreases n
  {
    var s := NatDigits(n);
    if n >= 10 {
      NatDigitsRoundTrip(n / 10);
      assert s[..|s| - 1] == NatDigits(n / 10);
    }
  }

  /** Numbers below 10^k are rendered with at most k digits. */
  lemma {:induction false} NatDigitsLength(n: nat, k: nat, p: nat)
    requires p == Pow10(k) && n < p
    ensures |NatDigits(n)| <= if k == 0 then 1 else k
    decreases k
  {
    if n >= 10 {
      NatDigitsLength(n / 10, k - 1, Pow10(k - 1));
    }
  }

  function Pow10(k: nat): (p: nat)
    ensures p >= 1
  {
    if k == 0 then 1 else 10 * Pow10(k - 1)
  }
}

=== FILE: timer.dfy ===
/**
 * inc/core/Timer.h: the events of the CODAL `Timer` interface, kept in an
 * intrusive list ordered by due time. The list is represented by the
 * sequence of its entries from the head, each entry by its field values.
 */
module TimerEvents {
  import opened CTypes

  /** `TimerEvent`: the event to raise, its repeat period (0 for a one-shot) and when it is due. */
  datatype TimerEvent = TimerEvent(id: u16, value: u16, period: u64, timestamp: u64)

  /** The default constructor. */
  function DefaultEvent(): (e: TimerEvent)
    ensures e.id == 0 && e.value == 0 && e.period == 0 && e.timestamp == 0
  {
    TimerEvent(0, 0, 0, 0)
  }

  /** The fields the list-adding constructor stores: the period is kept only for a repeating event. */
  function MakeEvent(timestamp: u64, period: u64, id: u16, value: u16, repeating: bool): (e: TimerEvent)
    ensures e.timestamp == timestamp && e.id == id && e.value == value
    ensures e.period != 0 ==> repeating
    ensures repeating ==> e.period == period
  {
    TimerEvent(id, value, if repeating then period else 0, timestamp)
  }

  predicate Matches(e: TimerEvent, id: u16, value: u16)
  {
    e.id == id && e.value == value
  }

  /** Entries are in non-decreasing order of due time. */
  ghost predicate Ascending(s: seq<TimerEvent>)
  {
    forall i, j :: 0 <= i < j < |s| ==> s[i].timestamp <= s[j].timestamp
  }

  /** No two entries share an id and value. */
  ghost predicate Unique(s: seq<TimerEvent>)
  {
    forall i, j :: 0 <= i < j < |s| ==> !Matches(s[j], s[i].id, s[i].value)
  }

  /** No entry has this id and value. */
  ghost predicate Absent(s: seq<TimerEvent>, id: u16, value: u16)
  {
    forall x :: x in s ==> !Matches(x, id, value)
  }

  // ---------------------------------------------------------------------
  // The list operations, on the entries.

  /** `removeFromList`: the entries with this id and value are deleted, the others kept in order. */
  function Removed(s: seq<TimerEvent>, id: u16, value: u16): (r: seq<TimerEvent>)
    ensures |r| <= |s|
  {
    if |s| == 0 then []
    else
      var last := s[|s| - 1];
      assert s == s[..|s| - 1] + [last];
      Removed(s[..|s| - 1], id, value) + (if Matches(last, id, value) then [] else [last])
  }

  /** The index of the first entry due at or after `t`, or the length when there is none. */
  function FirstAtLeast(s: seq<TimerEvent>, t: u64): (k: nat)
    ensures k <= |s| && (k < |s| ==> s[k].timestamp >= t)
    ensures forall i :: 0 <= i < k ==> s[i].timestamp < t
  {
    if |s| == 0 || s[0].timestamp >= t then 0 else 1 + FirstAtLeast(s[1..], t)
  }

  /** The insertion loop of `addToList`: before the first entry due no earlier, else at the end. */
  function Inserted(s: seq<TimerEvent>, e: TimerEvent): (r: seq<TimerEvent>)
  {
    var k := FirstAtLeast(s, e.timestamp);
    s[..k] + [e] + s[k..]
  }

  /**
   * `addToList` with the duplicates of the event removed and the event
   * then inserted in order, whether or not the removal left the list empty.
   */
  function Added(s: seq<TimerEvent>, e: TimerEvent): (r: seq<TimerEvent>)
    ensures e in r && |r| <= |s| + 1
  {
    if |s| == 0 then [e] else Inserted(Removed(s, e.id, e.value), e)
  }

  /**
   * `addToList` as written: when the removal of duplicates empties the
   * list, the insertion loop has no entry to visit and the event is not
   * added.
   */
  function AddedAsWritten(s: seq<TimerEvent>, e: TimerEvent): (r: seq<TimerEvent>)
    ensures |r| <= |s| + 1
  {
    if |s| == 0 then [e]
    else
      var w := Removed(s, e.id, e.value);
      if |w| == 0 then w else Inserted(w, e)
  }

  // ---------------------------------------------------------------------
  // Properties.

  /** Removal leaves no entry with the id and value, and keeps every other entry. */
  lemma {:induction false} RemovedContents(s: seq<TimerEvent>, id: u16, value: u16)
    ensures Absent(Removed(s, id, value), id, value)
    ensures forall e :: e in Removed(s, id, value) <==> e in s && !Matches(e, id, value)
  {
    if |s| > 0 {
      RemovedContents(s[..|s| - 1], id, value);
      assert s == s[..|s| - 1] + [s[|s| - 1]];
    }
  }

  /** Removal keeps an ascending list ascending. */
  lemma {:induction false} RemovedAscending(s: seq<TimerEvent>, id: u16, value: u16)
    requires Ascending(s)
    ensures Ascending(Removed(s, id, value))
  {
    if |s| > 0 {
      var init := s[..|s| - 1];
      RemovedAscending(init, id, value);
      RemovedContents(init, id, value);
      var r := Removed(init, id, value);
      forall i | 0 <= i < |r|
        ensures r[i].timestamp <= s[|s| - 1].timestamp
      {
        assert r[i] in init;
      }
    }
  }

  /** Removal keeps entries with distinct ids and values distinct. */
  lemma {:induction false} RemovedUnique(s: seq<TimerEvent>, id: u16, value: u16)
    requires Unique(s)
    ensures Unique(Removed(s, id, value))
  {
    if |s| > 0 {
      var init := s[..|s| - 1];
      var last := s[|s| - 1];
      RemovedUnique(init, id, value);
      RemovedContents(init, id, value);
      var r := Removed(init, id, value);
      forall i | 0 <= i < |r|
        ensures !Matches(last, r[i].id, r[i].value)
      {
        assert r[i] in init;
      }
    }
  }

  /** Removing an absent id and value changes nothing. */
  lemma {:induction false} RemovedAbsent(s: seq<TimerEvent>, id: u16, value: u16)
    requires Absent(s, id, value)
    ensures Removed(s, id, value) == s
  {
    if |s| > 0 {
      RemovedAbsent(s[..|s| - 1], id, value);
      assert s[..|s| - 1] + [s[|s| - 1]] == s;
    }
  }

  /** Insertion adds exactly the event, at the position of the first entry due no earlier. */
  lemma InsertedContents(s: seq<TimerEvent>, e: TimerEvent)
    ensures var r := Inserted(s, e);
      |r| == |s| + 1 && multiset(r) == multiset(s) + multiset{e} &&
      r[FirstAtLeast(s, e.timestamp)] == e
  {
    var k := FirstAtLeast(s, e.timestamp);
    assert s == s[..k] + s[k..];
  }

  /** Insertion keeps an ascending list ascending. */
  lemma InsertedAscending(s: seq<TimerEvent>, e: TimerEvent)
    requires Ascending(s)
    ensures Ascending(Inserted(s, e))
  {
    var k := FirstAtLeast(s, e.timestamp);
    var r := Inserted(s, e);
    forall i, j | 0 <= i < j < |r|
      ensures r[i].timestamp <= r[j].timestamp
    {
      if j < k {
        assert r[i] == s[i] && r[j] == s[j];
      } else if j == k {
        assert r[i] == s[i];
      } else if i < k {
        assert r[i] == s[i] && r[j] == s[j - 1];
      } else if i == k {
        assert r[j] == s[j - 1];
      } else {
        assert r[i] == s[i - 1] && r[j] == s[j - 1];
      }
    }
  }

  /** Adding an event whose id and value are absent is insertion alone. */
  lemma AddedAbsent(s: seq<TimerEvent>, e: TimerEvent)
    requires Absent(s, e.id, e.value)
    ensures Added(s, e) == Inserted(s, e)
  {
    if |s| > 0 {
      RemovedAbsent(s, e.id, e.value);
    }
  }

  /** Insertion of an event whose id and value are absent keeps the list free of duplicates. */
  lemma InsertedUnique(s: seq<TimerEvent>, e: TimerEvent)
    requires Unique(s) && Absent(s, e.id, e.value)
    ensures Unique(Inserted(s, e))
  {
    var k := FirstAtLeast(s, e.timestamp);
    var r := Inserted(s, e);
    forall i, j | 0 <= i < j < |r|
      ensures !Matches(r[j], r[i].id, r[i].value)
    {
      if i < k && j > k {
        assert r[i] == s[i] && r[j] == s[j - 1];
      } else if i > k {
        assert r[i] == s[i - 1] && r[j] == s[j - 1];
      } else if i == k {
        assert r[j] == s[j - 1] && s[j - 1] in s;
      } else if j == k {
        assert r[i] == s[i] && s[i] in s;
      }
    }
  }

  /**
   * `addToList`: the event is in the list once, the entries with its id
   * and value are gone, every other entry stays; an ascending list
   * without duplicates stays so.
   */
  lemma AddedProperties(s: seq<TimerEvent>, e: TimerEvent)
    ensures var r := Added(s, e);
      (forall x :: x in r <==> x == e || (x in s && !Matches(x, e.id, e.value))) &&
      (Ascending(s) ==> Ascending(r)) &&
      (Unique(s) ==> Unique(r))
  {
    if |s| > 0 {
      var w := Removed(s, e.id, e.value);
      RemovedContents(s, e.id, e.value);
      InsertedContents(w, e);
      var r := Inserted(w, e);
      assert forall x :: x in r <==> x in multiset(r);
      if Ascending(s) {
        RemovedAscending(s, e.id, e.value);
        InsertedAscending(w, e);
      }
      if Unique(s) {
        RemovedUnique(s, e.id, e.value);
        InsertedUnique(w, e);
      }
    }
  }

  /** The event added is the only entry with its id and value. */
  lemma AddedOnce(s: seq<TimerEvent>, e: TimerEvent, i: nat)
    requires i < |Added(s, e)| && Matches(Added(s, e)[i], e.id, e.value)
    ensures Added(s, e)[i] == e
  {
    if |s| > 0 {
      var w := Removed(s, e.id, e.value);
      InsertedContents(w, e);
      var r := Inserted(w, e);
      var k := FirstAtLeast(w, e.timestamp);
      RemovedContents(s, e.id, e.value);
    }
  }

  /** As written, re-adding the only pending event drops it: the list ends up empty. */
  lemma AddedAsWrittenDropsEvent()
    ensures var old_ := TimerEvent(7, 1, 0, 100);
      var e := TimerEvent(7, 1, 0, 50);
      AddedAsWritten([old_], e) == [] && Added([old_], e) == [e]
  {
    var old_ := TimerEvent(7, 1, 0, 100);
    var e := TimerEvent(7, 1, 0, 50);
    assert Removed([old_], 7, 1) == Removed([], 7, 1) + [];
  }

  /** Whenever some other entry survives the removal, the code as written agrees with the corrected addition. */
  lemma AddedAsWrittenAgrees(s: seq<TimerEvent>, e: TimerEvent)
    requires |s| == 0 || exists x :: x in s && !Matches(x, e.id, e.value)
    ensures AddedAsWritten(s, e) == Added(s, e)
  {
    if |s| > 0 {
      var x :| x in s && !Matches(x, e.id, e.value);
      RemovedContents(s, e.id, e.value);
      assert x in Removed(s, e.id, e.value);
    }
  }

  // ---------------------------------------------------------------------
  // The list object.

  /** An intrusive list head and the entries linked to it. */
  class EventList {
    var events: seq<TimerEvent>

    /** INIT_LIST_HEAD: an empty list. */
    constructor()
      ensures events == []
    {
      events := [];
    }

    /** `removeFromList`: walks the list, unlinking each entry with this id and value. */
    method RemoveFromList(id: u16, value: u16)
      modifies this
      ensures events == Removed(old(events), id, value)
    {
      ghost var s := events;
      var i := 0;
      ghost var j := 0;
      while i < |events|
        invariant 0 <= j <= |s| && i + (|s| - j) == |events|
        invariant events == Removed(s[..j], id, value) + s[j..]
        decreases |events| - i
      {
        if events[i].id == id && events[i].value == value {
          RemovedStepDrop(s, j, id, value, events, i);
          events := events[..i] + events[i + 1..];
        } else {
          RemovedStepKeep(s, j, id, value, events, i);
          i := i + 1;
        }
        j := j + 1;
      }
      assert s[..j] == s;
    }

    /**
     * `addToList`: an empty list takes the event as its only entry;
     * otherwise duplicates are removed and the event goes before the first
     * entry due no earlier, or after the last. When the removal empties
     * the list the event becomes its only entry.
     */
    method AddToList(e: TimerEvent)
      modifies this
      ensures events == Added(old(events), e)
    {
      if |events| == 0 {
        events := [e];
        return;
      }
      RemoveFromList(e.id, e.value);
      if |events| == 0 {
        events := [e];
        return;
      }
      InsertInOrder(e);
    }

    /** The insertion loop of `addToList`: before the first entry due no earlier, else after the last. */
    method InsertInOrder(e: TimerEvent)
      requires |events| > 0
      modifies this
      ensures events == Inserted(old(events), e)
    {
      var i := 0;
      while i + 1 < |events| && events[i].timestamp < e.timestamp
        invariant 0 <= i < |events|
        invariant forall k :: 0 <= k < i ==> events[k].timestamp < e.timestamp
      {
        i := i + 1;
      }
      if events[i].timestamp >= e.timestamp {
        FirstAtLeastIs(events, e.timestamp, i);
        events := events[..i] + [e] + events[i..];
      } else {
        FirstAtLeastIs(events, e.timestamp, |events|);
        events := events + [e];
      }
    }

    /** The constructor that links the new event into a list. */
    method NewEvent(timestamp: u64, period: u64, id: u16, value: u16, repeating: bool) returns (e: TimerEvent)
      modifies this
      ensures e == MakeEvent(timestamp, period, id, value, repeating)
      ensures events == Added(old(events), e)
    {
      e := TimerEvent(id, value, if repeating then period else 0, timestamp);
      AddToList(e);
    }
  }

  /** Removal over one more entry of a prefix. */
  lemma RemovedStep(s: seq<TimerEvent>, j: nat, id: u16, value: u16)
    requires j < |s|
    ensures Removed(s[..j + 1], id, value) ==
      Removed(s[..j], id, value) + (if Matches(s[j], id, value) then [] else [s[j]])
  {
    assert s[..j + 1][..j] == s[..j];
  }

  /** The walk of `removeFromList` unlinks a matching entry at its cursor. */
  lemma RemovedStepDrop(s: seq<TimerEvent>, j: nat, id: u16, value: u16, list: seq<TimerEvent>, i: nat)
    requires j < |s| && list == Removed(s[..j], id, value) + s[j..] && i + (|s| - j) == |list|
    requires Matches(list[i], id, value)
    ensures list[..i] + list[i + 1..] == Removed(s[..j + 1], id, value) + s[j + 1..]
  {
    RemovedStep(s, j, id, value);
    assert list[i] == s[j];
  }

  /** The walk of `removeFromList` steps over an entry that does not match. */
  lemma RemovedStepKeep(s: seq<TimerEvent>, j: nat, id: u16, value: u16, list: seq<TimerEvent>, i: nat)
    requires j < |s| && list == Removed(s[..j], id, value) + s[j..] && i + (|s| - j) == |list|
    requires !Matches(list[i], id, value)
    ensures list == Removed(s[..j + 1], id, value) + s[j + 1..]
  {
    RemovedStep(s, j, id, value);
    assert list[i] == s[j];
    assert list == (Removed(s[..j], id, value) + [s[j]]) + s[j + 1..];
  }

  /** FirstAtLeast is characterised by its two ensures. */
  lemma {:induction false} FirstAtLeastIs(s: seq<TimerEvent>, t: u64, k: nat)
    requires k <= |s| && (k < |s| ==> s[k].timestamp >= t)
    requires forall i :: 0 <= i < k ==> s[i].timestamp < t
    ensures FirstAtLeast(s, t) == k
  {
    if |s| > 0 && s[0].timestamp < t {
      FirstAtLeastIs(s[1..], t, k - 1);
    }
  }
}

=== FILE: touch_button.dfy ===
/**
 * source/drivers/TouchButton.cpp: a button whose state is a sensed value
 * compared with a threshold, and which can calibrate that threshold from
 * the highest of its first few readings.
 */
module TouchButton {
  import opened CTypes

  const TOUCH_BUTTON_CALIBRATION_PERIOD: int := 10
  const TOUCH_BUTTON_CALIBRATION_LINEAR_OFFSET: int := 2
  const TOUCH_BUTTON_CALIBRATION_PERCENTAGE_OFFSET: int := 5

  /**
   * The state the calibration logic works on. While calibrating, `reading`
   * counts the samples still to take and `threshold` holds the running
   * maximum.
   */
  datatype Touch = Touch(reading: int, threshold: int, calibrating: bool)

  function Max(a: int, b: int): int { if a >= b then a else b }

  /** `calibrate`: start counting down the calibration period from a zero maximum. */
  function StartCalibration(t: Touch, period: int): (t': Touch)
    ensures t'.calibrating && t'.reading == period && t'.threshold == 0
  {
    t.(reading := period, threshold := 0, calibrating := true)
  }

  /**
   * `setValue`: while calibrating, keep the maximum and count down; on the
   * last sample add the percentage and linear margins and stop calibrating.
   * Otherwise store the reading.
   */
  function Sense(t: Touch, r: int, percent: int, linear: int): (t': Touch)
    ensures !t.calibrating ==> t' == t.(reading := r)
    ensures t.calibrating && t.reading != 1 ==>
      t' == Touch(t.reading - 1, Max(t.threshold, r), true)
  {
    if t.calibrating then
      var m := Max(t.threshold, r);
      var left := t.reading - 1;
      if left == 0 then Touch(0, m + CDiv(m * percent, 100) + linear, false)
      else Touch(left, m, true)
    else
      t.(reading := r)
  }

  /** `buttonActive`: never while calibrating, otherwise when the reading reaches the threshold. */
  function IsActive(t: Touch): (active: bool)
  {
    !t.calibrating && t.reading >= t.threshold
  }

  /** Several readings in turn. */
  function Run(t: Touch, rs: seq<int>, percent: int, linear: int): Touch
  {
    if rs == [] then t else Sense(Run(t, rs[..|rs| - 1], percent, linear), rs[|rs| - 1], percent, linear)
  }

  /** The running maximum calibration keeps, starting from zero. */
  function Peak(rs: seq<int>): (m: int)
    ensures m >= 0 && forall i :: 0 <= i < |rs| ==> rs[i] <= m
    ensures m == 0 || exists i :: 0 <= i < |rs| && rs[i] == m
  {
    if rs == [] then 0
    else
      var p := Peak(rs[..|rs| - 1]);
      assert forall i :: 0 <= i < |rs| - 1 ==> rs[..|rs| - 1][i] == rs[i];
      Max(p, rs[|rs| - 1])
  }

  /** The threshold calibration settles on for a peak m. */
  function Calibrated(m: int, percent: int, linear: int): int
  {
    m + m * percent / 100 + linear
  }

  /** Part way through calibration the counter has come down by the samples taken and the maximum is their peak. */
  lemma {:induction false} CalibrationProgress(t: Touch, rs: seq<int>, period: int, percent: int, linear: int)
    requires |rs| < period
    ensures Run(StartCalibration(t, period), rs, percent, linear) == Touch(period - |rs|, Peak(rs), true)
    decreases |rs|
  {
    if rs != [] {
      CalibrationProgress(t, rs[..|rs| - 1], period, percent, linear);
    }
  }

  /**
   * A full calibration period of readings ends calibration with the peak
   * reading plus the percentage and linear margins as the threshold, and
   * the button is not active meanwhile.
   */
  lemma CalibrationOutcome(t: Touch, rs: seq<int>, period: int, percent: int, linear: int)
    requires |rs| == period > 0 && percent >= 0
    ensures Run(StartCalibration(t, period), rs, percent, linear) ==
      Touch(0, Calibrated(Peak(rs), percent, linear), false)
    ensures forall k :: 0 <= k < period ==> !IsActive(Run(StartCalibration(t, period), rs[..k], percent, linear))
  {
    CalibrationEnds(t, rs, period, percent, linear);
    forall k | 0 <= k < period
      ensures !IsActive(Run(StartCalibration(t, period), rs[..k], percent, linear))
    {
      CalibrationProgress(t, rs[..k], period, percent, linear);
    }
  }

  /** The last reading of the period ends calibration. */
  lemma {:induction false} CalibrationEnds(t: Touch, rs: seq<int>, period: int, percent: int, linear: int)
    requires |rs| == period > 0 && percent >= 0
    ensures Run(StartCalibration(t, period), rs, percent, linear) ==
      Touch(0, Calibrated(Peak(rs), percent, linear), false)
  {
    var start, init, last := StartCalibration(t, period), rs[..|rs| - 1], rs[|rs| - 1];
    CalibrationProgress(t, init, period, percent, linear);
    assert Run(start, rs, percent, linear) == Sense(Run(start, init, percent, linear), last, percent, linear);
    LastSample(Peak(init), last, percent, linear);
    assert Peak(rs) == Max(Peak(init), last);
  }

  /** The sample that brings the counter to zero adds the margins to the maximum. */
  lemma LastSample(m: int, r: int, percent: int, linear: int)
    requires m >= 0 && percent >= 0
    ensures Sense(Touch(1, m, true), r, percent, linear) == Touch(0, Calibrated(Max(m, r), percent, linear), false)
  {
    var top := Max(m, r);
    assert top * percent >= 0;
  }

  class Button {
    var reading: int
    var threshold: int
    var calibrating: bool

    function State(): Touch
      reads this
    {
      Touch(reading, threshold, calibrating)
    }

    /** The constructor: a negative threshold starts a calibration. */
    constructor (threshold: int)
      ensures threshold >= 0 ==> State() == Touch(0, threshold, false)
      ensures threshold < 0 ==> State() == StartCalibration(Touch(0, threshold, false), TOUCH_BUTTON_CALIBRATION_PERIOD)
    {
      this.threshold := threshold;
      reading := 0;
      calibrating := false;
      new;
      if threshold < 0 {
        Calibrate();
      }
    }

    method Calibrate()
      modifies this
      ensures State() == StartCalibration(old(State()), TOUCH_BUTTON_CALIBRATION_PERIOD)
    {
      reading := TOUCH_BUTTON_CALIBRATION_PERIOD;
      threshold := 0;
      calibrating := true;
    }

    method SetValue(r: int)
      modifies this
      ensures State() == Sense(old(State()), r, TOUCH_BUTTON_CALIBRATION_PERCENTAGE_OFFSET, TOUCH_BUTTON_CALIBRATION_LINEAR_OFFSET)
    {
      if calibrating {
        threshold := Max(threshold, r);
        reading := reading - 1;
        if reading == 0 {
          threshold := threshold + CDiv(threshold * 5, 100) + TOUCH_BUTTON_CALIBRATION_LINEAR_OFFSET;
          calibrating := false;
        }
        return;
      }
      reading := r;
    }

    method ButtonActive() returns (active: int)
      ensures active == (if IsActive(State()) then 1 else 0)
    {
      if calibrating {
        return 0;
      }
      active := if reading >= threshold then 1 else 0;
    }

    method SetThreshold(threshold: int)
      modifies this`threshold
      ensures State() == old(State()).(threshold := threshold)
    {
      this.threshold := threshold;
    }
  }
}

=== FILE: touch_sensor.dfy ===
/**
 * source/drivers/TouchSensor.cpp: the driver that owns up to ten touch
 * buttons in a fixed table and samples them together. Buttons are
 * represented by their identity; 0 stands for the null pointer.
 */
module TouchSensor {
  import ErrorNo

  const TOUCH_SENSOR_MAX_BUTTONS: int := 10
  const NULL: int := 0

  predicate Distinct(s: seq<int>)
  {
    forall i, j :: 0 <= i < j < |s| ==> s[i] != s[j]
  }

  /**
   * The outcome of `removeTouchButton` as written: the status, the table
   * and the live count, or a read of the slot past the end of a full
   * table, which C leaves undefined.
   */
  datatype Removal = Removal(status: int, slots: seq<int>, count: nat) | ReadPastEnd

  /**
   * `removeTouchButton` as written, on the table and the live count: the
   * first match is overwritten with the slot one past the last live entry,
   * which a full table does not have.
   */
  function RemoveAsWritten(slots: seq<int>, n: nat, b: int): (r: Removal)
    requires n <= |slots|
    ensures r.ReadPastEnd? <==> b in slots[..n] && n == |slots|
    ensures r.Removal? ==> (r.status == ErrorNo.DEVICE_INVALID_PARAMETER <==> b !in slots[..n])
    ensures r.Removal? && r.status == ErrorNo.DEVICE_OK ==> r.count == n - 1 && |r.slots| == |slots|
  {
    if b in slots[..n] then
      var i := FirstIndex(slots[..n], b);
      if n == |slots| then ReadPastEnd
      else Removal(ErrorNo.DEVICE_OK, slots[i := slots[n]], n - 1)
    else Removal(ErrorNo.DEVICE_INVALID_PARAMETER, slots, n)
  }

  function FirstIndex(s: seq<int>, b: int): (i: nat)
    requires b in s
    ensures i < |s| && s[i] == b && b !in s[..i]
  {
    if s[0] == b then 0 else 1 + FirstIndex(s[1..], b)
  }

  /**
   * As written, removing the first of three buttons leaves a null entry in
   * the live part of the table and loses the third button.
   */
  lemma RemoveAsWrittenLosesLast()
    ensures var slots := [11, 22, 33, 0, 0, 0, 0, 0, 0, 0];
      var r := RemoveAsWritten(slots, 3, 11);
      r.Removal? && r.status == ErrorNo.DEVICE_OK && r.slots[..r.count] == [0, 22] && 33 !in r.slots[..r.count]
  {
    var slots := [11, 22, 33, 0, 0, 0, 0, 0, 0, 0];
    assert slots[..3] == [11, 22, 33];
    assert FirstIndex(slots[..3], 11) == 0;
    assert slots[0 := 0][..2] == [0, 22];
  }

  /** As written, removing a button from a full table reads past its end. */
  lemma RemoveAsWrittenFullTable(slots: seq<int>, k: nat)
    requires |slots| == TOUCH_SENSOR_MAX_BUTTONS && k < |slots|
    ensures RemoveAsWritten(slots, |slots|, slots[k]).ReadPastEnd?
  {
    assert slots[..|slots|][k] == slots[k];
  }

  class Sensor {
    /** The table of buttons; the first `numberOfButtons` entries are the live ones. */
    var buttons: array<int>
    var numberOfButtons: int

    ghost predicate Valid()
      reads this, buttons
    {
      buttons.Length == TOUCH_SENSOR_MAX_BUTTONS &&
      0 <= numberOfButtons <= TOUCH_SENSOR_MAX_BUTTONS &&
      Distinct(buttons[..numberOfButtons]) && NULL !in buttons[..numberOfButtons]
    }

    function Contents(): seq<int>
      reads this, buttons
      requires Valid()
    {
      buttons[..numberOfButtons]
    }

    /** The constructor: no buttons, every slot null. */
    constructor ()
      ensures Valid() && Contents() == [] && fresh(buttons)
      ensures forall i :: 0 <= i < buttons.Length ==> buttons[i] == NULL
    {
      numberOfButtons := 0;
      var table := new int[TOUCH_SENSOR_MAX_BUTTONS];
      var i := 0;
      while i < TOUCH_SENSOR_MAX_BUTTONS
        invariant 0 <= i <= TOUCH_SENSOR_MAX_BUTTONS
        invariant forall j :: 0 <= j < i ==> table[j] == NULL
      {
        table[i] := NULL;
        i := i + 1;
      }
      buttons := table;
    }

    /**
     * `addTouchButton`: refused when the table is full or the button is
     * already present; otherwise appended. No button is ever listed twice.
     */
    method AddTouchButton(button: int) returns (status: int)
      requires Valid() && button != NULL
      modifies this, buttons
      ensures Valid() && buttons == old(buttons)
      ensures old(numberOfButtons) == TOUCH_SENSOR_MAX_BUTTONS ==>
        status == ErrorNo.DEVICE_NO_RESOURCES && Contents() == old(Contents())
      ensures old(numberOfButtons) < TOUCH_SENSOR_MAX_BUTTONS && button in old(Contents()) ==>
        status == ErrorNo.DEVICE_INVALID_PARAMETER && Contents() == old(Contents())
      ensures old(numberOfButtons) < TOUCH_SENSOR_MAX_BUTTONS && button !in old(Contents()) ==>
        status == ErrorNo.DEVICE_OK && Contents() == old(Contents()) + [button]
    {
      if numberOfButtons == TOUCH_SENSOR_MAX_BUTTONS {
        return ErrorNo.DEVICE_NO_RESOURCES;
      }
      var i := 0;
      while i < numberOfButtons
        invariant 0 <= i <= numberOfButtons
        invariant button !in buttons[..i]
      {
        if buttons[i] == button {
          return ErrorNo.DEVICE_INVALID_PARAMETER;
        }
        i := i + 1;
      }
      assert buttons[..numberOfButtons] == old(Contents());
      buttons[numberOfButtons] := button;
      numberOfButtons := numberOfButtons + 1;
      assert buttons[..numberOfButtons] == old(Contents()) + [button];
      return ErrorNo.DEVICE_OK;
    }

    /**
     * `removeTouchButton`, filling the hole with the last live entry as the
     * source's comment intends: an absent button is refused; a present one
     * leaves the table, the others stay, and the count drops by one.
     */
    method RemoveTouchButton(button: int) returns (status: int)
      requires Valid()
      modifies this, buttons
      ensures Valid() && buttons == old(buttons)
      ensures button !in old(Contents()) ==>
        status == ErrorNo.DEVICE_INVALID_PARAMETER && Contents() == old(Contents())
      ensures button in old(Contents()) ==>
        status == ErrorNo.DEVICE_OK && |Contents()| == |old(Contents())| - 1 &&
        multiset(Contents()) == multiset(old(Contents())) - multiset{button} &&
        button !in Contents()
    {
      var i := 0;
      while i < numberOfButtons
        invariant 0 <= i <= numberOfButtons
        invariant button !in buttons[..i]
      {
        if buttons[i] == button {
          FillFromLast(i);
          return ErrorNo.DEVICE_OK;
        }
        i := i + 1;
      }
      assert buttons[..numberOfButtons] == old(Contents());
      return ErrorNo.DEVICE_INVALID_PARAMETER;
    }

    /** The hole at i is filled with the last live entry, and the count drops by one. */
    method FillFromLast(i: nat)
      requires Valid() && i < numberOfButtons
      modifies this, buttons
      ensures Valid() && buttons == old(buttons)
      ensures |Contents()| == |old(Contents())| - 1 && old(Contents()[i]) !in Contents()
      ensures multiset(Contents()) == multiset(old(Contents())) - multiset{old(Contents()[i])}
    {
      ghost var before := buttons[..numberOfButtons];
      var last := numberOfButtons - 1;
      buttons[i] := buttons[last];
      numberOfButtons := last;
      RemovedByLast(before, i);
      assert buttons[..numberOfButtons] == before[i := before[|before| - 1]][..|before| - 1];
    }
  }

  /** Moving the last entry into position i and dropping the last slot removes exactly entry i. */
  lemma RemovedByLast(s: seq<int>, i: nat)
    requires i < |s| && Distinct(s)
    ensures var t := s[i := s[|s| - 1]][..|s| - 1];
      Distinct(t) && multiset(t) == multiset(s) - multiset{s[i]} && s[i] !in t &&
      forall x :: x in t ==> x in s
  {
    var t := s[i := s[|s| - 1]][..|s| - 1];
    assert forall k :: 0 <= k < |t| ==> t[k] == s[if k == i then |s| - 1 else k];
    RemovedMultiset(s, i);
  }

  lemma PermuteTail(a: seq<int>, b: seq<int>, c: seq<int>)
    ensures multiset(a + b + c) == multiset(a + c) + multiset(b)
  {
    assert a + b + c == a + (b + c);
  }

  lemma RemovedMultiset(s: seq<int>, i: nat)
    requires i < |s|
    ensures multiset(s[i := s[|s| - 1]][..|s| - 1]) == multiset(s) - multiset{s[i]}
  {
    var t := s[i := s[|s| - 1]][..|s| - 1];
    if i == |s| - 1 {
      assert s == t + [s[i]];
    } else {
      var a, m, z := s[..i], s[i + 1..|s| - 1], s[|s| - 1];
      assert s == a + [s[i]] + (m + [z]);
      assert t == a + [z] + m;
      SwappedMultiset(a, s[i], m, z);
    }
  }

  /** Moving the last element into the gap left by x removes exactly x. */
  lemma SwappedMultiset(a: seq<int>, x: int, m: seq<int>, z: int)
    ensures multiset(a + [x] + (m + [z])) == multiset(a + [z] + m) + multiset{x}
  {
    PermuteTail(a, [x], m + [z]);
    PermuteTail(a, [z], m);
    assert a + (m + [z]) == (a + m) + [z];
  }
}

=== FILE: workspace.dfy ===
/**
 * The git side of the snapshot scripts: `lock`, `update` and `revision` in
 * `utils/python/codal_utils.py`, and `lock` and `update` in `build.py`.
 *
 * A run works in the project directory, whose `libraries/` holds one clone
 * per library named in the target's `target.json`, plus the target's own
 * clone. What git prints in a clone is an input (a `Clone` or the
 * `TargetClone`); each command passed to `system` is recorded with the
 * directory it ran in, and the commands that return a non-zero status are
 * a given set. A non-zero status, like a failed `checkgit`, ends the run
 * with exit status 1.
 */
module Workspace {
  import opened Wrappers
  import CodalUtils
  import BuildScript

  /** An entry of the target's `libraries` list: the clone's name and the branch, tag or hash to check out. */
  datatype Library = Library(name: string, branch: string)

  /** The fields of `target.json` the scripts read or write. */
  datatype TargetJson = TargetJson(libraries: seq<Library>, snapshotVersion: Option<string>)

  /**
   * What git prints in a library clone, stripped: `git status --porcelain`,
   * `git status --porcelain -b`, `git rev-parse HEAD`, and the default
   * branch that `git remote show origin` names.
   */
  datatype Clone = Clone(status: string, branchStatus: string, head: string, defaultBranch: string)

  /**
   * What git prints in the target's clone, stripped: `git status --porcelain`
   * after `git checkout target-locked.json`, `git log -n 100`,
   * `git rev-parse --abbrev-ref HEAD` and `git branch`.
   */
  datatype TargetClone = TargetClone(status: string, log: string, branchName: string, branches: string)

  /** A command line passed to `system`, and the directory it ran in. */
  datatype Command = Command(dir: string, line: string)

  /** `w in s` on strings. */
  predicate Contains(s: string, w: string)
    decreases |s|
  {
    |w| <= |s| && (s[..|w|] == w || Contains(s[1..], w))
  }

  /** `checkgit` fails: the clone has changes that are not checked in. */
  predicate Dirty(c: Clone)
  {
    c.status != ""
  }

  /** The branch line of the porcelain status says the clone is ahead of its upstream. */
  predicate Ahead(c: Clone)
  {
    Contains(c.branchStatus, "ahead")
  }

  predicate Passes(c: Clone)
  {
    !Dirty(c) && !Ahead(c)
  }

  function LibraryDir(name: string): string
  {
    "libraries/" + name
  }

  /** Every library named in libs has a clone. */
  predicate Known(libs: seq<Library>, clones: map<string, Clone>)
  {
    forall k :: 0 <= k < |libs| ==> libs[k].name in clones
  }

  /** The first library, from `from` on, whose clone fails the lock's checks, or |libs| when none does. */
  function GateStop(libs: seq<Library>, clones: map<string, Clone>, from: nat): (i: nat)
    requires from <= |libs| && Known(libs, clones)
    ensures from <= i <= |libs|
    ensures i < |libs| ==> !Passes(clones[libs[i].name])
    ensures forall k :: from <= k < i ==> Passes(clones[libs[k].name])
    decreases |libs| - from
  {
    if from == |libs| then from
    else if !Passes(clones[libs[from].name]) then from
    else GateStop(libs, clones, from + 1)
  }

  /** The first n entries pinned to the HEAD of their clones; the others as they were. */
  function Pinned(libs: seq<Library>, clones: map<string, Clone>, n: nat): (r: seq<Library>)
    requires n <= |libs| && Known(libs, clones)
    ensures |r| == |libs|
    ensures forall k :: 0 <= k < |libs| ==> r[k].name == libs[k].name
    ensures forall k :: 0 <= k < n ==> r[k].branch == clones[libs[k].name].head
    ensures forall k :: n <= k < |libs| ==> r[k] == libs[k]
  {
    seq(|libs|, k requires 0 <= k < |libs| =>
      if k < n then Library(libs[k].name, clones[libs[k].name].head) else libs[k])
  }

  /** The command lines, all in one directory. */
  function InDir(dir: string, lines: seq<string>): (r: seq<Command>)
    ensures |r| == |lines| && forall k :: 0 <= k < |lines| ==> r[k] == Command(dir, lines[k])
  {
    seq(|lines|, k requires 0 <= k < |lines| => Command(dir, lines[k]))
  }

  /** No command of cmds fails. */
  predicate AllSucceed(cmds: seq<Command>, failing: set<Command>)
  {
    forall k :: 0 <= k < |cmds| ==> cmds[k] !in failing
  }

  /** A run of commands ended by a failure: its last command failed. */
  predicate Failed(run: seq<Command>, failing: set<Command>)
  {
    |run| > 0 && run[|run| - 1] in failing
  }

  /** The index of the first failing command from `from` on, or |cmds| when none fails. */
  function FirstFailure(cmds: seq<Command>, failing: set<Command>, from: nat): (i: nat)
    requires from <= |cmds|
    ensures from <= i <= |cmds|
    ensures i < |cmds| ==> cmds[i] in failing
    ensures forall k :: from <= k < i ==> cmds[k] !in failing
    decreases |cmds| - from
  {
    if from == |cmds| || cmds[from] in failing then from
    else FirstFailure(cmds, failing, from + 1)
  }

  /** The commands that run, in order, when each `system` call exits on a non-zero status. */
  function UntilFailure(cmds: seq<Command>, failing: set<Command>): (r: seq<Command>)
    ensures |r| <= |cmds| && r == cmds[..|r|]
    ensures forall k :: 0 <= k < |r| - 1 ==> r[k] !in failing
    ensures Failed(r, failing) <==> !AllSucceed(cmds, failing)
    ensures !Failed(r, failing) ==> r == cmds
  {
    var i := FirstFailure(cmds, failing, 0);
    if i < |cmds| then cmds[..i + 1] else cmds
  }

  /** Any index with only successes before it and a failure (or the end) at it is the first failure. */
  lemma {:induction false} FirstFailureIs(cmds: seq<Command>, failing: set<Command>, i: nat)
    requires i <= |cmds| && (i < |cmds| ==> cmds[i] in failing)
    requires forall k :: 0 <= k < i ==> cmds[k] !in failing
    ensures FirstFailure(cmds, failing, 0) == i
    ensures UntilFailure(cmds, failing) == if i < |cmds| then cmds[..i + 1] else cmds
  {
  }

  /** The run of a + b: b runs only when all of a succeeded. */
  lemma {:induction false} UntilFailureAppend(a: seq<Command>, b: seq<Command>, failing: set<Command>)
    ensures UntilFailure(a + b, failing) ==
      if AllSucceed(a, failing) then a + UntilFailure(b, failing) else UntilFailure(a, failing)
  {
    var ab := a + b;
    if AllSucceed(a, failing) {
      var j := FirstFailure(b, failing, 0);
      forall k | 0 <= k < |a| + j
        ensures ab[k] !in failing
      {
        if k >= |a| {
          assert ab[k] == b[k - |a|];
        }
      }
      if j < |b| {
        assert ab[|a| + j] == b[j];
      }
      FirstFailureIs(ab, failing, |a| + j);
      if j < |b| {
        assert ab[..|a| + j + 1] == a + b[..j + 1];
      } else {
        assert a + UntilFailure(b, failing) == ab;
      }
    } else {
      var i := FirstFailure(a, failing, 0);
      assert ab[i] == a[i];
      forall k | 0 <= k < i
        ensures ab[k] !in failing
      {
        assert ab[k] == a[k];
      }
      FirstFailureIs(ab, failing, i);
      assert ab[..i + 1] == a[..i + 1];
    }
  }

  /** A failure among the first n commands ends the run there. */
  lemma {:induction false} UntilFailurePrefix(cmds: seq<Command>, n: nat, failing: set<Command>)
    requires n <= |cmds| && !AllSucceed(cmds[..n], failing)
    ensures UntilFailure(cmds, failing) == UntilFailure(cmds[..n], failing)
    ensures !AllSucceed(cmds, failing)
  {
    assert cmds[..n] + cmds[n..] == cmds;
    UntilFailureAppend(cmds[..n], cmds[n..], failing);
    var k :| 0 <= k < n && cmds[..n][k] in failing;
    assert cmds[k] in failing;
  }

  /** The command that commits the locked file; its message is what `get_next_version` reads back. */
  function CommitLine(ver: string): string
  {
    "git commit -am \"Snapshot " + ver + "\""
  }

  /** After `git checkout target-locked.json` and the write: commit, tag, pull, push, push the tags. */
  function PublishLines(ver: string): (r: seq<string>)
    ensures |r| == 5 && r[0] == CommitLine(ver) && r[1] == "git tag " + ver
    ensures r[2] == "git pull" && r[3] == "git push" && r[4] == "git push --tags"
  {
    [CommitLine(ver), "git tag " + ver, "git pull", "git push", "git push --tags"]
  }

  /** Every command a lock issues in the target's clone, when none fails. */
  function PublishCommands(dir: string, ver: string): seq<Command>
  {
    [Command(dir, "git checkout target-locked.json")] + InDir(dir, PublishLines(ver))
  }

  /** What a lock leaves behind. */
  datatype LockResult = LockResult(target: TargetJson, issued: seq<Command>, written: Option<TargetJson>, exited: bool)

  /**
   * The end of a lock in the target's clone at dir: the checkout of the
   * locked file, the check that the clone is clean, the write of the target
   * with the version, and the publishing commands, up to the first failure.
   */
  function PublishRun(t: TargetJson, status: string, ver: string, failing: set<Command>, dir: string): LockResult
  {
    var checkout := Command(dir, "git checkout target-locked.json");
    if checkout in failing || status != "" then LockResult(t, [checkout], None, true)
    else
      var locked := t.(snapshotVersion := Some(ver));
      var rest := UntilFailure(InDir(dir, PublishLines(ver)), failing);
      LockResult(locked, [checkout] + rest, Some(locked), Failed(rest, failing))
  }

  /**
   * A lock, given the version it computes (None when it exits instead):
   * the gate over the libraries in order, pinning each to its HEAD; then,
   * in the target's clone at dir, the checkout of the locked file, the check
   * that the clone is clean, the write of the pinned target with the
   * version, and the publishing commands, up to the first failure.
   */
  function LockRun(t: TargetJson, clones: map<string, Clone>, status: string, ver: Option<string>,
                   failing: set<Command>, dir: string): LockResult
    requires Known(t.libraries, clones)
  {
    var stop := GateStop(t.libraries, clones, 0);
    var pinned := t.(libraries := Pinned(t.libraries, clones, stop));
    if stop < |t.libraries| || ver.None? then LockResult(pinned, [], None, true)
    else PublishRun(pinned, status, ver.value, failing, dir)
  }

  /** The gate comes first: a command is issued only when every library is clean and not ahead. */
  lemma {:induction false} LockGate(t: TargetJson, clones: map<string, Clone>, status: string, ver: Option<string>,
                                   failing: set<Command>, dir: string)
    requires Known(t.libraries, clones)
    ensures var r := LockRun(t, clones, status, ver, failing, dir);
      r.issued != [] <==> ver.Some? && forall k :: 0 <= k < |t.libraries| ==> Passes(clones[t.libraries[k].name])
    ensures var r := LockRun(t, clones, status, ver, failing, dir);
      r.written.Some? ==> r.issued != [] && !(Command(dir, "git checkout target-locked.json") in failing) && status == ""
  {
    var stop := GateStop(t.libraries, clones, 0);
    if stop < |t.libraries| {
      assert !Passes(clones[t.libraries[stop].name]);
    }
  }

  /** A lock that passes the gate pins every library, in the declared order, to its HEAD. */
  lemma {:induction false} LockPins(t: TargetJson, clones: map<string, Clone>, status: string, ver: Option<string>,
                                   failing: set<Command>, dir: string)
    requires Known(t.libraries, clones)
    requires forall k :: 0 <= k < |t.libraries| ==> Passes(clones[t.libraries[k].name])
    ensures var r := LockRun(t, clones, status, ver, failing, dir);
      |r.target.libraries| == |t.libraries| &&
      forall k :: 0 <= k < |t.libraries| ==>
        r.target.libraries[k] == Library(t.libraries[k].name, clones[t.libraries[k].name].head)
  {
    var stop := GateStop(t.libraries, clones, 0);
    assert stop == |t.libraries|;
  }

  /**
   * The commands a lock issues are a prefix of checkout, commit, tag, pull,
   * push, push of the tags, each issued only after all before it succeeded;
   * the run succeeds exactly when all of them ran and succeeded.
   */
  lemma {:induction false} LockOrder(t: TargetJson, clones: map<string, Clone>, status: string, ver: Option<string>,
                                    failing: set<Command>, dir: string)
    requires Known(t.libraries, clones) && ver.Some?
    ensures var r := LockRun(t, clones, status, ver, failing, dir);
      |r.issued| <= 6 && r.issued == PublishCommands(dir, ver.value)[..|r.issued|]
    ensures var r := LockRun(t, clones, status, ver, failing, dir);
      forall k :: 0 <= k < |r.issued| - 1 ==> r.issued[k] !in failing
    ensures var r := LockRun(t, clones, status, ver, failing, dir);
      !r.exited <==>
        (r.issued == PublishCommands(dir, ver.value) && status == "" &&
         AllSucceed(PublishCommands(dir, ver.value), failing))
  {
    var r := LockRun(t, clones, status, ver, failing, dir);
    var all := PublishCommands(dir, ver.value);
    var checkout := Command(dir, "git checkout target-locked.json");
    var lines := InDir(dir, PublishLines(ver.value));
    assert all == [checkout] + lines;
    var stop := GateStop(t.libraries, clones, 0);
    if stop < |t.libraries| {
      assert r.issued == [];
    } else if checkout in failing || status != "" {
      assert r.issued == [checkout] == all[..1];
      assert !AllSucceed(all, failing) || status != "" by {
        if checkout in failing {
          assert all[0] in failing;
        }
      }
    } else {
      var rest := UntilFailure(lines, failing);
      assert r.issued == [checkout] + rest;
      assert r.issued == all[..|r.issued|] by {
        assert rest == lines[..|rest|];
      }
      forall k | 0 <= k < |r.issued| - 1
        ensures r.issued[k] !in failing
      {
        if k > 0 {
          assert r.issued[k] == rest[k - 1];
        }
      }
      UntilFailureAppend([checkout], lines, failing);
      assert AllSucceed([checkout], failing);
    }
  }

  /** The locked file holds the pinned libraries and the version, and the commit after it names the version. */
  lemma {:induction false} LockWrites(t: TargetJson, clones: map<string, Clone>, status: string, ver: Option<string>,
                                     failing: set<Command>, dir: string)
    requires Known(t.libraries, clones)
    ensures var r := LockRun(t, clones, status, ver, failing, dir);
      r.written.Some? ==>
        (r.written.value == r.target && r.target.snapshotVersion == ver &&
         r.target.libraries == Pinned(t.libraries, clones, |t.libraries|))
    ensures var r := LockRun(t, clones, status, ver, failing, dir);
      ver.Some? && Command(dir, CommitLine(ver.value)) in r.issued ==>
        r.written.Some? && r.issued[1] == Command(dir, CommitLine(ver.value))
  {
    var r := LockRun(t, clones, status, ver, failing, dir);
    var stop := GateStop(t.libraries, clones, 0);
    if ver.Some? && Command(dir, CommitLine(ver.value)) in r.issued {
      var checkout := Command(dir, "git checkout target-locked.json");
      assert r.issued != [] && r.issued != [checkout] by {
        assert CommitLine(ver.value) != "git checkout target-locked.json" by {
          assert CommitLine(ver.value)[5] == 'o';
          assert "git checkout target-locked.json"[5] == 'h';
        }
      }
      var lines := InDir(dir, PublishLines(ver.value));
      var rest := UntilFailure(lines, failing);
      assert rest == lines[..|rest|] && |rest| >= 1;
    }
  }

  /**
   * The commands `update` issues: in each library, the checkout of the
   * branch it names (or of the default branch, when syncing), then a pull;
   * then in the target's clone a checkout of master when it is on a
   * detached HEAD and that is not allowed, then a pull.
   */
  function LibraryUpdate(lib: Library, clones: map<string, Clone>, syncDev: bool): seq<Command>
    requires lib.name in clones
  {
    var branch := if syncDev then clones[lib.name].defaultBranch else lib.branch;
    [Command(LibraryDir(lib.name), "git checkout " + branch), Command(LibraryDir(lib.name), "git pull")]
  }

  function LibraryUpdates(libs: seq<Library>, clones: map<string, Clone>, syncDev: bool): (r: seq<Command>)
    requires Known(libs, clones)
    ensures |r| == 2 * |libs|
  {
    if libs == [] then []
    else LibraryUpdates(libs[..|libs| - 1], clones, syncDev) + LibraryUpdate(libs[|libs| - 1], clones, syncDev)
  }

  /** The commands for one more library follow those for the libraries before it. */
  lemma {:induction false} LibraryUpdatesNext(libs: seq<Library>, clones: map<string, Clone>, syncDev: bool, i: nat)
    requires i < |libs| && Known(libs, clones)
    ensures LibraryUpdates(libs[..i + 1], clones, syncDev) ==
      LibraryUpdates(libs[..i], clones, syncDev) + LibraryUpdate(libs[i], clones, syncDev)
  {
    assert libs[..i + 1][..i] == libs[..i];
  }

  /** A failure in the i-th library's commands ends the update there. */
  lemma {:induction false} UpdateStopsAt(libs: seq<Library>, clones: map<string, Clone>, syncDev: bool, i: nat,
                                        rest: seq<Command>, failing: set<Command>)
    requires i < |libs| && Known(libs, clones)
    requires AllSucceed(LibraryUpdates(libs[..i], clones, syncDev), failing)
    requires !AllSucceed(LibraryUpdate(libs[i], clones, syncDev), failing)
    ensures var cmds := LibraryUpdates(libs, clones, syncDev) + rest;
      UntilFailure(cmds, failing) ==
        LibraryUpdates(libs[..i], clones, syncDev) + UntilFailure(LibraryUpdate(libs[i], clones, syncDev), failing) &&
      !AllSucceed(cmds, failing)
  {
    var cmds := LibraryUpdates(libs, clones, syncDev) + rest;
    var first := LibraryUpdates(libs[..i + 1], clones, syncDev);
    LibraryUpdatesNext(libs, clones, syncDev, i);
    UpdatesPrefix(libs, clones, syncDev, i + 1);
    assert cmds[..2 * (i + 1)] == first;
    UntilFailureAppend(LibraryUpdates(libs[..i], clones, syncDev), LibraryUpdate(libs[i], clones, syncDev), failing);
    assert !AllSucceed(first, failing) by {
      var k :| 0 <= k < 2 && LibraryUpdate(libs[i], clones, syncDev)[k] in failing;
      assert first[2 * i + k] == LibraryUpdate(libs[i], clones, syncDev)[k];
    }
    UntilFailurePrefix(cmds, 2 * (i + 1), failing);
  }

  /** The commands issued after a failure in the i-th library's commands: those of `update` up to it. */
  lemma {:induction false} UpdateStopped(start: seq<Command>, libs: seq<Library>, clones: map<string, Clone>,
                                        syncDev: bool, i: nat, rest: seq<Command>, failing: set<Command>)
    requires i < |libs| && Known(libs, clones)
    requires AllSucceed(LibraryUpdates(libs[..i], clones, syncDev), failing)
    requires !AllSucceed(LibraryUpdate(libs[i], clones, syncDev), failing)
    ensures start + LibraryUpdates(libs[..i], clones, syncDev) + UntilFailure(LibraryUpdate(libs[i], clones, syncDev), failing) ==
      start + UntilFailure(LibraryUpdates(libs, clones, syncDev) + rest, failing)
    ensures !AllSucceed(LibraryUpdates(libs, clones, syncDev) + rest, failing)
  {
    UpdateStopsAt(libs, clones, syncDev, i, rest, failing);
  }

  /** The commands issued when the i-th library's commands all succeed: those of the first i + 1 libraries. */
  lemma {:induction false} UpdateContinues(start: seq<Command>, libs: seq<Library>, clones: map<string, Clone>,
                                          syncDev: bool, i: nat, failing: set<Command>)
    requires i < |libs| && Known(libs, clones)
    requires AllSucceed(LibraryUpdates(libs[..i], clones, syncDev), failing)
    requires AllSucceed(LibraryUpdate(libs[i], clones, syncDev), failing)
    ensures start + LibraryUpdates(libs[..i], clones, syncDev) + UntilFailure(LibraryUpdate(libs[i], clones, syncDev), failing) ==
      start + LibraryUpdates(libs[..i + 1], clones, syncDev)
    ensures AllSucceed(LibraryUpdates(libs[..i + 1], clones, syncDev), failing)
  {
    var done, step := LibraryUpdates(libs[..i], clones, syncDev), LibraryUpdate(libs[i], clones, syncDev);
    LibraryUpdatesNext(libs, clones, syncDev, i);
    UpdateReachesTarget(done, step, failing);
    UpdateReachesTarget([], step, failing);
    assert [] + step == step;
  }

  /** When every library's commands succeed, the target's commands run after them. */
  lemma {:induction false} UpdateReachesTarget(a: seq<Command>, b: seq<Command>, failing: set<Command>)
    requires AllSucceed(a, failing)
    ensures UntilFailure(a + b, failing) == a + UntilFailure(b, failing)
    ensures AllSucceed(a + b, failing) <==> AllSucceed(b, failing)
  {
    UntilFailureAppend(a, b, failing);
    if !AllSucceed(b, failing) {
      var k :| 0 <= k < |b| && b[k] in failing;
      assert (a + b)[|a| + k] == b[k];
    } else {
      forall k | 0 <= k < |a + b|
        ensures (a + b)[k] !in failing
      {
        if k >= |a| {
          assert (a + b)[k] == b[k - |a|];
        }
      }
    }
  }

  /** The commands for the first n libraries come first. */
  lemma {:induction false} UpdatesPrefix(libs: seq<Library>, clones: map<string, Clone>, syncDev: bool, n: nat)
    requires n <= |libs| && Known(libs, clones)
    ensures LibraryUpdates(libs, clones, syncDev)[..2 * n] == LibraryUpdates(libs[..n], clones, syncDev)
    decreases |libs|
  {
    if n < |libs| {
      var init := libs[..|libs| - 1];
      assert init[..n] == libs[..n];
      UpdatesPrefix(init, clones, syncDev, n);
      assert LibraryUpdates(libs, clones, syncDev)[..2 * n] == LibraryUpdates(init, clones, syncDev)[..2 * n];
    } else {
      assert libs[..n] == libs;
    }
  }

  /** In each library's directory, in the declared order: the checkout of its branch, then a pull. */
  lemma {:induction false} LibraryUpdatesAt(libs: seq<Library>, clones: map<string, Clone>, syncDev: bool, k: nat)
    requires k < |libs| && Known(libs, clones)
    ensures var r := LibraryUpdates(libs, clones, syncDev);
      r[2 * k] == Command(LibraryDir(libs[k].name),
        "git checkout " + if syncDev then clones[libs[k].name].defaultBranch else libs[k].branch) &&
      r[2 * k + 1] == Command(LibraryDir(libs[k].name), "git pull")
    decreases |libs|
  {
    var init := libs[..|libs| - 1];
    if k < |libs| - 1 {
      assert init[k] == libs[k];
      LibraryUpdatesAt(init, clones, syncDev, k);
    }
  }

  /** `HEAD detached` appears in the output of `git branch`. */
  predicate Detached(tc: TargetClone)
  {
    Contains(tc.branches, "HEAD detached")
  }

  function TargetUpdates(tc: TargetClone, dir: string, allowDetached: bool): seq<Command>
  {
    (if Detached(tc) && !allowDetached then [Command(dir, "git checkout master")] else []) + [Command(dir, "git pull")]
  }

  function UpdateCommands(libs: seq<Library>, clones: map<string, Clone>, tc: TargetClone, dir: string,
                          allowDetached: bool, syncDev: bool): seq<Command>
    requires Known(libs, clones)
  {
    LibraryUpdates(libs, clones, syncDev) + TargetUpdates(tc, dir, allowDetached)
  }

  /** Without syncing and with a detached HEAD allowed, the update pulls the target last and checks out nothing there. */
  lemma {:induction false} UpdateAllowingDetached(libs: seq<Library>, clones: map<string, Clone>, tc: TargetClone, dir: string)
    requires Known(libs, clones)
    ensures var r := UpdateCommands(libs, clones, tc, dir, true, false);
      |r| == 2 * |libs| + 1 && r[|r| - 1] == Command(dir, "git pull") &&
      forall k :: 0 <= k < |libs| ==> r[2 * k] == Command(LibraryDir(libs[k].name), "git checkout " + libs[k].branch)
  {
    forall k | 0 <= k < |libs|
      ensures UpdateCommands(libs, clones, tc, dir, true, false)[2 * k] ==
        Command(LibraryDir(libs[k].name), "git checkout " + libs[k].branch)
    {
      LibraryUpdatesAt(libs, clones, false, k);
    }
  }

  class Workspace {
    /** The target's `target.json` as read; `lock` changes it in memory. */
    var target: TargetJson
    /** The contents last written to `target-locked.json`. */
    var lockedFile: Option<TargetJson>
    /** The commands passed to `system`, in order. */
    var issued: seq<Command>
    /** The run has ended with exit status 1. */
    var exited: bool
    /** The target's clone, relative to the project directory. */
    const targetDir: string
    const clones: map<string, Clone>
    const targetClone: TargetClone
    /** The commands that return a non-zero status. */
    const failing: set<Command>

    constructor(target: TargetJson, targetDir: string, clones: map<string, Clone>, targetClone: TargetClone,
                failing: set<Command>)
      ensures this.target == target && this.lockedFile.None? && this.issued == [] && !this.exited
      ensures this.targetDir == targetDir && this.clones == clones && this.targetClone == targetClone
      ensures this.failing == failing
    {
      this.target := target;
      this.lockedFile := None;
      this.issued := [];
      this.exited := false;
      this.targetDir := targetDir;
      this.clones := clones;
      this.targetClone := targetClone;
      this.failing := failing;
    }

    /** `system`: run a command; a non-zero status ends the run. */
    method System(dir: string, line: string) returns (ok: bool)
      requires !exited
      modifies this`issued, this`exited
      ensures issued == old(issued) + [Command(dir, line)]
      ensures ok == (Command(dir, line) !in failing) && exited == !ok
    {
      issued := issued + [Command(dir, line)];
      ok := Command(dir, line) !in failing;
      exited := !ok;
    }

    /** Commands one after another, each through `system`. */
    method Run(cmds: seq<Command>) returns (ok: bool)
      requires !exited
      modifies this`issued, this`exited
      ensures issued == old(issued) + UntilFailure(cmds, failing)
      ensures ok == AllSucceed(cmds, failing) && exited == !ok
    {
      var i := 0;
      ok := true;
      while i < |cmds|
        invariant i <= |cmds| && !exited && ok
        invariant issued == old(issued) + cmds[..i] && AllSucceed(cmds[..i], failing)
      {
        ok := System(cmds[i].dir, cmds[i].line);
        assert cmds[..i + 1] == cmds[..i] + [cmds[i]];
        if !ok {
          UntilFailureAppend(cmds[..i + 1], cmds[i + 1..], failing);
          UntilFailureAppend(cmds[..i], [cmds[i]], failing);
          assert cmds[..i + 1] + cmds[i + 1..] == cmds;
          return;
        }
        i := i + 1;
      }
      assert cmds[..i] == cmds;
      UntilFailureAppend(cmds, [], failing);
    }

    /** The loop of `lock` over the libraries: `checkgit`, the `ahead` check, then the pin to HEAD. */
    method Gate() returns (ok: bool)
      requires !exited && Known(target.libraries, clones)
      modifies this`target, this`exited
      ensures var stop := GateStop(old(target).libraries, clones, 0);
        target == old(target).(libraries := Pinned(old(target).libraries, clones, stop)) &&
        ok == (stop == |old(target).libraries|) && exited == !ok
    {
      var libs := target.libraries;
      var i := 0;
      while i < |libs|
        invariant i <= |libs| && GateStop(libs, clones, i) == GateStop(libs, clones, 0)
        invariant target == old(target).(libraries := Pinned(libs, clones, i)) && !exited
      {
        var c := clones[libs[i].name];
        if Dirty(c) || Ahead(c) {
          exited := true;
          return false;
        }
        target := target.(libraries := target.libraries[i := Library(libs[i].name, c.head)]);
        assert target.libraries == Pinned(libs, clones, i + 1);
        i := i + 1;
      }
      ok := true;
    }

    /** After the gate and the version: the checkout, the check, the write, then the publishing commands. */
    method Publish(ver: string)
      requires !exited
      modifies this`target, this`lockedFile, this`issued, this`exited
      ensures var r := PublishRun(old(target), targetClone.status, ver, failing, targetDir);
        target == r.target && issued == old(issued) + r.issued && exited == r.exited &&
        lockedFile == (if r.written.Some? then r.written else old(lockedFile))
    {
      var ok := System(targetDir, "git checkout target-locked.json");
      if !ok {
        return;
      }
      if targetClone.status != "" {
        exited := true;
        return;
      }
      target := target.(snapshotVersion := Some(ver));
      lockedFile := Some(target);
      ok := Run(InDir(targetDir, PublishLines(ver)));
    }

    /** The lock of `utils/python/codal_utils.py`, with the version from `get_next_version`. */
    method LockCodal(opts: CodalUtils.Options)
      requires !exited && Known(target.libraries, clones)
      modifies this`target, this`lockedFile, this`issued, this`exited
      ensures var n := CodalUtils.NextVersion(opts, targetClone.log, targetClone.branchName);
        var r := LockRun(old(target), clones, targetClone.status, if n.Next? then Some(n.version) else None,
                         failing, targetDir);
        target == r.target && issued == old(issued) + r.issued && exited == r.exited &&
        lockedFile == (if r.written.Some? then r.written else old(lockedFile))
    {
      var ok := Gate();
      if !ok {
        return;
      }
      var n := CodalUtils.NextVersion(opts, targetClone.log, targetClone.branchName);
      if !n.Next? {
        exited := true;
        return;
      }
      Publish(n.version);
    }

    /** The lock of `build.py`, with the version from its `get_next_version`. */
    method LockBuild(major: bool, minor: bool)
      requires !exited && Known(target.libraries, clones)
      modifies this`target, this`lockedFile, this`issued, this`exited
      ensures var r := LockRun(old(target), clones, targetClone.status,
                               BuildScript.NextVersion(targetClone.log, major, minor), failing, targetDir);
        target == r.target && issued == old(issued) + r.issued && exited == r.exited &&
        lockedFile == (if r.written.Some? then r.written else old(lockedFile))
    {
      var ok := Gate();
      if !ok {
        return;
      }
      var v := BuildScript.NextVersion(targetClone.log, major, minor);
      if v.None? {
        exited := true;
        return;
      }
      Publish(v.value);
    }

    /** The loop of `update` over the libraries; `rest` is what would run after it. */
    method UpdateLibraries(libs: seq<Library>, syncDev: bool, ghost rest: seq<Command>) returns (ok: bool)
      requires !exited && Known(libs, clones)
      modifies this`issued, this`exited
      ensures ok ==> (issued == old(issued) + LibraryUpdates(libs, clones, syncDev) &&
        AllSucceed(LibraryUpdates(libs, clones, syncDev), failing) && !exited)
      ensures !ok ==> var cmds := LibraryUpdates(libs, clones, syncDev) + rest;
        issued == old(issued) + UntilFailure(cmds, failing) && !AllSucceed(cmds, failing) && exited
    {
      ghost var start := issued;
      var i := 0;
      while i < |libs|
        invariant i <= |libs| && !exited
        invariant issued == start + LibraryUpdates(libs[..i], clones, syncDev)
        invariant AllSucceed(LibraryUpdates(libs[..i], clones, syncDev), failing)
      {
        ok := Run(LibraryUpdate(libs[i], clones, syncDev));
        if !ok {
          UpdateStopped(start, libs, clones, syncDev, i, rest, failing);
          return;
        }
        UpdateContinues(start, libs, clones, syncDev, i, failing);
        i := i + 1;
      }
      assert libs[..i] == libs;
      ok := true;
    }

    /** `update` of `utils/python/codal_utils.py`. */
    method Update(allowDetached: bool, syncDev: bool)
      requires !exited && Known(target.libraries, clones)
      modifies this`issued, this`exited
      ensures var cmds := UpdateCommands(target.libraries, clones, targetClone, targetDir, allowDetached, syncDev);
        issued == old(issued) + UntilFailure(cmds, failing) && exited == !AllSucceed(cmds, failing)
    {
      var libs := target.libraries;
      var tail := TargetUpdates(targetClone, targetDir, allowDetached);
      ghost var head := LibraryUpdates(libs, clones, syncDev);
      assert UpdateCommands(libs, clones, targetClone, targetDir, allowDetached, syncDev) == head + tail;
      var ok := UpdateLibraries(libs, syncDev, tail);
      if ok {
        ok := Run(tail);
        UpdateReachesTarget(head, tail, failing);
        assert issued == old(issued) + (head + UntilFailure(tail, failing));
      }
    }

    /** `update` of `build.py`: each library's branch and a pull, then a pull of the target whatever its HEAD. */
    method UpdateBuild()
      requires !exited && Known(target.libraries, clones)
      modifies this`issued, this`exited
      ensures var cmds := LibraryUpdates(target.libraries, clones, false) + [Command(targetDir, "git pull")];
        issued == old(issued) + UntilFailure(cmds, failing) && exited == !AllSucceed(cmds, failing)
    {
      Update(true, false);
      assert TargetUpdates(targetClone, targetDir, true) == [Command(targetDir, "git pull")];
    }

    /**
     * `revision`: check out `rev` in the target's clone, then update with a
     * detached HEAD allowed, from `revised`, the `target.json` found at that
     * revision.
     */
    method Revision(rev: string, revised: TargetJson)
      requires !exited && Known(revised.libraries, clones)
      modifies this`target, this`issued, this`exited
      ensures var checkout := Command(targetDir, "git checkout " + rev);
        checkout in failing ==> issued == old(issued) + [checkout] && exited && target == old(target)
      ensures var checkout := Command(targetDir, "git checkout " + rev);
        var cmds := UpdateCommands(revised.libraries, clones, targetClone, targetDir, true, false);
        checkout !in failing ==>
          target == revised && issued == old(issued) + [checkout] + UntilFailure(cmds, failing) &&
          exited == !AllSucceed(cmds, failing)
    {
      var ok := System(targetDir, "git checkout " + rev);
      if !ok {
        return;
      }
      target := revised;
      Update(true, false);
    }
  }
}

=== FILE: wrappers.dfy ===
/** Option type shared by every module of the model. */
module Wrappers {
  datatype Option<T> = None | Some(value: T)
}
